=== FILE: README.md ===
# rbs core in Dafny

This project models the core of **rbs**, a compiler from a Ruby-flavoured
language to JavaScript, and proves properties of the model. The pipeline runs
in five stages:

- the **lexer** turns source text into tokens, using its tables of keywords,
  operators and regular expressions;
- the **rewriter** drops white space, inserts the parentheses of calls written
  without them, and folds line feeds and semicolons;
- the **parser** builds `Node` trees by recursive descent;
- the **formatter** compiles the trees to JavaScript text, tracking variable
  scopes and hoisting `var` declarations;
- the **indenter** re-indents the produced text by brace depth.

The **negators** rewrite boolean tests for `unless` and `until`.

Everything is pure functions over immutable datatypes:

- tokens are `Tokens.Token`;
- state stacks are `seq<string>`;
- nodes are `Nodes.Node(kind, params)`, an attribute bag with a closed `Value`
  type;
- the formatter's mutable fields become an explicit `Scopes.FState` that is
  threaded through every compile function;
- errors are values of `Wrappers.Result`.

Ruby exceptions map to `Error` constructors:

- `ParseError` with the source message;
- `NoMethod` for a `method_missing` miss or a call on `nil`;
- `Unsupported` for the formatter's `raise` branches;
- `ArgumentError` for a bad module type or a negative indent width.

The model follows the code. There are five exceptions, each listed under
Findings. In each, the written code is evidently not what its authors meant; a
separate member models the written behaviour and the compiler runs the
intended rule:

- `Lexer.Regexp` uses the intended regular-expression start test.
- `Lexer.Regexp2` escapes every unescaped slash.
- `Parser.Expect` and the primary-expression parser raise the intended
  unexpected-token error.
- `Formatter.CallArguments` receives only a group of plain arguments as the
  `concat` receiver.
- `Indenter.Compile` asks the formatter for a module type it accepts.

Some behaviour of the code that a reader might not expect:

- The parser has no operator precedence. Every binary operator takes the whole
  rest of the expression as its right operand, so chains nest to the right
  (`ParserLaws.ChainNestsRight`).
- An invalid assignment target raises `ParseError`, not a separate syntax
  error.
- Errors carry no position. As written, the parser's own error helper reads a
  `token.position` that tokens do not have (see Findings).
- `parse_statement` has empty arms for `def`, `if`, `case`, `while`, `for`,
  `return` and the other statement keywords. Reaching one ends the statement
  list; it is not a dedicated production.
- The indenter tests the block-opening pattern before the closing one. So
  `} else {`, which the formatter emits for an `if` with a non-empty body and
  an `else` block, is printed at the depth of the body it closes and raises the depth. After the
  block the depth stays one level higher, and every later line is indented one
  level too deep (`Indenter.IfElseDrift`).
- The formatter's `negate` is the simple negation. The De Morgan and
  comparison-flipping negators exist in their own module, but the formatter
  does not call them.

## Model

| member | source | states |
|---|---|---|
| Definition.OperatorLine1 | lib/rbs/lexer/definition.rb:10 | no operator on the first line of the table is a proper prefix of a later one on that line, so the first alternative that matches is never shadowed by a longer operator further on |
| Definition.OperatorLine2 | lib/rbs/lexer/definition.rb:11 | the same for the second line of the operator table |
| Definition.OperatorsLongestFirst | lib/rbs/lexer/definition.rb:9-13 | across the whole `OPERATORS` table, no operator is a proper prefix of one listed after it (so `RE::OPERATORS` finds the longest operator) |
| Definition.OperatorSubsets | lib/rbs/lexer/definition.rb:14-16 | assignment and binary operators are all lexer operators; every unary operator except `typeof` is an operator, and `typeof` is a keyword |
| Definition.AssignmentNotBinary | lib/rbs/lexer/definition.rb:14-15 | no assignment operator is a binary operator or a member/call suffix, so the parser's `match(ASSIGNMENT_OPERATOR)` and `match(BINARY_OPERATOR)` never both hold |
| Definition.AllKeywordsLower | lib/rbs/lexer/definition.rb:2-7 | every keyword is a non-empty lower-case word |
| Definition.KeywordsStartWithLetter | lib/rbs/lexer/definition.rb:2-7 | every keyword starts with a lower-case letter |
| Definition.KeywordExtensionsAreWords | lib/rbs/lexer/definition.rb:46 | when one keyword is a proper prefix of another (`in`, `instanceof`), the next character of the longer one is a word character, so the `\b` of the bounded alternation rejects the shorter one |
| Definition.OperatorsAreSymbols | lib/rbs/lexer/definition.rb:9-13 | no operator contains a word character |
| Definition.KeywordsAndOperatorsDisjoint | lib/rbs/lexer/definition.rb:2-13 | no keyword is also an operator |
| Patterns.AlternationFrom | lib/rbs/lexer/definition.rb:32-35 | the regular-expression alternation built by `to_regexp` picks the first word of the list that matches (with a trailing word boundary when bounded); the words before it do not match, and no match means that no word matches |
| Patterns.MatchWord | lib/rbs/lexer/definition.rb:32-35 | the matched word is in the table and matches; there is no match exactly when no word of the table matches |
| Patterns.OperatorMatchLongest | lib/rbs/lexer/definition.rb:47 | `RE::OPERATORS` matches an operator that starts the input and is at least as long as every other operator that does |
| Patterns.KeywordMatchUnique | lib/rbs/lexer/definition.rb:46 | `RE::KEYWORDS` matches the only keyword followed by a word boundary; there is no match exactly when no keyword is followed by one |
| Patterns.Span | lib/rbs/lexer/definition.rb:49 | the maximal run of characters satisfying the class (the `+`/`*` repetitions of the patterns) |
| Patterns.CommentMatchLongest | lib/rbs/lexer/definition.rb:37 | `RE::COMMENT` matches the longest prefix made of `#` lines joined by a line feed and white space; there is no match exactly when the input does not start with `#` |
| Patterns.CommentEndSound | lib/rbs/lexer/definition.rb:37 | the scanned comment is in the comment language |
| Patterns.CommentEndLongest | lib/rbs/lexer/definition.rb:37 | no longer prefix is in the comment language |
| Patterns.FloatMatchIff | lib/rbs/lexer/definition.rb:42 | `RE::FLOAT` matches exactly `n` characters iff they are optional digits, a dot, digits and an optional exponent, followed by a word boundary |
| Patterns.IntegerMatchIff | lib/rbs/lexer/definition.rb:43 | `RE::INTEGER` matches exactly `n` characters iff they are digits and an optional exponent, followed by a word boundary |
| Patterns.NoDigitAfterDot | test/lexer_test.rb:48-63 | `1.` and `1.e4` are not floats but start with the integer `1`; `.3e4` and `3E-100` are single numbers |
| Patterns.IdentifierMatchIff | lib/rbs/lexer/definition.rb:55 | `RE::IDENTIFIER` matches exactly `n` characters iff they form an identifier followed by a non-identifier character |
| Patterns.MatchWhitespace | lib/rbs/lexer/definition.rb:49 | the longest run of blanks (space, tab, carriage return), and no match when the input does not start with one |
| Patterns.NonSpaceRun | lib/rbs/lexer.rb:67 | the text quoted in the unknown-token message is the maximal run of non-space characters at the start of the rest |
| Patterns.PercentDelimiter | lib/rbs/lexer/definition.rb:45 | `%r`/`%w` literals are recognised exactly when the character after the letter is not a word character, which becomes the delimiter |
| Patterns.StringDelimiter | lib/rbs/lexer/definition.rb:53 | `%`-quoted strings are recognised exactly when the next character is not a word character, white space or `=` |
| Tokens.ClassifiesByName | lib/rbs/lexer/token.rb:11-26 | `is` and `===` depend only on the token's name, never on its value or position |
| Tokens.IsAnyExists | lib/rbs/lexer/token.rb:20-26 | `===` with an array holds iff some element classifies the token |
| Tokens.IsAnyPlain | lib/rbs/lexer/token.rb:20-26 | without `keyword`/`operator`/`argument` among the types, `===` with an array is membership of the name |
| Tokens.CaseEqSingleton | lib/rbs/lexer/token.rb:20-26 | `===` with a one-element array agrees with `===` with that element |
| Tokens.IsOwnName | lib/rbs/lexer/token.rb:11-18 | a token is its own name unless the name is one of the three class names |
| Tokens.IdentifierValueIgnored | test/lexer/token_test.rb:27-30 | an identifier whose value is `when` is not a keyword; a `when` token is |
| Tokens.ClassExamples | test/lexer/token_test.rb:32-40 | the class examples of the token tests: a `NUMBER` is an argument, `+` an operator, `def` neither |
| Tokens.Inspect | lib/rbs/lexer/token.rb:28-31 | `inspect` is bracketed |
| Tokens.InspectRoundTrip | lib/rbs/lexer/token.rb:28-31 | reading an inspected token back gives its name and the value when it is shown (present and different from the name) |
| Tokens.InspectNameOnly | test/lexer/token_test.rb:56-60 | `[LF]` and `[def]`: no value, or a value equal to the name, is not shown |
| Tokens.InspectWithValue | test/lexer/token_test.rb:56-60 | `[identifier route]` |
| States.Push | lib/rbs/state.rb:2 | pushing puts the entry on top, keeps the rest, and adds one occurrence of it |
| States.Pop | lib/rbs/state.rb:2 | popping removes the top entry and one occurrence of it; popping the empty stack leaves it empty |
| States.PushThenIs | lib/rbs/state.rb:3-5 | after pushing `x`, `is(y)` holds iff `y == x`, and popping restores the stack |
| States.OnlyTop | lib/rbs/state.rb:3-7 | `is` and `===` look at the top only: what lies below never matters |
| States.StackExamples | test/state_test.rb:3-21 | the state tests: `[embed, call]` is `call` and not `embed`; `[call, embed]` is not `call` |
| Lexer.ConsumeAdditive | lib/rbs/lexer.rb:240-243 | `consume` moves index and column by the same amount, and consuming twice is consuming the sum |
| Lexer.Emit | lib/rbs/lexer.rb:234-238 | `token` appends one token at the current line and column and consumes its value only when asked |
| Lexer.LinefeedPosition | lib/rbs/lexer.rb:74-79 | a line feed emits `LF`, moves to the next line, and resets the column to 1 (0, then the consumed character) |
| Lexer.Rest | lib/rbs/lexer.rb:34 | the rest of the input from the index; an index past the end is an error |
| Lexer.ClosingQuoteProperties | lib/rbs/lexer.rb:192-199 | only `(`, `[` and `{` change (into their closers), and closing is idempotent |
| Lexer.FindEmbed | lib/rbs/lexer.rb:215 | the first `#{` of a segment, or none |
| Lexer.ScanLiteral | lib/rbs/lexer.rb:205-227 | the scanned literal ends with the closing quote and stays within the input; without interpolation nothing is embedded |
| Lexer.LiteralToFirstUnescaped | lib/rbs/lexer.rb:205-227 | without interpolation, `match_literal`'s segment loop stops at the first closing quote not preceded by a backslash, and fails with "Unterminated string" when there is none |
| Lexer.NoEmbedNoDifference | lib/rbs/lexer.rb:215 | on text without `#{`, scanning with and without interpolation gives the same result |
| Lexer.MatchLiteral | lib/rbs/lexer.rb:205-232 | `match_literal` succeeds exactly when the literal scans. Its value is the scanned text without the closing quote. It only appends tokens, moves forward and lowers the loop's measure. Without interpolation it appends nothing and keeps the state; with it, it does what `embed` does |
| Lexer.Embed | lib/rbs/lexer.rb:145-154 | opening an interpolation steps back one character and pushes one more `embed`. Outside the string mode it first emits `(` and pushes `string`; inside, it emits nothing |
| Lexer.String | lib/rbs/lexer.rb:134-143 | a string literal is a step of the tokenizer loop. It succeeds exactly when its scan does (single-quoted literals never interpolate) and otherwise fails with the scan's error |
| Lexer.EmbedableString | lib/rbs/lexer.rb:122-132 | an interpolable string literal is a step of the loop. It succeeds exactly when the literal scans, starting past the `%` of a `%`-literal. Its quotes stay on the quote stack |
| Lexer.RegexpEnd | lib/rbs/lexer.rb:159-171 | the regular-expression loop ends just past the first `/` not preceded by a backslash, and fails with "Unterminated regular expression" exactly when there is none |
| Lexer.Regexp | lib/rbs/lexer.rb:156-172 | a `/` is division unless a regular expression may start here; otherwise one `REGEXP` token at the current position holding exactly the text up to and including the first unescaped `/` followed by its longest `[gimy]*` run, or the unterminated error |
| Lexer.RegexpSteps | lib/rbs/lexer.rb:156-172 | a successful `regexp` is a step of the loop |
| Lexer.PotentialRegexpDiscrepancy | lib/rbs/lexer.rb:174-178 | the as-written and intended `potential_regexp?` agree on every token list except a lone whitespace token, where they differ |
| Lexer.EscapeSlashesProperties | lib/rbs/lexer.rb:189 | the intended escaping puts a backslash before every slash, keeps the last character, and changes nothing else apart from backslashes |
| Lexer.EscapeSlashesDouble | test/lexer_test.rb:174-180 | two slashes in a row are both escaped |
| Lexer.EscapeSlashesEdges | lib/rbs/lexer.rb:189 | a leading slash is escaped, and an already escaped slash is left alone |
| Lexer.EscapeSlashesAsWrittenMisses | lib/rbs/lexer.rb:189 | the written `gsub` leaves the second of two slashes unescaped |
| Lexer.Regexp2 | lib/rbs/lexer.rb:180-190 | a `%r` literal is a step of the loop that leaves the state alone, and succeeds exactly when the literal after `%r` and its delimiter scans |
| Lexer.Regexp2Token | lib/rbs/lexer.rb:180-190 | a `%r` literal appends exactly one `REGEXP` token, recorded where the flags end: `/`, the literal's body with its slashes escaped, `/`, and the longest `[gimy]*` run after the closing delimiter |
| Lexer.SplitWords | lib/rbs/lexer.rb:116 | the words of a `%w` literal are non-empty and contain no white space |
| Lexer.SplitConcat | lib/rbs/lexer.rb:116 | the words, concatenated, are the literal with its white space removed |
| Lexer.SplitJoin | lib/rbs/lexer.rb:116 | splitting words joined by spaces gives the words back |
| Lexer.EmitWords | lib/rbs/lexer.rb:115-119 | one `STRING` token per word, in order, at the current position, without consuming |
| Lexer.Words | lib/rbs/lexer.rb:109-120 | a `%w` literal is a step of the loop that keeps the state. It succeeds exactly when the literal after `%w` and its delimiter scans |
| Lexer.Unput | lib/rbs/lexer.rb:245-251 | the text is inserted at the index; what comes before and after is unchanged |
| Lexer.MatchEmbed | lib/rbs/lexer.rb:81-107 | inside an interpolation, `#{` appends `+` and `(` and keeps both stacks. `}` fails exactly when the quote stack is empty, and otherwise closes as `Lexer.CloseEmbed` states. Any other character is left to `match` |
| Lexer.CloseInterpolation | lib/rbs/lexer.rb:91-95 | a `}` right before the closing quote appends `)` and `)`, consumes two characters, and pops both `embed` and `string` |
| Lexer.ResumeLiteral | lib/rbs/lexer.rb:96-102 | otherwise the lexer appends `)` and `+`, pops only `embed`, re-inserts the string's quote at the index and resumes the literal |
| Lexer.NestedEmbed | lib/rbs/lexer.rb:82-86 | `#{` inside an interpolation appends `+` and `(` and leaves the mode and quote stacks alone |
| Lexer.CloseEmbed | lib/rbs/lexer.rb:88-104 | `}` pops the quote stack and fails when it is empty. Before the closing quote it appends `)` `)` and pops both modes; otherwise it appends `)` `+` and pops only `embed` |
| Lexer.StringPlain | lib/rbs/lexer.rb:134-143 | a literal without interpolation, outside the string mode, appends one STRING and keeps the mode stack. The STRING holds the text without its closing quote |
| Lexer.StringClosesInterpolation | lib/rbs/lexer.rb:134-143 | the tail of an interpolated literal appends STRING and `)` and pops the string mode |
| Lexer.StringOpensInterpolation | lib/rbs/lexer.rb:134-154 | a literal that stops at `#{` outside the string mode appends `(` and STRING and pushes `string`, then `embed`. It ends at the `#` |
| Lexer.StringContinuesInterpolation | lib/rbs/lexer.rb:134-154 | a piece between two interpolations appends STRING and pushes `embed` |
| Lexer.SingleQuotedScan | lib/rbs/lexer.rb:135 | a single-quoted literal's scan is the search for the first closing quote not preceded by a backslash. Without one it is unterminated |
| Lexer.SingleQuotedClosed | lib/rbs/lexer.rb:135 | a single-quoted literal closed at its first unescaped quote holds exactly the text between the quotes and opens no interpolation |
| Lexer.StringSingleQuoted | lib/rbs/lexer.rb:134-143 | outside the string mode, a single-quoted literal appends exactly one STRING and leaves the mode stack alone, or fails as unterminated. The STRING holds the text up to the first unescaped quote |
| Lexer.EmbedableStringAppends | lib/rbs/lexer.rb:122-132 | outside the string mode, a `"` literal appends STRING, or `(` and STRING when it stops at `#{` and then pushes the modes |
| Lexer.WordList | lib/rbs/lexer.rb:115-119 | a `%w` list appends `[`, one STRING per word holding that word, and `]`, consuming nothing |
| Lexer.WordsTokens | lib/rbs/lexer.rb:109-120 | `%w(...)` appends `[`, a STRING for each whitespace-separated word of the literal, and `]` |
| Lexer.Lexeme | lib/rbs/lexer.rb:71 | a matched pattern becomes one token holding the matched text, which is consumed |
| Lexer.MatchSymbol | lib/rbs/lexer.rb:61-68 | keywords, operators, parentheses, identifiers and white space are steps of the loop; anything else fails with the "Unknown token" message at the current line and column |
| Lexer.MatchLiteralToken | lib/rbs/lexer.rb:55-60 | every literal branch of `match` is a step of the loop |
| Lexer.Match | lib/rbs/lexer.rb:47-72 | each successful `match` appends tokens, moves forward and lowers the measure |
| Lexer.Step | lib/rbs/lexer.rb:40-43 | a turn of `tokenize` handles an open interpolation first, then `match` |
| Lexer.MeasureDecreases | lib/rbs/lexer.rb:33-44 | the measure (twice the characters left, plus the open interpolations) falls at every step, so the loop ends |
| Lexer.Tokenize | lib/rbs/lexer.rb:30-45 | the token list grows only by appending, and ends with exactly one `EOF`, as the last token |
| Lexer.TokensOf | lib/rbs/lexer.rb:23-26 | `tokens` ends with `EOF` and has no other `EOF` |
| Lexer.TokenizeStep | lib/rbs/lexer.rb:33-44 | before the end of the input, tokenizing goes on from wherever one step leads |
| Lexer.StepOutsideInterpolation | lib/rbs/lexer.rb:41-43 | outside an interpolation a step is a plain `match` |
| Lexer.DoubleQuoteOpensLiteral | lib/rbs/lexer.rb:59 | a `"` that no atom claims opens an interpolating literal |
| Lexer.HelloTokens | test/lexer_test.rb:90-92 | `"hello #{name}"` lexes to `( STRING + ( identifier ) ) EOF` |
| Lexer.Lex | lib/rbs/lexer.rb:19-21 | `lex` returns and drops the first cached token, or nil when none is left |
| Lexer.LexInOrder | lib/rbs/lexer.rb:19-21 | lexing repeatedly hands out the tokens in order, then nil |
| Rewriter.CallDepth | lib/rbs/lexer/rewriter.rb:93-98 | the number of `call` entries on top of the stack |
| Rewriter.CloseCalls | lib/rbs/lexer/rewriter.rb:93-98 | `close_opened_calls` pushes one `)` for each open call and pops exactly those entries |
| Rewriter.ArmOf | lib/rbs/lexer/rewriter.rb:34-69 | each token name falls into exactly the `case` arm the source gives it; modifier keywords go with `LF`, before the general keyword arm |
| Rewriter.HandleAppends | lib/rbs/lexer/rewriter.rb:31-72 | each turn only appends tokens to the output, never whitespace or `EOF` except the final `EOF` |
| Rewriter.Loop | lib/rbs/lexer/rewriter.rb:31-74 | the loop's output extends what is there with whitespace-free, `EOF`-free tokens, ending with the first `EOF` when there is one |
| Rewriter.Rewrite | lib/rbs/lexer/rewriter.rb:26-75 | the rewritten stream has no whitespace token; it ends with the input's first `EOF` and has no other |
| RewriterTurns.LookaheadByName | lib/rbs/lexer/rewriter.rb:111-113 | `lookahead` returns the next raw token itself when it is whitespace, else the one after it |
| RewriterTurns.CallWithoutParensByName | lib/rbs/lexer/rewriter.rb:86-91 | a call without parentheses is detected after an identifier when the next raw token is an argument, or a unary operator not followed by whitespace or `LF` |
| RewriterTurns.SkipLinefeedByName | lib/rbs/lexer/rewriter.rb:107-109 | a line feed is skipped after an operator, `and`/`or`/`not`, `LF`, `COMMENT`, an opener or a comma, or before `,` `:` `)` `}` `]` |
| RewriterTurns.DottableByName | lib/rbs/lexer/rewriter.rb:100-105 | a keyword becomes an identifier after `def` or `.`, before `:`, or after `def +` |
| RewriterTurns.CallInsertion | lib/rbs/lexer/rewriter.rb:35-37 | on whitespace, a `(` is inserted and `call` pushed exactly when a call without parentheses is detected; otherwise nothing changes |
| RewriterTurns.LinefeedTurn | lib/rbs/lexer/rewriter.rb:38-40 | a line feed closes the open calls and is then dropped exactly when `skip_linefeed?` holds |
| RewriterTurns.BlankLinesCollapse | lib/rbs/lexer/rewriter.rb:38-40 | a line feed after a line feed, with no open call, is dropped |
| RewriterTurns.ModifierTurn | lib/rbs/lexer/rewriter.rb:38-40 | a modifier keyword closes the open calls and is kept |
| RewriterTurns.SemicolonTurn | lib/rbs/lexer/rewriter.rb:58-61 | `;` closes the open calls and becomes an `LF` at its position |
| RewriterTurns.OpenBraceTurn | lib/rbs/lexer/rewriter.rb:41-47 | `{` turns a pending `lambda_def` into `lambda`, and pushes `object` otherwise |
| RewriterTurns.ClosingTurn | lib/rbs/lexer/rewriter.rb:48-55 | `}` and `)` close the open calls, are kept, and pop one more entry |
| RewriterTurns.OpeningTurn | lib/rbs/lexer/rewriter.rb:51-57 | `(` pushes `paren` and `->` pushes `lambda_def` |
| RewriterTurns.KeywordTurn | lib/rbs/lexer/rewriter.rb:62-63 | a keyword is kept, or renamed to an identifier with the keyword as its value when it is dottable |
| RewriterTurns.EofTurn | lib/rbs/lexer/rewriter.rb:66-68 | `EOF` closes the open calls, is appended, and ends the loop |
| RewriterTurns.PlainTurn | lib/rbs/lexer/rewriter.rb:71 | any other token is appended unchanged |
| RewriterTurns.RewriteLexed | lib/rbs/lexer/rewriter.rb:21-24 | rewriting lexed tokens keeps their final `EOF` as the only one, and leaves no whitespace |
| Nodes.IsAnyMember | lib/rbs/parser/node.rb:16-22 | `===` with an array holds iff the node's type is among the elements |
| Nodes.Find | lib/rbs/parser/node.rb:25 | a key is found iff the node holds it, at a position holding that key |
| Nodes.Get | lib/rbs/parser/node.rb:24-35 | reading a field succeeds iff the key is present, giving that parameter's value (a smaller value); otherwise a `NoMethod` error for the name |
| Nodes.GetStored | lib/rbs/parser/node.rb:25-27 | with distinct keys, reading a stored key gives its stored value |
| Nodes.SetterKey | lib/rbs/parser/node.rb:29-30 | a name ending in `=` (before an optional final line feed, as `\Z` allows) yields the key before it, and only such names do |
| Nodes.MethodMissing | lib/rbs/parser/node.rb:24-35 | a present key is read; `key=` on a present key stores the first argument (nil without one) under it and changes no other field; anything else is `NoMethod` |
| Nodes.PutReads | lib/rbs/parser/node.rb:31 | after a setter, the key reads back the stored value, and every other key reads as before |
| Nodes.SetterKeepsKeysUnique | lib/rbs/parser/node.rb:31 | a setter never adds a key, so the keys stay distinct |
| Nodes.RespondToReadable | lib/rbs/parser/node.rb:37-39 | apart from the class's own methods, `respond_to?` holds exactly for the names `method_missing` can read |
| Nodes.SetterNotAdvertised | lib/rbs/parser/node.rb:29-39 | a setter works through `method_missing`, but `respond_to?` does not report it |
| Nodes.CamelizeSnake | lib/rbs/parser/node.rb:66-68 | `camelize` of snake-case words joined by `_` capitalises each word and drops the underscores |
| Nodes.CamelizeExample | lib/rbs/parser/node.rb:66-68 | `binary_expression` becomes `BinaryExpression` |
| Nodes.Without | lib/rbs/parser/node.rb:46 | the entries of a hash other than the given key |
| Nodes.Lookup | lib/rbs/parser/node.rb:46 | a hash lookup finds an entry under the key, and none exactly when the key is absent |
| Nodes.Merge | lib/rbs/parser/node.rb:46 | `{type: t}.merge(h)` keeps `type` first, with `h`'s value when it has one, followed by the other entries of `h` |
| Nodes.ConvertSucceeds | lib/rbs/parser/node.rb:45-64 | `to_h` fails exactly when some array holds an element other than a node or nil; `as_json` also fails on nil elements |
| Nodes.ConvertKeys | lib/rbs/parser/node.rb:45-64 | the converted hash has `type` first, then the node's other keys; `type` is the symbol (`to_h`) or its camelized string (`as_json`) unless a parameter overrides it |
| Nodes.ParamsAs | lib/rbs/parser/node.rb:55-64 | `params_as` keeps the keys in order |
| Nodes.ItemsAs | lib/rbs/parser/node.rb:58 | arrays convert element by element |
| Nodes.AsJsonIsCamelizedToH | lib/rbs/parser/node.rb:45-51 | whenever `as_json` succeeds, `to_h` does too, and `as_json` is `to_h` with every type symbol camelized |
| Parser.Unexpected | lib/rbs/parser.rb:224-234 | the intended unexpected-token error names the token and what was expected |
| Parser.Expect | lib/rbs/parser.rb:218-222 | `expect` succeeds iff the next token is one of the types, and returns it. Past the end, or on another token, it fails with the intended error (see Findings) |
| Parser.ValueOf | lib/rbs/parser.rb:157 | a token's value becomes a string parameter, or nil |
| Parser.Quote | lib/rbs/parser.rb:158 | a string literal's value is the token's text in single quotes |
| Parser.ValidLhs | lib/rbs/parser.rb:249-253 | a member expression or an identifier other than `this`/`self` may be assigned; a non-node, or an identifier without a name, has no `type`/`name` and fails |
| Parser.ParsePrimary | lib/rbs/parser.rb:154-165 | a primary expression consumes tokens, except the empty `->` arm, which consumes nothing and yields nil; past the end it fails |
| Parser.ParseArray | lib/rbs/parser.rb:167-170 | an array literal consumes tokens and yields an `array_expression` |
| Parser.ParseObject | lib/rbs/parser.rb:172-175 | an object literal consumes tokens and yields an `object_expression` |
| Parser.ParseObjectProperty | lib/rbs/parser.rb:177-186 | a property consumes at least the key and `:` and yields a `property` |
| Parser.ParseObjectArgument | lib/rbs/parser.rb:142-152 | trailing `key: value` arguments become one `object_expression` |
| Parser.ListItems | lib/rbs/parser.rb:197-203 | the list loop consumes tokens and extends the items already parsed |
| Parser.ParseList | lib/rbs/parser.rb:188-206 | a list consumes at least its opener and closer |
| Parser.EndStatement | lib/rbs/parser.rb:73 | a statement ends at `EOF` (not consumed) or `LF` (consumed), and fails otherwise |
| Parser.ParseExpressionStatement | lib/rbs/parser.rb:62-75 | an expression statement is an expression or modifier statement kind, and consumes tokens unless it stands at `EOF` |
| Parser.ParseStatement | lib/rbs/parser.rb:34-59 | a statement is nil (without consuming) or a statement node (consuming) |
| Parser.ParseStatements | lib/rbs/parser.rb:23-32 | every parsed statement is a statement node |
| Parser.ParseProgram | lib/rbs/parser.rb:19-21 | a parse yields a `program` node |
| Parser.Parse | lib/rbs/parser.rb:15-17 | `parse` memoises: a parsed session returns its program again, and a fresh one parses a `program` |
| ParserLaws.MatchIsCaseEq | lib/rbs/parser.rb:236-238 | `match` is the token's `===` with the types |
| ParserLaws.ChainNestsRight | lib/rbs/parser.rb:88-96 | `a op b op c …` parses as `a op (b op (c …))`: there is no precedence, and chains nest to the right |
| ParserLaws.BinaryStep | lib/rbs/parser.rb:88-96 | a unary operand followed by a binary operator becomes a `binary_expression` with the rest of the expression on the right |
| ParserLaws.NoAssignment | lib/rbs/parser.rb:77-86 | without an assignment operator, an expression is its binary expression |
| ParserLaws.AssignmentStep | lib/rbs/parser.rb:80-82 | a valid target followed by an assignment operator becomes an `assignment_expression` |
| ParserLaws.AssignmentTarget | lib/rbs/parser.rb:77-86 | a successful assignment always has a valid target |
| ParserLaws.InvalidTarget | lib/rbs/parser.rb:81 | an invalid target fails with "Invalid left-hand side in assignment" |
| ParserLaws.SelfNotAssignable | lib/rbs/parser.rb:249-253 | assigning to `this` or `self` fails with that error |
| ParserLaws.PrimaryKinds | lib/rbs/parser.rb:154-165 | primary expressions are literals, identifiers, arrays, objects, or nil |
| ParserLaws.TailKinds | lib/rbs/parser.rb:106-127 | the member loop returns its input or a member/call expression |
| ParserLaws.MemberKinds | lib/rbs/parser.rb:106-127 | member expressions are primaries, member expressions or calls |
| ParserLaws.UnaryKinds | lib/rbs/parser.rb:98-104 | unary expressions add `unary_expression` to those |
| ParserLaws.BinaryLeftOperand | lib/rbs/parser.rb:88-96 | the left operand of a binary expression is never binary or an assignment |
| ParserLaws.ExpressionKinds | lib/rbs/parser.rb:77-86 | expressions add binary and assignment expressions |
| ParserLaws.MemberDot | lib/rbs/parser.rb:110-113 | `.name` wraps the expression in a non-computed member expression |
| ParserLaws.MemberDotNeedsName | lib/rbs/parser.rb:111-112 | `.` not followed by an identifier fails with the matching error |
| ParserLaws.MemberIndex | lib/rbs/parser.rb:114-117 | `[e]` wraps it in a computed member expression |
| ParserLaws.MemberCall | lib/rbs/parser.rb:118-120 | `(args)` wraps it in a call expression |
| ParserLaws.MemberStop | lib/rbs/parser.rb:121-122 | any other token ends the loop |
| ParserLaws.MemberChainExample | test/parser_test.rb:250-254 | `a.b.c` is `(a.b).c` |
| ParserLaws.ListEmpty | lib/rbs/parser.rb:192-195 | an opener followed by its closer is the empty list |
| ParserLaws.ListNeedsOpener | lib/rbs/parser.rb:190 | a list must start with its opener |
| ParserLaws.ListLastItem | lib/rbs/parser.rb:199-201 | an item followed by the closer ends the list |
| ParserLaws.ListTrailingComma | lib/rbs/parser.rb:202 | an item, a comma and the closer end the list too |
| ParserLaws.ListNextItem | lib/rbs/parser.rb:197-203 | an item and a comma not followed by the closer continue the list |
| ParserLaws.ListNeedsSeparator | lib/rbs/parser.rb:199 | anything else after an item fails, expecting `,` or the closer |
| ParserLaws.SplatArgument | lib/rbs/parser.rb:130-132 | `*e` is a `splat_expression` |
| ParserLaws.ArgumentKinds | lib/rbs/parser.rb:133-139 | `name :` starts an object argument; anything else is an expression |
| ParserLaws.ObjectArgumentIsLast | lib/rbs/parser.rb:145-149 | an object argument runs to the closing `)`: anything else after a property fails |
| ParserLaws.StatementsStop | lib/rbs/parser.rb:35-56 | `EOF`, and every statement keyword whose arm is empty, end the statement list |
| ParserLaws.LeadingLineFeed | lib/rbs/parser.rb:37 | a line feed is an `empty_statement` |
| ParserLaws.ModifiedStatement | lib/rbs/parser.rb:65-68 | `e if t` becomes an `if_statement` whose block holds `e`, and likewise for `unless`, `while` and `until` |
| ParserLaws.PlainStatement | lib/rbs/parser.rb:69-70 | otherwise an `expression_statement` |
| ParserLaws.ParseMemoised | lib/rbs/parser.rb:15-17 | parsing twice gives the same program |
| ParserLaws.AsWrittenError | lib/rbs/parser.rb:224-242 | every unexpected-token or unexpected-end error becomes the `NoMethod("position")` of `unexpected_error`; every other error is raised unchanged |
| ParserLaws.ExpectAsWritten | lib/rbs/parser.rb:218-243 | `expect` as written returns the next token exactly when its name is one of the types; every failure is the `NoMethod("position")`, never a `ParseError` |
| ParserLaws.UnexpectedErrorDiscrepancy | lib/rbs/parser.rb:218-243 | the intended and the written `expect` accept the same tokens and return the same one. Where the intended one fails with the unexpected token or end, the written one fails with that error mapped to `NoMethod("position")` |
| ParserLaws.ParenthesesRejected | test/parser_test.rb:222-228 | `()` is not an expression: the intended error names `(` |
| ParserLaws.ParenthesesRejectedAsWritten | test/parser_test.rb:222-228 | as written, `()` fails with `NoMethod("position")`, not with the `ParseError` the test expects |
| Negators.OperatorName | lib/rbs/formatter/negators.rb:86 | `operator.to_sym` succeeds exactly on string operators |
| Negators.Negation | lib/rbs/formatter/negators.rb:81-83 | `negation?` holds only for a unary `!` and fails only on a unary node without an operator |
| Negators.Logical | lib/rbs/formatter/negators.rb:85-87 | `logical?` holds only for `&&`/`||` binary nodes and fails exactly on binary nodes without a string operator |
| Negators.Negatable | lib/rbs/formatter/negators.rb:89-91 | `negatable?` likewise for the comparison operators |
| Negators.Flip | lib/rbs/formatter/negators.rb:69-77 | the flipped comparison is again a comparison; the table covers every negatable operator, so `unreachable code!` is never raised |
| Negators.FlipNegates | lib/rbs/formatter/negators.rb:69-77 | the flipped comparison holds exactly when the original does not, for integer operands |
| Negators.FlipInvolution | lib/rbs/formatter/negators.rb:69-77 | flipping twice is the identity |
| Negators.SwapLogical | lib/rbs/formatter/negators.rb:45 | `&&` becomes `||` and `||` becomes `&&` |
| Negators.CommonNegate | lib/rbs/formatter/negators.rb:34-40 | the result is a `!` applied to the node itself when it is an identifier, literal or group, and to the node in parentheses otherwise |
| Negators.UnaryClass | lib/rbs/formatter/negators.rb:81-91 | a unary node is a negation exactly when its operator is `!`, and never logical or negatable |
| Negators.BinaryClass | lib/rbs/formatter/negators.rb:81-91 | a binary node is logical or negatable exactly by its operator |
| NegatorLaws.SimpleNegateCases | lib/rbs/formatter/negators.rb:6-12 | `simple_negate` strips a `!`, and applies the common negation otherwise |
| NegatorLaws.SimpleNegateTwice | lib/rbs/formatter/negators.rb:6-12 | negating a non-negation twice gives it back, in parentheses unless it is an identifier, literal or group |
| NegatorLaws.DeMorgan | lib/rbs/formatter/negators.rb:42-47 | negating `a && b` gives `!a \|\| !b` and vice versa |
| NegatorLaws.ComparisonFlipped | lib/rbs/formatter/negators.rb:61-79 | negating a comparison flips its operator, keeps the left operand, and negates a logical or comparison right operand |
| NegatorLaws.FlipStep | lib/rbs/formatter/negators.rb:61-79 | the same step stated with the right operand's negation |
| NegatorLaws.RightIsNegate | lib/rbs/formatter/negators.rb:62-68 | on a logical or comparison node, the right-operand rule is `negate` |
| NegatorLaws.NegatePlain | lib/rbs/formatter/negators.rb:56-58 | a plain node gets a bare `!` |
| NegatorLaws.ExperimentalCases | lib/rbs/formatter/negators.rb:14-30 | `experimental_negate` strips a `!`, negates logical and comparison nodes like `negate`, and applies the common negation to the rest |
| NegatorLaws.NegateTotal | lib/rbs/formatter/negators.rb:49-59 | on well-formed trees `negate` always succeeds and yields a well-formed tree |
| NegatorLaws.SimpleAndExperimentalTotal | lib/rbs/formatter/negators.rb:6-30 | so do `simple_negate` and `experimental_negate` |
| NegatorLaws.NegateInvolution | lib/rbs/formatter/negators.rb:42-79 | on normal trees, negating twice gives the tree back, and the negation is again normal |
| NegatorLaws.PlainInvolution | lib/rbs/formatter/negators.rb:56-58 | a plain node and its `!` negate into each other |
| Scopes.EvolvesTransitive | lib/rbs/formatter.rb:687-698 | state growth composes: scopes keep their names and the reference counter only rises |
| Scopes.VisibleIff | lib/rbs/formatter.rb:692-698 | a name is visible iff some scope holds it and every scope inside that one is traversable |
| Scopes.GrowsKeepsVisible | lib/rbs/formatter.rb:692-698 | a visible name stays visible as the state grows |
| Scopes.Declare | lib/rbs/formatter.rb:692-698 | `declare_scope_variable` leaves the state alone when the name is visible, and otherwise appends it to the innermost scope; with no scope it fails |
| Scopes.DeclareIdempotent | lib/rbs/formatter.rb:692-698 | declaring twice is declaring once |
| Scopes.DeclareKeepsOuter | lib/rbs/formatter.rb:697 | only the innermost scope changes |
| Scopes.ShadowedByBarrier | lib/rbs/formatter.rb:695 | a name in an outer scope behind a non-traversable scope is declared again in the inner one |
| Scopes.Push | lib/rbs/formatter.rb:688 | `with_scope` opens an empty innermost scope and keeps the others |
| Scopes.Pop | lib/rbs/formatter.rb:689 | and closing it returns its names |
| Scopes.PopAfterPush | lib/rbs/formatter.rb:687-690 | whatever happens inside, closing restores the outer scopes, and the returned names have no duplicates |
| Scopes.RefNameInjective | lib/rbs/formatter.rb:701-705 | different counters give different `__r` names |
| Scopes.GenerateReference | lib/rbs/formatter.rb:701-705 | `generate_reference` bumps the counter, names `__r` plus the new counter, and declares the name |
| Scopes.ReferencesFresh | lib/rbs/formatter.rb:701-705 | a later reference never repeats an earlier one |
| Scopes.FirstReferences | test/formatter_test.rb:233-239 | the first two references are `__r1` and `__r2` |
| Scopes.CompileVars | lib/rbs/formatter.rb:270-276 | `compile_vars` is empty exactly for no names, and a `var …;` line otherwise |
| Scopes.CompileVarsOrderFree | lib/rbs/formatter.rb:270-276 | because the names are sorted, the order of declaration does not matter |
| Scopes.ChompVars | lib/rbs/formatter.rb:265 | chomped, the `var` line is the sorted names joined by commas |
| Text.Sort | lib/rbs/formatter.rb:272 | `vars.sort` is a sorted permutation |
| Text.SortedPermutationUnique | lib/rbs/formatter.rb:272 | two sorted permutations of the same names are equal |
| Text.DecimalRoundTrip | lib/rbs/formatter.rb:702 | the decimal text of the counter reads back as the counter |
| Text.NatToStringInjective | lib/rbs/formatter.rb:702 | different counters have different decimal texts |
| Formatter.Field | lib/rbs/formatter.rb:421-438 | reading a node field succeeds exactly on a node that has the key |
| Formatter.Ungroup | lib/rbs/formatter.rb:610-612 | `ungroup_expression` unwraps a group and leaves anything else alone |
| Formatter.Block | lib/rbs/formatter.rb:606-608 | `block` is `{}` for an empty body and the body between braces and line feeds otherwise |
| Formatter.Minus | lib/rbs/formatter.rb:264 | `vars -= names` keeps exactly the names not given, without introducing duplicates |
| Formatter.NonEmpty | lib/rbs/formatter.rb:62 | the block's statements are those that are not `empty_statement` |
| Formatter.CompileStatement | lib/rbs/formatter.rb:35-59 | compiling a statement only grows the state, and yields the empty text exactly for an empty statement |
| Formatter.CompileStatements | lib/rbs/formatter.rb:31-33 | the statements compile in order, threading the state |
| Formatter.StatementTexts | lib/rbs/formatter.rb:31-33 | one text per statement |
| Formatter.CompileBlock | lib/rbs/formatter.rb:61-64 | a block statement compiles to a non-empty text |
| Formatter.CompileIf | lib/rbs/formatter.rb:66-76 | an `if` compiles to a non-empty text and only grows the state |
| Formatter.CompileNegatedLoop | lib/rbs/formatter.rb:78-82 | so do `unless` and `until` |
| Formatter.CompileLoop | lib/rbs/formatter.rb:109-124 | and `while` and `loop` |
| Formatter.CompileCase | lib/rbs/formatter.rb:84-107 | and `case` |
| Formatter.CaseClauses | lib/rbs/formatter.rb:87-100 | one text per `when` clause |
| Formatter.CompileForIn | lib/rbs/formatter.rb:127-138 | `for … in` compiles to a non-empty text |
| Formatter.CompileDeclared | lib/rbs/formatter.rb:128 | a loop variable is visible after compiling it |
| Formatter.Rebody | lib/rbs/formatter.rb:134 | the body with a line inserted after its opening brace; an empty body is an error (Ruby's `slice` gives nil) |
| Formatter.CompileForOf | lib/rbs/formatter.rb:141-156 | `for … of` compiles to a non-empty text |
| Formatter.ForOfHead | lib/rbs/formatter.rb:155 | the loop header initialises the index to 0 and the length reference |
| Formatter.ForOfIndex | lib/rbs/formatter.rb:146-150 | the given index is declared, or a fresh reference is generated |
| Formatter.CompileTry | lib/rbs/formatter.rb:158-194 | a `begin`/`rescue` compiles to a non-empty text |
| Formatter.Finalizer | lib/rbs/formatter.rb:162 | no `ensure` means no `finally` |
| Formatter.SoleException | lib/rbs/formatter.rb:172-173 | a lone handler without a parameter catches `__rbs_exception` |
| Formatter.CaughtAs | lib/rbs/formatter.rb:177-181 | unless exactly one name is bound, the default exception name is used |
| Formatter.Hoisted | lib/rbs/formatter.rb:177-181 | with fewer than two bound names nothing is hoisted |
| Formatter.HandlerParams | lib/rbs/formatter.rb:176 | the handlers' parameters, in order |
| Formatter.UniqBy | lib/rbs/formatter.rb:176 | `uniq` keeps at most one pair per key, none with a key already seen, each pairing a parameter with its own key; which pairs and in what order is stated by `FormatterLaws.UniqByFirsts` and `FormatterLaws.UniqByOrdered` |
| Formatter.Compact | lib/rbs/formatter.rb:176 | `compact` drops exactly the nil parameters |
| Formatter.HandlerBody | lib/rbs/formatter.rb:197-201 | a handler without statements has an empty body |
| Formatter.Rebinding | lib/rbs/formatter.rb:215-219 | a handler rebinds the exception only when it has a parameter |
| Formatter.InstanceTests | lib/rbs/formatter.rb:204-206 | the class tests start with `exception instanceof` |
| Formatter.CompileFunction | lib/rbs/formatter.rb:242-256 | a `def` compiles to a non-empty text |
| Formatter.FunctionBody | lib/rbs/formatter.rb:258-268 | the hoisted names exclude the parameters and have no duplicates |
| Formatter.CompileParams | lib/rbs/formatter.rb:281-304 | one compiled parameter per argument, marked as rest exactly for splats |
| Formatter.CompileParam | lib/rbs/formatter.rb:282-302 | a rest parameter has no default line |
| Formatter.Arrange | lib/rbs/formatter.rb:278-307 | every parameter lands among the rest lines or the plain names; after a rest parameter there are no plain names |
| Formatter.CompileExpression | lib/rbs/formatter.rb:421-438 | compiling an expression only grows the state |
| Formatter.Leaf | lib/rbs/formatter.rb:423-424 | an identifier compiles to its name and a literal to its value |
| Formatter.CompileLambda | lib/rbs/formatter.rb:448-457 | a lambda only grows the state |
| Formatter.CompileCall | lib/rbs/formatter.rb:496-509 | a call only grows the state (its text is stated by `CompileLaws.CompileCallText`) |
| Formatter.CallArguments | lib/rbs/formatter.rb:550-588 | no arguments compile to an empty list. Without a splat there is one text per argument; with one, a single argument-array expression (texts stated by `CompileLaws.CallArgumentsTexts`) |
| CompileLaws.CallArgumentsTexts | lib/rbs/formatter.rb:550-588 | a single splat is its expression, and several splats are `[].concat` of theirs. A mix is the grouped concatenation of `Spreads.Spread`; no splat gives one text per argument |
| CompileLaws.CallArgumentsMeaning | lib/rbs/formatter.rb:564-585 | a mixed argument list renders as a `concat` chain that denotes every argument in order, a splat standing for all of its elements. It matches the as-written chain unless the first argument is a splat whose text starts with `[` |
| CompileLaws.CompileCallText | lib/rbs/formatter.rb:496-509 | a call is the callee's text with the argument texts in parentheses, or `.apply(null, ...)` on the argument array when there are splats |
| CompileLaws.SuperCallUnsupported | lib/rbs/formatter.rb:496-499 | a call of `super` is refused |
| Formatter.Compile | lib/rbs/formatter.rb:13-29 | `compile` succeeds exactly when the program compiles and the module type is `amd`, `iife` or `raw`; the output is the program code intact between that type's head and tail; a program error wins over the `ArgumentError` naming an unknown type |
| Formatter.RawIsCode | lib/rbs/formatter.rb:24-25 | the `raw` module type yields exactly the program code, with nothing around it |
| FormatterLaws.ArrangeSplits | lib/rbs/formatter.rb:281-304 | the parameters before the first rest parameter are plain arguments, in order; from it on each gets a `slice` or `arguments.length` line |
| FormatterLaws.ArrangeAfterRest | lib/rbs/formatter.rb:292-293 | after a rest parameter, plain parameters are picked from the end of `arguments` |
| FormatterLaws.ArrangeDefaults | lib/rbs/formatter.rb:298-302 | the default lines are exactly those of the parameters that have defaults |
| FormatterLaws.LoneRest | test/formatter_test.rb:305-314 | `def a(*b)` slices all of `arguments` |
| FormatterLaws.FinalRest | test/formatter_test.rb:305-314 | a final rest parameter slices from its index |
| FormatterLaws.MiddleRest | test/formatter_test.rb:305-314 | a middle rest parameter slices up to the parameters after it, which come from the end |
| FormatterLaws.CompactKeeps | lib/rbs/formatter.rb:176 | `compact` keeps the keys distinct |
| FormatterLaws.UniqByFirsts | lib/rbs/formatter.rb:176 | `uniq` misses no key: every key not already seen is kept, and every kept pair is the parameter at the first position holding its key |
| FormatterLaws.UniqByOrdered | lib/rbs/formatter.rb:176 | `uniq` keeps its pairs in the order of the parameters |
| FormatterLaws.CompactFilters | lib/rbs/formatter.rb:176 | `compact` keeps the pairs with a non-nil parameter in their order, each as often as it occurs, and drops every other |
| FormatterLaws.MinusFilters | lib/rbs/formatter.rb:264 | `vars -= names` keeps the other names in their order, each as often as it occurs in `vars`, and drops every occurrence of a given name |
| FormatterLaws.NonEmptyFilters | lib/rbs/formatter.rb:62 | `reject` keeps the statements that are not `empty_statement` in their order, each as often as it occurs |
| FormatterLaws.BindingsDistinct | lib/rbs/formatter.rb:176-181 | the hoisted exception names are distinct |
| FormatterLaws.TwoBindings | test/formatter_test.rb:269-283 | two handlers binding the same name bind it once; different names bind both |
| FormatterLaws.NoBindings | lib/rbs/formatter.rb:178 | handlers without parameters bind nothing |
| FormatterLaws.CaughtNames | lib/rbs/formatter.rb:179-180 | one name is caught directly; two are hoisted in a `var` line |
| CompileLaws.ForOfFreshNames | test/formatter_test.rb:233-239 | without an index, `for … of` uses two fresh, distinct references, `__r(n+1)` for the index and `__r(n+2)` for the length |
| CompileLaws.ForOfLength | lib/rbs/formatter.rb:152-155 | the length reference is generated after the index |
| CompileLaws.CompileBang | lib/rbs/formatter.rb:590-593 | `!e` compiles to `!` followed by `e`, with no space |
| CompileLaws.CompileGroup | lib/rbs/formatter.rb:467-469 | a group compiles to its expression in parentheses |
| CompileLaws.NegatedTestAgrees | lib/rbs/formatter.rb:619-637 | the formatter's own `negate` is `simple_negate`: an `unless`/`until` test compiles like the ungrouped simple negation |
| CompileLaws.AssignmentDeclares | lib/rbs/formatter.rb:599-602 | assigning to an identifier declares it in scope |
| CompileLaws.TryFinallyOnly | lib/rbs/formatter.rb:164-166 | `begin … ensure` without handlers is `try {…}` followed by `finally {…}` |
| CompileLaws.TryRethrows | lib/rbs/formatter.rb:168-193 | `begin` without handlers or `ensure` catches `__rbs_exception` and throws it again |
| CompileLaws.ChainRethrows | lib/rbs/formatter.rb:235-239 | when every handler names classes, the chain ends by throwing the exception again |
| CompileLaws.LabelsJoin | lib/rbs/formatter.rb:88 | the `case` labels are the tests as `case t:` lines, joined by line feeds |
| CompileLaws.CaseClauseBreaks | lib/rbs/formatter.rb:90-98 | a `when` clause whose body does not end in `return` ends with `break;` |
| Spreads.Runs | lib/rbs/formatter.rb:566-573 | the `reduce` groups the arguments into non-empty runs of one node type, with adjacent runs of different types |
| Spreads.RunsFlatten | lib/rbs/formatter.rb:566-573 | the runs, concatenated, are the arguments |
| Spreads.AsWrittenAgrees | lib/rbs/formatter.rb:575-584 | the as-written lowering is correct except when a leading splat run's text starts with `[` |
| Spreads.AsWrittenCounterexample | lib/rbs/formatter.rb:583 | for `f(*[1], *b, c)` the as-written text is `[1], b.concat([c])`; the intended text is `[].concat([1], b, [c])` |
| Spreads.LowerMeaning | lib/rbs/formatter.rb:565-585 | the corrected lowering's `concat` yields the arguments in order, with each splat spread |
| Spreads.SpreadRenders | lib/rbs/formatter.rb:575-584 | the corrected text renders that lowering |
| Indenter.LinesWellSplit | lib/rbs/indenter.rb:14 | `each_line` splits into non-empty lines, each ending in its only line feed except perhaps the last |
| Indenter.ConcatLines | lib/rbs/indenter.rb:14 | the lines, concatenated, are the text |
| Indenter.LinesOfConcat | lib/rbs/indenter.rb:14 | splitting well-split lines after concatenating them gives them back |
| Indenter.OpensBlockIff | lib/rbs/indenter.rb:15 | `{\s*\Z` holds iff some `{` is followed only by white space |
| Indenter.ClosesBlockIff | lib/rbs/indenter.rb:18 | `\A\s*}` holds iff some `}` is preceded only by white space |
| Indenter.OpensNotBlank | lib/rbs/indenter.rb:15-22 | an opening line is never blank |
| Indenter.Delta | lib/rbs/indenter.rb:15-20 | the depth rises by one after an opening line, falls by one at a closing line, and the opening rule wins when both hold |
| Indenter.Level | lib/rbs/indenter.rb:16-25 | an opening line is indented at the depth before it, any other line at the depth after it |
| Indenter.Times | lib/rbs/indenter.rb:12 | `String * n` fails with "negative argument" exactly for negative `n` |
| Indenter.IndentLine | lib/rbs/indenter.rb:14-27 | a blank line becomes a bare line feed; any other line is prefixed by its level's indentation, which fails when the level is negative |
| Indenter.IndentLinesSucceeds | lib/rbs/indenter.rb:14-28 | re-indenting the lines succeeds iff no non-blank line sits at a negative depth |
| Indenter.IndentLinesMeaning | lib/rbs/indenter.rb:14-28 | each output line is its input line, blank or indented at the depth the lines before it reach |
| Indenter.Reindent | lib/rbs/indenter.rb:9-29 | a negative width fails |
| Indenter.ReindentMeaning | lib/rbs/indenter.rb:9-29 | the output's lines correspond one to one to the input's, each indented by the width times its depth, and the output exists iff no non-blank line is over-closed |
| Indenter.ElseLine | lib/rbs/indenter.rb:15-19 | `} else {` matches both block patterns; the opener rule is tested first, so the line is printed at the depth of the body it closes and the depth rises by one |
| Indenter.IfElseDrift | lib/rbs/indenter.rb:15-19 | after an `if (a) {` … `} else {` … `}` block the depth is one higher than before it, so the lines after every if/else are indented one level too deep |
| Indenter.CompileAsWritten | lib/rbs/indenter.rb:9-10 | as written, `compile` fails with an `ArgumentError` for every program, before the formatter runs |
| Indenter.Compile | lib/rbs/indenter.rb:9-29 | the intended `compile` fails with the program's error or for a negative width. Otherwise it succeeds exactly when no line of the formatter's output closes more blocks than are open, and each output line is that line at its depth |
| Indenter.CompileRawDiscrepancy | lib/rbs/indenter.rb:10 | with `raw` set, the intended `compile` re-indents the bare program code, while the written one fails on every program |

## Left out

- The formatter's `class_statement`, `object_statement` and `super` are not modelled, nor is the context stack of `with_object` and `with_function` (formatter.rb 311-411, 511-533, 673-685). The model compiles them to an `Unsupported` error.
- The JavaScript helper text of a `new` call with splats is kept as an opaque constant.
- `with_function` compiles the function's id a second time only to push it on the function stack. The model does not repeat it, so an id that fails to compile there fails once, not twice.
- The formatter's handling of non-string names (a node where a name is expected) is modelled as the `Field` and `FieldStr` errors, not as Ruby's string interpolation of arbitrary objects.
- Lexer.Regexp: runs the intended start test `Lexer.PotentialRegexp`, not the written one (`Lexer.PotentialRegexpAsWritten`, see Findings).
- Lexer.Regexp2: escapes slashes with the intended `Lexer.EscapeSlashes`, not the written `gsub` (`Lexer.EscapeSlashesAsWritten`, see Findings).
- Lexer.Tokenize: steps through `Lexer.Regexp` and `Lexer.Regexp2` with the intended rules above, so its tokens are those of the corrected lexer. Its contract states growth and the single final `EOF`, not the token contents; the contents are stated step by step.
- Lexer.TokensOf: the token list of the corrected lexer, as for `Lexer.Tokenize`. Its contract states only the final `EOF`; `Lexer.HelloTokens` gives one complete list.
- Parser.Expect: fails with the intended `UnexpectedToken` or `UnexpectedEnd`. As written, `unexpected_error` raises `NoMethodError`; `ParserLaws.ExpectAsWritten` and `ParserLaws.AsWrittenError` model that.
- Parser.Parse: carries the intended errors of `Parser.Expect`. Mapping its error through `ParserLaws.AsWrittenError` gives the written one.
- Formatter.CallArguments: renders a mixed argument list with the intended `Spreads.Spread`, not the written `Spreads.SpreadAsWritten` (see Findings).
- Formatter.CompileCall: its own contract states only state growth, and it uses the corrected `Formatter.CallArguments`. `CompileLaws.CompileCallText` states its text.
- The indenter models Ruby's `" " * spaces` error path for a negative width or a negative depth (an over-closed `}`) as an `ArgumentError` rather than excluding such inputs.
- The AST rewriter, the command line, version and error classes are not part of this model.
- `CompileLaws.CaseClauseBreaks`: only the `break` direction is stated. A clause whose body ends in `return` has no `break`, but no lemma states that.
- Experimental negation is modelled (`Negators.ExperimentalNegate`), but nothing chooses it: the formatter always uses its simple negation.
- Positions of parse errors are not modelled. The errors are `UnexpectedToken(name, expected)` and `UnexpectedEnd`.
- I/O and the lexer's debug comments are out of scope.

## Findings

| source | as written | input that shows it | evidently intended | confidence | as-written member | corrected member |
|---|---|---|---|---|---|---|
| lib/rbs/lexer.rb:174-178 | after stepping back over a whitespace token at index 0, `tokens[-1]` reads the whitespace itself (Ruby's negative index), so the regular expression is taken for a division | ` /a/` (a leading space) | a regular expression may start at the beginning of the input, after optional white space | not executed | Lexer.PotentialRegexpAsWritten, Lexer.PotentialRegexpDiscrepancy | Lexer.PotentialRegexp, Lexer.Regexp |
| lib/rbs/lexer.rb:189 | `gsub(%r(([^\\]\|^)/), '\1\\/')` consumes the character before each slash, so in `//` the second slash is left unescaped | `%r(a//b)` | every unescaped slash of a `%r` literal escaped | not executed | Lexer.EscapeSlashesAsWritten, Lexer.EscapeSlashesAsWrittenMisses | Lexer.EscapeSlashes, Lexer.EscapeSlashesProperties |
| lib/rbs/parser.rb:224-234 | `unexpected_error` interpolates `token.position`, which `Token` does not define, so a `NoMethodError` is raised instead of the parse error | `()` or any unexpected token | a `ParseError` naming the token and what was expected | not executed | ParserLaws.ExpectAsWritten, ParserLaws.AsWrittenError, ParserLaws.UnexpectedErrorDiscrepancy, ParserLaws.ParenthesesRejectedAsWritten | Parser.Unexpected, Parser.Expect, ParserLaws.ParenthesesRejected |
| lib/rbs/formatter.rb:583 | the receiver of `concat` is taken to be the first group whenever its text starts with `[`, which also holds for a run of splats whose first one is an array literal | `f(*[1], *b, c)` gives `f.apply(null, [1], b.concat([c]))` | `f.apply(null, [].concat([1], b, [c]))` | not executed | Spreads.SpreadAsWritten, Spreads.AsWrittenCounterexample | Spreads.Spread, Spreads.LowerMeaning, Spreads.SpreadRenders, CompileLaws.CallArgumentsMeaning |
| lib/rbs/indenter.rb:10 | `compile(raw: raw)` passes a keyword that `Formatter#compile` (formatter.rb line 13) does not take, so Ruby raises `ArgumentError` for the unknown keyword on every call | any program, e.g. an empty one | ask the formatter for the `raw` module type when `raw` is set and its default otherwise, then re-indent; this is one reading among several, since the one caller (lib/rbs/cli.rb lines 29-30) passes `type:` and `experimental:`, which `Indenter#compile` does not take either, so the code does not fix the intended interface | not executed | Indenter.CompileAsWritten, Indenter.CompileRawDiscrepancy | Indenter.Compile |

=== FILE: compile_laws.dfy ===
/** Properties of the compile functions themselves: the fresh references of
    `for ... of`, the negated test of `unless` / `until` against the simple
    negation, the declaration an assignment makes, and the shapes of `try`
    and of a `when` clause. */
module CompileLaws {
  import opened Wrappers
  import opened Text
  import opened Nodes
  import opened Scopes
  import opened Formatter
  import Negators
  import Spreads

  // ---------------------------------------------------------------------------
  // call arguments

  /** The three ways `compile_call_arguments` renders a non-empty argument
      list: only splats give their one expression or `[].concat` of them; a
      mix gives the concatenation of its groups; no splat gives one text per
      argument. */
  lemma CallArgumentsTexts(n: Node, st: FState)
    requires CallArguments(n, st).Success?
    ensures GetItems(n, "arguments").Success?
    ensures var args := GetItems(n, "arguments").value; var r := CallArguments(n, st).value;
      |args| == 1 && AllSplats(args) ==>
        ArgumentTexts(args, st).Success? && r.args == Spread(ArgumentTexts(args, st).value.texts[0])
    ensures var args := GetItems(n, "arguments").value; var r := CallArguments(n, st).value;
      |args| > 1 && AllSplats(args) ==>
        ArgumentTexts(args, st).Success? &&
        r.args == Spread("[].concat(" + Join(ArgumentTexts(args, st).value.texts, ", ") + ")")
    ensures var args := GetItems(n, "arguments").value; var r := CallArguments(n, st).value;
      SomeSplat(args) && !AllSplats(args) ==>
        AllNodes(args) && ArgumentTexts(args, st).Success? &&
        r.args == Spread(Spreads.Spread(Kinded(args, ArgumentTexts(args, st).value.texts)))
    ensures var args := GetItems(n, "arguments").value; var r := CallArguments(n, st).value;
      !SomeSplat(args) ==>
        ExpressionTexts(args, st).Success? && r.args == Listed(ExpressionTexts(args, st).value.texts)
  {
    var args := GetItems(n, "arguments").value;
    if |args| > 0 && AllSplats(args) {
      assert SomeSplat(args) by {
        assert IsNode(args[0], "splat_expression");
      }
    }
  }

  /** A mixed argument list is passed whole: the `concat` chain the call
      receives denotes every argument in order, a splat standing for all of
      its elements. As written the chain differs only when the first
      argument is a splat whose text starts with `[`. */
  lemma CallArgumentsMeaning(n: Node, st: FState)
    requires CallArguments(n, st).Success?
    requires GetItems(n, "arguments").Success?
    requires SomeSplat(GetItems(n, "arguments").value) && !AllSplats(GetItems(n, "arguments").value)
    ensures var args := GetItems(n, "arguments").value;
      AllNodes(args) && ArgumentTexts(args, st).Success? &&
      var k := Kinded(args, ArgumentTexts(args, st).value.texts);
      |k| > 0 &&
      CallArguments(n, st).value.args == Spread(Spreads.Render(Spreads.Lower(k))) &&
      Spreads.Meaning(Spreads.Lower(k)) == Spreads.Expected(k) &&
      (!(k[0].kind == Spreads.SPLAT && StartsWith(Spreads.Pieces(Spreads.Runs(k))[0], "[")) ==>
        CallArguments(n, st).value.args == Spread(Spreads.SpreadAsWritten(k)))
  {
    CallArgumentsTexts(n, st);
    var args := GetItems(n, "arguments").value;
    var k := Kinded(args, ArgumentTexts(args, st).value.texts);
    assert |k| > 0 by {
      var i :| 0 <= i < |args| && IsNode(args[i], "splat_expression");
    }
    Spreads.SpreadRenders(k);
    Spreads.LowerMeaning(k);
    Spreads.AsWrittenAgrees(k);
  }

  /** A call `f(args)` compiles to the callee's text applied to the
      argument texts, or, with splats, to `.apply(null, ...)` on the
      argument array; `new` does the same through its constructor. */
  lemma CompileCallText(n: Node, st: FState)
    requires CompileCall(n, st).Success?
    ensures Get(n, "callee").Success? && CompileExpression(Get(n, "callee").value, st).Success?
    ensures var c := CompileExpression(Get(n, "callee").value, st).value;
      CallArguments(n, c.st).Success? &&
      var a := CallArguments(n, c.st).value; var text := CompileCall(n, st).value.text;
      (n.kind == "call_expression" && a.args.Listed? ==> text == c.text + "(" + Join(a.args.texts, ", ") + ")") &&
      (n.kind == "call_expression" && a.args.Spread? ==> text == c.text + ".apply(null, " + a.args.text + ")") &&
      (n.kind != "call_expression" && a.args.Listed? ==> text == "new " + c.text + "(" + Join(a.args.texts, ", ") + ")") &&
      (n.kind != "call_expression" && a.args.Spread? ==>
        text == NEW_SPREAD_HEAD + c.text + ", " + a.args.text + ", function () {}))")
  {
  }

  /** `super(...)` is refused. */
  lemma SuperCallUnsupported(n: Node, st: FState)
    requires n.kind == "call_expression" && Get(n, "callee").Success?
    requires IsNode(Get(n, "callee").value, "identifier")
    requires Field(Get(n, "callee").value, "name") == Success(Str("super"))
    ensures CompileCall(n, st) == Failure(Unsupported("super"))
  {
  }

  // ---------------------------------------------------------------------------
  // for ... of

  /** Without an index variable the index is the next reference. */
  lemma ForOfGeneratedIndex(idx: Value, st: FState)
    requires !Truthy(idx) && ForOfIndex(idx, st).Success?
    ensures ForOfIndex(idx, st).value.text == RefName(st.reference + 1)
    ensures ForOfIndex(idx, st).value.st.reference == st.reference + 1
  {
  }

  /** The loop head generates the reference after the index's state for the
      length. */
  lemma ForOfLength(value: string, collection: string, i: Out, body: string)
    requires ForOfLoop(value, collection, i, body).Success?
    ensures var r := ForOfLoop(value, collection, i, body).value;
      r.st.reference == i.st.reference + 1 &&
      StartsWith(r.text, "for (" + i.text + " = 0, " + RefName(i.st.reference + 1) + " = ")
  {
    var len := GenerateReference(i.st).value;
    var block := Rebody(value + " = " + collection + "[" + i.text + "];", body).value;
    var head := ForOfHead(i.text, len.0, collection);
    var prefix := "for (" + i.text + " = 0, " + len.0 + " = ";
    var r := ForOfLoop(value, collection, i, body).value;
    assert r.text == head + block;
    StartsWithIsPrefix(head, prefix);
    StartsWithIsPrefix(r.text, prefix);
    assert (head + block)[..|head|] == head;
  }

  /** Without an index variable, `for ... of` generates the next two
      references, one for the index and one for the length, and they differ:
      `for (__r1 = 0, __r2 = obj.length; ...)`. */
  lemma ForOfFreshNames(idx: Value, st: FState, value: string, collection: string, body: string)
    requires !Truthy(idx)
    requires ForOfIndex(idx, st).Success?
    requires ForOfLoop(value, collection, ForOfIndex(idx, st).value, body).Success?
    ensures var i := ForOfIndex(idx, st).value;
      var r := ForOfLoop(value, collection, i, body).value;
      i.text == RefName(st.reference + 1) && r.st.reference == st.reference + 2 &&
      StartsWith(r.text, "for (" + RefName(st.reference + 1) + " = 0, " + RefName(st.reference + 2) + " = ")
    ensures RefName(st.reference + 1) != RefName(st.reference + 2)
  {
    ForOfGeneratedIndex(idx, st);
    ForOfLength(value, collection, ForOfIndex(idx, st).value, body);
    if RefName(st.reference + 1) == RefName(st.reference + 2) {
      RefNameInjective(st.reference + 1, st.reference + 2);
    }
  }

  // ---------------------------------------------------------------------------
  // Negated tests

  /** A compiled expression with text put around it. */
  function Around(r: Result<Out>, before: string, after: string): Result<Out> {
    match r
    case Success(o) => Success(Out(before + o.text + after, o.st))
    case Failure(e) => Failure(e)
  }

  /** A compiled expression with text put before it. */
  function Prefixed(r: Result<Out>, before: string): Result<Out> {
    match r
    case Success(o) => Success(Out(before + o.text, o.st))
    case Failure(e) => Failure(e)
  }

  /** Groups and unary operations go to `CompileWrapped`. */
  lemma DispatchWrapped(n: Node, st: FState)
    requires n.kind == "group_expression" || n.kind == "unary_expression"
    ensures CompileExpression(Child(n), st) == CompileWrapped(n, st)
  {
  }

  lemma BangText(t: string)
    ensures "!" + "" + t == "!" + t
  {
  }

  lemma GroupedBangText(t: string)
    ensures "!" + ("(" + t + ")") == "!(" + t + ")"
  {
  }

  lemma BangNotWordy()
    ensures !Wordy("!")
  {
  }

  /** `!x` compiles to `!` and the operand: `!` is not a word operator. */
  lemma CompileBang(x: Value, st: FState)
    ensures CompileExpression(Negators.Unary("!", x), st) == Prefixed(CompileExpression(x, st), "!")
  {
    var n := Negators.Unary("!", x).node;
    Negators.UnaryFields("!", x);
    BangNotWordy();
    DispatchWrapped(n, st);
    assert GetStr(n, "operator") == Success("!");
    match CompileExpression(x, st)
    case Success(o) =>
      assert CompileWrapped(n, st) == Success(Out("!" + "" + o.text, o.st));
      BangText(o.text);
    case Failure(e) =>
      assert CompileWrapped(n, st) == Failure(e);
  }

  /** A group compiles to its expression in parentheses. */
  lemma CompileGroup(x: Value, st: FState)
    ensures CompileExpression(Negators.Group(x), st) == Around(CompileExpression(x, st), "(", ")")
  {
    GroupField(x);
    DispatchWrapped(Negators.Group(x).node, st);
  }

  lemma GroupField(x: Value)
    ensures Get(Negators.Group(x).node, "expression") == Success(x)
  {
  }

  /** `compile_expression(ungroup_expression(simple_negate(test)))`. */
  function ViaSimpleNegate(test: Value, st: FState): Result<Out> {
    var neg :- Negators.SimpleNegate(test);
    var u :- Ungroup(neg);
    CompileExpression(u, st)
  }

  /** An identifier, literal or group, not itself a negation, gets a bare `!`. */
  lemma NegatedSimpleAgrees(test: Value, st: FState)
    requires Negators.Negation(test) == Success(false)
    requires IsNode(test, "identifier") || IsNode(test, "literal") || IsNode(test, "group_expression")
    ensures CompileNegatedTest(test, st) == ViaSimpleNegate(test, st)
  {
    var c := Negators.CommonNegate(test);
    assert c == Negators.Unary("!", test);
    assert Negators.SimpleNegate(test) == Success(c);
    assert Ungroup(c) == Success(c);
    CompileBang(test, st);
    assert CompileNegatedTest(test, st) == Prefixed(CompileExpression(test, st), "!");
  }

  /** Anything else that is not a negation gets `!` and a new group. */
  lemma NegatedOtherAgrees(test: Value, st: FState)
    requires Negators.Negation(test) == Success(false)
    requires !(IsNode(test, "identifier") || IsNode(test, "literal") || IsNode(test, "group_expression"))
    ensures CompileNegatedTest(test, st) == ViaSimpleNegate(test, st)
  {
    var c := Negators.CommonNegate(test);
    assert c == Negators.Unary("!", Negators.Group(test));
    assert Negators.SimpleNegate(test) == Success(c);
    assert Ungroup(c) == Success(c);
    CompileBang(Negators.Group(test), st);
    CompileGroup(test, st);
    match CompileExpression(test, st)
    case Success(o) =>
      GroupedBangText(o.text);
      assert CompileNegatedTest(test, st) == Success(Out("!(" + o.text + ")", o.st));
    case Failure(e) =>
      assert CompileNegatedTest(test, st) == Failure(e);
  }

  /** The test of `unless` and `until` is exactly `simple_negate` of the
      test, ungrouped and compiled. */
  lemma NegatedTestAgrees(test: Value, st: FState)
    ensures CompileNegatedTest(test, st) == ViaSimpleNegate(test, st)
  {
    if Negators.Negation(test) == Success(false) {
      if IsNode(test, "identifier") || IsNode(test, "literal") || IsNode(test, "group_expression") {
        NegatedSimpleAgrees(test, st);
      } else {
        NegatedOtherAgrees(test, st);
      }
    }
  }

  // ---------------------------------------------------------------------------
  // Assignment

  /** An assignment to a plain name declares that name: it is visible in the
      scopes the compile ends with, whatever the right side compiles to. */
  lemma AssignmentDeclares(n: Node, st: FState, left: Value, name: string)
    requires n.kind == "assignment_expression"
    requires Get(n, "left") == Success(left) && IsNode(left, "identifier")
    requires FieldStr(left, "name") == Success(name)
    requires CompileOperation(n, st).Success?
    ensures Visible(CompileOperation(n, st).value.st.scopes, name)
  {
    var s1 := Declare(st, name).value;
    var l := CompileExpression(left, s1).value;
    var right := Get(n, "right").value;
    var rr := CompileExpression(right, l.st).value;
    assert CompileOperation(n, st).value.st == rr.st;
    GrowsKeepsVisible(s1, l.st, name);
    GrowsKeepsVisible(l.st, rr.st, name);
  }

  // ---------------------------------------------------------------------------
  // try

  lemma FinallyText(b: string, f: string)
    ensures "try " + b + ("\nfinally " + f) == "try " + b + "\nfinally " + f
  {
  }

  lemma RethrowText(b: string, e: string, t: string)
    ensures "try " + b + " catch (" + (e + ") " + ("{\n" + "" + t + "\n}")) + "" ==
      "try " + b + " catch (" + e + ") {\n" + t + "\n}"
  {
  }

  /** No handler but a finalizer: only `try` and `finally`. */
  lemma TryFinallyOnly(n: Node, st: FState, blk: Value, fin: Value)
    requires Get(n, "block") == Success(blk) && Get(n, "finalizer") == Success(fin) && Truthy(fin)
    requires GetItems(n, "handlers") == Success([])
    requires CompileTry(n, st).Success?
    ensures CompileStatement(blk, st).Success?
    ensures var b := CompileStatement(blk, st).value;
      CompileStatement(fin, b.st).Success? &&
      CompileTry(n, st).value.text == "try " + b.text + "\nfinally " + CompileStatement(fin, b.st).value.text
  {
    var b := CompileStatement(blk, st).value;
    var f := CompileStatement(fin, b.st).value;
    assert Finalizer(fin, b.st) == Success(Out("\nfinally " + f.text, f.st));
    FinallyText(b.text, f.text);
  }

  /** Neither a handler nor a finalizer: a catch of the default name that
      throws it again. */
  lemma TryRethrows(n: Node, st: FState, blk: Value, fin: Value)
    requires Get(n, "block") == Success(blk) && Get(n, "finalizer") == Success(fin) && !Truthy(fin)
    requires GetItems(n, "handlers") == Success([])
    requires CompileTry(n, st).Success?
    ensures CompileStatement(blk, st).Success?
    ensures CompileTry(n, st).value.text ==
      "try " + CompileStatement(blk, st).value.text + " catch (" + EXCEPTION + ") {\n" + Rethrow(EXCEPTION) + "\n}"
  {
    var b := CompileStatement(blk, st).value;
    assert Finalizer(fin, b.st) == Success(Out("", b.st));
    assert Handlers([], b.st).value.text == EXCEPTION + ") " + ("{\n" + "" + Rethrow(EXCEPTION) + "\n}");
    RethrowText(b.text, EXCEPTION, Rethrow(EXCEPTION));
  }

  /** Several handlers none of which catches everything: the chain ends in
      an `else` that throws the exception again. */
  lemma ChainRethrows(hs: seq<Value>, exception: string, st: FState)
    requires !CatchesAll(hs)
    requires CatchClauses(hs, exception, st).Success?
    ensures EndsWith(CatchClauses(hs, exception, st).value.text, " else {\n" + Rethrow(exception) + "\n}")
  {
    var cs := Conditions(hs, exception, st).value;
    var tail := " else {\n" + Rethrow(exception) + "\n}";
    assert Chain(cs.texts, false, exception) == Join(cs.texts, " else ") + tail;
    EndsWithAppend(Join(cs.texts, " else "), tail);
  }

  // ---------------------------------------------------------------------------
  // case

  /** One `case t:` line per test. */
  function CaseLabels(tests: seq<string>): (r: seq<string>)
    ensures |r| == |tests| && forall i :: 0 <= i < |tests| ==> r[i] == "case " + tests[i] + ":"
  {
    seq(|tests|, i requires 0 <= i < |tests| => "case " + tests[i] + ":")
  }

  /** `Labels` is the labels joined by line feeds. */
  lemma {:induction false} LabelsJoin(tests: seq<string>)
    ensures Labels(tests) == Join(CaseLabels(tests), "\n")
  {
    if |tests| > 1 {
      LabelsJoin(tests[1..]);
      assert CaseLabels(tests)[1..] == CaseLabels(tests[1..]);
    }
  }

  /** A `when` ends in `break;` unless its body ends with a `return`. */
  lemma CaseClauseBreaks(c: Value, st: FState, cons: Value)
    requires Field(c, "consequent") == Success(cons)
    requires Truthy(cons) ==>
      (FieldItems(cons, "body").Success? &&
       !IsNode(LastOf(FieldItems(cons, "body").value), "return_statement"))
    requires CaseClause(c, st).Success?
    ensures EndsWith(CaseClause(c, st).value.text, "\nbreak;")
  {
    var tests := FieldItems(c, "tests").value;
    var ts := ExpressionTexts(tests, st).value;
    if Truthy(cons) {
      var body := FieldItems(cons, "body").value;
      var b := CompileStatements(body, ts.st).value;
      EndsWithAppend(Labels(ts.texts) + "\n" + b.text, "\nbreak;");
    } else {
      EndsWithAppend(Labels(ts.texts), "\nbreak;");
    }
  }
}

=== FILE: definition.dfy ===
/** The token tables of the lexer: keywords, operators and the sets the
    lexer, the rewriter and the parser classify tokens with. Ruby symbols are
    modelled as their names. The two long tables are written as the lines
    they are declared on, joined in order. */
module Definition {
  import opened Text

  const KEYWORDS_1: seq<string> := ["def", "delete", "return", "then", "do", "end", "prototype", "object"]
  const KEYWORDS_2: seq<string> := ["if", "unless", "else", "elsif", "case", "when", "while", "until", "loop", "for", "in", "own", "of"]
  const KEYWORDS_3: seq<string> := ["break", "next", "new", "begin", "rescue", "ensure"]
  const KEYWORDS_4: seq<string> := ["and", "or", "not", "typeof", "instanceof"]

  const KEYWORDS: seq<string> := KEYWORDS_1 + KEYWORDS_2 + KEYWORDS_3 + KEYWORDS_4

  const OPERATORS_1: seq<string> := ["->", "+=", "-=", "*=", "/=", "%=", "&=", "|=", "^=", "||=", ">>=", "<<="]
  const OPERATORS_2: seq<string> := [
    "+", "-", "~", "*", "/", "%", "&&", "||", "&", "|", "^", "<<", ">>", "==", "!=", "<=", ">=", "=>", "<", ">"]
  const OPERATORS_3: seq<string> := ["...", "..", ".", ",", "=", ":", "?", "!"]

  /** In the order the operator alternation tries them. */
  const OPERATORS: seq<string> := OPERATORS_1 + OPERATORS_2 + OPERATORS_3

  const ASSIGNMENT_OPERATOR: seq<string> := ["=", "+=", "-=", "*=", "/=", "%=", "&=", "|=", "^=", "||=", ">>=", "<<="]

  const BINARY_OPERATOR: seq<string> := [
    "+", "-", "~", "*", "/", "%", "&&", "||", "&", "|", "^", "<<", ">>", "==", "!=", "<=", ">=", "=>", "<", ">",
    "...", ".."]

  const UNARY_OPERATOR: seq<string> := ["+", "-", "~", "!", "typeof"]

  const PARENS: seq<string> := ["(", ")", "{", "}", "[", "]"]

  /** Token names after which a `/` opens a regular expression. */
  const DETECT_REGEXP: seq<string> := [
    "(", ",", "=", ":", "[", "!", "&", "|", "?", "{", "}", ";", "~", "+", "-", "*", "%", "^", "<", ">",
    "return", "when", "if", "else", "elsif", "unless"]

  /** The names that let a `/` start a regular expression are short: none
      is a class name of `Token#is`, nor `whitespace`. */
  lemma DetectRegexpShort()
    ensures forall i :: 0 <= i < |DETECT_REGEXP| ==> |DETECT_REGEXP[i]| <= 6
  {
  }

  /** Token names that can start a call argument. */
  const ARGUMENT: seq<string> := [
    "BOOLEAN", "NIL", "NUMBER", "STRING", "REGEXP", "identifier",
    "(", "[", "{", "->", "not", "typeof", "new"]

  predicate AllLower(s: string) {
    forall k :: 0 <= k < |s| ==> IsLower(s[k])
  }

  predicate NoWordChars(s: string) {
    forall k :: 0 <= k < |s| ==> !IsWordChar(s[k])
  }

  /** `a` and `b` agree from position `k` to the end of `a`. */
  predicate AgreeFrom(a: string, b: string, k: nat)
    requires |a| <= |b|
    decreases |a| - k
  {
    k >= |a| || (a[k] == b[k] && AgreeFrom(a, b, k + 1))
  }

  /** `b` is longer than `a` and begins with it. */
  predicate Extends(a: string, b: string) {
    |a| < |b| && AgreeFrom(a, b, 0)
  }

  lemma {:induction false} AgreeFromAll(a: string, b: string, k: nat)
    requires |a| <= |b| && k <= |a|
    requires forall i :: k <= i < |a| ==> a[i] == b[i]
    ensures AgreeFrom(a, b, k)
    decreases |a| - k
  {
    if k < |a| {
      AgreeFromAll(a, b, k + 1);
    }
  }

  lemma ProperPrefixExtends(a: string, b: string)
    requires IsProperPrefix(a, b)
    ensures Extends(a, b)
  {
    StartsWithIsPrefix(b, a);
    assert forall k :: 0 <= k < |a| ==> b[..|a|][k] == b[k];
    AgreeFromAll(a, b, 0);
  }

  /** No operator of `xs` is extended by a later one. */
  predicate NoneExtendedLater(xs: seq<string>) {
    forall i, j :: 0 <= i < j < |xs| ==> !Extends(xs[i], xs[j])
  }

  /** No operator of `xs` is extended by one of `ys`. */
  predicate NoneExtendedBy(xs: seq<string>, ys: seq<string>) {
    forall i, j :: 0 <= i < |xs| && 0 <= j < |ys| ==> !Extends(xs[i], ys[j])
  }

  lemma OperatorLine1()
    ensures NoneExtendedLater(OPERATORS_1)
  {
    var xs, ys := OPERATORS_1[..6], OPERATORS_1[6..];
    OperatorLine1Head();
    OperatorLine1Tail();
    OperatorLine1Across();
    assert OPERATORS_1 == xs + ys;
    NoneExtendedJoin(xs, ys);
  }

  lemma OperatorLine1Head()
    ensures NoneExtendedLater(OPERATORS_1[..6])
  {
  }

  lemma OperatorLine1Tail()
    ensures NoneExtendedLater(OPERATORS_1[6..])
  {
  }

  lemma OperatorLine1Across()
    ensures NoneExtendedBy(OPERATORS_1[..6], OPERATORS_1[6..])
  {
  }

  lemma OperatorLine2()
    ensures NoneExtendedLater(OPERATORS_2)
  {
    var xs, ys := OPERATORS_2[..10], OPERATORS_2[10..];
    OperatorLine2Head();
    OperatorLine2Tail();
    OperatorLine2Across();
    assert OPERATORS_2 == xs + ys;
    NoneExtendedJoin(xs, ys);
  }

  lemma OperatorLine2Head()
    ensures NoneExtendedLater(OPERATORS_2[..10])
  {
  }

  lemma OperatorLine2Tail()
    ensures NoneExtendedLater(OPERATORS_2[10..])
  {
  }

  lemma OperatorLine2Across()
    ensures NoneExtendedBy(OPERATORS_2[..10], OPERATORS_2[10..])
  {
  }


  lemma OperatorLine3()
    ensures NoneExtendedLater(OPERATORS_3)
  {
  }

  lemma OperatorLines12()
    ensures NoneExtendedBy(OPERATORS_1, OPERATORS_2)
  {
  }

  lemma OperatorLines13()
    ensures NoneExtendedBy(OPERATORS_1, OPERATORS_3)
  {
  }

  lemma OperatorLines23()
    ensures NoneExtendedBy(OPERATORS_2, OPERATORS_3)
  {
  }

  /** Joining lines keeps the order property when no earlier line is
      extended by a later one. */
  lemma NoneExtendedJoin(xs: seq<string>, ys: seq<string>)
    requires NoneExtendedLater(xs) && NoneExtendedLater(ys) && NoneExtendedBy(xs, ys)
    ensures NoneExtendedLater(xs + ys)
  {
    var zs := xs + ys;
    forall i, j | 0 <= i < j < |zs| ensures !Extends(zs[i], zs[j]) {
      if j < |xs| {
        assert zs[i] == xs[i] && zs[j] == xs[j];
      } else if i < |xs| {
        assert zs[i] == xs[i] && zs[j] == ys[j - |xs|];
      } else {
        assert zs[i] == ys[i - |xs|] && zs[j] == ys[j - |xs|];
      }
    }
  }

  lemma NoneExtendedByJoin(xs: seq<string>, ys: seq<string>, zs: seq<string>)
    requires NoneExtendedBy(xs, zs) && NoneExtendedBy(ys, zs)
    ensures NoneExtendedBy(xs + ys, zs)
  {
    var ws := xs + ys;
    forall i, j | 0 <= i < |ws| && 0 <= j < |zs| ensures !Extends(ws[i], zs[j]) {
      if i < |xs| {
        assert ws[i] == xs[i];
      } else {
        assert ws[i] == ys[i - |xs|];
      }
    }
  }

  /** Whenever one operator is a proper prefix of another, the longer one is
      tried first, so the first operator of the alternation that matches is
      the longest one that does. */
  lemma OperatorsLongestFirst()
    ensures forall i, j :: 0 <= i < j < |OPERATORS| ==> !IsProperPrefix(OPERATORS[i], OPERATORS[j])
  {
    OperatorLine1();
    OperatorLine2();
    OperatorLine3();
    OperatorLines12();
    OperatorLines13();
    OperatorLines23();
    NoneExtendedJoin(OPERATORS_1, OPERATORS_2);
    NoneExtendedByJoin(OPERATORS_1, OPERATORS_2, OPERATORS_3);
    NoneExtendedJoin(OPERATORS_1 + OPERATORS_2, OPERATORS_3);
    forall i, j | 0 <= i < j < |OPERATORS| ensures !IsProperPrefix(OPERATORS[i], OPERATORS[j]) {
      if IsProperPrefix(OPERATORS[i], OPERATORS[j]) {
        ProperPrefixExtends(OPERATORS[i], OPERATORS[j]);
      }
    }
  }

  lemma AssignmentOperatorsAreOperators()
    ensures forall o :: o in ASSIGNMENT_OPERATOR ==> o in OPERATORS
  {
  }

  /** No assignment operator is a binary operator or a member suffix. */
  lemma AssignmentNotBinary(o: string)
    requires o in ASSIGNMENT_OPERATOR
    ensures o !in BINARY_OPERATOR && o != "." && o != "[" && o != "("
  {
  }

  lemma BinaryOperatorsAreOperators()
    ensures forall o :: o in BINARY_OPERATOR ==> o in OPERATORS
  {
  }

  /** Assignment and binary operators are operators; the unary ones are not
      all operators, because `typeof` is a keyword. */
  lemma OperatorSubsets()
    ensures forall o :: o in ASSIGNMENT_OPERATOR ==> o in OPERATORS
    ensures forall o :: o in BINARY_OPERATOR ==> o in OPERATORS
    ensures "typeof" in UNARY_OPERATOR && "typeof" !in OPERATORS && "typeof" in KEYWORDS
    ensures forall o :: o in UNARY_OPERATOR && o != "typeof" ==> o in OPERATORS
  {
    AssignmentOperatorsAreOperators();
    BinaryOperatorsAreOperators();
    assert "typeof" in KEYWORDS_4;
    OperatorsAreSymbols();
    assert IsWordChar("typeof"[0]);
  }

  /** A word made of lower-case letters. */
  predicate IsLowerWord(w: string) {
    |w| > 0 && AllLower(w)
  }

  /** Every element of `xs` is a lower-case word. */
  predicate AllLowerWords(xs: seq<string>) {
    forall i :: 0 <= i < |xs| ==> IsLowerWord(xs[i])
  }

  lemma KeywordLine1()
    ensures AllLowerWords(KEYWORDS_1)
  {
  }

  lemma KeywordLine2()
    ensures AllLowerWords(KEYWORDS_2)
  {
  }

  lemma KeywordLine3()
    ensures AllLowerWords(KEYWORDS_3)
  {
  }

  lemma KeywordLine4()
    ensures AllLowerWords(KEYWORDS_4)
  {
  }

  lemma LowerWordsJoin(xs: seq<string>, ys: seq<string>)
    requires AllLowerWords(xs) && AllLowerWords(ys)
    ensures AllLowerWords(xs + ys)
  {
    forall i | 0 <= i < |xs + ys| ensures IsLowerWord((xs + ys)[i]) {
      if i < |xs| {
        assert (xs + ys)[i] == xs[i];
      } else {
        assert (xs + ys)[i] == ys[i - |xs|];
      }
    }
  }

  /** Every keyword is a non-empty run of lower-case letters. */
  lemma AllKeywordsLower()
    ensures forall i :: 0 <= i < |KEYWORDS| ==> |KEYWORDS[i]| > 0 && AllLower(KEYWORDS[i])
  {
    KeywordLine1();
    KeywordLine2();
    KeywordLine3();
    KeywordLine4();
    LowerWordsJoin(KEYWORDS_1, KEYWORDS_2);
    LowerWordsJoin(KEYWORDS_1 + KEYWORDS_2, KEYWORDS_3);
    LowerWordsJoin(KEYWORDS_1 + KEYWORDS_2 + KEYWORDS_3, KEYWORDS_4);
    assert forall i :: 0 <= i < |KEYWORDS| ==> IsLowerWord(KEYWORDS[i]);
  }

  /** Every keyword starts with a lower-case letter. */
  lemma KeywordsStartWithLetter()
    ensures forall i :: 0 <= i < |KEYWORDS| ==> |KEYWORDS[i]| > 0 && IsLower(KEYWORDS[i][0])
  {
    AllKeywordsLower();
  }

  /** When one keyword is a proper prefix of another, the longer one goes on
      with a word character, so at most one keyword is followed by a word
      boundary. */
  lemma KeywordExtensionsAreWords()
    ensures forall i, j :: 0 <= i < |KEYWORDS| && 0 <= j < |KEYWORDS| && IsProperPrefix(KEYWORDS[i], KEYWORDS[j]) ==>
      IsWordChar(KEYWORDS[j][|KEYWORDS[i]|])
  {
    AllKeywordsLower();
    forall i, j | 0 <= i < |KEYWORDS| && 0 <= j < |KEYWORDS| && IsProperPrefix(KEYWORDS[i], KEYWORDS[j])
      ensures IsWordChar(KEYWORDS[j][|KEYWORDS[i]|])
    {
      assert IsLower(KEYWORDS[j][|KEYWORDS[i]|]);
    }
  }

  /** A non-empty run of characters that are not word characters. */
  predicate IsSymbolWord(w: string) {
    |w| > 0 && NoWordChars(w)
  }

  /** Every element of `xs` is a symbol word. */
  predicate AllSymbolWords(xs: seq<string>) {
    forall i :: 0 <= i < |xs| ==> IsSymbolWord(xs[i])
  }

  lemma OperatorLine1Symbols()
    ensures AllSymbolWords(OPERATORS_1)
  {
  }

  lemma OperatorLine2Symbols()
    ensures AllSymbolWords(OPERATORS_2)
  {
  }

  lemma OperatorLine3Symbols()
    ensures AllSymbolWords(OPERATORS_3)
  {
  }

  /** Operators are non-empty and contain no word character. */
  lemma OperatorsAreSymbols()
    ensures forall i :: 0 <= i < |OPERATORS| ==> |OPERATORS[i]| > 0 && NoWordChars(OPERATORS[i])
  {
    OperatorLine1Symbols();
    OperatorLine2Symbols();
    OperatorLine3Symbols();
    forall i | 0 <= i < |OPERATORS| ensures |OPERATORS[i]| > 0 && NoWordChars(OPERATORS[i]) {
      if i < |OPERATORS_1| {
        assert OPERATORS[i] == OPERATORS_1[i];
      } else if i < |OPERATORS_1| + |OPERATORS_2| {
        assert OPERATORS[i] == OPERATORS_2[i - |OPERATORS_1|];
      } else {
        assert OPERATORS[i] == OPERATORS_3[i - |OPERATORS_1| - |OPERATORS_2|];
      }
      assert IsSymbolWord(OPERATORS[i]);
    }
  }

  /** No keyword is an operator. */
  lemma KeywordsAndOperatorsDisjoint()
    ensures forall k :: k in KEYWORDS ==> k !in OPERATORS
  {
    KeywordsStartWithLetter();
    OperatorsAreSymbols();
  }
}

=== FILE: formatter.dfy ===
/** The formatter (`RBS::Formatter`): syntax tree to JavaScript text. Every
    compile step threads the formatter's state (scope stack and reference
    counter) and fails where the source raises: a missing field is
    `NoMethodError`, an unknown node type is `raise "unsupported ..."`. */
module Formatter {
  import opened Wrappers
  import opened Text
  import opened Nodes
  import opened Scopes
  import Negators
  import Spreads

  /** The text of one compile step and the state after it. */
  datatype Out = Out(text: string, st: FState)

  /** The texts of a list of compile steps, in order, and the state after them. */
  datatype Outs = Outs(texts: seq<string>, st: FState)

  /** What `compile_call_arguments` hands back: a list of argument texts
      (Ruby `Array`) or one expression producing the argument array (`String`). */
  datatype CallArgs = Listed(texts: seq<string>) | Spread(text: string)

  datatype CallOut = CallOut(args: CallArgs, st: FState)

  /** A compiled function parameter: whether it is a rest parameter, its
      compiled name, and its default-value line ("" when it has none). */
  datatype Parameter = Parameter(splat: bool, name: string, defaultLine: string)

  datatype Compiled = Compiled(params: seq<Parameter>, st: FState)

  /** What `compile_function_arguments` returns: the rest-parameter lines,
      the plain parameter names and the default-value lines. */
  datatype Arranged = Arranged(splats: seq<Line>, args: seq<string>, defaults: seq<string>)

  /** A line that reads a parameter out of `arguments`: a rest parameter
      sliced from its position `index` of `k`, or a plain parameter after a
      rest parameter, `fromEnd` places before the end. */
  datatype Line = Slice(name: string, index: int, k: int) | FromEnd(name: string, fromEnd: int)

  /** A function body: parameter texts, body text, and the names hoisted
      into its `var` line. */
  datatype Body = Body(args: seq<string>, text: string, hoisted: seq<string>, st: FState)

  const EXCEPTION: string := "__rbs_exception"

  // ---------------------------------------------------------------------------
  // Field reads

  /** `v.key` on any Ruby value: only a node has fields. */
  function Field(v: Value, key: string): (r: Result<Value>)
    ensures r.Success? <==> v.Child? && Has(v.node, key)
    ensures r.Success? ==> ValueSize(r.value) < ValueSize(v) && r.value == Get(v.node, key).value
  {
    if v.Child? then Get(v.node, key) else Failure(NoMethod(key))
  }

  /** A field used as text. */
  function FieldStr(v: Value, key: string): (r: Result<string>)
    ensures r.Success? <==> Field(v, key).Success? && Field(v, key).value.Str?
    ensures r.Success? ==> Field(v, key).value == Str(r.value)
  {
    var x :- Field(v, key);
    if x.Str? then Success(x.s) else Failure(TypeMismatch(key))
  }

  /** A field used as a list. */
  function FieldItems(v: Value, key: string): (r: Result<seq<Value>>)
    ensures r.Success? <==> Field(v, key).Success? && Field(v, key).value.Items?
    ensures r.Success? ==> Field(v, key).value == Items(r.value) && ItemsSize(r.value) < ValueSize(v)
  {
    var x :- Field(v, key);
    if x.Items? then Success(x.items) else Failure(TypeMismatch(key))
  }

  /** `list.any?`: some element is truthy. */
  predicate AnyTruthy(xs: seq<Value>) {
    exists i :: 0 <= i < |xs| && Truthy(xs[i])
  }

  /** `ungroup_expression` */
  function Ungroup(v: Value): (r: Result<Value>)
    ensures !IsNode(v, "group_expression") ==> r == Success(v)
    ensures IsNode(v, "group_expression") ==> r == Field(v, "expression")
    ensures r.Success? ==> ValueSize(r.value) <= ValueSize(v)
  {
    if IsNode(v, "group_expression") then Field(v, "expression") else Success(v)
  }

  /** `block`: `{}` for an empty body, else the body on its own lines. */
  function Block(body: string): (r: string)
    ensures body == "" ==> r == "{}"
    ensures body != "" ==> r == "{\n" + body + "\n}"
  {
    if body == "" then "{}" else "{\n" + body + "\n}"
  }

  /** The operator needs a space before its operand (`typeof a`): Ruby's
      `=~ /[a-z]+/`, some lower-case letter. */
  predicate Wordy(op: string) {
    exists i :: 0 <= i < |op| && IsLower(op[i])
  }

  /** `vars -= names`: the names that are not among the given values. */
  function Minus(vars: seq<string>, names: seq<Value>): (r: seq<string>)
    ensures forall x :: x in r <==> x in vars && Str(x) !in names
    ensures NoDup(vars) ==> NoDup(r)
  {
    if |vars| == 0 then []
    else
      var rest := Minus(vars[1..], names);
      assert forall x :: x in vars <==> x == vars[0] || x in vars[1..];
      if Str(vars[0]) in names then rest else [vars[0]] + rest
  }

  /** `arg.name rescue arg.expression.name`: a parameter's name, or the name
      inside a rest parameter. */
  function ArgName(arg: Value): Result<Value> {
    match Field(arg, "name")
    case Success(n) => Success(n)
    case Failure(_) =>
      var e :- Field(arg, "expression");
      Field(e, "name")
  }

  function ArgNames(args: seq<Value>): (r: Result<seq<Value>>)
    ensures r.Success? ==> |r.value| == |args|
    ensures r.Success? ==> forall i :: 0 <= i < |args| ==> ArgName(args[i]) == Success(r.value[i])
  {
    if |args| == 0 then Success([])
    else
      var n :- ArgName(args[0]);
      var rest :- ArgNames(args[1..]);
      Success([n] + rest)
  }

  /** `list.reject { |s| s === :empty_statement }` */
  function NonEmpty(xs: seq<Value>): (r: seq<Value>)
    ensures ItemsSize(r) <= ItemsSize(xs)
    ensures forall i :: 0 <= i < |r| ==> !IsNode(r[i], "empty_statement")
    ensures forall v :: v in r <==> v in xs && !IsNode(v, "empty_statement")
  {
    if |xs| == 0 then []
    else
      var rest := NonEmpty(xs[1..]);
      assert forall v :: v in xs <==> v == xs[0] || v in xs[1..];
      if IsNode(xs[0], "empty_statement") then rest else [xs[0]] + rest
  }

  /** `list.last`, nil for an empty list. */
  function LastOf(xs: seq<Value>): Value {
    if |xs| == 0 then Nil else xs[|xs| - 1]
  }

  /** `ids.map { |id| "#{exception} instanceof #{id.name}" }.join(" || ")` */
  function InstanceTests(ids: seq<Value>, exception: string): (r: Result<string>)
    ensures r.Success? && |ids| > 0 ==> StartsWith(r.value, exception + " instanceof ")
  {
    if |ids| == 0 then Success("")
    else
      var name :- FieldStr(ids[0], "name");
      var test := exception + " instanceof " + name;
      assert StartsWith(test, exception + " instanceof ") by {
        StartsWithIsPrefix(test, exception + " instanceof ");
        assert test[..|exception + " instanceof "|] == exception + " instanceof ";
      }
      if |ids| == 1 then Success(test)
      else
        var rest :- InstanceTests(ids[1..], exception);
        StartsWithIsPrefix(test + " || " + rest, exception + " instanceof ");
        assert (test + " || " + rest)[..|exception + " instanceof "|] == exception + " instanceof ";
        Success(test + " || " + rest)
  }

  // ---------------------------------------------------------------------------
  // Statements

  /** `compile_statement`. An empty statement compiles to nothing (`nil`,
      which joins and interpolates as ""); every other statement to some text. */
  function CompileStatement(v: Value, st: FState): (r: Result<Out>)
    ensures r.Success? ==> Evolves(st, r.value.st)
    ensures r.Success? ==> (r.value.text == "" <==> IsNode(v, "empty_statement"))
    decreases ValueSize(v), 0
  {
    if !v.Child? then Failure(NoMethod("type"))
    else
      var n := v.node;
      var k := n.kind;
      if k == "block_statement" then CompileBlock(n, st)
      else if k == "expression_statement" || k == "delete_statement" then CompileSimple(n, st)
      else if k == "if_statement" then CompileIf(n, st)
      else if k == "unless_statement" || k == "until_statement" then CompileNegatedLoop(n, st)
      else if k == "case_statement" then CompileCase(n, st)
      else if k == "while_statement" || k == "loop_statement" then CompileLoop(n, st)
      else if k == "for_in_statement" then CompileForIn(n, st)
      else if k == "for_of_statement" then CompileForOf(n, st)
      else if k == "try_statement" then CompileTry(n, st)
      else if k == "function_statement" then CompileFunction(n, st)
      else if k == "object_statement" || k == "class_statement" then Failure(Unsupported(k))
      else if k == "return_statement" then CompileReturn(n, st)
      else if k == "next_statement" then Success(Out("continue;", st))
      else if k == "break_statement" then Success(Out("break;", st))
      else if k == "empty_statement" then Success(Out("", st))
      else Failure(Unsupported("unsupported statement: " + k))
  }

  /** `compile_block_statement`: the non-empty statements in braces. */
  function CompileBlock(n: Node, st: FState): (r: Result<Out>)
    ensures r.Success? ==> Evolves(st, r.value.st) && |r.value.text| > 0
    decreases Size(n), 0
  {
    var body :- GetItems(n, "body");
    var o :- CompileStatements(NonEmpty(body), st);
    Success(Out(Block(o.text), o.st))
  }

  /** An expression statement (`e;`) or a `delete e;`. */
  function CompileSimple(n: Node, st: FState): (r: Result<Out>)
    ensures r.Success? ==> Evolves(st, r.value.st) && |r.value.text| > 0
    decreases Size(n), 0
  {
    if n.kind == "expression_statement" then
      var e :- Get(n, "expression");
      var o :- CompileExpression(e, st);
      Success(Out(o.text + ";", o.st))
    else
      var e :- Get(n, "argument");
      var o :- CompileExpression(e, st);
      Success(Out("delete " + o.text + ";", o.st))
  }

  /** `compile_return_statement` */
  function CompileReturn(n: Node, st: FState): (r: Result<Out>)
    ensures r.Success? ==> Evolves(st, r.value.st) && |r.value.text| > 0
    decreases Size(n), 0
  {
    var arg :- Get(n, "argument");
    if Truthy(arg) then
      var o :- CompileExpression(arg, st);
      Success(Out("return " + o.text + ";", o.st))
    else Success(Out("return;", st))
  }

  /** `compile_statements`: the statements' texts joined by line feeds. */
  function CompileStatements(xs: seq<Value>, st: FState): (r: Result<Out>)
    ensures r.Success? ==> Evolves(st, r.value.st)
    decreases ItemsSize(xs), 2
  {
    var o :- StatementTexts(xs, st);
    Success(Out(Join(o.texts, "\n"), o.st))
  }

  function StatementTexts(xs: seq<Value>, st: FState): (r: Result<Outs>)
    ensures r.Success? ==> Evolves(st, r.value.st) && |r.value.texts| == |xs|
    decreases ItemsSize(xs), 1
  {
    if |xs| == 0 then Success(Outs([], st))
    else
      var o :- CompileStatement(xs[0], st);
      var rest :- StatementTexts(xs[1..], o.st);
      EvolvesTransitive(st, o.st, rest.st);
      Success(Outs([o.text] + rest.texts, rest.st))
  }

  /** The test of `if`, `case` and `while`: compiled without its group. */
  function CompileTest(test: Value, st: FState): (r: Result<Out>)
    ensures r.Success? ==> Evolves(st, r.value.st)
    decreases ValueSize(test), 1
  {
    var u :- Ungroup(test);
    CompileExpression(u, st)
  }

  /** The test of `unless` and `until`: `negate` (the simple negation), then
      ungrouped and compiled. The `!` it adds is written out here, as
      `compile_unary_expression` and `compile_group_expression` print it. */
  function CompileNegatedTest(test: Value, st: FState): (r: Result<Out>)
    ensures r.Success? ==> Evolves(st, r.value.st)
    decreases ValueSize(test), 1
  {
    var neg :- Negators.Negation(test);
    if neg then
      var arg :- Field(test, "argument");
      var u :- Ungroup(arg);
      CompileExpression(u, st)
    else
      var o :- CompileExpression(test, st);
      if IsNode(test, "identifier") || IsNode(test, "literal") || IsNode(test, "group_expression") then
        Success(Out("!" + o.text, o.st))
      else Success(Out("!(" + o.text + ")", o.st))
  }

  /** `compile_if_statement` */
  function CompileIf(n: Node, st: FState): (r: Result<Out>)
    ensures r.Success? ==> Evolves(st, r.value.st) && |r.value.text| > 0
    decreases Size(n), 0
  {
    var test :- Get(n, "test");
    var t :- CompileTest(test, st);
    var cons :- Get(n, "consequent");
    var b :- CompileStatement(cons, t.st);
    var alt :- Get(n, "alternate");
    EvolvesTransitive(st, t.st, b.st);
    if Truthy(alt) then
      var a :- CompileStatement(alt, b.st);
      EvolvesTransitive(st, b.st, a.st);
      Success(Out("if (" + t.text + ") " + b.text + " else " + a.text, a.st))
    else Success(Out("if (" + t.text + ") " + b.text, b.st))
  }

  /** `compile_unless_statement` and `compile_until_statement`: the negated
      test in an `if` or a `while`. */
  function CompileNegatedLoop(n: Node, st: FState): (r: Result<Out>)
    ensures r.Success? ==> Evolves(st, r.value.st) && |r.value.text| > 0
    decreases Size(n), 0
  {
    var test :- Get(n, "test");
    var t :- CompileNegatedTest(test, st);
    var cons :- Get(n, "consequent");
    var b :- CompileStatement(cons, t.st);
    EvolvesTransitive(st, t.st, b.st);
    var head := if n.kind == "unless_statement" then "if (" else "while (";
    Success(Out(head + t.text + ") " + b.text, b.st))
  }

  /** `compile_while_statement` and `compile_loop_statement` (`while (1)`). */
  function CompileLoop(n: Node, st: FState): (r: Result<Out>)
    ensures r.Success? ==> Evolves(st, r.value.st) && |r.value.text| > 0
    decreases Size(n), 0
  {
    if n.kind == "loop_statement" then
      var cons :- Get(n, "consequent");
      var b :- CompileStatement(cons, st);
      Success(Out("while (1) " + b.text, b.st))
    else
      var test :- Get(n, "test");
      var t :- CompileTest(test, st);
      var cons :- Get(n, "consequent");
      var b :- CompileStatement(cons, t.st);
      EvolvesTransitive(st, t.st, b.st);
      Success(Out("while (" + t.text + ") " + b.text, b.st))
  }

  /** `compile_case_statement` */
  function CompileCase(n: Node, st: FState): (r: Result<Out>)
    ensures r.Success? ==> Evolves(st, r.value.st) && |r.value.text| > 0
    decreases Size(n), 0
  {
    var test :- Get(n, "test");
    var t :- CompileTest(test, st);
    var cases :- GetItems(n, "cases");
    var cs :- CaseClauses(cases, t.st);
    var alt :- Get(n, "alternate");
    EvolvesTransitive(st, t.st, cs.st);
    if Truthy(alt) then
      var body :- FieldItems(alt, "body");
      var d :- CompileStatements(body, cs.st);
      EvolvesTransitive(st, cs.st, d.st);
      var all := cs.texts + ["default:\n" + d.text];
      Success(Out("switch (" + t.text + ") {\n" + Join(all, "\n") + "\n}", d.st))
    else Success(Out("switch (" + t.text + ") {\n" + Join(cs.texts, "\n") + "\n}", cs.st))
  }

  function CaseClauses(xs: seq<Value>, st: FState): (r: Result<Outs>)
    ensures r.Success? ==> Evolves(st, r.value.st) && |r.value.texts| == |xs|
    decreases ItemsSize(xs), 1
  {
    if |xs| == 0 then Success(Outs([], st))
    else
      var o :- CaseClause(xs[0], st);
      var rest :- CaseClauses(xs[1..], o.st);
      EvolvesTransitive(st, o.st, rest.st);
      Success(Outs([o.text] + rest.texts, rest.st))
  }

  /** One `when`: a `case` label per test, the body, and `break;` unless the
      body's last statement is a `return`. */
  function CaseClause(c: Value, st: FState): (r: Result<Out>)
    ensures r.Success? ==> Evolves(st, r.value.st)
    decreases ValueSize(c), 0
  {
    var tests :- FieldItems(c, "tests");
    var ts :- ExpressionTexts(tests, st);
    var labels := Labels(ts.texts);
    var cons :- Field(c, "consequent");
    if Truthy(cons) then
      var body :- FieldItems(cons, "body");
      var b :- CompileStatements(body, ts.st);
      EvolvesTransitive(st, ts.st, b.st);
      if IsNode(LastOf(body), "return_statement") then Success(Out(labels + "\n" + b.text, b.st))
      else Success(Out(labels + "\n" + b.text + "\nbreak;", b.st))
    else Success(Out(labels + "\nbreak;", ts.st))
  }

  /** `tests.map { |t| "case #{t}:" }.join("\n")` */
  function Labels(tests: seq<string>): string {
    if |tests| == 0 then ""
    else if |tests| == 1 then "case " + tests[0] + ":"
    else "case " + tests[0] + ":" + "\n" + Labels(tests[1..])
  }

  /** `compile_for_in_statement` */
  function CompileForIn(n: Node, st: FState): (r: Result<Out>)
    ensures r.Success? ==> Evolves(st, r.value.st) && |r.value.text| > 0
    decreases Size(n), 0
  {
    var key :- Get(n, "key");
    var k :- CompileDeclared(key, st);
    var obj :- Get(n, "object");
    var o :- CompileExpression(obj, k.st);
    var blk :- Get(n, "block");
    var b :- CompileStatement(blk, o.st);
    var value :- Get(n, "value");
    EvolvesTransitive(st, k.st, o.st);
    EvolvesTransitive(st, o.st, b.st);
    if Truthy(value) then
      var x :- CompileDeclared(value, b.st);
      var body :- Rebody(x.text + " = " + o.text + "[" + k.text + "];", b.text);
      EvolvesTransitive(st, b.st, x.st);
      Success(Out("for (" + k.text + " in " + o.text + ") " + body, x.st))
    else Success(Out("for (" + k.text + " in " + o.text + ") " + b.text, b.st))
  }

  /** `declare_scope_variable x = compile_expression(v)`: the compiled name,
      declared in the current scope. */
  function CompileDeclared(v: Value, st: FState): (r: Result<Out>)
    ensures r.Success? ==> Evolves(st, r.value.st) && Visible(r.value.st.scopes, r.value.text)
    decreases ValueSize(v), 1
  {
    var o :- CompileExpression(v, st);
    var s :- Declare(o.st, o.text);
    EvolvesTransitive(st, o.st, s);
    Success(Out(o.text, s))
  }

  /** A block with an assignment put first: `"{\n" + line + "\n" +
      body.slice(1..-1)`. An empty body (`nil`) has no `slice`. */
  function Rebody(line: string, body: string): (r: Result<string>)
    ensures r.Success? <==> body != ""
    ensures r.Success? ==> r.value == "{\n" + line + "\n" + body[1..]
  {
    if body == "" then Failure(NoMethod("slice")) else Success("{\n" + line + "\n" + body[1..])
  }

  /** `compile_for_of_statement`: an index loop over `collection.length`,
      with generated references for the length and, without an index
      variable, for the index. */
  function CompileForOf(n: Node, st: FState): (r: Result<Out>)
    ensures r.Success? ==> Evolves(st, r.value.st) && |r.value.text| > 0
    decreases Size(n), 0
  {
    var value :- Get(n, "value");
    var x :- CompileDeclared(value, st);
    var coll :- Get(n, "collection");
    var c :- CompileExpression(coll, x.st);
    var blk :- Get(n, "block");
    var b :- CompileStatement(blk, c.st);
    var idx :- Get(n, "index");
    EvolvesTransitive(st, x.st, c.st);
    EvolvesTransitive(st, c.st, b.st);
    var i :- ForOfIndex(idx, b.st);
    EvolvesTransitive(st, b.st, i.st);
    var tail :- ForOfLoop(x.text, c.text, i, b.text);
    EvolvesTransitive(st, i.st, tail.st);
    Success(tail)
  }

  /** The `for (...)` head with the length reference, and the body with the
      element assignment first. */
  function ForOfLoop(value: string, collection: string, i: Out, body: string): (r: Result<Out>)
    ensures r.Success? ==> Evolves(i.st, r.value.st) && |r.value.text| > 0
  {
    var len :- GenerateReference(i.st);
    var block :- Rebody(value + " = " + collection + "[" + i.text + "];", body);
    Success(Out(ForOfHead(i.text, len.0, collection) + block, len.1))
  }

  /** `for (i = 0, len = collection.length; i < len; i++) ` */
  function ForOfHead(index: string, len: string, collection: string): (r: string)
    ensures StartsWith(r, "for (" + index + " = 0, " + len + " = ")
  {
    var head := "for (" + index + " = 0, " + len + " = ";
    var r := head + collection + ".length; " + index + " < " + len + "; " + index + "++) ";
    StartsWithIsPrefix(r, head);
    assert r[..|head|] == head;
    r
  }

  /** The loop index of `for ... of`: the declared index variable, or a
      generated reference. */
  function ForOfIndex(idx: Value, st: FState): (r: Result<Out>)
    ensures r.Success? ==> Evolves(st, r.value.st) && Visible(r.value.st.scopes, r.value.text)
    ensures !Truthy(idx) ==> r == (match GenerateReference(st)
      case Success(g) => Success(Out(g.0, g.1))
      case Failure(e) => Failure(e))
    decreases ValueSize(idx), 2
  {
    if Truthy(idx) then CompileDeclared(idx, st)
    else
      var g :- GenerateReference(st);
      Success(Out(g.0, g.1))
  }

  /** `compile_try_statement` */
  function CompileTry(n: Node, st: FState): (r: Result<Out>)
    ensures r.Success? ==> Evolves(st, r.value.st) && |r.value.text| > 0
    decreases Size(n), 0
  {
    var blk :- Get(n, "block");
    var b :- CompileStatement(blk, st);
    var fin :- Get(n, "finalizer");
    var f :- Finalizer(fin, b.st);
    var hs :- GetItems(n, "handlers");
    EvolvesTransitive(st, b.st, f.st);
    if |hs| == 0 && Truthy(fin) then Success(Out("try " + b.text + f.text, f.st))
    else
      var h :- Handlers(hs, f.st);
      EvolvesTransitive(st, f.st, h.st);
      Success(Out("try " + b.text + " catch (" + h.text + f.text, h.st))
  }

  /** `"\nfinally #{...}" if node.finalizer` */
  function Finalizer(fin: Value, st: FState): (r: Result<Out>)
    ensures r.Success? ==> Evolves(st, r.value.st)
    ensures !Truthy(fin) ==> r == Success(Out("", st))
    decreases ValueSize(fin), 1
  {
    if Truthy(fin) then
      var f :- CompileStatement(fin, st);
      Success(Out("\nfinally " + f.text, f.st))
    else Success(Out("", st))
  }

  /** The part after `catch (`: the exception's name, `) ` and the handler
      block, for no handler (a rethrow), one, or several. */
  function Handlers(hs: seq<Value>, st: FState): (r: Result<Out>)
    ensures r.Success? ==> Evolves(st, r.value.st)
    decreases ItemsSize(hs), 3
  {
    if |hs| == 0 then
      Success(Out(EXCEPTION + ") " + HandlerBlock("", Rethrow(EXCEPTION)), st))
    else if |hs| == 1 then
      var exception :- SoleException(hs[0]);
      ItemWithin(hs, 0);
      var c :- CatchClause(hs[0], exception, st);
      Success(Out(exception + ") " + HandlerBlock("", c.text), c.st))
    else
      var names :- Bindings(hs);
      var c :- CatchClauses(hs, CaughtAs(names), st);
      Success(Out(CaughtAs(names) + ") " + HandlerBlock(Hoisted(names), c.text), c.st))
  }

  /** `throw exception;` */
  function Rethrow(exception: string): string {
    "throw " + exception + ";"
  }

  /** The name a lone handler binds: its parameter's, or the default. */
  function SoleException(h: Value): (r: Result<string>)
    ensures Field(h, "param").Success? && !Truthy(Field(h, "param").value) ==> r == Success(EXCEPTION)
  {
    var p :- Field(h, "param");
    if Truthy(p) then FieldStr(p, "name") else Success(EXCEPTION)
  }

  /** The distinct parameter names of several handlers (`uniq` by name, then
      `compact`). */
  function Bindings(hs: seq<Value>): (r: Result<seq<string>>)
  {
    var ps :- HandlerParams(hs);
    var keys :- ParamKeys(ps);
    ParamNames(Compact(UniqBy(ps, keys, [])))
  }

  /** The name caught when there are several handlers: the one shared
      parameter name, or the default. */
  function CaughtAs(names: seq<string>): (r: string)
    ensures |names| != 1 ==> r == EXCEPTION
  {
    if |names| == 1 then names[0] else EXCEPTION
  }

  /** `var a, b;` declaring the handlers' names when there are two or more. */
  function Hoisted(names: seq<string>): (r: string)
    ensures |names| < 2 <==> r == ""
  {
    if |names| >= 2 then "var " + Join(names, ", ") + ";\n" else ""
  }

  /** `"{\n#{exceptions}#{handlers}\n}"`, or `{}` when there is no handler text. */
  function HandlerBlock(exceptions: string, handlers: string): string {
    if handlers == "" then "{}" else "{\n" + exceptions + handlers + "\n}"
  }

  /** `node.handlers.map(&:param)` */
  function HandlerParams(hs: seq<Value>): (r: Result<seq<Value>>)
    ensures r.Success? ==> |r.value| == |hs|
    ensures r.Success? ==> forall i :: 0 <= i < |hs| ==> Field(hs[i], "param") == Success(r.value[i])
  {
    if |hs| == 0 then Success([])
    else
      var p :- Field(hs[0], "param");
      var rest :- HandlerParams(hs[1..]);
      Success([p] + rest)
  }

  /** The `uniq` key `param && param.name`: the name of a truthy parameter,
      the parameter itself otherwise. */
  function ParamKeys(ps: seq<Value>): (r: Result<seq<Value>>)
    ensures r.Success? ==> |r.value| == |ps|
    ensures r.Success? ==> forall i :: 0 <= i < |ps| ==> KeyOf(ps[i], r.value[i])
  {
    if |ps| == 0 then Success([])
    else
      var k :- if Truthy(ps[0]) then Field(ps[0], "name") else Success(ps[0]);
      var rest :- ParamKeys(ps[1..]);
      Success([k] + rest)
  }

  predicate KeyOf(p: Value, key: Value) {
    if Truthy(p) then Field(p, "name") == Success(key) else key == p
  }

  /** `uniq { ... }`: each parameter paired with its key, keeping the first
      parameter for each key not yet `seen`, in order. */
  function UniqBy(ps: seq<Value>, keys: seq<Value>, seen: seq<Value>): (r: seq<(Value, Value)>)
    requires |keys| == |ps|
    ensures |r| <= |ps|
    ensures forall i :: 0 <= i < |r| ==> r[i].1 !in seen
    ensures forall i, j :: 0 <= i < j < |r| ==> r[i].1 != r[j].1
    ensures (forall j :: 0 <= j < |ps| ==> KeyOf(ps[j], keys[j])) ==>
      forall i :: 0 <= i < |r| ==> KeyOf(r[i].0, r[i].1)
  {
    if |ps| == 0 then []
    else if keys[0] in seen then UniqBy(ps[1..], keys[1..], seen)
    else
      var tail := UniqBy(ps[1..], keys[1..], seen + [keys[0]]);
      var r := [(ps[0], keys[0])] + tail;
      assert forall i :: 1 <= i < |r| ==> r[i] == tail[i - 1];
      r
  }

  /** `compact`: the pairs whose parameter is not nil. */
  function Compact(ps: seq<(Value, Value)>): (r: seq<(Value, Value)>)
    ensures forall x :: x in r <==> x in ps && x.0 != Nil
  {
    if |ps| == 0 then []
    else
      assert forall x :: x in ps <==> x == ps[0] || x in ps[1..];
      if ps[0].0 == Nil then Compact(ps[1..]) else [ps[0]] + Compact(ps[1..])
  }

  /** `params.map(&:name)`, each used as text. */
  function ParamNames(ps: seq<(Value, Value)>): (r: Result<seq<string>>)
    ensures r.Success? ==> |r.value| == |ps|
    ensures r.Success? ==> forall i :: 0 <= i < |ps| ==> FieldStr(ps[i].0, "name") == Success(r.value[i])
  {
    if |ps| == 0 then Success([])
    else
      var n :- FieldStr(ps[0].0, "name");
      var rest :- ParamNames(ps[1..]);
      Success([n] + rest)
  }

  /** A handler's statements compiled, or nothing when none is truthy. */
  function HandlerBody(body: seq<Value>, st: FState): (r: Result<Out>)
    ensures r.Success? ==> Evolves(st, r.value.st)
    ensures !AnyTruthy(body) ==> r == Success(Out("", st))
    decreases ItemsSize(body), 3
  {
    if AnyTruthy(body) then CompileStatements(body, st) else Success(Out("", st))
  }

  /** `compile_catch_clause`: the lone handler's body, behind an `instanceof`
      test that rethrows otherwise when the handler names classes. */
  function CatchClause(h: Value, exception: string, st: FState): (r: Result<Out>)
    ensures r.Success? ==> Evolves(st, r.value.st)
    decreases ValueSize(h), 0
  {
    var body :- FieldItems(h, "body");
    var b :- HandlerBody(body, st);
    var ids :- FieldItems(h, "class_names");
    if AnyTruthy(ids) then
      var test :- InstanceTests(ids, exception);
      Success(Out(Guarded(test, Block(b.text)) + " else {\n" + Rethrow(exception) + "\n}", b.st))
    else Success(b)
  }

  /** `if (test) body` */
  function Guarded(test: string, body: string): string {
    "if (" + test + ") " + body
  }

  /** `compile_catch_clauses`: the handlers' texts chained with `else`, and
      a final rethrow unless some handler names no class. */
  function CatchClauses(hs: seq<Value>, exception: string, st: FState): (r: Result<Out>)
    ensures r.Success? ==> Evolves(st, r.value.st)
    decreases ItemsSize(hs), 2
  {
    var cs :- Conditions(hs, exception, st);
    Success(Out(Chain(cs.texts, CatchesAll(hs), exception), cs.st))
  }

  /** The conditions joined by ` else `, ending in a rethrow unless
      `catchesAll`. */
  function Chain(conditions: seq<string>, catchesAll: bool, exception: string): string {
    if catchesAll then Join(conditions, " else ")
    else Join(conditions, " else ") + " else {\n" + Rethrow(exception) + "\n}"
  }

  /** `handlers.any? { |h| h.class_names.empty? }` */
  predicate CatchesAll(hs: seq<Value>) {
    exists i :: 0 <= i < |hs| && FieldItems(hs[i], "class_names") == Success([])
  }

  function Conditions(hs: seq<Value>, exception: string, st: FState): (r: Result<Outs>)
    ensures r.Success? ==> Evolves(st, r.value.st) && |r.value.texts| == |hs|
    decreases ItemsSize(hs), 1
  {
    if |hs| == 0 then Success(Outs([], st))
    else
      ItemWithin(hs, 0);
      var c :- Condition(hs[0], exception, st);
      var rest :- Conditions(hs[1..], exception, c.st);
      EvolvesTransitive(st, c.st, rest.st);
      Success(Outs([c.text] + rest.texts, rest.st))
  }

  /** One handler of several: its own name bound to the caught exception
      when the two differ, its body, and its `instanceof` test. */
  function Condition(h: Value, exception: string, st: FState): (r: Result<Out>)
    ensures r.Success? ==> Evolves(st, r.value.st)
    decreases ValueSize(h), 0
  {
    var ex :- Rebinding(h, exception);
    var body :- FieldItems(h, "body");
    var b :- HandlerBody(body, st);
    var text := if AnyTruthy(body) then "{\n" + ex + b.text + "\n}" else "{}";
    var ids :- FieldItems(h, "class_names");
    if AnyTruthy(ids) then
      var test :- InstanceTests(ids, exception);
      Success(Out(Guarded(test, text), b.st))
    else Success(Out(text, b.st))
  }

  /** `name = exception;` when the handler's parameter has another name. */
  function Rebinding(h: Value, exception: string): (r: Result<string>)
    ensures r.Success? && r.value != "" ==> Field(h, "param").Success? && Truthy(Field(h, "param").value)
  {
    var p :- Field(h, "param");
    if Truthy(p) then
      var name :- FieldStr(p, "name");
      if name != exception then Success(name + " = " + exception + ";\n") else Success("")
    else Success("")
  }

  /** `compile_function_statement` (without a parent object): a function
      declaration for a plain name, an assigned function expression for a
      member name. */
  function CompileFunction(n: Node, st: FState): (r: Result<Out>)
    ensures r.Success? ==> Evolves(st, r.value.st) && |r.value.text| > 0
    decreases Size(n), 2
  {
    var id :- Get(n, "id");
    var name :- CompileExpression(id, st);
    var f :- FunctionBody(n, false, name.st);
    EvolvesTransitive(st, name.st, f.st);
    if IsNode(id, "identifier") then
      Success(Out("function " + name.text + "(" + Join(f.args, ", ") + ") " + Block(f.text), f.st))
    else
      Success(Out(name.text + " = function (" + Join(f.args, ", ") + ") " + Block(f.text) + ";", f.st))
  }

  /** `compile_function_body`, and the same steps in
      `compile_lambda_expression`: parameters compiled in the enclosing
      scope, the body in a new scope, its names minus the parameters hoisted
      into one `var` line. */
  function FunctionBody(n: Node, traversable: bool, st: FState): (r: Result<Body>)
    ensures r.Success? ==> Evolves(st, r.value.st)
    ensures r.Success? ==> GetItems(n, "arguments").Success? && ArgNames(GetItems(n, "arguments").value).Success?
    ensures r.Success? ==> forall x :: x in r.value.hoisted ==> Str(x) !in ArgNames(GetItems(n, "arguments").value).value
    ensures r.Success? && Wf(st) ==> NoDup(r.value.hoisted)
    decreases Size(n), 1
  {
    var c :- FunctionArguments(n, st);
    var a := Arrange(c.params, |c.params|, 0, false);
    var blk :- Get(n, "block");
    var stmts :- FieldItems(blk, "body");
    var inner := Push(c.st, traversable);
    var b :- CompileStatements(stmts, inner);
    PopAfterPush(c.st, traversable, b.st);
    var (outer, vars) := Pop(b.st);
    match GetItems(n, "arguments")
    case Failure(e) => Failure(e)
    case Success(args) =>
    var names :- ArgNames(args);
    var hoisted := Minus(vars, names);
    var declared := Chomp(CompileVars(hoisted));
    var pieces := Rendered(a.splats) + a.defaults + (if declared == "" then [] else [declared]) + (if b.text == "" then [] else [b.text]);
    EvolvesTransitive(st, c.st, outer);
    Success(Body(a.args, Join(pieces, "\n"), hoisted, outer))
  }

  /** A list field. */
  function GetItems(n: Node, key: string): (r: Result<seq<Value>>)
    ensures r.Success? <==> Get(n, key).Success? && Get(n, key).value.Items?
    ensures r.Success? ==> Get(n, key).value == Items(r.value) && ItemsSize(r.value) < Size(n)
  {
    var x :- Get(n, key);
    if x.Items? then Success(x.items) else Failure(TypeMismatch(key))
  }

  /** `compile_function_arguments`, first half: every parameter compiled in
      order (a rest parameter's expression; a plain parameter, then its
      default-value line). */
  function FunctionArguments(n: Node, st: FState): (r: Result<Compiled>)
    ensures r.Success? ==> Evolves(st, r.value.st)
    ensures r.Success? ==> GetItems(n, "arguments").Success?
    ensures r.Success? ==> |r.value.params| == |GetItems(n, "arguments").value|
    decreases Size(n), 0
  {
    var args :- GetItems(n, "arguments");
    CompileParams(args, st)
  }

  function CompileParams(args: seq<Value>, st: FState): (r: Result<Compiled>)
    ensures r.Success? ==> Evolves(st, r.value.st) && |r.value.params| == |args|
    ensures r.Success? ==> forall i :: 0 <= i < |args| ==>
      r.value.params[i].splat == IsNode(args[i], "splat_expression")
    decreases ItemsSize(args), 3
  {
    if |args| == 0 then Success(Compiled([], st))
    else
      ItemWithin(args, 0);
      var p :- CompileParam(args[0], st);
      var rest :- CompileParams(args[1..], p.1);
      EvolvesTransitive(st, p.1, rest.st);
      Success(Compiled([p.0] + rest.params, rest.st))
  }

  function CompileParam(arg: Value, st: FState): (r: Result<(Parameter, FState)>)
    ensures r.Success? ==> Evolves(st, r.value.1)
    ensures r.Success? ==> r.value.0.splat == IsNode(arg, "splat_expression")
    ensures r.Success? && r.value.0.splat ==> r.value.0.defaultLine == ""
    decreases ValueSize(arg), 2
  {
    if IsNode(arg, "splat_expression") then
      var e :- Field(arg, "expression");
      var x :- CompileExpression(e, st);
      Success((Parameter(true, x.text, ""), x.st))
    else
      var x :- CompileExpression(arg, st);
      var d :- Field(arg, "default");
      var def :- DefaultLine(arg, d, x.st);
      EvolvesTransitive(st, x.st, def.st);
      Success((Parameter(false, x.text, def.text), def.st))
  }

  /** `compile_function_arguments`, second half: the parameters from
      position `index` of `k` on, `seen` telling whether a rest parameter
      came before. Before the first rest parameter a plain parameter stays a
      JavaScript parameter; from it on, every parameter becomes a line that
      reads `arguments`. */
  function Arrange(ps: seq<Parameter>, k: int, index: int, seen: bool): (r: Arranged)
    ensures |r.splats| + |r.args| == |ps|
    ensures seen ==> r.args == []
  {
    if |ps| == 0 then Arranged([], [], [])
    else
      var p := ps[0];
      var tail := Arrange(ps[1..], k, index + 1, seen || p.splat);
      var defaults := (if p.defaultLine == "" then [] else [p.defaultLine]) + tail.defaults;
      if p.splat || seen then Arranged([ParamLine(p, index, k)] + tail.splats, tail.args, defaults)
      else Arranged(tail.splats, [p.name] + tail.args, defaults)
  }

  /** The line a parameter at position `index` of `k` becomes at or after
      the first rest parameter. */
  function ParamLine(p: Parameter, index: int, k: int): Line {
    if p.splat then Slice(p.name, index, k) else FromEnd(p.name, k - index)
  }

  function Render(l: Line): string {
    match l
    case Slice(name, index, k) => RestLine(name, index, k)
    case FromEnd(name, fromEnd) => Pickup(name, fromEnd)
  }

  function Rendered(ls: seq<Line>): (r: seq<string>)
    ensures |r| == |ls| && forall i :: 0 <= i < |ls| ==> r[i] == Render(ls[i])
  {
    seq(|ls|, i requires 0 <= i < |ls| => Render(ls[i]))
  }

  /** The line for a rest parameter at position `index` of `k`. */
  function RestLine(name: string, index: int, k: int): string {
    if index == 0 && k == 1 then "var " + name + " = " + SLICE_ARGUMENTS + ");"
    else if index == k - 1 then "var " + name + " = " + SLICE_ARGUMENTS + ", " + IntToString(index) + ");"
    else "var " + name + " = " + SLICE_ARGUMENTS + ", " + IntToString(index) + ", " + IntToString(index - k + 1) + ");"
  }

  const SLICE_ARGUMENTS: string := "Array.prototype.slice.call(arguments"

  /** The line for a plain parameter after a rest parameter, `fromEnd`
      places before the end of `arguments`. */
  function Pickup(name: string, fromEnd: int): string {
    "var " + name + " = " + ARGUMENTS_FROM_END + IntToString(fromEnd) + "];"
  }

  const ARGUMENTS_FROM_END: string := "arguments[arguments.length - "

  /** `if (a === undefined) a = value;` for a parameter with a default. */
  function DefaultLine(arg: Value, d: Value, st: FState): (r: Result<Out>)
    requires ValueSize(d) < ValueSize(arg)
    ensures r.Success? ==> Evolves(st, r.value.st)
    ensures r.Success? ==> (r.value.text == "" <==> !Truthy(d))
    decreases ValueSize(arg), 1
  {
    if Truthy(d) then
      var name :- CompileExpression(arg, st);
      var value :- CompileExpression(d, name.st);
      EvolvesTransitive(st, name.st, value.st);
      Success(Out("if (" + name.text + " === undefined) " + name.text + " = " + value.text + ";", value.st))
    else Success(Out("", st))
  }

  // ---------------------------------------------------------------------------
  // Expressions

  /** `compile_expression` */
  function CompileExpression(v: Value, st: FState): (r: Result<Out>)
    ensures r.Success? ==> Evolves(st, r.value.st)
    decreases ValueSize(v), 0
  {
    if !v.Child? then Failure(NoMethod("type"))
    else
      var n := v.node;
      var k := n.kind;
      if k == "identifier" || k == "literal" then
        var text :- Leaf(n);
        Success(Out(text, st))
      else if k == "lambda_expression" then CompileLambda(n, st)
      else if k == "group_expression" || k == "unary_expression" then CompileWrapped(n, st)
      else if k == "array_expression" || k == "object_expression" then CompileCollection(n, st)
      else if k == "member_expression" then CompileMember(n, st)
      else if k == "call_expression" || k == "new_expression" then CompileCall(n, st)
      else if k == "binary_expression" || k == "assignment_expression" then CompileOperation(n, st)
      else Failure(Unsupported("unsupported expression: " + k))
  }

  /** `compile_identifier` (a plain name; `super` is not modelled) and a
      literal's source text. */
  function Leaf(n: Node): (r: Result<string>)
    ensures n.kind == "identifier" && r.Success? ==> GetStr(n, "name") == r && r.value != "super"
    ensures n.kind != "identifier" ==> r == GetStr(n, "value")
  {
    if n.kind == "identifier" then
      var name :- GetStr(n, "name");
      if name == "super" then Failure(Unsupported("super")) else Success(name)
    else GetStr(n, "value")
  }

  /** `compile_lambda_expression`: an anonymous function whose scope lets
      outer names through. */
  function CompileLambda(n: Node, st: FState): (r: Result<Out>)
    ensures r.Success? ==> Evolves(st, r.value.st)
    decreases Size(n), 2
  {
    var f :- FunctionBody(n, true, st);
    Success(Out("function (" + Join(f.args, ", ") + ") " + Block(f.text), f.st))
  }

  /** `compile_group_expression` (`(e)`) and `compile_unary_expression`
      (the operator, a space when it is a word, the operand). */
  function CompileWrapped(n: Node, st: FState): (r: Result<Out>)
    ensures r.Success? ==> Evolves(st, r.value.st)
    decreases Size(n), 0
  {
    if n.kind == "group_expression" then
      var e :- Get(n, "expression");
      var o :- CompileExpression(e, st);
      Success(Out("(" + o.text + ")", o.st))
    else
      var op :- GetStr(n, "operator");
      var arg :- Get(n, "argument");
      var o :- CompileExpression(arg, st);
      Success(Out(op + (if Wordy(op) then " " else "") + o.text, o.st))
  }

  /** `compile_array_expression` and `compile_object_expression`. */
  function CompileCollection(n: Node, st: FState): (r: Result<Out>)
    ensures r.Success? ==> Evolves(st, r.value.st)
    decreases Size(n), 0
  {
    if n.kind == "array_expression" then
      var els :- GetItems(n, "elements");
      var o :- ExpressionTexts(els, st);
      Success(Out("[" + Join(o.texts, ", ") + "]", o.st))
    else
      var props :- GetItems(n, "properties");
      if AnyTruthy(props) then
        var o :- PropertyTexts(props, st);
        Success(Out("{ " + Join(o.texts, ", ") + " }", o.st))
      else Success(Out("{}", st))
  }

  function ExpressionTexts(xs: seq<Value>, st: FState): (r: Result<Outs>)
    ensures r.Success? ==> Evolves(st, r.value.st) && |r.value.texts| == |xs|
    decreases ItemsSize(xs), 1
  {
    if |xs| == 0 then Success(Outs([], st))
    else
      var o :- CompileExpression(xs[0], st);
      var rest :- ExpressionTexts(xs[1..], o.st);
      EvolvesTransitive(st, o.st, rest.st);
      Success(Outs([o.text] + rest.texts, rest.st))
  }

  /** Object properties as `key: value`. */
  function PropertyTexts(xs: seq<Value>, st: FState): (r: Result<Outs>)
    ensures r.Success? ==> Evolves(st, r.value.st) && |r.value.texts| == |xs|
    decreases ItemsSize(xs), 1
  {
    if |xs| == 0 then Success(Outs([], st))
    else
      var p := xs[0];
      var key :- Field(p, "key");
      var k :- CompileExpression(key, st);
      var value :- Field(p, "value");
      var v :- CompileExpression(value, k.st);
      var rest :- PropertyTexts(xs[1..], v.st);
      EvolvesTransitive(st, k.st, v.st);
      EvolvesTransitive(st, v.st, rest.st);
      Success(Outs([k.text + ": " + v.text] + rest.texts, rest.st))
  }

  /** `compile_member_expression` */
  function CompileMember(n: Node, st: FState): (r: Result<Out>)
    ensures r.Success? ==> Evolves(st, r.value.st)
    decreases Size(n), 0
  {
    var obj :- Get(n, "object");
    var o :- CompileExpression(obj, st);
    var prop :- Get(n, "property");
    var p :- CompileExpression(prop, o.st);
    var computed :- Get(n, "computed");
    EvolvesTransitive(st, o.st, p.st);
    if Truthy(computed) then Success(Out(o.text + "[" + p.text + "]", p.st))
    else Success(Out(o.text + "." + p.text, p.st))
  }

  /** `compile_binary_expression` and `compile_assignment_expression`; an
      assignment to a plain name declares it first. */
  function CompileOperation(n: Node, st: FState): (r: Result<Out>)
    ensures r.Success? ==> Evolves(st, r.value.st)
    decreases Size(n), 0
  {
    var left :- Get(n, "left");
    var s1 :- if n.kind == "assignment_expression" && IsNode(left, "identifier") then
        var name :- FieldStr(left, "name");
        Declare(st, name)
      else Success(st);
    var l :- CompileExpression(left, s1);
    var op :- GetStr(n, "operator");
    var right :- Get(n, "right");
    var rr :- CompileExpression(right, l.st);
    EvolvesTransitive(st, s1, l.st);
    EvolvesTransitive(st, l.st, rr.st);
    Success(Out(l.text + " " + op + " " + rr.text, rr.st))
  }

  function GetStr(n: Node, key: string): (r: Result<string>)
    ensures r.Success? <==> Get(n, key).Success? && Get(n, key).value.Str?
    ensures r.Success? ==> Get(n, key).value == Str(r.value)
  {
    var x :- Get(n, key);
    if x.Str? then Success(x.s) else Failure(TypeMismatch(key))
  }

  /** The helper `compile_new_expression` calls with a spread argument array. */
  const NEW_SPREAD_HEAD: string :=
    "(function (fn, args, ctor) {" +
    "  ctor.constructor = fn.constructor;" +
    "  var child = new ctor(), result = fn.apply(child, args), t = typeof result;" +
    "  return (t == 'object' || t == 'function') result || child : child;" +
    "}("

  /** `compile_call_expression` and `compile_new_expression`: `apply` (or the
      constructor helper) for spread arguments, a plain call otherwise. */
  function CompileCall(n: Node, st: FState): (r: Result<Out>)
    ensures r.Success? ==> Evolves(st, r.value.st)
    decreases Size(n), 1
  {
    var callee :- Get(n, "callee");
    var isSuper :- if n.kind == "call_expression" && IsNode(callee, "identifier") then
        var name :- Field(callee, "name");
        Success(name == Str("super"))
      else Success(false);
    if isSuper then Failure(Unsupported("super"))
    else
      var c :- CompileExpression(callee, st);
      var a :- CallArguments(n, c.st);
      EvolvesTransitive(st, c.st, a.st);
      var text := match a.args
        case Spread(s) =>
          if n.kind == "call_expression" then c.text + ".apply(null, " + s + ")"
          else NEW_SPREAD_HEAD + c.text + ", " + s + ", function () {}))"
        case Listed(xs) =>
          if n.kind == "call_expression" then c.text + "(" + Join(xs, ", ") + ")"
          else "new " + c.text + "(" + Join(xs, ", ") + ")";
      Success(Out(text, a.st))
  }

  predicate AllSplats(xs: seq<Value>) {
    forall i :: 0 <= i < |xs| ==> IsNode(xs[i], "splat_expression")
  }

  predicate SomeSplat(xs: seq<Value>) {
    exists i :: 0 <= i < |xs| && IsNode(xs[i], "splat_expression")
  }

  predicate AllNodes(xs: seq<Value>) {
    forall i :: 0 <= i < |xs| ==> xs[i].Child?
  }

  /** `compile_call_arguments`: no arguments, only splats (one expression, or
      `[].concat` of them), a mix (see `Spreads.Spread`), or plain texts. */
  function CallArguments(n: Node, st: FState): (r: Result<CallOut>)
    ensures r.Success? ==> Evolves(st, r.value.st)
    ensures r.Success? ==> GetItems(n, "arguments").Success?
    ensures r.Success? && GetItems(n, "arguments").value == [] ==> r.value == CallOut(Listed([]), st)
    ensures r.Success? && !SomeSplat(GetItems(n, "arguments").value) ==>
      r.value.args.Listed? && |r.value.args.texts| == |GetItems(n, "arguments").value|
    ensures r.Success? && |GetItems(n, "arguments").value| > 0 && SomeSplat(GetItems(n, "arguments").value) ==>
      r.value.args.Spread?
    decreases Size(n), 0
  {
    var args :- GetItems(n, "arguments");
    if |args| == 0 then Success(CallOut(Listed([]), st))
    else if AllSplats(args) then
      var o :- ArgumentTexts(args, st);
      var text := if |args| == 1 then o.texts[0] else "[].concat(" + Join(o.texts, ", ") + ")";
      Success(CallOut(Spread(text), o.st))
    else if SomeSplat(args) then
      if !AllNodes(args) then Failure(NoMethod("type"))
      else
        var o :- ArgumentTexts(args, st);
        Success(CallOut(Spread(Spreads.Spread(Kinded(args, o.texts))), o.st))
    else
      var o :- ExpressionTexts(args, st);
      Success(CallOut(Listed(o.texts), o.st))
  }

  /** The compiled arguments, each with its node type. */
  function Kinded(args: seq<Value>, texts: seq<string>): (r: seq<Spreads.Arg>)
    requires AllNodes(args) && |texts| == |args|
    ensures |r| == |args|
    ensures forall i :: 0 <= i < |args| ==> r[i] == Spreads.Arg(args[i].node.kind, texts[i])
  {
    seq(|args|, i requires 0 <= i < |args| => Spreads.Arg(args[i].node.kind, texts[i]))
  }

  /** Each argument compiled: a splat's expression, any other argument itself. */
  function ArgumentTexts(xs: seq<Value>, st: FState): (r: Result<Outs>)
    ensures r.Success? ==> Evolves(st, r.value.st) && |r.value.texts| == |xs|
    decreases ItemsSize(xs), 1
  {
    if |xs| == 0 then Success(Outs([], st))
    else
      var x := xs[0];
      var o :- if IsNode(x, "splat_expression") then
          var e :- Field(x, "expression");
          CompileExpression(e, st)
        else CompileExpression(x, st);
      var rest :- ArgumentTexts(xs[1..], o.st);
      EvolvesTransitive(st, o.st, rest.st);
      Success(Outs([o.text] + rest.texts, rest.st))
  }

  // ---------------------------------------------------------------------------
  // The program

  const AMD_HEAD: string := "define(function (require, exports, module) {\n'use strict';\n\n"
  const AMD_TAIL: string := "\n});"
  const IIFE_HEAD: string := "(function () {\n'use strict';\n\n"
  const IIFE_TAIL: string := "\n}());"

  /** The program's code: its hoisted `var` line and its statements,
      compiled in one non-traversable scope. */
  function ProgramCode(program: Value): (r: Result<string>)
  {
    var body :- FieldItems(program, "body");
    var inner := Push(INITIAL, false);
    var o :- CompileStatements(body, inner);
    PopAfterPush(INITIAL, false, o.st);
    var (_, vars) := Pop(o.st);
    Success(CompileVars(vars) + o.text)
  }

  /** The module types `compile` accepts. */
  const MODULE_TYPES: seq<string> := ["amd", "iife", "raw"]

  /** The text a module type puts before and after the program code. */
  function Head(kind: string): string
  {
    if kind == "amd" then AMD_HEAD else if kind == "iife" then IIFE_HEAD else ""
  }

  function Tail(kind: string): string
  {
    if kind == "amd" then AMD_TAIL else if kind == "iife" then IIFE_TAIL else ""
  }

  /** Wrapping text between a head and a tail keeps all three readable. */
  lemma WrapSlices(head: string, code: string, tail: string)
    ensures var out := head + code + tail;
      out[..|head|] == head && out[|out| - |tail|..] == tail &&
      out[|head|..|out| - |tail|] == code
  {
    var out := head + code + tail;
    assert out[..|head|] == head;
    assert out[|out| - |tail|..] == tail;
    assert out[|head|..|out| - |tail|] == code;
  }

  /** `compile(type:)`: the program code wrapped for AMD, wrapped in an
      immediately invoked function, or bare; any other type is an
      `ArgumentError`, raised after the program compiled. */
  function Compile(program: Value, kind: string): (r: Result<string>)
    ensures r.Success? <==> ProgramCode(program).Success? && kind in MODULE_TYPES
    ensures r.Success? ==>
      |Head(kind)| + |Tail(kind)| <= |r.value| &&
      r.value[..|Head(kind)|] == Head(kind) &&
      r.value[|r.value| - |Tail(kind)|..] == Tail(kind) &&
      r.value[|Head(kind)|..|r.value| - |Tail(kind)|] == ProgramCode(program).value
    ensures ProgramCode(program).Failure? ==> r == Failure(ProgramCode(program).error)
    ensures ProgramCode(program).Success? && kind !in MODULE_TYPES ==>
      r == Failure(ArgumentError("unknown module type: '" + kind + "'"))
  {
    var code :- ProgramCode(program);
    if kind in MODULE_TYPES then
      WrapSlices(Head(kind), code, Tail(kind));
      Success(Head(kind) + code + Tail(kind))
    else Failure(ArgumentError("unknown module type: '" + kind + "'"))
  }

  /** The `raw` module type is the bare program code. */
  lemma RawIsCode(program: Value)
    requires ProgramCode(program).Success?
    ensures Compile(program, "raw") == Success(ProgramCode(program).value)
  {
    var code := ProgramCode(program).value;
    assert Head("raw") == "" && Tail("raw") == "";
    assert Compile(program, "raw") == Success(Head("raw") + code + Tail("raw"));
    assert Head("raw") + code + Tail("raw") == code;
  }
}

=== FILE: formatter_laws.dfy ===
/** Properties of the formatter: how function parameters are arranged,
    which names a multi-handler `rescue` binds, the fresh references of
    `for ... of`, the negated tests of `unless` / `until`, and the shapes
    of `try` and of whole programs. */
module FormatterLaws {
  import opened Wrappers
  import opened Text
  import opened Nodes
  import opened Scopes
  import opened Formatter
  import Negators

  // ---------------------------------------------------------------------------
  // Function parameters

  /** Where the first rest parameter is; the length when there is none. */
  function FirstRest(ps: seq<Parameter>): (f: nat)
    ensures f <= |ps|
    ensures forall j :: 0 <= j < f ==> !ps[j].splat
    ensures f < |ps| ==> ps[f].splat
  {
    if |ps| == 0 || ps[0].splat then 0 else 1 + FirstRest(ps[1..])
  }

  /** The non-empty default-value lines, in parameter order. */
  function DefaultLines(ps: seq<Parameter>): (r: seq<string>)
    ensures forall x :: x in r <==> x != "" && exists j :: 0 <= j < |ps| && ps[j].defaultLine == x
  {
    if |ps| == 0 then []
    else
      assert forall j :: 1 <= j < |ps| ==> ps[j] == ps[1..][j - 1];
      assert forall j :: 0 <= j < |ps[1..]| ==> ps[1..][j] == ps[j + 1];
      (if ps[0].defaultLine == "" then [] else [ps[0].defaultLine]) + DefaultLines(ps[1..])
  }

  /** The default lines do not depend on where the rest parameters are. */
  lemma {:induction false} ArrangeDefaults(ps: seq<Parameter>, k: int, index: int, seen: bool)
    ensures Arrange(ps, k, index, seen).defaults == DefaultLines(ps)
    decreases |ps|
  {
    if |ps| > 0 {
      ArrangeDefaults(ps[1..], k, index + 1, seen || ps[0].splat);
    }
  }

  /** Once a rest parameter has been seen, every parameter becomes a line,
      in order, that reads its value out of `arguments`. */
  lemma {:induction false} ArrangeAfterRest(ps: seq<Parameter>, k: int, index: int)
    ensures Arrange(ps, k, index, true).args == []
    ensures |Arrange(ps, k, index, true).splats| == |ps|
    ensures forall j :: 0 <= j < |ps| ==> Arrange(ps, k, index, true).splats[j] == ParamLine(ps[j], index + j, k)
    decreases |ps|
  {
    if |ps| > 0 {
      ArrangeAfterRest(ps[1..], k, index + 1);
      var tail := Arrange(ps[1..], k, index + 1, true);
      assert Arrange(ps, k, index, true).splats == [ParamLine(ps[0], index, k)] + tail.splats;
      forall j | 1 <= j < |ps|
        ensures Arrange(ps, k, index, true).splats[j] == ParamLine(ps[j], index + j, k)
      {
        assert ps[1..][j - 1] == ps[j];
      }
    }
  }

  /** `compile_function_arguments`: the parameters before the first rest
      parameter stay JavaScript parameters; it and everything after it
      become lines, in order. */
  lemma {:induction false} ArrangeSplits(ps: seq<Parameter>, k: int, index: int)
    ensures SplitsAtFirstRest(ps, Arrange(ps, k, index, false), k, index)
    decreases |ps|
  {
    if |ps| > 0 {
      if ps[0].splat {
        ArrangeAtRest(ps, k, index);
        ArrangeAfterRest(ps, k, index);
      } else {
        ArrangeSplits(ps[1..], k, index + 1);
        SplitsCons(ps, Arrange(ps[1..], k, index + 1, false), Arrange(ps, k, index, false), k, index);
      }
    }
  }

  /** The arrangement `r` holds the names of the parameters before the first
      rest parameter, and a line for each parameter from it on. */
  predicate SplitsAtFirstRest(ps: seq<Parameter>, r: Arranged, k: int, index: int) {
    |r.args| == FirstRest(ps) && |r.splats| == |ps| - FirstRest(ps) &&
    (forall j :: 0 <= j < FirstRest(ps) ==> r.args[j] == ps[j].name) &&
    (forall j :: FirstRest(ps) <= j < |ps| ==> r.splats[j - FirstRest(ps)] == ParamLine(ps[j], index + j, k))
  }

  /** A plain parameter ahead of the rest goes in front of the names. */
  lemma SplitsCons(ps: seq<Parameter>, tail: Arranged, r: Arranged, k: int, index: int)
    requires |ps| > 0 && !ps[0].splat
    requires SplitsAtFirstRest(ps[1..], tail, k, index + 1)
    requires r.args == [ps[0].name] + tail.args && r.splats == tail.splats
    ensures SplitsAtFirstRest(ps, r, k, index)
  {
    var f := FirstRest(ps);
    assert f == 1 + FirstRest(ps[1..]);
    forall j | 1 <= j < f
      ensures r.args[j] == ps[j].name
    {
      assert ps[1..][j - 1] == ps[j];
    }
    forall j | f <= j < |ps|
      ensures r.splats[j - f] == ParamLine(ps[j], index + j, k)
    {
      assert ps[1..][j - 1] == ps[j];
    }
  }

  /** The first rest parameter switches the arrangement to lines. */
  lemma ArrangeAtRest(ps: seq<Parameter>, k: int, index: int)
    requires |ps| > 0 && ps[0].splat
    ensures Arrange(ps, k, index, false) == Arrange(ps, k, index, true)
  {
  }

  function Plain(name: string): Parameter {
    Parameter(false, name, "")
  }

  function Rest(name: string): Parameter {
    Parameter(true, name, "")
  }

  /** `def a(*b)`: a lone rest parameter takes all of `arguments`. */
  lemma LoneRest()
    ensures Arrange([Rest("b")], 1, 0, false) ==
      Arranged([Slice("b", 0, 1)], [], [])
  {
    var ps := [Rest("b")];
    assert ps[1..] == [];
  }

  /** `def a(b, c, *d)`: a final rest parameter slices from its position. */
  lemma FinalRest()
    ensures Arrange([Plain("b"), Plain("c"), Rest("d")], 3, 0, false) ==
      Arranged([Slice("d", 2, 3)], ["b", "c"], [])
  {
    var ps := [Plain("b"), Plain("c"), Rest("d")];
    assert ps[1..][1..] == [Rest("d")] && ps[1..][1..][1..] == [];
  }

  /** `def a(b, *d, e)`: a middle rest parameter stops one before the end,
      and the parameter after it is read from the end of `arguments`. */
  lemma MiddleRest()
    ensures Arrange([Plain("b"), Rest("d"), Plain("e")], 3, 0, false) ==
      Arranged([Slice("d", 1, 3), FromEnd("e", 1)], ["b"], [])
  {
    var ps := [Plain("b"), Rest("d"), Plain("e")];
    assert ps[1..][1..] == [Plain("e")] && ps[1..][1..][1..] == [];
  }

  // ---------------------------------------------------------------------------
  // Filters

  /** `vars -= names` keeps the other names in their order, each as often as
      it occurs in `vars`, and drops every occurrence of a listed name. */
  lemma {:induction false} MinusFilters(vars: seq<string>, names: seq<Value>)
    ensures IsSubsequence(Minus(vars, names), vars)
    ensures forall x :: multiset(Minus(vars, names))[x] == if Str(x) in names then 0 else multiset(vars)[x]
  {
    if |vars| > 0 {
      MinusFilters(vars[1..], names);
      var rest := Minus(vars[1..], names);
      assert vars == [vars[0]] + vars[1..];
      if Str(vars[0]) !in names {
        assert ([vars[0]] + rest)[1..] == rest;
      }
    }
  }

  /** `reject` of the empty statements keeps the other statements in their
      order, each as often as it occurs. */
  lemma {:induction false} NonEmptyFilters(xs: seq<Value>)
    ensures IsSubsequence(NonEmpty(xs), xs)
    ensures forall v :: multiset(NonEmpty(xs))[v] == if IsNode(v, "empty_statement") then 0 else multiset(xs)[v]
  {
    if |xs| > 0 {
      NonEmptyFilters(xs[1..]);
      var rest := NonEmpty(xs[1..]);
      assert xs == [xs[0]] + xs[1..];
      if !IsNode(xs[0], "empty_statement") {
        assert ([xs[0]] + rest)[1..] == rest;
      }
    }
  }

  /** `compact` keeps the pairs whose parameter is not nil in their order,
      each as often as it occurs. */
  lemma {:induction false} CompactFilters(ps: seq<(Value, Value)>)
    ensures IsSubsequence(Compact(ps), ps)
    ensures forall x :: multiset(Compact(ps))[x] == if x.0 == Nil then 0 else multiset(ps)[x]
  {
    if |ps| > 0 {
      CompactFilters(ps[1..]);
      var rest := Compact(ps[1..]);
      assert ps == [ps[0]] + ps[1..];
      if ps[0].0 != Nil {
        assert ([ps[0]] + rest)[1..] == rest;
      }
    }
  }

  // ---------------------------------------------------------------------------
  // Handler bindings

  /** The keys of the pairs, each at most once. */
  predicate DistinctKeys(ps: seq<(Value, Value)>) {
    forall i, j :: 0 <= i < j < |ps| ==> ps[i].1 != ps[j].1
  }

  /** Dropping pairs keeps the keys distinct and keeps every kept pair's key
      the key of its parameter. */
  lemma {:induction false} CompactKeeps(ps: seq<(Value, Value)>)
    requires DistinctKeys(ps)
    ensures DistinctKeys(Compact(ps))
    ensures (forall i :: 0 <= i < |ps| ==> KeyOf(ps[i].0, ps[i].1)) ==>
      forall i :: 0 <= i < |Compact(ps)| ==> KeyOf(Compact(ps)[i].0, Compact(ps)[i].1)
  {
    if |ps| > 0 {
      var rest := ps[1..];
      assert forall i :: 0 <= i < |rest| ==> rest[i] == ps[i + 1];
      assert DistinctKeys(rest);
      CompactKeeps(rest);
      var tail := Compact(rest);
      if ps[0].0 != Nil {
        var c := Compact(ps);
        assert c == [ps[0]] + tail;
        forall j | 0 <= j < |tail| ensures tail[j].1 != ps[0].1 {
          KeyFromRest(ps, tail[j]);
        }
        assert forall i :: 1 <= i < |c| ==> c[i] == tail[i - 1];
      }
    }
  }

  /** A pair of the tail does not share the head's key. */
  lemma KeyFromRest(ps: seq<(Value, Value)>, x: (Value, Value))
    requires DistinctKeys(ps) && |ps| > 0 && x in ps[1..]
    ensures x.1 != ps[0].1
  {
    var m :| 0 <= m < |ps[1..]| && ps[1..][m] == x;
    assert ps[m + 1] == x;
  }

  /** Each parameter paired with its key, in order. */
  function Pairs(ps: seq<Value>, keys: seq<Value>): (r: seq<(Value, Value)>)
    requires |keys| == |ps|
    ensures |r| == |ps|
    ensures forall j :: 0 <= j < |ps| ==> r[j] == (ps[j], keys[j])
  {
    if |ps| == 0 then [] else [(ps[0], keys[0])] + Pairs(ps[1..], keys[1..])
  }

  /** `uniq` keeps its pairs in the order of the parameters. */
  lemma {:induction false} UniqByOrdered(ps: seq<Value>, keys: seq<Value>, seen: seq<Value>)
    requires |keys| == |ps|
    ensures IsSubsequence(UniqBy(ps, keys, seen), Pairs(ps, keys))
  {
    if |ps| > 0 {
      var all := Pairs(ps, keys);
      assert all[1..] == Pairs(ps[1..], keys[1..]);
      if keys[0] in seen {
        UniqByOrdered(ps[1..], keys[1..], seen);
      } else {
        UniqByOrdered(ps[1..], keys[1..], seen + [keys[0]]);
        var tail := UniqBy(ps[1..], keys[1..], seen + [keys[0]]);
        assert ([(ps[0], keys[0])] + tail)[1..] == tail;
      }
    }
  }

  /** Some pair of `r` has key `k`. */
  predicate HasKey(r: seq<(Value, Value)>, k: Value) {
    exists i :: 0 <= i < |r| && r[i].1 == k
  }

  /** `p` pairs a parameter with its key, at the first position holding
      that key. */
  predicate FirstWithKey(ps: seq<Value>, keys: seq<Value>, p: (Value, Value))
    requires |keys| == |ps|
  {
    exists j :: 0 <= j < |ps| && p == (ps[j], keys[j]) && keys[j] !in keys[..j]
  }

  /** `uniq` misses no key: every key not yet `seen` is kept, paired with the
      parameter at its first position. */
  lemma {:induction false} UniqByFirsts(ps: seq<Value>, keys: seq<Value>, seen: seq<Value>)
    requires |keys| == |ps|
    ensures forall j :: 0 <= j < |ps| && keys[j] !in seen ==> HasKey(UniqBy(ps, keys, seen), keys[j])
    ensures forall i :: 0 <= i < |UniqBy(ps, keys, seen)| ==> FirstWithKey(ps, keys, UniqBy(ps, keys, seen)[i])
  {
    if |ps| > 0 {
      if keys[0] in seen {
        UniqByFirsts(ps[1..], keys[1..], seen);
        var r := UniqBy(ps[1..], keys[1..], seen);
        forall j | 0 <= j < |ps| && keys[j] !in seen
          ensures HasKey(r, keys[j])
        {
          assert keys[j] == keys[1..][j - 1];
        }
        forall i | 0 <= i < |r|
          ensures FirstWithKey(ps, keys, r[i])
        {
          FirstWithKeyCons(ps, keys, r[i]);
        }
      } else {
        UniqByFirsts(ps[1..], keys[1..], seen + [keys[0]]);
        var tail := UniqBy(ps[1..], keys[1..], seen + [keys[0]]);
        var r := [(ps[0], keys[0])] + tail;
        assert UniqBy(ps, keys, seen) == r;
        forall j | 0 <= j < |ps| && keys[j] !in seen
          ensures HasKey(r, keys[j])
        {
          if keys[j] == keys[0] {
            assert r[0].1 == keys[j];
          } else {
            assert keys[j] == keys[1..][j - 1];
            HasKeyCons((ps[0], keys[0]), tail, keys[j]);
          }
        }
        forall i | 0 <= i < |r|
          ensures FirstWithKey(ps, keys, r[i])
        {
          if i == 0 {
            assert keys[..0] == [];
          } else {
            assert r[i] == tail[i - 1];
            FirstWithKeyCons(ps, keys, r[i]);
          }
        }
      }
    }
  }

  lemma HasKeyCons(x: (Value, Value), r: seq<(Value, Value)>, k: Value)
    requires HasKey(r, k)
    ensures HasKey([x] + r, k)
  {
    var i :| 0 <= i < |r| && r[i].1 == k;
    assert ([x] + r)[i + 1] == r[i];
  }

  /** A first occurrence in the rest of the list whose key is not the head's
      is a first occurrence in the whole list. */
  lemma FirstWithKeyCons(ps: seq<Value>, keys: seq<Value>, p: (Value, Value))
    requires |keys| == |ps| > 0
    requires FirstWithKey(ps[1..], keys[1..], p) && p.1 != keys[0]
    ensures FirstWithKey(ps, keys, p)
  {
    var j :| 0 <= j < |ps| - 1 && p == (ps[1..][j], keys[1..][j]) && keys[1..][j] !in keys[1..][..j];
    assert keys[..j + 1] == [keys[0]] + keys[1..][..j];
  }

  /** The names of several handlers' parameters hold each name once: the
      `uniq` by name leaves distinct keys, and every key that survives
      `compact` is its parameter's name. */
  lemma BindingsDistinct(hs: seq<Value>)
    requires Bindings(hs).Success?
    ensures NoDup(Bindings(hs).value)
  {
    var ps := HandlerParams(hs).value;
    var keys := ParamKeys(ps).value;
    var u := UniqBy(ps, keys, []);
    CompactKeeps(u);
    var c := Compact(u);
    var names := Bindings(hs).value;
    assert names == ParamNames(c).value;
    forall i | 0 <= i < |c| ensures c[i].1 == Str(names[i]) {
      assert FieldStr(c[i].0, "name") == Success(names[i]);
      assert KeyOf(c[i].0, c[i].1);
    }
    forall i, j | 0 <= i < j < |names| ensures names[i] != names[j] {
      assert c[i].1 != c[j].1;
    }
  }

  function Ident(name: string): Value {
    Child(Node("identifier", [Param("name", Str(name))]))
  }

  /** A `rescue` clause naming one class and binding `param` (nil for none),
      with an empty body. */
  function Handler(className: string, param: Value): Value {
    Child(Node("catch_clause", [Param("class_names", Items([Ident(className)])), Param("param", param), Param("body", Items([]))]))
  }

  lemma IdentFields(name: string)
    ensures Field(Ident(name), "name") == Success(Str(name))
    ensures FieldStr(Ident(name), "name") == Success(name)
  {
  }

  lemma HandlerFields(className: string, param: Value)
    ensures Field(Handler(className, param), "param") == Success(param)
  {
    var ps := Handler(className, param).node.params;
    assert ps[1..] == [Param("param", param), Param("body", Items([]))];
    assert "class_names" != "param";
    assert Find(ps, "param") == Some(1);
  }

  lemma ParamsOfTwo(a: Value, b: Value)
    requires Field(a, "param").Success? && Field(b, "param").Success?
    ensures HandlerParams([a, b]) == Success([Field(a, "param").value, Field(b, "param").value])
  {
    var hs: seq<Value> := [a, b];
    assert hs[1..] == [b] && hs[1..][1..] == [];
    assert HandlerParams(hs[1..][1..]) == Success([]);
    assert HandlerParams(hs[1..]).Success?;
    var v := HandlerParams(hs).value;
    assert Field(hs[0], "param") == Success(v[0]) && Field(hs[1], "param") == Success(v[1]);
    assert v == [v[0], v[1]];
  }

  lemma KeysOfTwo(p: Value, q: Value, kp: Value, kq: Value)
    requires KeyOf(p, kp) && KeyOf(q, kq)
    ensures ParamKeys([p, q]) == Success([kp, kq])
  {
    var ps: seq<Value> := [p, q];
    assert ps[1..] == [q] && ps[1..][1..] == [];
    assert ParamKeys(ps[1..][1..]) == Success([]);
    assert ParamKeys(ps[1..]).Success?;
    var v := ParamKeys(ps).value;
    assert KeyOf(ps[0], v[0]) && KeyOf(ps[1], v[1]);
    assert v == [v[0], v[1]];
  }

  lemma UniqOfTwo(p: Value, q: Value, kp: Value, kq: Value)
    ensures UniqBy([p, q], [kp, kq], []) == if kp == kq then [(p, kp)] else [(p, kp), (q, kq)]
  {
    var ps: seq<Value> := [p, q];
    var ks: seq<Value> := [kp, kq];
    assert ps[1..] == [q] && ps[1..][1..] == [];
    assert ks[1..] == [kq] && ks[1..][1..] == [];
    assert UniqBy(ps[1..][1..], ks[1..][1..], [kp] + [kq]) == [];
  }

  /** `compact` keeps every parameter that is a node. */
  lemma {:induction false} CompactNodes(u: seq<(Value, Value)>)
    requires forall i :: 0 <= i < |u| ==> u[i].0.Child?
    ensures Compact(u) == u
  {
    if |u| > 0 {
      var rest := u[1..];
      forall i | 0 <= i < |rest|
        ensures rest[i].0.Child?
      {
        assert rest[i] == u[i + 1];
      }
      CompactNodes(rest);
      assert u[0].0 != Nil;
      assert Compact(u) == [u[0]] + Compact(rest);
      assert u == [u[0]] + rest;
    }
  }

  lemma NamesOfIdents(x: string, y: string, kx: Value, ky: Value)
    ensures ParamNames([(Ident(x), kx)]) == Success([x])
    ensures ParamNames([(Ident(x), kx), (Ident(y), ky)]) == Success([x, y])
  {
    IdentFields(x);
    IdentFields(y);
    var one: seq<(Value, Value)> := [(Ident(x), kx)];
    assert one[1..] == [];
    assert ParamNames(one[1..]) == Success([]);
    var w := ParamNames(one).value;
    assert w == [w[0]];
    var two: seq<(Value, Value)> := [(Ident(x), kx), (Ident(y), ky)];
    assert two[1..] == [(Ident(y), ky)] && two[1..][1..] == [];
    assert ParamNames(two[1..][1..]) == Success([]);
    assert ParamNames(two[1..]).Success?;
    var v := ParamNames(two).value;
    assert v == [v[0], v[1]];
  }

  /** Two handlers binding `x` and `y` (`rescue A => x; rescue B => y`):
      one name when they agree, both names otherwise. */
  lemma TwoBindings(a: string, b: string, x: string, y: string)
    ensures Bindings([Handler(a, Ident(x)), Handler(b, Ident(y))]) == Success(if x == y then [x] else [x, y])
  {
    var hs := [Handler(a, Ident(x)), Handler(b, Ident(y))];
    HandlerFields(a, Ident(x));
    HandlerFields(b, Ident(y));
    IdentFields(x);
    IdentFields(y);
    ParamsOfTwo(hs[0], hs[1]);
    KeysOfTwo(Ident(x), Ident(y), Str(x), Str(y));
    UniqOfTwo(Ident(x), Ident(y), Str(x), Str(y));
    var u := UniqBy([Ident(x), Ident(y)], [Str(x), Str(y)], []);
    CompactNodes(u);
    NamesOfIdents(x, y, Str(x), Str(y));
  }

  /** `rescue A => exc; rescue B => exc` is caught as `exc` and declares
      nothing; `rescue A => ex1; rescue B => ex2` is caught under the default
      name and declares both. */
  lemma CaughtNames()
    ensures CaughtAs(["exc"]) == "exc" && Hoisted(["exc"]) == ""
    ensures CaughtAs(["ex1", "ex2"]) == EXCEPTION && Hoisted(["ex1", "ex2"]) == "var ex1, ex2;\n"
  {
    assert Join(["ex1", "ex2"], ", ") == "ex1, ex2";
  }

  /** `rescue C; rescue D`, neither binding a name: nothing is bound. */
  lemma NoBindings(a: string, b: string)
    ensures Bindings([Handler(a, Nil), Handler(b, Nil)]) == Success([])
  {
    var hs := [Handler(a, Nil), Handler(b, Nil)];
    HandlerFields(a, Nil);
    HandlerFields(b, Nil);
    ParamsOfTwo(hs[0], hs[1]);
    KeysOfTwo(Nil, Nil, Nil, Nil);
    UniqOfTwo(Nil, Nil, Nil, Nil);
    var u: seq<(Value, Value)> := [(Nil, Nil)];
    assert u[1..] == [];
    assert Compact(u) == [];
  }
}

=== FILE: indenter.dfy ===
/** Re-indenting generated code (`RBS::Indenter`): the text is cut into
    lines, a counter tracks the brace depth, and every non-blank line is
    prefixed with `spaces` spaces per level. The formatter call that
    produces the text is not part of this model: the indenter is a
    function of the text. */
module Indenter {
  import opened Wrappers
  import opened Text
  import Nodes
  import Formatter

  // ---------------------------------------------------------------------------
  // Lines, as `String#each_line` yields them

  /** The length of the first line of `s`: up to and including the first
      line feed, or all of `s`. */
  function LineEnd(s: string): (n: nat)
    requires |s| > 0
    ensures 0 < n <= |s|
    ensures forall i :: 0 <= i < n - 1 ==> s[i] != '\n'
    ensures n < |s| ==> s[n - 1] == '\n'
  {
    if s[0] == '\n' || |s| == 1 then 1 else 1 + LineEnd(s[1..])
  }

  function Lines(s: string): (r: seq<string>)
    decreases |s|
  {
    if |s| == 0 then [] else var n := LineEnd(s); [s[..n]] + Lines(s[n..])
  }

  /** A line: not empty, a line feed at most at its end, and at its end
      unless it is the last. */
  predicate IsLine(l: string, last: bool) {
    |l| > 0 && (forall i :: 0 <= i < |l| - 1 ==> l[i] != '\n') && (!last ==> l[|l| - 1] == '\n')
  }

  predicate WellSplit(ls: seq<string>) {
    forall i :: 0 <= i < |ls| ==> IsLine(ls[i], i == |ls| - 1)
  }

  /** `join` with no separator. */
  function Concat(ls: seq<string>): string {
    if |ls| == 0 then "" else ls[0] + Concat(ls[1..])
  }

  /** Splitting yields lines. */
  lemma {:induction false} LinesWellSplit(s: string)
    ensures WellSplit(Lines(s))
    decreases |s|
  {
    if |s| > 0 {
      var n := LineEnd(s);
      LinesWellSplit(s[n..]);
      var ls := Lines(s);
      assert ls[1..] == Lines(s[n..]);
      assert IsLine(ls[0], 0 == |ls| - 1);
      forall i | 1 <= i < |ls|
        ensures IsLine(ls[i], i == |ls| - 1)
      {
        assert ls[i] == Lines(s[n..])[i - 1];
      }
    }
  }

  /** The lines put together give the text back. */
  lemma {:induction false} ConcatLines(s: string)
    ensures Concat(Lines(s)) == s
    decreases |s|
  {
    if |s| > 0 {
      var n := LineEnd(s);
      ConcatLines(s[n..]);
      assert Lines(s)[1..] == Lines(s[n..]);
      assert s == s[..n] + s[n..];
    }
  }

  /** The first line of a line followed by the rest is that line. */
  lemma {:induction false} LineEndOfLine(l: string, rest: string, last: bool)
    requires IsLine(l, last) && (last ==> rest == "")
    ensures LineEnd(l + rest) == |l|
  {
    var s := l + rest;
    assert s[0] == l[0];
    if |l| > 1 {
      assert s[1..] == l[1..] + rest;
      assert l[0] != '\n';
      LineEndOfLine(l[1..], rest, last);
    }
  }

  /** Splitting lines put together gives the lines back. */
  lemma {:induction false} LinesOfConcat(ls: seq<string>)
    requires WellSplit(ls)
    ensures Lines(Concat(ls)) == ls
  {
    if |ls| > 0 {
      var rest := Concat(ls[1..]);
      assert IsLine(ls[0], 0 == |ls| - 1);
      if |ls| == 1 {
        assert rest == "";
      }
      LineEndOfLine(ls[0], rest, |ls| == 1);
      var s := ls[0] + rest;
      assert s[..|ls[0]|] == ls[0] && s[|ls[0]|..] == rest;
      assert WellSplit(ls[1..]) by {
        forall i | 0 <= i < |ls[1..]|
          ensures IsLine(ls[1..][i], i == |ls[1..]| - 1)
        {
          assert IsLine(ls[i + 1], i + 1 == |ls| - 1);
        }
      }
      LinesOfConcat(ls[1..]);
    }
  }

  // ---------------------------------------------------------------------------
  // The three patterns

  predicate AllSpace(s: string) {
    forall i :: 0 <= i < |s| ==> IsSpace(s[i])
  }

  lemma AllSpaceCons(c: char, t: string)
    requires IsSpace(c) && AllSpace(t)
    ensures AllSpace([c] + t)
  {
    assert forall i :: 0 < i < |[c] + t| ==> ([c] + t)[i] == t[i - 1];
  }

  lemma AllSpaceSnoc(t: string, c: char)
    requires IsSpace(c) && AllSpace(t)
    ensures AllSpace(t + [c])
  {
    assert forall i :: 0 <= i < |t| ==> (t + [c])[i] == t[i];
  }

  /** `s` without its trailing whitespace. */
  function TrimEnd(s: string): string {
    if |s| > 0 && IsSpace(s[|s| - 1]) then TrimEnd(s[..|s| - 1]) else s
  }

  /** `s` without its leading whitespace. */
  function TrimStart(s: string): string {
    if |s| > 0 && IsSpace(s[0]) then TrimStart(s[1..]) else s
  }

  /** Trimming the end keeps a prefix and drops only whitespace. */
  lemma {:induction false} TrimEndFacts(s: string)
    ensures var r := TrimEnd(s);
      |r| <= |s| && r == s[..|r|] && AllSpace(s[|r|..]) && (|r| > 0 ==> !IsSpace(r[|r| - 1]))
  {
    if |s| > 0 && IsSpace(s[|s| - 1]) {
      var u := s[..|s| - 1];
      TrimEndFacts(u);
      var r := TrimEnd(u);
      assert u[..|r|] == s[..|r|];
      assert s[|r|..] == u[|r|..] + [s[|s| - 1]];
      AllSpaceSnoc(u[|r|..], s[|s| - 1]);
    }
  }

  /** Trimming the start keeps a suffix and drops only whitespace. */
  lemma {:induction false} TrimStartFacts(s: string)
    ensures var r := TrimStart(s);
      |r| <= |s| && r == s[|s| - |r|..] && AllSpace(s[..|s| - |r|]) && (|r| > 0 ==> !IsSpace(r[0]))
  {
    if |s| > 0 && IsSpace(s[0]) {
      var u := s[1..];
      TrimStartFacts(u);
      var r := TrimStart(u);
      var k := |u| - |r|;
      assert u[k..] == s[k + 1..];
      assert s[..k + 1] == [s[0]] + u[..k];
      AllSpaceCons(s[0], u[..k]);
    }
  }

  lemma SpaceAfter(s: string, a: nat, j: int)
    requires a <= |s| && AllSpace(s[a..])
    ensures a <= j < |s| ==> IsSpace(s[j])
  {
    if a <= j < |s| {
      assert s[a..][j - a] == s[j];
    }
  }

  lemma SpaceBefore(s: string, b: nat, j: int)
    requires b <= |s| && AllSpace(s[..b])
    ensures 0 <= j < b ==> IsSpace(s[j])
  {
    if 0 <= j < b {
      assert s[..b][j] == s[j];
    }
  }

  /** `/\{\s*\Z/`: the last character that is not whitespace is `{`. */
  predicate OpensBlock(line: string) {
    var t := TrimEnd(line);
    |t| > 0 && t[|t| - 1] == '{'
  }

  /** `/\A\s*\}/`: the first character that is not whitespace is `}`. */
  predicate ClosesBlock(line: string) {
    var t := TrimStart(line);
    |t| > 0 && t[0] == '}'
  }

  /** `/\A\s*\Z/`: nothing but whitespace. */
  predicate Blank(line: string) {
    AllSpace(line)
  }

  /** The pattern read literally: a `{` followed by whitespace only. */
  lemma OpensBlockIff(line: string)
    ensures OpensBlock(line) <==>
      exists i :: 0 <= i < |line| && line[i] == '{' && AllSpace(line[i + 1..])
  {
    var t := TrimEnd(line);
    TrimEndFacts(line);
    if OpensBlock(line) {
      var i := |t| - 1;
      assert line[i] == t[i];
      assert line[i + 1..] == line[|t|..];
    }
    if exists i :: 0 <= i < |line| && line[i] == '{' && AllSpace(line[i + 1..]) {
      var i :| 0 <= i < |line| && line[i] == '{' && AllSpace(line[i + 1..]);
      SpaceAfter(line, |t|, i);
      SpaceAfter(line, i + 1, |t| - 1);
      assert |t| > 0 ==> t[|t| - 1] == line[|t| - 1];
      assert |t| - 1 == i;
    }
  }

  /** The pattern read literally: whitespace only, then a `}`. */
  lemma ClosesBlockIff(line: string)
    ensures ClosesBlock(line) <==>
      exists i :: 0 <= i < |line| && AllSpace(line[..i]) && line[i] == '}'
  {
    var t := TrimStart(line);
    TrimStartFacts(line);
    var k := |line| - |t|;
    if ClosesBlock(line) {
      assert line[k] == t[0];
    }
    if exists i :: 0 <= i < |line| && AllSpace(line[..i]) && line[i] == '}' {
      var i :| 0 <= i < |line| && AllSpace(line[..i]) && line[i] == '}';
      SpaceBefore(line, k, i);
      SpaceBefore(line, i, k);
      assert k < |line| ==> t[0] == line[k];
      assert k == i;
    }
  }

  lemma OpensNotBlank(line: string)
    requires OpensBlock(line)
    ensures !Blank(line)
  {
    var t := TrimEnd(line);
    TrimEndFacts(line);
    assert line[|t| - 1] == t[|t| - 1];
  }

  // ---------------------------------------------------------------------------
  // Depth

  /** How a line moves the depth: up after an opener, down for a closer. */
  function Delta(line: string): (d: int)
    ensures OpensBlock(line) ==> d == 1
    ensures !OpensBlock(line) && ClosesBlock(line) ==> d == -1
    ensures !OpensBlock(line) && !ClosesBlock(line) ==> d == 0
  {
    if OpensBlock(line) then 1 else if ClosesBlock(line) then -1 else 0
  }

  /** The depth a line is indented at, given the depth before it: an opener
      at the depth before, a closer one level out. */
  function Level(line: string, deep: int): (l: int)
    ensures OpensBlock(line) ==> l == deep
    ensures !OpensBlock(line) ==> l == deep + Delta(line)
  {
    if OpensBlock(line) then deep else if ClosesBlock(line) then deep - 1 else deep
  }

  /** `String#*`: `n` copies, and `ArgumentError` for a negative count. */
  function Times(s: string, n: int): (r: Result<string>)
    ensures r.Success? <==> n >= 0
    ensures r.Success? ==> r.value == Repeat(s, n)
  {
    if n < 0 then Failure(ArgumentError("negative argument")) else Success(Repeat(s, n))
  }

  /** One turn of the loop: the output line and the depth after it. */
  function IndentLine(line: string, deep: int, indent: string): (r: Result<(string, int)>)
    ensures r.Success? <==> Blank(line) || Level(line, deep) >= 0
    ensures r.Success? ==> r.value.1 == deep + Delta(line)
    ensures r.Success? ==>
      r.value.0 == if Blank(line) then "\n" else Repeat(indent, Level(line, deep)) + line
  {
    if OpensBlock(line) then
      OpensNotBlank(line);
      var rs :- Times(indent, deep);
      Success((if Blank(line) then "\n" else rs + line, deep + 1))
    else
      var next := if ClosesBlock(line) then deep - 1 else deep;
      if Blank(line) then Success(("\n", next))
      else
        var rs :- Times(indent, next);
        Success((rs + line, next))
  }

  function IndentLines(lines: seq<string>, deep: int, indent: string): (r: Result<seq<string>>)
  {
    if |lines| == 0 then Success([])
    else
      var first :- IndentLine(lines[0], deep, indent);
      var rest :- IndentLines(lines[1..], first.1, indent);
      Success([first.0] + rest)
  }

  /** `Indenter#compile` on the compiled text `text`. */
  function Reindent(text: string, spaces: int): (r: Result<string>)
    ensures spaces < 0 ==> r.Failure?
  {
    var indent :- Times(" ", spaces);
    var out :- IndentLines(Lines(text), 0, indent);
    Success(Concat(out))
  }

  // ---------------------------------------------------------------------------
  // What the loop computes

  /** Openers minus closers. */
  function Balance(lines: seq<string>): int {
    if |lines| == 0 then 0 else Delta(lines[0]) + Balance(lines[1..])
  }

  /** The depth before line `i`. */
  function DepthAt(lines: seq<string>, deep: int, i: nat): int
    requires i <= |lines|
  {
    deep + Balance(lines[..i])
  }

  /** No line that is indented would be indented at a negative depth. */
  predicate Indentable(lines: seq<string>, deep: int) {
    forall i :: 0 <= i < |lines| && !Blank(lines[i]) ==> Level(lines[i], DepthAt(lines, deep, i)) >= 0
  }

  /** A line as the loop puts it out at `level`: a bare line feed for a
      blank line, otherwise the line behind `indent` repeated `level` times. */
  function OutLine(line: string, level: nat, indent: string): string {
    if Blank(line) then "\n" else Repeat(indent, level) + line
  }

  /** Output line `i` of the whole loop. */
  function Expected(lines: seq<string>, deep: int, indent: string, i: nat): string
    requires i < |lines| && Indentable(lines, deep)
  {
    var level := Level(lines[i], DepthAt(lines, deep, i));
    OutLine(lines[i], if Blank(lines[i]) then 0 else level, indent)
  }

  lemma DepthShift(lines: seq<string>, deep: int, i: nat)
    requires 0 < |lines| && i < |lines|
    ensures DepthAt(lines, deep, i + 1) == DepthAt(lines[1..], deep + Delta(lines[0]), i)
  {
    assert lines[..i + 1][1..] == lines[1..][..i];
  }

  /** The whole is indentable exactly when the first line is and the rest
      is from the depth after it. */
  lemma IndentableStep(lines: seq<string>, deep: int)
    requires |lines| > 0
    ensures Indentable(lines, deep) <==>
      (Blank(lines[0]) || Level(lines[0], deep) >= 0) && Indentable(lines[1..], deep + Delta(lines[0]))
  {
    var tail, next := lines[1..], deep + Delta(lines[0]);
    assert DepthAt(lines, deep, 0) == deep;
    if Indentable(lines, deep) {
      forall i | 0 <= i < |tail| && !Blank(tail[i])
        ensures Level(tail[i], DepthAt(tail, next, i)) >= 0
      {
        DepthShift(lines, deep, i);
        assert tail[i] == lines[i + 1];
      }
    }
    if (Blank(lines[0]) || Level(lines[0], deep) >= 0) && Indentable(tail, next) {
      forall i | 0 <= i < |lines| && !Blank(lines[i])
        ensures Level(lines[i], DepthAt(lines, deep, i)) >= 0
      {
        if i > 0 {
          DepthShift(lines, deep, i - 1);
          assert lines[i] == tail[i - 1];
        }
      }
    }
  }

  /** Output line `i + 1` of the whole is output line `i` of the rest. */
  lemma ExpectedStep(lines: seq<string>, deep: int, indent: string, i: nat)
    requires 0 < i < |lines| && Indentable(lines, deep)
    requires Indentable(lines[1..], deep + Delta(lines[0]))
    ensures Expected(lines, deep, indent, i) == Expected(lines[1..], deep + Delta(lines[0]), indent, i - 1)
  {
    DepthShift(lines, deep, i - 1);
    assert lines[i] == lines[1..][i - 1];
    assert DepthAt(lines, deep, i) == DepthAt(lines[1..], deep + Delta(lines[0]), i - 1);
  }

  /** The loop fails exactly when some non-blank line falls below depth 0. */
  lemma {:induction false} IndentLinesSucceeds(lines: seq<string>, deep: int, indent: string)
    ensures IndentLines(lines, deep, indent).Success? <==> Indentable(lines, deep)
  {
    if |lines| > 0 {
      var next := deep + Delta(lines[0]);
      IndentLinesSucceeds(lines[1..], next, indent);
      IndentableStep(lines, deep);
      var first := IndentLine(lines[0], deep, indent);
      assert first.Success? ==> first.value.1 == next;
    }
  }

  /** Otherwise it yields one output line per input line, as `Expected`. */
  lemma {:induction false} IndentLinesMeaning(lines: seq<string>, deep: int, indent: string)
    requires IndentLines(lines, deep, indent).Success?
    ensures Indentable(lines, deep)
    ensures var r := IndentLines(lines, deep, indent).value;
      |r| == |lines| && forall i :: 0 <= i < |lines| ==> r[i] == Expected(lines, deep, indent, i)
  {
    IndentLinesSucceeds(lines, deep, indent);
    if |lines| > 0 {
      var tail := lines[1..];
      var next := deep + Delta(lines[0]);
      var first := IndentLine(lines[0], deep, indent);
      assert first.Success? && first.value.1 == next;
      IndentLinesMeaning(tail, next, indent);
      IndentableStep(lines, deep);
      var r := IndentLines(lines, deep, indent).value;
      var rest := IndentLines(tail, next, indent).value;
      assert r == [first.value.0] + rest;
      assert DepthAt(lines, deep, 0) == deep;
      forall i | 0 <= i < |lines|
        ensures r[i] == Expected(lines, deep, indent, i)
      {
        if i > 0 {
          ExpectedStep(lines, deep, indent, i);
        }
      }
    }
  }

  lemma SpacesHaveNoBreak(n: nat)
    ensures forall i :: 0 <= i < |Repeat(" ", n)| ==> Repeat(" ", n)[i] != '\n'
  {
    RepeatSpaces(n);
  }

  /** `n` copies of a run of spaces is a run of spaces. */
  lemma {:induction false} RepeatedSpaces(k: nat, n: nat)
    ensures forall i :: 0 <= i < |Repeat(Repeat(" ", k), n)| ==> Repeat(Repeat(" ", k), n)[i] == ' '
  {
    if n > 0 {
      RepeatedSpaces(k, n - 1);
      RepeatSpaces(k);
      var s, t := Repeat(" ", k), Repeat(Repeat(" ", k), n - 1);
      forall i | 0 <= i < |s + t|
        ensures (s + t)[i] == ' '
      {
        if i >= |s| {
          assert (s + t)[i] == t[i - |s|];
        }
      }
    }
  }

  /** A line with a run of spaces before it is still a line. */
  lemma PrefixedLine(pad: string, l: string, last: bool)
    requires IsLine(l, last) && forall i :: 0 <= i < |pad| ==> pad[i] == ' '
    ensures IsLine(pad + l, last)
  {
    var s := pad + l;
    forall i | 0 <= i < |s| - 1
      ensures s[i] != '\n'
    {
      if i >= |pad| {
        assert s[i] == l[i - |pad|];
      }
    }
    assert s[|s| - 1] == l[|l| - 1];
  }

  /** `Indenter#compile`: a negative `spaces` is an `ArgumentError`; otherwise
      the text fails to indent exactly when some line would sit below depth
      0, and the output has one line per input line, each a line feed (for
      a blank line) or the input line behind `spaces` spaces per level. */
  lemma ReindentMeaning(text: string, spaces: int)
    ensures spaces < 0 ==> Reindent(text, spaces).Failure?
    ensures spaces >= 0 ==> (Reindent(text, spaces).Success? <==> Indentable(Lines(text), 0))
    ensures Reindent(text, spaces).Success? ==>
      var ls := Lines(text);
      var out := Lines(Reindent(text, spaces).value);
      |out| == |ls| &&
      forall i :: 0 <= i < |ls| ==> out[i] == Expected(ls, 0, Repeat(" ", spaces), i)
  {
    if spaces >= 0 {
      var indent := Repeat(" ", spaces);
      var ls := Lines(text);
      IndentLinesSucceeds(ls, 0, indent);
      if Reindent(text, spaces).Success? {
        IndentLinesMeaning(ls, 0, indent);
        var r := IndentLines(ls, 0, indent).value;
        LinesWellSplit(text);
        assert WellSplit(r) by {
          forall i | 0 <= i < |r|
            ensures IsLine(r[i], i == |r| - 1)
          {
            assert IsLine(ls[i], i == |ls| - 1);
            if !Blank(ls[i]) {
              var level := Level(ls[i], DepthAt(ls, 0, i));
              RepeatedSpaces(spaces, level);
              PrefixedLine(Repeat(indent, level), ls[i], i == |ls| - 1);
            }
          }
        }
        LinesOfConcat(r);
      }
    }
  }

  // ---------------------------------------------------------------------------
  // Examples

  /** `} else {` both closes and opens: the opener rule wins, so the line
      stays at the depth before it and the depth goes up. */
  lemma ElseLine(deep: int)
    ensures ClosesBlock("} else {\n") && OpensBlock("} else {\n")
    ensures Level("} else {\n", deep) == deep && Delta("} else {\n") == 1
  {
    var line := "} else {\n";
    assert TrimEnd(line) == TrimEnd(line[..|line| - 1]);
    assert TrimEnd(line[..|line| - 1]) == "} else {";
    assert TrimStart(line) == line;
  }

  /** The `} else {` of an if/else block is printed at the depth of the body
      it closes and raises the depth, so after the block the depth stays one
      level higher than before it: the lines that follow are indented one
      level too deep. */
  lemma IfElseDrift(deep: int)
    ensures Balance(["if (a) {\n", "} else {\n", "}\n"]) == 1
    ensures DepthAt(["if (a) {\n", "} else {\n", "}\n"], deep, 3) == deep + 1
  {
    var lines := ["if (a) {\n", "} else {\n", "}\n"];
    ElseLine(deep);
    assert lines[..3] == lines;
  }

  // ---------------------------------------------------------------------------
  // `Indenter#compile`

  /** `Indenter#compile` as written: it passes `raw:` to `Formatter#compile`,
      whose only keyword is `type:`, so Ruby raises an `ArgumentError` for
      the unknown keyword before the formatter runs, whatever the program. */
  function CompileAsWritten(program: Nodes.Value, raw: bool, spaces: int): (r: Result<string>)
    ensures r.Failure? && r.error.ArgumentError?
  {
    Failure(ArgumentError("unknown keyword: :raw"))
  }

  /** The module type the indenter evidently means to ask for: the bare
      code when `raw` is set, the formatter's default otherwise. */
  function ModuleType(raw: bool): (kind: string)
    ensures kind in Formatter.MODULE_TYPES
  {
    if raw then "raw" else "iife"
  }

  /** The evidently intended `Indenter#compile`: the formatter's output for
      that module type, re-indented. It fails when the program does not
      compile or the width is negative, and otherwise succeeds exactly when
      no line closes more blocks than are open; each output line is then
      its line of the formatter's output at its depth. */
  function Compile(program: Nodes.Value, raw: bool, spaces: int): (r: Result<string>)
    ensures Formatter.ProgramCode(program).Failure? ==> r == Failure(Formatter.ProgramCode(program).error)
    ensures spaces < 0 ==> r.Failure?
    ensures Formatter.ProgramCode(program).Success? && spaces >= 0 ==>
      Formatter.Compile(program, ModuleType(raw)).Success? &&
      var ls := Lines(Formatter.Compile(program, ModuleType(raw)).value);
      (r.Success? <==> Indentable(ls, 0)) &&
      (r.Success? ==>
        |Lines(r.value)| == |ls| &&
        forall i :: 0 <= i < |ls| ==> Lines(r.value)[i] == Expected(ls, 0, Repeat(" ", spaces), i))
  {
    var out :- Formatter.Compile(program, ModuleType(raw));
    ReindentMeaning(out, spaces);
    Reindent(out, spaces)
  }

  /** With `raw` set the intended indenter re-indents the bare program
      code, and succeeds on every program that compiles and nests
      properly, while the written one fails on all of them. */
  lemma CompileRawDiscrepancy(program: Nodes.Value, spaces: int)
    requires Formatter.ProgramCode(program).Success?
    ensures Compile(program, true, spaces) == Reindent(Formatter.ProgramCode(program).value, spaces)
    ensures CompileAsWritten(program, true, spaces).Failure?
  {
    Formatter.RawIsCode(program);
    assert ModuleType(true) == "raw";
  }
}

=== FILE: lexer.dfy ===
/** The cursor lexer (`RBS::Lexer`): it walks the input with an index, a
    line and a column, keeps a mode stack for string interpolation and the
    quotes of the interpolated strings it is inside, and appends tokens.
    Interpolation splices a quote back into the input (`unput`), so the
    input is part of the state. */
module Lexer {
  import opened Wrappers
  import opened Text
  import opened Definition
  import opened Patterns
  import opened Tokens
  import States

  /** The opening and closing delimiter of a literal. */
  datatype Quotes = Quotes(open: char, close: char)

  datatype LexState = LexState(
    input: string,
    index: int,
    line: int,
    column: int,
    state: States.Stack,
    embed: seq<Quotes>,
    tokens: seq<Token>)

  /** `Lexer.new(input)`: at the first character, line 1, column 1. */
  function Init(input: string): LexState {
    LexState(input, 0, 1, 1, [], [], [])
  }

  /** `consume(n)`: moves index and column together. */
  function Consume(lx: LexState, n: int): LexState {
    lx.(index := lx.index + n, column := lx.column + n)
  }

  /** Consuming is additive, and consuming nothing changes nothing. */
  lemma ConsumeAdditive(lx: LexState, a: int, b: int)
    ensures Consume(Consume(lx, a), b) == Consume(lx, a + b)
    ensures Consume(lx, 0) == lx
    ensures Consume(lx, a).index - lx.index == Consume(lx, a).column - lx.column == a
  {
  }

  // ---------------------------------------------------------------------------
  // Progress: what every step of the main loop guarantees

  /** The tokens of `b` extend those of `a` with no EOF among the new ones. */
  predicate Appends(a: LexState, b: LexState) {
    |a.tokens| <= |b.tokens| && b.tokens[..|a.tokens|] == a.tokens &&
    forall k :: |a.tokens| <= k < |b.tokens| ==> b.tokens[k].name != "EOF"
  }

  lemma AppendsTransitive(a: LexState, b: LexState, c: LexState)
    requires Appends(a, b) && Appends(b, c)
    ensures Appends(a, c)
  {
    assert c.tokens[..|a.tokens|] == c.tokens[..|b.tokens|][..|a.tokens|];
  }

  /** Twice the input left, plus one for every open interpolation: each step
      of the loop lowers it, which is why the loop ends. */
  function Potential(lx: LexState): int {
    2 * (|lx.input| - lx.index) + States.Occurrences(lx.state, "embed")
  }

  /** One step of the loop: tokens appended, the index moved forward, the
      potential lowered. */
  predicate Steps(a: LexState, b: LexState) {
    Appends(a, b) && b.index > a.index && Potential(b) < Potential(a)
  }

  /** `token(name, value, consume:)`: records the token at the current line
      and column, then consumes the value when asked to. */
  function Emit(lx: LexState, name: string, value: Option<string>, consume: bool): (r: LexState)
    ensures r.tokens == lx.tokens + [Token(name, value, lx.line, lx.column)]
    ensures r.input == lx.input && r.line == lx.line && r.state == lx.state && r.embed == lx.embed
    ensures consume && value.Some? ==> r.index == lx.index + |value.value| && r.column == lx.column + |value.value|
    ensures !(consume && value.Some?) ==> r.index == lx.index && r.column == lx.column
    ensures name != "EOF" ==> Appends(lx, r)
    ensures name != "EOF" && consume && value.Some? && |value.value| > 0 ==> Steps(lx, r)
  {
    var lx' := lx.(tokens := lx.tokens + [Token(name, value, lx.line, lx.column)]);
    if consume && value.Some? then Consume(lx', |value.value|) else lx'
  }

  /** A token whose value is its own text, consumed: one step of the loop
      when the text is not empty and not the end marker. */
  function Symbol(lx: LexState, text: string): (r: LexState)
    ensures r.tokens == lx.tokens + [Token(text, Some(text), lx.line, lx.column)]
    ensures r.input == lx.input && r.line == lx.line && r.state == lx.state && r.embed == lx.embed
    ensures r.index == lx.index + |text|
    ensures |text| > 0 && text != "EOF" ==> Steps(lx, r)
  {
    Emit(lx, text, Some(text), true)
  }

  /** `linefeed` */
  function Linefeed(lx: LexState): (r: LexState)
    ensures Steps(lx, r) && r.input == lx.input && r.state == lx.state && r.embed == lx.embed
  {
    Consume(Emit(lx, "LF", None, true).(line := lx.line + 1, column := 0), 1)
  }

  /** A line feed yields an LF token at the current position, and the next
      character is column 1 of the next line. */
  lemma LinefeedPosition(lx: LexState)
    ensures Linefeed(lx).tokens == lx.tokens + [Token("LF", None, lx.line, lx.column)]
    ensures Linefeed(lx).line == lx.line + 1 && Linefeed(lx).column == 1
    ensures Linefeed(lx).index == lx.index + 1 && Linefeed(lx).input == lx.input
  {
  }

  /** `input[index..-1]`, which is nil past the end. */
  function Rest(lx: LexState): (r: Result<string>)
    requires lx.index >= 0
    ensures r.Success? <==> lx.index <= |lx.input|
    ensures r.Success? ==> r.value == lx.input[lx.index..]
  {
    if lx.index <= |lx.input| then Success(lx.input[lx.index..]) else Failure(NoMethod("[]"))
  }

  // ---------------------------------------------------------------------------
  // Delimiters

  /** `closing_quote` */
  function ClosingQuote(c: char): char {
    match c
    case '(' => ')'
    case '[' => ']'
    case '{' => '}'
    case _ => c
  }

  /** Only the three opening brackets change; every closer maps to itself. */
  lemma ClosingQuoteProperties(c: char)
    ensures ClosingQuote(c) != c <==> c == '(' || c == '[' || c == '{'
    ensures ClosingQuote(ClosingQuote(c)) == ClosingQuote(c)
    ensures ClosingQuote(c) != '(' && ClosingQuote(c) != '[' && ClosingQuote(c) != '{'
  {
  }

  /** `quote`: the quote spliced back after an interpolation. */
  function QuoteOf(q: Quotes): char {
    if q.open == '"' || q.open == '\'' then q.open else '"'
  }

  // ---------------------------------------------------------------------------
  // Literals: `match_literal`

  /** The first position at or after `i` holding `c`. */
  function FindChar(s: string, c: char, i: nat): (r: Option<nat>)
    requires i <= |s|
    ensures r.Some? ==> i <= r.value < |s| && s[r.value] == c
    ensures r.Some? ==> forall k :: i <= k < r.value ==> s[k] != c
    ensures r.None? ==> forall k :: i <= k < |s| ==> s[k] != c
    decreases |s| - i
  {
    if i == |s| then None else if s[i] == c then Some(i) else FindChar(s, c, i + 1)
  }

  /** `#{` starts at `k`. */
  predicate EmbedAt(t: string, k: int)
    requires 0 <= k < |t| - 1
  {
    t[k] == '#' && t[k + 1] == '{'
  }

  /** `str[k]` is `close` and is not preceded by a backslash. */
  predicate Unescaped(str: string, close: char, k: int)
    requires 1 <= k < |str|
  {
    str[k] == close && str[k - 1] != '\\'
  }

  /** The first `#{` in `t`. */
  function FindEmbed(t: string): (r: Option<nat>)
    ensures r.Some? ==> r.value + 1 < |t| && EmbedAt(t, r.value)
    ensures r.Some? ==> forall k :: 0 <= k < r.value ==> !EmbedAt(t, k)
    ensures r.None? ==> forall k :: 0 <= k < |t| - 1 ==> !EmbedAt(t, k)
  {
    FindEmbedFrom(t, 0)
  }

  function FindEmbedFrom(t: string, i: nat): (r: Option<nat>)
    ensures r.Some? ==> i <= r.value && r.value + 1 < |t| && EmbedAt(t, r.value)
    ensures r.Some? ==> forall k :: i <= k < r.value ==> !EmbedAt(t, k)
    ensures r.None? ==> forall k :: i <= k < |t| - 1 ==> !EmbedAt(t, k)
    decreases |t| - i
  {
    if i + 1 >= |t| then None
    else if EmbedAt(t, i) then Some(i)
    else FindEmbedFrom(t, i + 1)
  }

  /** What the literal loop collected, and whether it stopped at `#{`. */
  datatype Scan = Scan(value: string, embedded: bool)

  /** The loop of `match_literal` from offset `idx` of `str`: take segments
      `[^q]*q`; stop at a segment holding `#{` (when interpolation is on),
      keeping the text before it plus the closing quote; go on after a
      segment whose quote is escaped by a backslash; otherwise stop after it. */
  function ScanLiteral(str: string, close: char, idx: nat, embeddable: bool): (r: Result<Scan>)
    requires idx >= 1
    ensures r.Success? ==> |r.value.value| >= 1 && r.value.value[|r.value.value| - 1] == close
    ensures r.Success? ==> idx + |r.value.value| <= |str|
    ensures r.Success? && !embeddable ==> !r.value.embedded
    decreases |str| - idx
  {
    if idx > |str| then Failure(NoMethod("match"))
    else match FindChar(str, close, idx)
      case None => Failure(ParseError("Unterminated string"))
      case Some(k) =>
        var text := str[idx..k + 1];
        if embeddable && FindEmbed(text).Some? then
          var j := FindEmbed(text).value;
          Success(Scan(text[..j] + [close], true))
        else if |text| >= 2 && text[|text| - 2] == '\\' then
          var rest :- ScanLiteral(str, close, k + 1, embeddable);
          Success(Scan(text + rest.value, rest.embedded))
        else
          Success(Scan(text, false))
  }

  /** The end of a literal as a plain search: the first closing quote from
      `i` whose preceding character is not a backslash. */
  function FirstUnescaped(str: string, close: char, i: nat): (r: Option<nat>)
    requires 1 <= i <= |str|
    ensures r.Some? ==> i <= r.value < |str| && str[r.value] == close && str[r.value - 1] != '\\'
    ensures r.Some? ==> forall k :: i <= k < r.value ==> !Unescaped(str, close, k)
    ensures r.None? ==> forall k :: i <= k < |str| ==> !Unescaped(str, close, k)
    decreases |str| - i
  {
    if i == |str| then None
    else if Unescaped(str, close, i) then Some(i)
    else FirstUnescaped(str, close, i + 1)
  }

  /** The literal as the plain search finds it. */
  function LiteralBySearch(str: string, close: char, idx: nat): Result<Scan>
    requires 1 <= idx <= |str|
  {
    match FirstUnescaped(str, close, idx)
    case Some(e) => Success(Scan(str[idx..e + 1], false))
    case None => Failure(ParseError("Unterminated string"))
  }

  /** Without interpolation a literal runs to the first closing quote not
      preceded by a backslash, and is unterminated when there is none. This
      holds when the quote is not a backslash, so that a segment boundary is
      never mistaken for an escape. */
  lemma {:induction false} LiteralToFirstUnescaped(str: string, close: char, idx: nat)
    requires 1 <= idx <= |str| && close != '\\' && str[idx - 1] != '\\'
    ensures ScanLiteral(str, close, idx, false) == LiteralBySearch(str, close, idx)
    decreases |str| - idx
  {
    var f := FindChar(str, close, idx);
    if f.None? {
      NoCloseNoEnd(str, close, idx);
    } else {
      var k := f.value;
      var text := str[idx..k + 1];
      if |text| >= 2 && text[|text| - 2] == '\\' {
        assert str[k - 1] == '\\';
        LiteralToFirstUnescaped(str, close, k + 1);
        LiteralEscapedSegment(str, close, idx, k);
      } else {
        assert str[k - 1] != '\\' by {
          if k > idx {
            assert str[k - 1] == text[|text| - 2];
          }
        }
        UnescapedAt(str, close, idx, k);
      }
    }
  }

  /** A segment whose quote is escaped: the scan and the search both go on
      past it. */
  lemma LiteralEscapedSegment(str: string, close: char, idx: nat, k: nat)
    requires 1 <= idx <= k < |str| && close != '\\'
    requires FindChar(str, close, idx) == Some(k)
    requires k - idx >= 1 && str[k - 1] == '\\'
    requires k + 1 <= |str| ==> ScanLiteral(str, close, k + 1, false) == LiteralBySearch(str, close, k + 1)
    ensures ScanLiteral(str, close, idx, false) == LiteralBySearch(str, close, idx)
  {
    EscapedPrefixSkipped(str, close, idx, k);
    if FirstUnescaped(str, close, k + 1).Some? {
      var e := FirstUnescaped(str, close, k + 1).value;
      SearchClosed(str, close, k + 1, e);
      EscapedThenClosed(str, close, idx, k, e);
      SearchClosed(str, close, idx, e);
    } else {
      SearchUnterminated(str, close, k + 1);
      EscapedThenUnterminated(str, close, idx, k);
      SearchUnterminated(str, close, idx);
    }
  }

  lemma SearchClosed(str: string, close: char, i: nat, e: nat)
    requires 1 <= i <= e < |str| && FirstUnescaped(str, close, i) == Some(e)
    ensures LiteralBySearch(str, close, i) == Success(Scan(str[i..e + 1], false))
  {
  }

  lemma SearchUnterminated(str: string, close: char, i: nat)
    requires 1 <= i <= |str| && FirstUnescaped(str, close, i) == None
    ensures LiteralBySearch(str, close, i) == Failure(ParseError("Unterminated string"))
  {
  }

  lemma EscapedThenClosed(str: string, close: char, idx: nat, k: nat, e: nat)
    requires 1 <= idx <= k < e < |str| && FindChar(str, close, idx) == Some(k)
    requires k - idx >= 1 && str[k - 1] == '\\'
    requires ScanLiteral(str, close, k + 1, false) == Success(Scan(str[k + 1..e + 1], false))
    ensures ScanLiteral(str, close, idx, false) == Success(Scan(str[idx..e + 1], false))
  {
    ScanEscapedStep(str, close, idx, k);
    ConcatSegments(str, idx, k + 1, e + 1);
    assert str[idx..k + 1] + str[k + 1..e + 1] == str[idx..e + 1];
  }

  lemma EscapedThenUnterminated(str: string, close: char, idx: nat, k: nat)
    requires 1 <= idx <= k < |str| && FindChar(str, close, idx) == Some(k)
    requires k - idx >= 1 && str[k - 1] == '\\'
    requires ScanLiteral(str, close, k + 1, false) == Failure(ParseError("Unterminated string"))
    ensures ScanLiteral(str, close, idx, false) == Failure(ParseError("Unterminated string"))
  {
    ScanEscapedStep(str, close, idx, k);
  }

  lemma ConcatSegments(s: string, i: nat, j: nat, k: nat)
    requires i <= j <= k <= |s|
    ensures s[i..j] + s[j..k] == s[i..k]
  {
  }

  /** No quote before the escaped one ends the literal, so the search
      starts over after it. */
  lemma EscapedPrefixSkipped(str: string, close: char, idx: nat, k: nat)
    requires 1 <= idx <= k < |str| && FindChar(str, close, idx) == Some(k) && str[k - 1] == '\\'
    ensures FirstUnescaped(str, close, idx) == FirstUnescaped(str, close, k + 1)
  {
    forall m | idx <= m < k + 1 ensures !Unescaped(str, close, m) {
    }
    UnescapedSkip(str, close, idx, k + 1);
  }

  /** One unfolding of the scan at an escaped segment. */
  lemma ScanEscapedStep(str: string, close: char, idx: nat, k: nat)
    requires 1 <= idx <= k < |str| && FindChar(str, close, idx) == Some(k)
    requires k - idx >= 1 && str[k - 1] == '\\'
    ensures ScanLiteral(str, close, idx, false) ==
      var rest := ScanLiteral(str, close, k + 1, false);
      if rest.Failure? then Failure(rest.error) else Success(Scan(str[idx..k + 1] + rest.value.value, false))
  {
    var text := str[idx..k + 1];
    assert text[|text| - 2] == str[k - 1];
  }

  lemma {:induction false} NoCloseNoEnd(str: string, close: char, i: nat)
    requires 1 <= i <= |str|
    requires forall k :: i <= k < |str| ==> str[k] != close
    ensures FirstUnescaped(str, close, i).None?
    decreases |str| - i
  {
    if i < |str| {
      NoCloseNoEnd(str, close, i + 1);
    }
  }

  lemma {:induction false} UnescapedSkip(str: string, close: char, i: nat, j: nat)
    requires 1 <= i <= j <= |str|
    requires forall m :: i <= m < j ==> !Unescaped(str, close, m)
    ensures FirstUnescaped(str, close, i) == FirstUnescaped(str, close, j)
    decreases j - i
  {
    if i < j {
      UnescapedSkip(str, close, i + 1, j);
    }
  }

  lemma {:induction false} UnescapedAt(str: string, close: char, i: nat, k: nat)
    requires 1 <= i <= k < |str| && str[k] == close && str[k - 1] != '\\'
    requires forall m :: i <= m < k ==> str[m] != close
    ensures FirstUnescaped(str, close, i) == Some(k)
    decreases k - i
  {
    if i < k {
      UnescapedAt(str, close, i + 1, k);
    }
  }

  /** `#{` occurs nowhere in `str`. */
  predicate NoEmbed(str: string) {
    forall k :: 0 <= k < |str| - 1 ==> !EmbedAt(str, k)
  }

  /** A string without `#{` has none in any of its slices. */
  lemma NoEmbedInSlice(str: string, a: nat, b: nat)
    requires a <= b <= |str| && NoEmbed(str)
    ensures FindEmbed(str[a..b]).None?
  {
    var text := str[a..b];
    forall j | 0 <= j < |text| - 1 ensures !EmbedAt(text, j) {
      assert text[j] == str[a + j] && text[j + 1] == str[a + j + 1];
      assert !EmbedAt(str, a + j);
    }
  }

  /** Interpolation is only looked for when it is on: with no `#{` in the
      input the two scans agree. */
  lemma {:induction false} NoEmbedNoDifference(str: string, close: char, idx: nat)
    requires idx >= 1 && NoEmbed(str)
    ensures ScanLiteral(str, close, idx, true) == ScanLiteral(str, close, idx, false)
    decreases |str| - idx
  {
    if idx <= |str| {
      match FindChar(str, close, idx)
      case None =>
      case Some(k) =>
        var text := str[idx..k + 1];
        NoEmbedInSlice(str, idx, k + 1);
        if |text| >= 2 && text[|text| - 2] == '\\' {
          NoEmbedNoDifference(str, close, k + 1);
        }
    }
  }

  /** `embed`: opens the interpolation, first emitting `(` and entering the
      string mode unless already in it; the index steps back over the `#`
      and quote the literal scan is about to consume. */
  function Embed(lx: LexState): (r: LexState)
    ensures Appends(lx, r) && r.input == lx.input && r.embed == lx.embed
    ensures r.index == lx.index - 1
    ensures States.Occurrences(r.state, "embed") == States.Occurrences(lx.state, "embed") + 1
    ensures States.Is(lx.state, "string") ==> r.tokens == lx.tokens && r.state == States.Push(lx.state, "embed")
    ensures !States.Is(lx.state, "string") ==>
      r.tokens == lx.tokens + [Token("(", Some("("), lx.line, lx.column)] &&
      r.state == States.Push(States.Push(lx.state, "string"), "embed")
  {
    var lx' :=
      if States.Is(lx.state, "string") then Consume(lx, -1)
      else
        var a := Symbol(lx, "(");
        Consume(a.(state := States.Push(a.state, "string")), -2);
    lx'.(state := States.Push(lx'.state, "embed"))
  }

  /** `match_literal`: the literal's value without its closing quote. The
      line advances by the line feeds it holds, and the two quotes are
      consumed (the value itself is consumed when its token is emitted). */
  function MatchLiteral(lx: LexState, str: string, q: Quotes, embeddable: bool): (r: Result<(LexState, string)>)
    ensures r.Success? ==> Appends(lx, r.value.0) && r.value.0.input == lx.input && r.value.0.embed == lx.embed
    ensures r.Success? ==> r.value.0.index >= lx.index + 1
    ensures r.Success? ==> Potential(r.value.0) <= Potential(lx) - 1
    ensures r.Success? && !embeddable ==> r.value.0.state == lx.state
    ensures r.Success? <==> ScanLiteral(str, q.close, 1, embeddable).Success?
    ensures r.Success? ==> r.value.1 == LiteralValue(ScanLiteral(str, q.close, 1, embeddable).value)
    ensures r.Success? && !ScanLiteral(str, q.close, 1, embeddable).value.embedded ==>
      r.value.0.tokens == lx.tokens && r.value.0.state == lx.state
    ensures r.Success? && ScanLiteral(str, q.close, 1, embeddable).value.embedded ==>
      r.value.0.tokens == Embed(lx).tokens && r.value.0.state == Embed(lx).state
  {
    var sc :- ScanLiteral(str, q.close, 1, embeddable);
    var lx1 := if sc.embedded then Embed(lx) else lx;
    var lx2 := lx1.(line := lx1.line + Count(sc.value, '\n'));
    Success((Consume(lx2, 2), sc.value[..|sc.value| - 1]))
  }

  /** Without interpolation, `match_literal` consumes just the two quotes. */
  lemma MatchLiteralPlain(lx: LexState, str: string, q: Quotes)
    requires MatchLiteral(lx, str, q, false).Success?
    ensures MatchLiteral(lx, str, q, false).value.0.index == lx.index + 2
  {
  }

  /** The tokens of `b` are those of `a` followed by tokens with the given
      names. */
  predicate Grows(a: LexState, b: LexState, names: seq<string>) {
    |b.tokens| == |a.tokens| + |names| && b.tokens[..|a.tokens|] == a.tokens &&
    forall i :: 0 <= i < |names| ==> b.tokens[|a.tokens| + i].name == names[i]
  }

  /** Growth is measured from the tokens alone. */
  lemma SameTokensGrow(a: LexState, b: LexState, c: LexState, names: seq<string>)
    requires a.tokens == b.tokens && Grows(b, c, names)
    ensures Grows(a, c, names)
  {
  }

  /** The literal `string` scans: single-quoted literals never interpolate. */
  function LiteralScan(str: string, q: Quotes): Result<Scan> {
    ScanLiteral(str, q.close, 1, q.open != '\'')
  }

  /** The scanned text without its closing quote: the STRING token's value. */
  function LiteralValue(sc: Scan): string {
    if |sc.value| == 0 then "" else sc.value[..|sc.value| - 1]
  }

  /** `string`: a STRING token for the literal, then, when an interpolation
      left the string mode on top, a `)` that closes it. A literal that
      stops at `#{` first opens the interpolation: a `(` and the string mode
      unless that is already on, then the interpolation mode. */
  function String(lx: LexState, str: string, q: Quotes): (r: Result<LexState>)
    ensures r.Success? ==> Steps(lx, r.value) && r.value.input == lx.input && r.value.embed == lx.embed
    ensures r.Success? <==> LiteralScan(str, q).Success?
    ensures r.Failure? ==> r.error == LiteralScan(str, q).error
  {
    var (lx1, value) :- MatchLiteral(lx, str, q, q.open != '\'');
    var lx2 := Emit(lx1, "STRING", Some(value), true);
    AppendsTransitive(lx, lx1, lx2);
    if States.Is(lx2.state, "string") then
      var lx3 := Consume(Symbol(lx2, ")"), -1);
      AppendsTransitive(lx, lx2, lx3);
      ClosePop(lx3);
      Success(lx3.(state := States.Pop(lx3.state)))
    else Success(lx2)
  }

  /** `string` on a literal that ends without interpolation outside the
      string mode: one STRING token, the mode stack untouched. */
  lemma StringPlain(lx: LexState, str: string, q: Quotes)
    requires LiteralScan(str, q).Success? && !LiteralScan(str, q).value.embedded
    requires !States.Is(lx.state, "string")
    ensures String(lx, str, q).Success?
    ensures Grows(lx, String(lx, str, q).value, ["STRING"])
    ensures String(lx, str, q).value.state == lx.state
    ensures String(lx, str, q).value.tokens[|lx.tokens|].value == Some(LiteralValue(LiteralScan(str, q).value))
    ensures String(lx, str, q).value.index == lx.index + 2 + |LiteralValue(LiteralScan(str, q).value)|
  {
    var (lx1, value) := MatchLiteral(lx, str, q, q.open != '\'').value;
    var lx2 := Emit(lx1, "STRING", Some(value), true);
    assert String(lx, str, q) == Success(lx2);
  }

  /** The scan of a single-quoted literal is the plain search for its
      closing quote. */
  lemma SingleQuotedScan(str: string)
    requires |str| >= 1 && str[0] == '\''
    ensures LiteralScan(str, Quotes('\'', '\'')).Success? <==> FirstUnescaped(str, '\'', 1).Some?
    ensures FirstUnescaped(str, '\'', 1).None? ==>
      LiteralScan(str, Quotes('\'', '\'')) == Failure(ParseError("Unterminated string"))
    ensures FirstUnescaped(str, '\'', 1).Some? ==>
      !LiteralScan(str, Quotes('\'', '\'')).value.embedded &&
      LiteralValue(LiteralScan(str, Quotes('\'', '\'')).value) == str[1..FirstUnescaped(str, '\'', 1).value]
  {
    assert LiteralScan(str, Quotes('\'', '\'')) == ScanLiteral(str, '\'', 1, false);
    if FirstUnescaped(str, '\'', 1).Some? {
      SingleQuotedClosed(str, FirstUnescaped(str, '\'', 1).value);
    } else {
      LiteralToFirstUnescaped(str, '\'', 1);
      SearchUnterminated(str, '\'', 1);
    }
  }

  /** A single-quoted literal closed at `e` holds the text between the quotes. */
  lemma SingleQuotedClosed(str: string, e: nat)
    requires |str| >= 1 && str[0] == '\'' && FirstUnescaped(str, '\'', 1) == Some(e)
    ensures ScanLiteral(str, '\'', 1, false).Success?
    ensures var sc := ScanLiteral(str, '\'', 1, false).value;
      !sc.embedded && LiteralValue(sc) == str[1..e]
  {
    LiteralToFirstUnescaped(str, '\'', 1);
    SearchClosed(str, '\'', 1, e);
    assert ScanLiteral(str, '\'', 1, false) == Success(Scan(str[1..e + 1], false));
    assert str[1..e + 1][..e - 1] == str[1..e];
  }


  /** A single-quoted literal never interpolates: outside the string mode it
      becomes exactly one STRING token holding the text up to the first
      quote not preceded by a backslash, and leaves the mode stack alone;
      with no such quote it is unterminated. */
  lemma StringSingleQuoted(lx: LexState, str: string)
    requires |str| >= 1 && str[0] == '\''
    requires !States.Is(lx.state, "string")
    ensures String(lx, str, Quotes('\'', '\'')).Success? <==> FirstUnescaped(str, '\'', 1).Some?
    ensures FirstUnescaped(str, '\'', 1).None? ==>
      String(lx, str, Quotes('\'', '\'')) == Failure(ParseError("Unterminated string"))
    ensures FirstUnescaped(str, '\'', 1).Some? ==>
      var r := String(lx, str, Quotes('\'', '\'')).value;
      Grows(lx, r, ["STRING"]) && r.state == lx.state && r.embed == lx.embed &&
      r.tokens[|lx.tokens|].value == Some(str[1..FirstUnescaped(str, '\'', 1).value])
  {
    var q := Quotes('\'', '\'');
    SingleQuotedScan(str);
    if LiteralScan(str, q).Success? {
      StringPlain(lx, str, q);
    }
  }

  /** `string` on the tail that ends an interpolated literal: the STRING
      token, then a `)` that closes the `(` the interpolation opened, and
      the string mode popped. */
  lemma StringClosesInterpolation(lx: LexState, str: string, q: Quotes)
    requires LiteralScan(str, q).Success? && !LiteralScan(str, q).value.embedded
    requires States.Is(lx.state, "string")
    ensures String(lx, str, q).Success?
    ensures Grows(lx, String(lx, str, q).value, ["STRING", ")"])
    ensures String(lx, str, q).value.state == States.Pop(lx.state)
    ensures String(lx, str, q).value.tokens[|lx.tokens|].value == Some(LiteralValue(LiteralScan(str, q).value))
  {
    var (lx1, value) := MatchLiteral(lx, str, q, q.open != '\'').value;
    var lx2 := Emit(lx1, "STRING", Some(value), true);
    var lx3 := Consume(Symbol(lx2, ")"), -1);
    assert lx3.tokens == lx.tokens + [Token("STRING", Some(value), lx1.line, lx1.column), Token(")", Some(")"), lx2.line, lx2.column)];
    assert String(lx, str, q) == Success(lx3.(state := States.Pop(lx3.state)));
  }

  /** `string` on a literal that stops at `#{` outside the string mode: a `(`
      and the STRING token, then the string and interpolation modes. */
  lemma StringOpensInterpolation(lx: LexState, str: string, q: Quotes)
    requires LiteralScan(str, q).Success? && LiteralScan(str, q).value.embedded
    requires !States.Is(lx.state, "string")
    ensures String(lx, str, q).Success?
    ensures Grows(lx, String(lx, str, q).value, ["(", "STRING"])
    ensures String(lx, str, q).value.state == States.Push(States.Push(lx.state, "string"), "embed")
    ensures String(lx, str, q).value.tokens[|lx.tokens| + 1].value == Some(LiteralValue(LiteralScan(str, q).value))
    ensures String(lx, str, q).value.index == lx.index + 1 + |LiteralValue(LiteralScan(str, q).value)|
  {
    var (lx1, value) := MatchLiteral(lx, str, q, q.open != '\'').value;
    var lx2 := Emit(lx1, "STRING", Some(value), true);
    States.PushThenIs(States.Push(lx.state, "string"), "embed", "string");
    assert String(lx, str, q) == Success(lx2);
  }

  /** `string` on a piece between two interpolations: the STRING token and
      the interpolation mode on top of the string mode. */
  lemma StringContinuesInterpolation(lx: LexState, str: string, q: Quotes)
    requires LiteralScan(str, q).Success? && LiteralScan(str, q).value.embedded
    requires States.Is(lx.state, "string")
    ensures String(lx, str, q).Success?
    ensures Grows(lx, String(lx, str, q).value, ["STRING"])
    ensures String(lx, str, q).value.state == States.Push(lx.state, "embed")
    ensures String(lx, str, q).value.tokens[|lx.tokens|].value == Some(LiteralValue(LiteralScan(str, q).value))
  {
    var (lx1, value) := MatchLiteral(lx, str, q, q.open != '\'').value;
    var lx2 := Emit(lx1, "STRING", Some(value), true);
    States.PushThenIs(lx.state, "embed", "string");
    assert String(lx, str, q) == Success(lx2);
  }

  /** Where an interpolating literal's text starts: past the `%` of a
      `%`-literal, at the quote otherwise. */
  function LiteralStart(lx: LexState, q: Quotes): int {
    if q.open != '"' then lx.index + 1 else lx.index
  }

  /** The start of `embedable_string`: the quotes go on the quote stack and
      the `%` of a `%`-literal is skipped. */
  function OpenLiteral(lx: LexState, q: Quotes): (r: LexState)
    requires lx.index >= 0
    ensures r.index == LiteralStart(lx, q) && r.input == lx.input && r.embed == lx.embed + [q]
    ensures r.tokens == lx.tokens && r.state == lx.state && Potential(r) <= Potential(lx)
  {
    var lx1 := lx.(embed := lx.embed + [q]);
    if q.open != '"' then Consume(lx1, 1) else lx1
  }

  /** The end of `embedable_string`: when the literal leaves the lexer in the
      string mode, a `)` closes the interpolation and the mode is popped. */
  function CloseLiteral(lx: LexState, lx3: LexState): (r: LexState)
    requires Steps(lx, lx3)
    ensures Steps(lx, r) && r.input == lx3.input && r.embed == lx3.embed
    ensures !States.Is(lx3.state, "string") ==> r == lx3
  {
    if States.Is(lx3.state, "string") then
      var lx4 := Symbol(lx3, ")");
      AppendsTransitive(lx, lx3, lx4);
      ClosePop(lx4);
      lx4.(state := States.Pop(lx4.state))
    else lx3
  }

  /** `embedable_string`: remembers the quotes for the interpolations to
      come, skips the `%` of a `%`-literal and lexes the string. */
  function EmbedableString(lx: LexState, q: Quotes): (r: Result<LexState>)
    requires lx.index >= 0
    ensures r.Success? ==> Steps(lx, r.value) && r.value.input == lx.input
    ensures r.Success? <==>
      LiteralStart(lx, q) <= |lx.input| && LiteralScan(lx.input[LiteralStart(lx, q)..], q).Success?
    ensures r.Success? ==> r.value.embed == lx.embed + [q]
  {
    var lx2 := OpenLiteral(lx, q);
    var str :- Rest(lx2);
    var lx3 :- String(lx2, str, q);
    assert Appends(lx, lx2);
    AppendsTransitive(lx, lx2, lx3);
    Success(CloseLiteral(lx, lx3))
  }

  /** Outside the string mode, a `"`/`%Q` literal without interpolation is
      one STRING token; one that stops at `#{` is `(` and STRING, with the
      string and interpolation modes pushed. Either way its quotes wait on
      the quote stack for the interpolations to come. */
  lemma EmbedableStringAppends(lx: LexState, q: Quotes)
    requires lx.index >= 0 && !States.Is(lx.state, "string") && EmbedableString(lx, q).Success?
    ensures var r := EmbedableString(lx, q).value;
      var sc := LiteralScan(lx.input[LiteralStart(lx, q)..], q).value;
      (!sc.embedded ==>
        (Grows(lx, r, ["STRING"]) && r.state == lx.state && r.index == LiteralStart(lx, q) + 2 + |LiteralValue(sc)|)) &&
      (sc.embedded ==>
        (Grows(lx, r, ["(", "STRING"]) && r.state == States.Push(States.Push(lx.state, "string"), "embed") &&
         r.index == LiteralStart(lx, q) + 1 + |LiteralValue(sc)|))
  {
    var lx2 := OpenLiteral(lx, q);
    var str := lx.input[LiteralStart(lx, q)..];
    assert str == lx2.input[lx2.index..];
    if LiteralScan(str, q).value.embedded {
      StringOpensInterpolation(lx2, str, q);
      States.PushThenIs(States.Push(lx.state, "string"), "embed", "string");
      assert EmbedableString(lx, q) == String(lx2, str, q);
    } else {
      StringPlain(lx2, str, q);
      assert EmbedableString(lx, q) == String(lx2, str, q);
    }
  }


  /** Popping the mode stack never raises the potential. */
  lemma ClosePop(lx: LexState)
    ensures Potential(lx.(state := States.Pop(lx.state))) <= Potential(lx)
  {
  }

  // ---------------------------------------------------------------------------
  // Regular expressions

  predicate IsRegexpFlag(c: char) {
    c == 'g' || c == 'i' || c == 'm' || c == 'y'
  }

  /** The `regexp` loop: the offset just past the first `/` from `idx` not
      preceded by a backslash. */
  function RegexpEnd(str: string, idx: nat): (r: Result<nat>)
    requires 1 <= idx <= |str|
    ensures r.Success? ==> idx < r.value <= |str| && str[r.value - 1] == '/' && str[r.value - 2] != '\\'
    ensures r.Success? ==> forall k :: idx <= k < r.value - 1 ==> !Unescaped(str, '/', k)
    ensures r.Failure? ==> forall k :: idx <= k < |str| ==> !Unescaped(str, '/', k)
    ensures r.Failure? ==> r.error == ParseError("Unterminated regular expression")
    decreases |str| - idx
  {
    match FindChar(str, '/', idx)
    case None => Failure(ParseError("Unterminated regular expression"))
    case Some(k) =>
      if str[k - 1] == '\\' then RegexpEnd(str, k + 1) else Success(k + 1)
  }

  /** `potential_regexp?` as written: it steps back over a trailing
      whitespace token, and with a single whitespace token the index becomes
      -1, which Ruby reads as the last token, the whitespace itself. */
  predicate PotentialRegexpAsWritten(tokens: seq<Token>) {
    var n := |tokens|;
    var i := if n > 0 && Is(tokens[n - 1], "whitespace") then n - 2 else n - 1;
    var t := if 0 <= i then Some(tokens[i]) else if -n <= i then Some(tokens[n + i]) else None;
    t.None? || IsAny(t.value, DETECT_REGEXP)
  }

  /** `potential_regexp?` as intended: the previous token, skipping one
      whitespace token, is absent or may precede an expression. */
  predicate PotentialRegexp(tokens: seq<Token>) {
    var n := |tokens|;
    var i := if n > 0 && Is(tokens[n - 1], "whitespace") then n - 2 else n - 1;
    i < 0 || IsAny(tokens[i], DETECT_REGEXP)
  }

  /** The two agree except on a single whitespace token, where the input
      ` /a/` lexes as a division as written but as a regular expression as
      intended. */
  lemma PotentialRegexpDiscrepancy(tokens: seq<Token>, ws: Token)
    requires ws.name == "whitespace"
    ensures !(|tokens| == 1 && tokens[0].name == "whitespace") ==>
      PotentialRegexpAsWritten(tokens) == PotentialRegexp(tokens)
    ensures !PotentialRegexpAsWritten([ws]) && PotentialRegexp([ws])
  {
    WhitespaceNotDetecting(ws);
  }

  lemma WhitespaceNotDetecting(ws: Token)
    requires ws.name == "whitespace"
    ensures !IsAny(ws, DETECT_REGEXP)
  {
    IsAnyExists(ws, DETECT_REGEXP);
    DetectRegexpShort();
    forall i | 0 <= i < |DETECT_REGEXP| ensures !Is(ws, DETECT_REGEXP[i]) {
      assert |DETECT_REGEXP[i]| <= 6;
    }
  }

  /** `regexp`: division unless a regular expression may start here; then
      the literal up to the first unescaped `/`, with its flags. */
  function Regexp(lx: LexState, str: string): (r: Result<LexState>)
    requires |str| >= 1 && str[0] == '/'
    ensures !PotentialRegexp(lx.tokens) ==> r == Success(Symbol(lx, "/"))
    ensures r.Failure? <==> PotentialRegexp(lx.tokens) && RegexpEnd(str, 1).Failure?
    ensures r.Failure? ==> r.error == ParseError("Unterminated regular expression")
    ensures r.Success? ==> r.value.input == lx.input && r.value.state == lx.state && r.value.embed == lx.embed
    ensures r.Success? ==> |r.value.tokens| == |lx.tokens| + 1 && r.value.tokens[..|lx.tokens|] == lx.tokens
    ensures r.Success? && PotentialRegexp(lx.tokens) ==>
      var t := r.value.tokens[|lx.tokens|];
      t.name == "REGEXP" && t.value.Some? && StartsWith(str, t.value.value) &&
      r.value.index == lx.index + |t.value.value| && |t.value.value| >= 2
    ensures r.Success? && PotentialRegexp(lx.tokens) ==>
      RegexpEnd(str, 1).Success? &&
      var f := Span(str, RegexpEnd(str, 1).value, IsRegexpFlag);
      r.value.tokens == lx.tokens + [Token("REGEXP", Some(str[..f]), lx.line, lx.column)]
  {
    if !PotentialRegexp(lx.tokens) then Success(Symbol(lx, "/"))
    else
      var e :- RegexpEnd(str, 1);
      var f := Span(str, e, IsRegexpFlag);
      StartsWithIsPrefix(str, str[..f]);
      Success(Emit(lx, "REGEXP", Some(str[..f]), true))
  }

  /** A `/` always moves the lexer on: the regular expression or the
      division it stands for is a step of the loop. */
  lemma RegexpSteps(lx: LexState, str: string)
    requires |str| >= 1 && str[0] == '/' && Regexp(lx, str).Success?
    ensures Steps(lx, Regexp(lx, str).value)
  {
  }

  // ---------------------------------------------------------------------------
  // `%r` literals and the escaping of their slashes

  /** The `gsub(%r(([^\\]|^)/), '\1\\/')` of `regexp2` as written: at each
      position try a non-backslash followed by `/`, then a `/` at the start
      of a line; matches do not overlap. */
  function EscapeSlashesFrom(s: string, p: nat): string
    requires p <= |s|
    decreases |s| - p
  {
    if p == |s| then ""
    else if p + 1 < |s| && s[p] != '\\' && s[p + 1] == '/' then [s[p], '\\', '/'] + EscapeSlashesFrom(s, p + 2)
    else if s[p] == '/' && (p == 0 || s[p - 1] == '\n') then ['\\', '/'] + EscapeSlashesFrom(s, p + 1)
    else [s[p]] + EscapeSlashesFrom(s, p + 1)
  }

  function EscapeSlashesAsWritten(s: string): string {
    EscapeSlashesFrom(s, 0)
  }

  /** Two slashes in a row: the second one is consumed by the first match
      and stays unescaped, so the JavaScript literal ends early. */
  lemma EscapeSlashesAsWrittenMisses()
    ensures EscapeSlashesAsWritten("a//b") == "a\\//b"
    ensures EscapeSlashesAsWritten("a//b")[3] == '/' && EscapeSlashesAsWritten("a//b")[2] != '\\'
  {
  }

  /** The replacement for position `p`: a backslash before a slash that
      has none. */
  function EscapePiece(s: string, p: nat): string
    requires p < |s|
  {
    if s[p] == '/' && (p == 0 || s[p - 1] != '\\') then ['\\', '/'] else [s[p]]
  }

  /** Drops every backslash. */
  function DropBackslashes(s: string): (r: string)
    ensures |r| <= |s|
  {
    if |s| == 0 then "" else DropBackslashes(s[..|s| - 1]) + (if s[|s| - 1] == '\\' then "" else [s[|s| - 1]])
  }

  lemma {:induction false} DropBackslashesAppend(a: string, b: string)
    ensures DropBackslashes(a + b) == DropBackslashes(a) + DropBackslashes(b)
    decreases |b|
  {
    if |b| > 0 {
      assert (a + b)[..|a + b| - 1] == a + b[..|b| - 1];
      DropBackslashesAppend(a, b[..|b| - 1]);
    } else {
      assert a + b == a;
    }
  }

  /** The escaping `regexp2` intends: every slash not already preceded by a
      backslash gets one. */
  function EscapeSlashes(s: string): string {
    if |s| == 0 then "" else EscapeSlashes(s[..|s| - 1]) + EscapePiece(s, |s| - 1)
  }

  /** Every slash of the result is escaped, the last character is kept, and
      apart from backslashes the text is unchanged. */
  lemma EscapeSlashesProperties(s: string)
    ensures |s| > 0 ==> |EscapeSlashes(s)| > 0 && EscapeSlashes(s)[|EscapeSlashes(s)| - 1] == s[|s| - 1]
    ensures forall i :: 0 <= i < |EscapeSlashes(s)| && EscapeSlashes(s)[i] == '/' ==> i > 0 && EscapeSlashes(s)[i - 1] == '\\'
    ensures DropBackslashes(EscapeSlashes(s)) == DropBackslashes(s)
  {
    EscapeKeepsLast(s);
    EscapeSlashesEscaped(s);
    EscapeSlashesDrop(s);
  }

  lemma EscapeKeepsLast(s: string)
    ensures |s| > 0 ==> |EscapeSlashes(s)| > 0 && EscapeSlashes(s)[|EscapeSlashes(s)| - 1] == s[|s| - 1]
  {
  }

  lemma {:induction false} EscapeSlashesEscaped(s: string)
    ensures forall i :: 0 <= i < |EscapeSlashes(s)| && EscapeSlashes(s)[i] == '/' ==> i > 0 && EscapeSlashes(s)[i - 1] == '\\'
    decreases |s|
  {
    if |s| > 0 {
      var pre := EscapeSlashes(s[..|s| - 1]);
      EscapeSlashesEscaped(s[..|s| - 1]);
      EscapeKeepsLast(s[..|s| - 1]);
      var piece := EscapePiece(s, |s| - 1);
      var r := pre + piece;
      assert r == EscapeSlashes(s);
      forall i | 0 <= i < |r| && r[i] == '/' ensures i > 0 && r[i - 1] == '\\' {
        if i >= |pre| + 1 {
          assert r[i - 1] == piece[0];
        } else if i == |pre| {
          assert r[i] == piece[0];
          if piece != ['\\', '/'] {
            assert |s| > 1 && s[|s| - 2] == '\\';
            assert r[i - 1] == pre[|pre| - 1];
          }
        } else {
          assert r[i] == pre[i];
          assert r[i - 1] == pre[i - 1];
        }
      }
    }
  }

  lemma {:induction false} EscapeSlashesDrop(s: string)
    ensures DropBackslashes(EscapeSlashes(s)) == DropBackslashes(s)
    decreases |s|
  {
    if |s| > 0 {
      var pre := EscapeSlashes(s[..|s| - 1]);
      EscapeSlashesDrop(s[..|s| - 1]);
      var piece := EscapePiece(s, |s| - 1);
      assert DropBackslashes(pre + piece) == DropBackslashes(pre) + DropBackslashes(piece) by {
        DropBackslashesAppend(pre, piece);
      }
      assert DropBackslashes(s) == DropBackslashes(s[..|s| - 1]) + DropBackslashes([s[|s| - 1]]) by {
        assert s == s[..|s| - 1] + [s[|s| - 1]];
        DropBackslashesAppend(s[..|s| - 1], [s[|s| - 1]]);
      }
      assert DropBackslashes(piece) == DropBackslashes([s[|s| - 1]]) by {
        if piece == ['\\', '/'] {
          assert ['\\', '/'][..1] == ['\\'];
          assert DropBackslashes(['\\']) == "" by {
            assert ['\\'][..0] == [];
          }
        }
      }
      assert pre + piece == EscapeSlashes(s);
    }
  }

  lemma EscapeSlashesSnoc(s: string, c: char)
    ensures EscapeSlashes(s + [c]) == EscapeSlashes(s) + EscapePiece(s + [c], |s|)
  {
    assert (s + [c])[..|s|] == s;
  }

  /** The `%r` example: both slashes escaped. */
  lemma EscapeSlashesDouble()
    ensures EscapeSlashes("a//b") == "a\\/\\/b"
  {
    assert "" + ['a'] == "a" && "a" + ['/'] == "a/" && "a/" + ['/'] == "a//" && "a//" + ['b'] == "a//b";
    EscapeSlashesSnoc("", 'a');
    EscapeSlashesSnoc("a", '/');
    EscapeSlashesSnoc("a/", '/');
    EscapeSlashesSnoc("a//", 'b');
  }

  /** A slash at the very start is escaped; an escaped one is left alone. */
  lemma EscapeSlashesEdges()
    ensures EscapeSlashes("/p") == "\\/p"
    ensures EscapeSlashes("\\/") == "\\/"
  {
    assert "" + ['/'] == "/" && "/" + ['p'] == "/p" && "" + ['\\'] == "\\" && "\\" + ['/'] == "\\/";
    EscapeSlashesSnoc("", '/');
    EscapeSlashesSnoc("/", 'p');
    EscapeSlashesSnoc("", '\\');
    EscapeSlashesSnoc("\\", '/');
  }

  /** `regexp2`: `%r` and the delimiter, the literal, its flags, and a
      REGEXP token in slash form; the token is recorded after consuming. */
  function Regexp2(lx: LexState, q: Quotes): (r: Result<LexState>)
    requires lx.index >= 0
    ensures r.Success? ==> Steps(lx, r.value) && r.value.input == lx.input && r.value.state == lx.state
    ensures r.Success? <==>
      lx.index + 2 <= |lx.input| && ScanLiteral(lx.input[lx.index + 2..], q.close, 1, false).Success?
  {
    var lx1 := Consume(lx, 2);
    var str :- Rest(lx1);
    var (lx2, v) :- MatchLiteral(lx1, str, q, false);
    var lx3 := Consume(lx2, |v|);
    // the literal lies within the input, so `input[index..-1]` is a string
    MatchLiteralPlain(lx1, str, q);
    assert lx3.index <= |lx3.input|;
    var rest := lx3.input[lx3.index..];
    var n := Span(rest, 0, IsRegexpFlag);
    var lx4 := Consume(lx3, n);
    ConsumeSteps(lx, lx1, lx2, lx4);
    var lx5 := Emit(lx4, "REGEXP", Some("/" + EscapeSlashes(v) + "/" + rest[..n]), false);
    AppendsTransitive(lx, lx4, lx5);
    Success(lx5)
  }

  /** `%r(...)` lexes to one REGEXP token, recorded where the flags end: a
      slash, the literal's body with its slashes escaped, a slash, and the
      longest run of `[gimy]` after the closing delimiter. */
  lemma Regexp2Token(lx: LexState, q: Quotes)
    requires lx.index >= 0 && Regexp2(lx, q).Success?
    ensures lx.index + 2 <= |lx.input| && ScanLiteral(lx.input[lx.index + 2..], q.close, 1, false).Success?
    ensures FlagsStart(lx, q) <= Regexp2(lx, q).value.index == Span(lx.input, FlagsStart(lx, q), IsRegexpFlag)
    ensures Regexp2(lx, q).value.tokens == lx.tokens + [Token("REGEXP",
      Some("/" + EscapeSlashes(PercentBody(lx, q)) + "/" + lx.input[FlagsStart(lx, q)..Regexp2(lx, q).value.index]),
      Regexp2(lx, q).value.line, Regexp2(lx, q).value.column)]
  {
    var lx1 := Consume(lx, 2);
    var str := lx.input[lx.index + 2..];
    assert Rest(lx1) == Success(str);
    var m := MatchLiteral(lx1, str, q, false).value;
    MatchLiteralPlain(lx1, str, q);
    var lx3 := Consume(m.0, |m.1|);
    var rest := lx.input[lx3.index..];
    var n := Span(rest, 0, IsRegexpFlag);
    var r := Emit(Consume(lx3, n), "REGEXP", Some("/" + EscapeSlashes(m.1) + "/" + rest[..n]), false);
    assert Regexp2(lx, q) == Success(r);
    FlagsToken(lx, lx3, m.1, r);
    assert m.1 == PercentBody(lx, q) && FlagsStart(lx, q) == lx3.index;
  }

  /** The body of a `%r`/`%w` literal that scans: its text between the
      delimiters. */
  function PercentBody(lx: LexState, q: Quotes): string
    requires 0 <= lx.index && lx.index + 2 <= |lx.input| && ScanLiteral(lx.input[lx.index + 2..], q.close, 1, false).Success?
  {
    LiteralValue(ScanLiteral(lx.input[lx.index + 2..], q.close, 1, false).value)
  }

  /** The offset just past the closing delimiter of a `%r` literal. */
  function FlagsStart(lx: LexState, q: Quotes): int
    requires 0 <= lx.index && lx.index + 2 <= |lx.input| && ScanLiteral(lx.input[lx.index + 2..], q.close, 1, false).Success?
  {
    lx.index + 4 + |PercentBody(lx, q)|
  }

  /** The REGEXP token of `%r`, once the literal `v` is consumed up to `lx3`:
      the flags are the longest `[gimy]*` run from there. */
  lemma FlagsToken(lx: LexState, lx3: LexState, v: string, r: LexState)
    requires lx3.input == lx.input && lx3.tokens == lx.tokens && 0 <= lx3.index <= |lx.input|
    requires r == Emit(Consume(lx3, Span(lx.input[lx3.index..], 0, IsRegexpFlag)), "REGEXP",
      Some("/" + EscapeSlashes(v) + "/" + lx.input[lx3.index..][..Span(lx.input[lx3.index..], 0, IsRegexpFlag)]), false)
    ensures lx3.index <= r.index == Span(lx.input, lx3.index, IsRegexpFlag)
    ensures r.tokens == lx.tokens + [Token("REGEXP", Some("/" + EscapeSlashes(v) + "/" + lx.input[lx3.index..r.index]), r.line, r.column)]
  {
    SpanSuffix(lx.input, lx3.index, IsRegexpFlag);
  }

  /** Consuming two characters, scanning a literal, then consuming more is
      a step of the loop. */
  lemma ConsumeSteps(lx: LexState, lx1: LexState, lx2: LexState, lx4: LexState)
    requires lx1 == Consume(lx, 2)
    requires Appends(lx1, lx2) && lx2.input == lx1.input && lx2.state == lx1.state
    requires lx2.index >= lx1.index + 1 && Potential(lx2) <= Potential(lx1) - 1
    requires lx4.tokens == lx2.tokens && lx4.input == lx2.input && lx4.state == lx2.state && lx4.index >= lx2.index
    ensures Steps(lx, lx4)
  {
  }

  // ---------------------------------------------------------------------------
  // `%w` literals

  predicate IsNotSpaceChar(c: char) {
    !IsSpace(c)
  }

  /** The text without its white space. */
  function NonSpaces(s: string): string {
    if |s| == 0 then "" else (if IsSpace(s[0]) then "" else [s[0]]) + NonSpaces(s[1..])
  }

  lemma {:induction false} NonSpacesAppend(a: string, b: string)
    ensures NonSpaces(a + b) == NonSpaces(a) + NonSpaces(b)
    decreases |a|
  {
    if |a| > 0 {
      assert (a + b)[1..] == a[1..] + b;
      NonSpacesAppend(a[1..], b);
    } else {
      assert a + b == b;
    }
  }

  lemma {:induction false} NonSpacesOfSpaces(s: string)
    requires forall k :: 0 <= k < |s| ==> IsSpace(s[k])
    ensures NonSpaces(s) == ""
  {
    if |s| > 0 {
      NonSpacesOfSpaces(s[1..]);
    }
  }

  lemma {:induction false} NonSpacesOfWord(s: string)
    requires forall k :: 0 <= k < |s| ==> !IsSpace(s[k])
    ensures NonSpaces(s) == s
  {
    if |s| > 0 {
      NonSpacesOfWord(s[1..]);
      assert s == [s[0]] + s[1..];
    }
  }

  function Concat(ws: seq<string>): string {
    if |ws| == 0 then "" else ws[0] + Concat(ws[1..])
  }

  /** `strip.split(/\s+/)`: the maximal runs of non-space characters, in
      order. */
  function SplitWords(t: string): (ws: seq<string>)
    ensures forall i :: 0 <= i < |ws| ==> |ws[i]| > 0 && forall k :: 0 <= k < |ws[i]| ==> !IsSpace(ws[i][k])
    decreases |t|
  {
    var a := Span(t, 0, IsSpace);
    if a == |t| then []
    else
      var b := Span(t, a, IsNotSpaceChar);
      [t[a..b]] + SplitWords(t[b..])
  }

  /** The words hold every non-space character of the text, in order. */
  lemma {:induction false} SplitConcat(t: string)
    ensures Concat(SplitWords(t)) == NonSpaces(t)
    decreases |t|
  {
    var a := Span(t, 0, IsSpace);
    SkipSpaces(t, a);
    if a < |t| {
      var b := Span(t, a, IsNotSpaceChar);
      WordStep(t, a, b);
      SplitConcat(t[b..]);
      var ws := SplitWords(t);
      assert ws == [t[a..b]] + SplitWords(t[b..]);
      assert ws[1..] == SplitWords(t[b..]);
    }
  }

  lemma SkipSpaces(t: string, a: nat)
    requires a <= |t| && forall k :: 0 <= k < a ==> IsSpace(t[k])
    ensures NonSpaces(t) == NonSpaces(t[a..])
  {
    assert t == t[..a] + t[a..];
    NonSpacesAppend(t[..a], t[a..]);
    NonSpacesOfSpaces(t[..a]);
  }

  lemma WordStep(t: string, a: nat, b: nat)
    requires a <= b <= |t| && forall k :: a <= k < b ==> !IsSpace(t[k])
    ensures NonSpaces(t[a..]) == t[a..b] + NonSpaces(t[b..])
  {
    assert t[a..] == t[a..b] + t[b..];
    NonSpacesAppend(t[a..b], t[b..]);
    NonSpacesOfWord(t[a..b]);
  }

  ghost predicate GoodWords(ws: seq<string>) {
    forall i :: 0 <= i < |ws| ==> |ws[i]| > 0 && forall k :: 0 <= k < |ws[i]| ==> !IsSpace(ws[i][k])
  }

  /** Leading white space is skipped. */
  lemma SplitAfterSpace(c: char, t: string)
    requires IsSpace(c)
    ensures SplitWords([c] + t) == SplitWords(t)
  {
    var u := [c] + t;
    assert forall k :: 1 <= k <= |t| ==> u[k] == t[k - 1];
    var a := Span(t, 0, IsSpace);
    SpanExact(u, 0, a + 1, IsSpace);
    if a < |t| {
      var b := Span(t, a, IsNotSpaceChar);
      SpanExact(u, a + 1, b + 1, IsNotSpaceChar);
      assert u[a + 1..b + 1] == t[a..b] by {
        assert forall k :: 0 <= k < b - a ==> u[a + 1..b + 1][k] == t[a..b][k];
      }
      assert u[b + 1..] == t[b..] by {
        assert forall k :: 0 <= k < |t| - b ==> u[b + 1..][k] == t[b..][k];
      }
      SplitWordsStep(u, a + 1, b + 1);
      SplitWordsStep(t, a, b);
    }
  }

  /** One turn of the split: the spaces skipped, then one word. */
  lemma SplitWordsStep(t: string, a: nat, b: nat)
    requires a == Span(t, 0, IsSpace) && a < |t| && b == Span(t, a, IsNotSpaceChar)
    ensures SplitWords(t) == [t[a..b]] + SplitWords(t[b..])
  {
  }

  /** A word at the front is split off whole. */
  lemma SplitWordFirst(w: string, t: string)
    requires |w| > 0 && forall k :: 0 <= k < |w| ==> !IsSpace(w[k])
    requires |t| == 0 || IsSpace(t[0])
    ensures SplitWords(w + t) == [w] + SplitWords(t)
  {
    var u := w + t;
    SpanExact(u, 0, 0, IsSpace);
    SpanExact(u, 0, |w|, IsNotSpaceChar);
    assert u[0..|w|] == w;
    assert u[|w|..] == t;
  }

  /** Joining words with single spaces and splitting gives the words back:
      nothing is merged and nothing is lost. */
  lemma {:induction false} SplitJoin(ws: seq<string>)
    requires GoodWords(ws)
    ensures SplitWords(Join(ws, " ")) == ws
    decreases |ws|
  {
    if |ws| == 1 {
      SplitWordFirst(ws[0], "");
      assert ws[0] + "" == ws[0];
      assert SplitWords("") == [];
    } else if |ws| > 1 {
      var rest := Join(ws[1..], " ");
      assert GoodWords(ws[1..]) by {
        forall i | 0 <= i < |ws[1..]| ensures |ws[1..][i]| > 0 && forall k :: 0 <= k < |ws[1..][i]| ==> !IsSpace(ws[1..][i][k]) {
          assert ws[1..][i] == ws[i + 1];
        }
      }
      assert Join(ws, " ") == ws[0] + (" " + rest);
      SplitWordFirst(ws[0], " " + rest);
      SplitAfterSpace(' ', rest);
      SplitJoin(ws[1..]);
      assert ws == [ws[0]] + ws[1..];
    }
  }

  function EmitWords(lx: LexState, ws: seq<string>): (r: LexState)
    ensures r.tokens == lx.tokens + seq(|ws|, k requires 0 <= k < |ws| => Token("STRING", Some(ws[k]), lx.line, lx.column))
    ensures r.input == lx.input && r.index == lx.index && r.state == lx.state && r.line == lx.line && r.column == lx.column
    ensures r.embed == lx.embed
    decreases |ws|
  {
    if |ws| == 0 then lx
    else
      var r := EmitWords(Emit(lx, "STRING", Some(ws[0]), false), ws[1..]);
      assert r.tokens == lx.tokens + seq(|ws|, k requires 0 <= k < |ws| => Token("STRING", Some(ws[k]), lx.line, lx.column));
      r
  }

  /** The tokens of a `%w` literal: `[`, a STRING per word, `]`, none of
      them consuming input. */
  function WordList(lx: LexState, ws: seq<string>): (r: LexState)
    ensures Grows(lx, r, ["["] + seq(|ws|, _ => "STRING") + ["]"])
    ensures forall k :: 0 <= k < |ws| ==> r.tokens[|lx.tokens| + 1 + k].value == Some(ws[k])
    ensures Appends(lx, r) && r.input == lx.input && r.index == lx.index && r.state == lx.state
    ensures r.embed == lx.embed && r.line == lx.line && r.column == lx.column
  {
    var r := Emit(EmitWords(Emit(lx, "[", Some("["), false), ws), "]", Some("]"), false);
    assert Appends(lx, r);
    r
  }

  /** `words`: `[`, one STRING per word of the literal in order, `]`, all
      recorded at the position after the literal. */
  function Words(lx: LexState, q: Quotes): (r: Result<LexState>)
    requires lx.index >= 0
    ensures r.Success? ==> Steps(lx, r.value) && r.value.input == lx.input && r.value.state == lx.state
    ensures r.Success? <==>
      lx.index + 2 <= |lx.input| && ScanLiteral(lx.input[lx.index + 2..], q.close, 1, false).Success?
  {
    var lx1 := Consume(lx, 2);
    var str :- Rest(lx1);
    var (lx2, w) :- MatchLiteral(lx1, str, q, false);
    var lx3 := Consume(lx2, |w|);
    var lx4 := WordList(lx3, SplitWords(w));
    AppendsTransitive(lx, lx3, lx4);
    Success(lx4)
  }

  /** `%w(...)` lexes to `[`, a STRING per whitespace-separated word of the
      literal, and `]`. */
  lemma WordsTokens(lx: LexState, q: Quotes)
    requires lx.index >= 0 && Words(lx, q).Success?
    ensures var ws := SplitWords(LiteralValue(ScanLiteral(lx.input[lx.index + 2..], q.close, 1, false).value));
      var r := Words(lx, q).value;
      Grows(lx, r, ["["] + seq(|ws|, _ => "STRING") + ["]"]) &&
      forall k :: 0 <= k < |ws| ==> r.tokens[|lx.tokens| + 1 + k].value == Some(ws[k])
  {
    var lx1 := Consume(lx, 2);
    var str := lx.input[lx.index + 2..];
    assert Rest(lx1) == Success(str);
    var m := MatchLiteral(lx1, str, q, false);
    var lx3 := Consume(m.value.0, |m.value.1|);
    assert lx3.tokens == lx.tokens;
    var ws := SplitWords(m.value.1);
    var r := WordList(lx3, ws);
    assert Words(lx, q) == Success(r);
    SameTokensGrow(lx, lx3, r, ["["] + seq(|ws|, _ => "STRING") + ["]"]);
  }

  // ---------------------------------------------------------------------------
  // Interpolation: `match_embed`

  /** `unput(s)`: splices `s` into the input at the index. */
  function Unput(lx: LexState, s: string): (r: LexState)
    requires 0 <= lx.index <= |lx.input|
    ensures |r.input| == |lx.input| + |s|
    ensures r.input[..lx.index] == lx.input[..lx.index] && r.input[lx.index..lx.index + |s|] == s
    ensures r.input[lx.index + |s|..] == lx.input[lx.index..]
  {
    var input := lx.input[..lx.index] + s + lx.input[lx.index..];
    assert input[lx.index..lx.index + |s|] == s;
    lx.(input := input)
  }

  /** `match_embed` inside an interpolation: `#{` continues the string
      concatenation; `}` closes the interpolation, and either the string
      ends right there, or the quote is spliced back so the rest of the
      string is lexed as a new literal. `None` is the source's `false`. */
  function MatchEmbed(lx: LexState): (r: Result<Option<LexState>>)
    requires 0 <= lx.index < |lx.input| && States.Is(lx.state, "embed")
    ensures r.Success? && r.value.Some? ==> Steps(lx, r.value.value)
    ensures StartsWith(lx.input[lx.index..], "#{") ==>
      r.Success? && r.value.Some? && r.value.value.state == lx.state && r.value.value.embed == lx.embed &&
      r.value.value.tokens == lx.tokens + [Token("+", Some("+"), lx.line, lx.column), Token("(", Some("("), lx.line, lx.column + 1)]
    ensures !StartsWith(lx.input[lx.index..], "#{") && lx.input[lx.index] == '}' ==>
      (r.Success? <==> |lx.embed| > 0)
    ensures !StartsWith(lx.input[lx.index..], "#{") && lx.input[lx.index] == '}' ==> r == CloseEmbed(lx)
    ensures !StartsWith(lx.input[lx.index..], "#{") && lx.input[lx.index] != '}' ==> r == Success(None)
  {
    var str := lx.input[lx.index..];
    assert str[0] == lx.input[lx.index];
    if StartsWith(str, "#{") then Success(Some(NestedEmbed(lx)))
    else if str[0] == '}' then CloseEmbed(lx)
    else Success(None)
  }

  /** `#{` inside an interpolation: `+` and `(` continue the concatenation. */
  function NestedEmbed(lx: LexState): (r: LexState)
    requires 0 <= lx.index && States.Is(lx.state, "embed")
    ensures Steps(lx, r) && r.state == lx.state && r.embed == lx.embed
    ensures r.tokens == lx.tokens + [Token("+", Some("+"), lx.line, lx.column), Token("(", Some("("), lx.line, lx.column + 1)]
  {
    Symbol(Symbol(lx, "+"), "(")
  }

  /** The `}` at the index is followed by the closing quote of the
      innermost interpolated string. */
  predicate EndsString(lx: LexState)
    requires 0 <= lx.index && |lx.embed| > 0
  {
    lx.index + 1 < |lx.input| && lx.input[lx.index + 1] == lx.embed[|lx.embed| - 1].close
  }

  /** `}` inside an interpolation: the innermost quotes are taken off the
      list (nil when there are none, whose `last` raises), then the string
      either ends (`)` `)`, leaving the interpolation and the string mode)
      or resumes (`)` `+`, leaving the interpolation only). */
  function CloseEmbed(lx: LexState): (r: Result<Option<LexState>>)
    requires 0 <= lx.index < |lx.input| && States.Is(lx.state, "embed")
    ensures r.Success? <==> |lx.embed| > 0
    ensures r.Success? ==> r.value.Some? && Steps(lx, r.value.value) && r.value.value.embed == lx.embed[..|lx.embed| - 1]
    ensures r.Success? && EndsString(lx) ==>
      r.value.value.tokens == lx.tokens + [Token(")", Some(")"), lx.line, lx.column), Token(")", Some(")"), lx.line, lx.column + 1)] &&
      r.value.value.state == States.Pop(States.Pop(lx.state))
    ensures r.Success? && !EndsString(lx) ==>
      r.value.value.tokens == lx.tokens + [Token(")", Some(")"), lx.line, lx.column), Token("+", Some("+"), lx.line, lx.column + 1)] &&
      r.value.value.state == States.Pop(lx.state)
  {
    if |lx.embed| == 0 then Failure(NoMethod("last"))
    else
      var q := lx.embed[|lx.embed| - 1];
      var lx1 := lx.(embed := lx.embed[..|lx.embed| - 1]);
      if EndsString(lx) then Success(Some(CloseInterpolation(lx1)))
      else Success(Some(ResumeLiteral(lx1, q)))
  }

  /** A `}` right before the closing quote: both parentheses close, and the
      interpolation and the string mode end. */
  function CloseInterpolation(lx: LexState): (r: LexState)
    requires States.Is(lx.state, "embed")
    ensures Steps(lx, r) && r.input == lx.input && r.embed == lx.embed
    ensures r.index == lx.index + 2
    ensures r.tokens == lx.tokens + [Token(")", Some(")"), lx.line, lx.column), Token(")", Some(")"), lx.line, lx.column + 1)]
    ensures r.state == States.Pop(States.Pop(lx.state))
  {
    var lx2 := Symbol(Symbol(lx, ")"), ")");
    lx2.(state := States.Pop(States.Pop(lx2.state)))
  }

  /** A `}` with more of the string after it: the interpolation closes, a `+`
      joins what follows, and the opening quote is put back before the rest so
      it lexes as a new literal. */
  function ResumeLiteral(lx: LexState, q: Quotes): (r: LexState)
    requires 0 <= lx.index < |lx.input| && States.Is(lx.state, "embed")
    ensures Steps(lx, r) && r.embed == lx.embed
    ensures r.index == lx.index + 1 && r.index < |r.input| && r.input[r.index] == QuoteOf(q)
    ensures r.tokens == lx.tokens + [Token(")", Some(")"), lx.line, lx.column), Token("+", Some("+"), lx.line, lx.column + 1)]
    ensures r.state == States.Pop(lx.state)
  {
    var lx2 := Consume(Symbol(Symbol(lx, ")"), "+"), -1);
    var lx3 := Unput(lx2, [QuoteOf(q)]);
    assert lx3.input[lx2.index..lx2.index + 1] == [QuoteOf(q)];
    lx3.(state := States.Pop(lx3.state))
  }

  // ---------------------------------------------------------------------------
  // The dispatch: `match`

  function UnknownToken(lx: LexState, str: string): Error {
    ParseError("Unknown token " + NonSpaceRun(str) + " at " + IntToString(lx.line) + "," + IntToString(lx.column))
  }

  /** A token whose value is the first `n` characters of the rest, consumed. */
  function Lexeme(lx: LexState, name: string, str: string, n: nat): (r: LexState)
    requires 0 < n <= |str|
    ensures r.tokens == lx.tokens + [Token(name, Some(str[..n]), lx.line, lx.column)]
    ensures r.index == lx.index + n && r.input == lx.input && r.state == lx.state && r.embed == lx.embed
    ensures name != "EOF" ==> Steps(lx, r)
  {
    Emit(lx, name, Some(str[..n]), true)
  }

  /** A word of the table the alternation matched: a step of the loop when
      no word of the table is empty or the end marker. */
  lemma WordSteps(lx: LexState, words: seq<string>, bound: bool, str: string)
    requires forall i :: 0 <= i < |words| ==> |words[i]| > 0 && words[i] != "EOF"
    requires MatchWord(words, bound, str).Some?
    ensures Steps(lx, Symbol(lx, MatchWord(words, bound, str).value))
  {
  }

  lemma KeywordsNotEof()
    ensures forall i :: 0 <= i < |KEYWORDS| ==> |KEYWORDS[i]| > 0 && KEYWORDS[i] != "EOF"
  {
    KeywordsStartWithLetter();
  }

  lemma OperatorsNotEof()
    ensures forall i :: 0 <= i < |OPERATORS| ==> |OPERATORS[i]| > 0 && OPERATORS[i] != "EOF"
  {
    OperatorsAreSymbols();
  }

  /** The patterns of `match` that yield a single token: comment, line
      feed, `;`, boolean, nil, float and integer, in this order. */
  function MatchAtom(lx: LexState, str: string): (r: Option<LexState>)
    requires |str| > 0
    ensures r.Some? ==> Steps(lx, r.value)
  {
    if MatchComment(str).Some? then Some(Lexeme(lx, "COMMENT", str, MatchComment(str).value))
    else if str[0] == '\n' then Some(Linefeed(lx))
    else if str[0] == ';' then Some(Symbol(lx, ";"))
    else if MatchWord(["true", "false"], true, str).Some? then
      Some(Emit(lx, "BOOLEAN", MatchWord(["true", "false"], true, str), true))
    else if MatchWord(["null", "nil", "undefined"], true, str).Some? then
      Some(Emit(lx, "NIL", MatchWord(["null", "nil", "undefined"], true, str), true))
    else if MatchFloat(str).Some? then Some(Lexeme(lx, "NUMBER", str, MatchFloat(str).value))
    else if MatchInteger(str).Some? then Some(Lexeme(lx, "NUMBER", str, MatchInteger(str).value))
    else None
  }

  /** The patterns that open a literal. */
  predicate OpensLiteral(str: string) {
    RegexpStart(str) || PercentDelimiter(str, 'r').Some? || PercentDelimiter(str, 'w').Some? ||
    (|str| > 0 && (str[0] == '\'' || str[0] == '"')) || StringDelimiter(str).Some?
  }

  /** The literal patterns of `match`: regular expressions, `%r`, `%w`,
      single-quoted, double-quoted and `%`-quoted strings, in this order. */
  function MatchLiteralToken(lx: LexState, str: string): (r: Result<LexState>)
    requires 0 <= lx.index < |lx.input| && str == lx.input[lx.index..] && OpensLiteral(str)
    ensures r.Success? ==> Steps(lx, r.value)
  {
    if RegexpStart(str) then
      var r := Regexp(lx, str);
      if r.Success? then RegexpSteps(lx, str); r else r
    else if PercentDelimiter(str, 'r').Some? then
      var c := PercentDelimiter(str, 'r').value;
      Regexp2(lx, Quotes(c, ClosingQuote(c)))
    else if PercentDelimiter(str, 'w').Some? then
      var c := PercentDelimiter(str, 'w').value;
      Words(lx, Quotes(c, ClosingQuote(c)))
    else if str[0] == '\'' then String(lx, str, Quotes('\'', '\''))
    else if str[0] == '"' then EmbedableString(lx, Quotes('"', '"'))
    else
      var c := StringDelimiter(str).value;
      EmbedableString(lx, Quotes(c, ClosingQuote(c)))
  }

  /** The remaining patterns of `match`: keywords, operators, parentheses,
      identifiers and blanks; anything else is an unknown token. */
  function MatchSymbol(lx: LexState, str: string): (r: Result<LexState>)
    requires |str| > 0
    ensures r.Success? ==> Steps(lx, r.value)
    ensures r.Failure? ==> r.error == UnknownToken(lx, str)
  {
    if MatchWord(KEYWORDS, true, str).Some? then
      KeywordsNotEof();
      WordSteps(lx, KEYWORDS, true, str);
      Success(Symbol(lx, MatchWord(KEYWORDS, true, str).value))
    else if MatchWord(OPERATORS, false, str).Some? then
      OperatorsNotEof();
      WordSteps(lx, OPERATORS, false, str);
      Success(Symbol(lx, MatchWord(OPERATORS, false, str).value))
    else if MatchWord(PARENS, false, str).Some? then
      WordSteps(lx, PARENS, false, str);
      Success(Symbol(lx, MatchWord(PARENS, false, str).value))
    else if MatchIdentifier(str).Some? then Success(Lexeme(lx, "identifier", str, MatchIdentifier(str).value))
    else if MatchWhitespace(str).Some? then Success(Lexeme(lx, "whitespace", str, MatchWhitespace(str).value))
    else Failure(UnknownToken(lx, str))
  }

  /** `match`: the patterns in the order the source tries them. Every
      successful match is a step of the loop. */
  function Match(lx: LexState): (r: Result<LexState>)
    requires 0 <= lx.index < |lx.input|
    ensures r.Success? ==> Steps(lx, r.value)
  {
    var str := lx.input[lx.index..];
    match MatchAtom(lx, str)
    case Some(next) => Success(next)
    case None =>
      if OpensLiteral(str) then MatchLiteralToken(lx, str) else MatchSymbol(lx, str)
  }

  // ---------------------------------------------------------------------------
  // The main loop: `tokenize`

  function Measure(lx: LexState): nat {
    if 0 <= lx.index <= |lx.input| then 2 * (|lx.input| - lx.index) + States.Occurrences(lx.state, "embed") else 0
  }

  /** One turn of the `tokenize` loop before the end of the input: an
      interpolation first when one is open, the dispatch otherwise. */
  function Step(lx: LexState): (r: Result<LexState>)
    requires 0 <= lx.index < |lx.input|
    ensures r.Success? ==> Steps(lx, r.value)
  {
    var embedded :- if States.Is(lx.state, "embed") then MatchEmbed(lx) else Success(None);
    if embedded.Some? then Success(embedded.value) else Match(lx)
  }

  lemma StepKeepsNoEof(a: LexState, b: LexState)
    requires NoEof(a.tokens) && Appends(a, b)
    ensures NoEof(b.tokens)
  {
    forall k | 0 <= k < |b.tokens| ensures b.tokens[k].name != "EOF" {
      if k < |a.tokens| {
        assert b.tokens[k] == b.tokens[..|a.tokens|][k];
      }
    }
  }

  lemma MeasureDecreases(a: LexState, b: LexState)
    requires 0 <= a.index < |a.input| && Steps(a, b)
    ensures Measure(b) < Measure(a)
  {
  }

  /** `ts` goes on from `prefix` and ends with the only EOF. */
  predicate Completes(prefix: seq<Token>, ts: seq<Token>) {
    |ts| > |prefix| && ts[..|prefix|] == prefix && ts[|ts| - 1].name == "EOF" && NoEof(ts[..|ts| - 1])
  }

  /** What completes the tokens after a step completes them before it. */
  lemma CompletesBefore(a: LexState, b: LexState, ts: seq<Token>)
    requires Appends(a, b) && Completes(b.tokens, ts)
    ensures Completes(a.tokens, ts)
  {
    assert ts[..|a.tokens|] == ts[..|b.tokens|][..|a.tokens|];
  }

  /** `tokenize`: one step at a time until the input is used up, then EOF. */
  function Tokenize(lx: LexState): (r: Result<seq<Token>>)
    requires lx.index >= 0 && NoEof(lx.tokens)
    ensures r.Success? ==> Completes(lx.tokens, r.value)
    decreases Measure(lx)
  {
    if lx.index > |lx.input| then Failure(NoMethod("empty?"))
    else if lx.index == |lx.input| then
      var ts := lx.tokens + [Token("EOF", None, lx.line, lx.column)];
      assert ts[..|ts| - 1] == lx.tokens;
      Success(ts)
    else
      var next :- Step(lx);
      StepKeepsNoEof(lx, next);
      MeasureDecreases(lx, next);
      var r :- Tokenize(next);
      CompletesBefore(lx, next, r);
      Success(r)
  }

  /** `Lexer#tokens`: tokenizing the whole input from the start. */
  function TokensOf(input: string): (r: Result<seq<Token>>)
    ensures r.Success? ==> |r.value| > 0 && r.value[|r.value| - 1].name == "EOF"
    ensures r.Success? ==> NoEof(r.value[..|r.value| - 1])
  {
    Tokenize(Init(input))
  }

  /** `Lexer#lex`: the front of the cached tokens, nil once they are used up. */
  function Lex(cache: seq<Token>): (r: (Option<Token>, seq<Token>))
    ensures |cache| > 0 ==> r == (Some(cache[0]), cache[1..])
    ensures |cache| == 0 ==> r == (None, cache)
  {
    if |cache| == 0 then (None, cache) else (Some(cache[0]), cache[1..])
  }

  /** Lexing `k` times from the cache. */
  function LexTimes(cache: seq<Token>, k: nat): (r: (seq<Option<Token>>, seq<Token>))
    ensures |r.0| == k
    decreases k
  {
    if k == 0 then ([], cache)
    else
      var (t, rest) := Lex(cache);
      var (ts, left) := LexTimes(rest, k - 1);
      ([t] + ts, left)
  }

  /** `lex` hands out the tokens in order, the EOF last, and nil after it. */
  lemma {:induction false} LexInOrder(cache: seq<Token>, extra: nat)
    ensures LexTimes(cache, |cache| + extra).0 ==
      seq(|cache|, i requires 0 <= i < |cache| => Some(cache[i])) + seq(extra, i => None)
    decreases |cache|, extra
  {
    if |cache| > 0 {
      LexInOrder(cache[1..], extra);
      assert LexTimes(cache, |cache| + extra).0 == [Some(cache[0])] + LexTimes(cache[1..], |cache[1..]| + extra).0;
    } else if extra > 0 {
      LexInOrder(cache, extra - 1);
      assert LexTimes(cache, extra).0 == [None] + LexTimes(cache, extra - 1).0;
    }
  }

  /** The names of a token list. */
  function Names(ts: seq<Token>): (ns: seq<string>)
    ensures |ns| == |ts| && forall k :: 0 <= k < |ts| ==> ns[k] == ts[k].name
  {
    seq(|ts|, k requires 0 <= k < |ts| => ts[k].name)
  }

  /** Growth composes: the names appended by two steps in a row. */
  lemma GrowsThen(a: LexState, b: LexState, c: LexState, m: seq<string>, n: seq<string>)
    requires Grows(a, b, m) && Grows(b, c, n)
    ensures Grows(a, c, m + n)
  {
    assert c.tokens[..|a.tokens|] == c.tokens[..|b.tokens|][..|a.tokens|];
    forall i | 0 <= i < |m + n| ensures c.tokens[|a.tokens| + i].name == (m + n)[i] {
      if i < |m| {
        assert c.tokens[|a.tokens| + i] == c.tokens[..|b.tokens|][|a.tokens| + i];
      }
    }
  }

  /** Before the end of the input, `tokenize` goes on from wherever one
      step leads. */
  lemma TokenizeStep(lx: LexState)
    requires 0 <= lx.index < |lx.input| && NoEof(lx.tokens) && Step(lx).Success?
    ensures Step(lx).value.index >= 0 && NoEof(Step(lx).value.tokens)
    ensures Tokenize(lx) == Tokenize(Step(lx).value)
  {
    StepKeepsNoEof(lx, Step(lx).value);
  }

  /** No word of the list is at the start of `s`. */
  predicate NoneStart(words: seq<string>, s: string) {
    forall j :: 0 <= j < |words| ==> !StartsWith(s, words[j])
  }

  lemma NoneStartJoin(a: seq<string>, b: seq<string>, s: string)
    requires NoneStart(a, s) && NoneStart(b, s)
    ensures NoneStart(a + b, s)
  {
    forall j | 0 <= j < |a + b| ensures !StartsWith(s, (a + b)[j]) {
      if j < |a| {
        assert (a + b)[j] == a[j];
      } else {
        assert (a + b)[j] == b[j - |a|];
      }
    }
  }

  /** Text that starts with a word character starts with no operator. */
  lemma NoOperatorBeforeWord(s: string)
    requires |s| > 0 && IsWordChar(s[0])
    ensures MatchWord(OPERATORS, false, s) == None
  {
    OperatorsAreSymbols();
    forall j | 0 <= j < |OPERATORS| ensures !AltMatches(OPERATORS[j], false, s) {
      assert !IsWordChar(OPERATORS[j][0]);
    }
  }

  /** Text that starts with `n`, `a`, `m`, `e` and then a non-word
      character starts with no keyword. */
  lemma NameIsNoKeyword(s: string)
    requires |s| > 4 && s[..4] == "name" && !IsWordChar(s[4])
    ensures MatchWord(KEYWORDS, true, s) == None
  {
    assert s[0] == 'n' && s[1] == 'a' && s[2] == 'm' && s[3] == 'e';
    assert NoneStart(KEYWORDS_1, s);
    assert NoneStart(KEYWORDS_2, s);
    assert NoneStart(KEYWORDS_3, s);
    assert NoneStart(KEYWORDS_4, s);
    NoneStartJoin(KEYWORDS_1, KEYWORDS_2, s);
    NoneStartJoin(KEYWORDS_1 + KEYWORDS_2, KEYWORDS_3, s);
    NoneStartJoin(KEYWORDS_1 + KEYWORDS_2 + KEYWORDS_3, KEYWORDS_4, s);
  }

  /** Text whose first character opens no comment, line, number, boolean
      or nil is no atom. */
  lemma NoAtom(lx: LexState, s: string)
    requires |s| > 0 && s[0] != '#' && s[0] != '\n' && s[0] != ';' && s[0] != '.' && !IsDigit(s[0])
    requires s[0] != 't' && s[0] != 'f' && s[0] != 'n' && s[0] != 'u'
    ensures MatchAtom(lx, s) == None
  {
    assert NoneStart(["true", "false"], s);
    assert NoneStart(["null", "nil", "undefined"], s);
    assert Span(s, 0, IsDigit) == 0;
  }

  const HELLO: string := "\"hello #{name}\""
  const DOUBLE: Quotes := Quotes('"', '"')

  /** `"hello #{name}` ... : the literal stops at the interpolation, keeping
      `hello ` and the closing quote. */
  lemma HelloScan()
    ensures LiteralScan(HELLO[0..], DOUBLE) == Success(Scan("hello \"", true))
    ensures LiteralValue(Scan("hello \"", true)) == "hello "
  {
    assert HELLO[0..] == HELLO;
    assert FindChar(HELLO, '"', 1) == Some(14);
    var text := HELLO[1..15];
    assert EmbedAt(text, 6);
    assert FindEmbedFrom(text, 6) == Some(6);
    assert FindEmbedFrom(text, 5) == Some(6);
    assert FindEmbedFrom(text, 4) == Some(6);
    assert FindEmbedFrom(text, 3) == Some(6);
    assert FindEmbedFrom(text, 2) == Some(6);
    assert FindEmbedFrom(text, 1) == Some(6);
    assert FindEmbedFrom(text, 0) == Some(6);
    assert text[..6] + ['"'] == "hello \"";
  }

  /** Outside an interpolation a step is a plain match. */
  lemma StepOutsideInterpolation(lx: LexState)
    requires 0 <= lx.index < |lx.input| && !States.Is(lx.state, "embed")
    ensures Step(lx) == Match(lx)
  {
  }

  /** A `"` that no atom claims opens an interpolating literal. */
  lemma DoubleQuoteOpensLiteral(lx: LexState)
    requires 0 <= lx.index < |lx.input| && lx.input[lx.index] == '"'
    requires MatchAtom(lx, lx.input[lx.index..]) == None
    ensures Match(lx) == EmbedableString(lx, DOUBLE)
  {
    var str := lx.input[lx.index..];
    assert str[0] == '"' && !RegexpStart(str);
  }

  /** First step: `(` and STRING `hello `, with the string and
      interpolation modes pushed and the quote remembered. */
  lemma HelloOpens(lx: LexState)
    requires lx.input == HELLO && lx.index == 0 && lx.state == [] && lx.embed == []
    ensures Step(lx).Success?
    ensures var r := Step(lx).value;
      Grows(lx, r, ["(", "STRING"]) && r.input == HELLO && r.index == 7 &&
      r.state == ["string", "embed"] && r.embed == [DOUBLE]
  {
    HelloIsLiteral(lx);
    HelloScan();
    assert LiteralStart(lx, DOUBLE) == 0;
    EmbedableStringAppends(lx, DOUBLE);
  }

  /** The first step lexes the literal. */
  lemma HelloIsLiteral(lx: LexState)
    requires lx.input == HELLO && lx.index == 0 && lx.state == [] && lx.embed == []
    ensures Step(lx) == EmbedableString(lx, DOUBLE)
    ensures EmbedableString(lx, DOUBLE).Success?
  {
    HelloScan();
    NoAtom(lx, HELLO[0..]);
    StepOutsideInterpolation(lx);
    DoubleQuoteOpensLiteral(lx);
  }

  /** Second step: `#{` becomes `+` and `(`. */
  lemma HelloNests(lx: LexState)
    requires lx.input == HELLO && lx.index == 7 && lx.state == ["string", "embed"] && lx.embed == [DOUBLE]
    ensures Step(lx).Success?
    ensures var r := Step(lx).value;
      Grows(lx, r, ["+", "("]) && r.input == HELLO && r.index == 9 && r.state == lx.state && r.embed == lx.embed
  {
    assert StartsWith(HELLO[7..], "#{");
  }

  /** `name` followed by a non-word character lexes as an identifier. */
  lemma NameIsIdentifier(lx: LexState, str: string)
    requires str == "name}\""
    ensures MatchSymbol(lx, str) == Success(Lexeme(lx, "identifier", str, 4))
  {
    NameIsNoKeyword(str);
    NoOperatorBeforeWord(str);
    assert NoneStart(PARENS, str);
    assert Span(str, 1, IsIdentifierChar) == 4;
  }

  /** Third step: the identifier `name`. */
  lemma HelloName(lx: LexState)
    requires lx.input == HELLO && lx.index == 9 && lx.state == ["string", "embed"] && lx.embed == [DOUBLE]
    ensures Step(lx).Success?
    ensures var r := Step(lx).value;
      Grows(lx, r, ["identifier"]) && r.input == HELLO && r.index == 13 && r.state == lx.state && r.embed == lx.embed
  {
    var str := HELLO[9..];
    assert str == "name}\"";
    assert !StartsWith(str, "#{") && str[0] != '}';
    assert MatchEmbed(lx) == Success(None);
    assert MatchWord(["null", "nil", "undefined"], true, str) == None by {
      assert NoneStart(["null", "nil", "undefined"], str);
    }
    assert MatchAtom(lx, str) == None by {
      assert NoneStart(["true", "false"], str);
      assert Span(str, 0, IsDigit) == 0;
    }
    assert !OpensLiteral(str);
    NameIsIdentifier(lx, str);
    assert Match(lx) == MatchSymbol(lx, str);
  }

  /** Fourth step: `}` before the closing quote closes the interpolation
      and the string, popping both modes and the quote. */
  lemma HelloCloses(lx: LexState)
    requires lx.input == HELLO && lx.index == 13 && lx.state == ["string", "embed"] && lx.embed == [DOUBLE]
    ensures Step(lx).Success?
    ensures var r := Step(lx).value;
      Grows(lx, r, [")", ")"]) && r.input == HELLO && r.index == 15 && r.state == [] && r.embed == []
  {
    assert !StartsWith(HELLO[13..], "#{") && HELLO[13] == '}';
    assert EndsString(lx);
  }

  /** The names after a step are the names before it and the ones it
      appended. */
  lemma GrowsNames(a: LexState, b: LexState, n: seq<string>)
    requires Grows(a, b, n)
    ensures Names(b.tokens) == Names(a.tokens) + n
  {
    assert b.tokens == b.tokens[..|a.tokens|] + b.tokens[|a.tokens|..];
  }

  lemma GrowsThenNames(a: LexState, b: LexState, n: seq<string>, rest: seq<string>)
    requires Grows(a, b, n)
    ensures Names(b.tokens) + rest == Names(a.tokens) + (n + rest)
  {
    GrowsNames(a, b, n);
  }

  /** From the end of the input: EOF. */
  /** The names one step appends come first among those the rest of the
      input yields. */
  lemma TokenizeThrough(lx: LexState, n: seq<string>, rest: seq<string>)
    requires 0 <= lx.index < |lx.input| && NoEof(lx.tokens) && Step(lx).Success? && Grows(lx, Step(lx).value, n)
    requires Step(lx).value.index >= 0 && NoEof(Step(lx).value.tokens)
    requires Tokenize(Step(lx).value).Success?
    requires Names(Tokenize(Step(lx).value).value) == Names(Step(lx).value.tokens) + rest
    ensures Tokenize(lx).Success? && Names(Tokenize(lx).value) == Names(lx.tokens) + (n + rest)
  {
    TokenizeStep(lx);
    GrowsThenNames(lx, Step(lx).value, n, rest);
  }

  lemma HelloFrom15(lx: LexState)
    requires lx.input == HELLO && lx.index == 15 && NoEof(lx.tokens)
    ensures Tokenize(lx).Success? && Names(Tokenize(lx).value) == Names(lx.tokens) + ["EOF"]
  {
    var ts := lx.tokens + [Token("EOF", None, lx.line, lx.column)];
    assert Tokenize(lx) == Success(ts);
    assert Names(ts) == Names(lx.tokens) + ["EOF"];
  }

  lemma HelloFrom13(lx: LexState)
    requires lx.input == HELLO && lx.index == 13 && lx.state == ["string", "embed"] && lx.embed == [DOUBLE]
    requires NoEof(lx.tokens)
    ensures Tokenize(lx).Success? && Names(Tokenize(lx).value) == Names(lx.tokens) + ([")", ")"] + ["EOF"])
  {
    HelloCloses(lx);
    TokenizeStep(lx);
    HelloFrom15(Step(lx).value);
    TokenizeThrough(lx, [")", ")"], ["EOF"]);
  }

  lemma HelloFrom9(lx: LexState)
    requires lx.input == HELLO && lx.index == 9 && lx.state == ["string", "embed"] && lx.embed == [DOUBLE]
    requires NoEof(lx.tokens)
    ensures Tokenize(lx).Success? && Names(Tokenize(lx).value) == Names(lx.tokens) + (["identifier"] + ([")", ")"] + ["EOF"]))
  {
    HelloName(lx);
    TokenizeStep(lx);
    HelloFrom13(Step(lx).value);
    TokenizeThrough(lx, ["identifier"], [")", ")"] + ["EOF"]);
  }

  lemma HelloFrom7(lx: LexState)
    requires lx.input == HELLO && lx.index == 7 && lx.state == ["string", "embed"] && lx.embed == [DOUBLE]
    requires NoEof(lx.tokens)
    ensures Tokenize(lx).Success? && Names(Tokenize(lx).value) ==
      Names(lx.tokens) + (["+", "("] + (["identifier"] + ([")", ")"] + ["EOF"])))
  {
    HelloNests(lx);
    TokenizeStep(lx);
    HelloFrom9(Step(lx).value);
    TokenizeThrough(lx, ["+", "("], ["identifier"] + ([")", ")"] + ["EOF"]));
  }

  /** `"hello #{name}"` lexes to `( STRING + ( identifier ) ) EOF`: the
      interpolation becomes a parenthesised concatenation. */
  lemma {:induction false} HelloTokens()
    ensures TokensOf(HELLO).Success?
    ensures Names(TokensOf(HELLO).value) == ["(", "STRING", "+", "(", "identifier", ")", ")", "EOF"]
  {
    HelloFrom0(Init(HELLO));
    assert Names([]) == [];
  }

  lemma HelloFrom0(lx: LexState)
    requires lx.input == HELLO && lx.index == 0 && lx.state == [] && lx.embed == [] && NoEof(lx.tokens)
    ensures Tokenize(lx).Success?
    ensures Names(Tokenize(lx).value) == Names(lx.tokens) + (["(", "STRING"] + (["+", "("] + (["identifier"] + ([")", ")"] + ["EOF"]))))
  {
    HelloOpens(lx);
    TokenizeStep(lx);
    HelloFrom7(Step(lx).value);
    TokenizeThrough(lx, ["(", "STRING"], ["+", "("] + (["identifier"] + ([")", ")"] + ["EOF"])));
  }
}

=== FILE: negator_laws.dfy ===
/** What the negators do: double negation removed, De Morgan's laws,
    comparison flips, totality on well-formed trees, and `negate` undoing
    itself on trees in the parser's shape. */
module NegatorLaws {
  import opened Wrappers
  import opened Nodes
  import opened Negators

  // ---------------------------------------------------------------------------
  // Properties

  /** `simple_negate(!e)` is `e`; on anything else it is `common_negate`. */
  lemma SimpleNegateCases(v: Value)
    ensures Negation(v) == Success(true) ==> SimpleNegate(v) == Get(v.node, "argument")
    ensures Negation(v) == Success(false) ==> SimpleNegate(v) == Success(CommonNegate(v))
    ensures forall e :: SimpleNegate(Unary("!", e)) == Success(e)
  {
    forall e
      ensures SimpleNegate(Unary("!", e)) == Success(e)
    {
      UnaryClass("!", e);
      UnaryFields("!", e);
    }
  }

  /** Negating twice with `simple_negate` restores an identifier, literal or
      group, and leaves any other non-negation inside a group. */
  lemma SimpleNegateTwice(v: Value)
    requires Negation(v) == Success(false)
    ensures SimpleNegate(v).Success? && SimpleNegate(SimpleNegate(v).value).Success?
    ensures var twice := SimpleNegate(SimpleNegate(v).value).value;
      if IsNode(v, "identifier") || IsNode(v, "literal") || IsNode(v, "group_expression") then twice == v
      else twice == Group(v)
  {
  }

  /** De Morgan's laws: `!(a && b)` is `!a || !b` and `!(a || b)` is `!a && !b`,
      each operand negated by `negate`. */
  lemma DeMorgan(op: string, a: Value, b: Value)
    requires op in LOGICAL_OPERATOR
    requires Negate(a).Success? && Negate(b).Success?
    ensures Negate(Binary(op, a, b)) ==
      Success(Binary(if op == "&&" then "||" else "&&", Negate(a).value, Negate(b).value))
  {
    BinaryClass(op, a, b);
    BinaryFields(op, a, b);
  }

  /** A comparison is flipped; its left operand is kept as it is and its
      right operand is negated only when logical or a comparison itself. */
  lemma ComparisonFlipped(op: string, a: Value, b: Value)
    requires op in NEGATABLE_OPERATOR
    requires !Special(b) ==> Logical(b).Success? && Negatable(b).Success?
    requires Special(b) ==> Negate(b).Success?
    ensures Negate(Binary(op, a, b)) ==
      Success(Binary(Flip(op), a, if Special(b) then Negate(b).value else b))
  {
    if Special(b) {
      RightIsNegate(b);
    } else {
      assert NegateRight(b) == Success(b);
    }
    FlipStep(op, a, b);
  }

  /** `negate` on a comparison is `negate_binary_expression`. */
  lemma FlipStep(op: string, a: Value, b: Value)
    requires op in NEGATABLE_OPERATOR && NegateRight(b).Success?
    ensures Negate(Binary(op, a, b)) == Success(Binary(Flip(op), a, NegateRight(b).value))
  {
    BinaryClass(op, a, b);
    BinaryFields(op, a, b);
    assert op !in LOGICAL_OPERATOR;
    assert Negate(Binary(op, a, b)) == NegateBinary(Binary(op, a, b).node);
  }

  /** On a logical or comparison operand, `negate` does what
      `negate_binary_expression` does to its right operand. */
  lemma RightIsNegate(v: Value)
    requires Special(v)
    ensures NegateRight(v) == Negate(v)
  {
    assert Negation(v) == Success(false);
    if Logical(v) == Success(true) {
      assert OperatorName(v.node).value !in NEGATABLE_OPERATOR;
    }
  }

  /** Everything else is wrapped in `!` with no group, even `a + b`. */
  lemma NegatePlain(v: Value)
    requires Plain(v)
    ensures Negate(v) == Success(Unary("!", v))
  {
  }

  /** `experimental_negate(!e)` is `e`; otherwise it treats logical nodes and
      comparisons as `negate` does and hands the rest to `common_negate`. */
  lemma ExperimentalCases(v: Value)
    ensures Negation(v) == Success(true) ==> ExperimentalNegate(v) == Get(v.node, "argument")
    ensures Negation(v) == Success(false) && Special(v) ==> ExperimentalNegate(v) == Negate(v)
    ensures Plain(v) ==> ExperimentalNegate(v) == Success(CommonNegate(v))
  {
    if Negation(v) == Success(false) && Logical(v) == Success(true) {
      assert OperatorName(v.node).value !in NEGATABLE_OPERATOR;
    }
  }

  // ---------------------------------------------------------------------------
  // Totality: no field is ever missing on a well-formed tree.

  /** Every unary node has an operator and an argument, every binary node a
      string operator and both operands, all the way down. */
  predicate Wf(v: Value) {
    match v
    case Child(n) => WfNode(n)
    case Items(xs) => forall i :: 0 <= i < |xs| ==> Wf(xs[i])
    case _ => true
  }

  predicate WfNode(n: Node) {
    (n.kind == "unary_expression" ==> Has(n, "operator") && Has(n, "argument")) &&
    (n.kind == "binary_expression" ==> OperatorName(n).Success? && Has(n, "left") && Has(n, "right")) &&
    forall i :: 0 <= i < |n.params| ==> Wf(n.params[i].value)
  }

  lemma WfField(n: Node, key: string)
    requires WfNode(n) && Has(n, key)
    ensures Wf(Get(n, key).value)
  {
    var i := Find(n.params, key).value;
    assert Wf(n.params[i].value);
  }

  lemma WfUnary(op: string, a: Value)
    requires Wf(a)
    ensures Wf(Unary(op, a))
  {
    UnaryFields(op, a);
    var ps := Unary(op, a).node.params;
    assert forall i :: 0 <= i < |ps| ==> Wf(ps[i].value);
  }

  lemma WfBinary(op: string, l: Value, r: Value)
    requires Wf(l) && Wf(r)
    ensures Wf(Binary(op, l, r))
  {
    BinaryClass(op, l, r);
    BinaryFields(op, l, r);
    var ps := Binary(op, l, r).node.params;
    assert forall i :: 0 <= i < |ps| ==> Wf(ps[i].value);
  }

  /** The negators never fail on a well-formed tree, and build well-formed trees. */
  lemma {:induction false} NegateTotal(v: Value)
    requires Wf(v)
    ensures Negate(v).Success? && Wf(Negate(v).value)
    decreases ValueSize(v), 1
  {
    if Negation(v) == Success(true) {
      WfField(v.node, "argument");
    } else if Logical(v) == Success(true) {
      LogicalTotal(v.node);
    } else if Negatable(v) == Success(true) {
      BinaryTotal(v.node);
    } else {
      WfUnary("!", v);
    }
  }

  lemma {:induction false} LogicalTotal(n: Node)
    requires WfNode(n) && Child(n).Child? && Logical(Child(n)) == Success(true)
    ensures NegateLogical(n).Success? && Wf(NegateLogical(n).value)
    decreases Size(n), 0
  {
    WfField(n, "left");
    WfField(n, "right");
    NegateTotal(Get(n, "left").value);
    NegateTotal(Get(n, "right").value);
    var l, r := Negate(Get(n, "left").value).value, Negate(Get(n, "right").value).value;
    var op := SwapLogical(Get(n, "operator").value);
    WfBinary(op, l, r);
    assert NegateLogical(n) == Success(Binary(op, l, r));
  }

  lemma {:induction false} BinaryTotal(n: Node)
    requires WfNode(n) && Negatable(Child(n)) == Success(true)
    ensures NegateBinary(n).Success? && Wf(NegateBinary(n).value)
    decreases Size(n), 2
  {
    WfField(n, "left");
    WfField(n, "right");
    RightTotal(Get(n, "right").value);
    var l, r := Get(n, "left").value, NegateRight(Get(n, "right").value).value;
    var op := Flip(OperatorName(n).value);
    WfBinary(op, l, r);
    assert NegateBinary(n) == Success(Binary(op, l, r));
  }

  lemma {:induction false} RightTotal(v: Value)
    requires Wf(v)
    ensures NegateRight(v).Success? && Wf(NegateRight(v).value)
    decreases ValueSize(v), 1
  {
    if Logical(v) == Success(true) {
      LogicalTotal(v.node);
    } else if Negatable(v) == Success(true) {
      BinaryTotal(v.node);
    }
  }

  /** The other two negators never fail on a well-formed tree either. */
  lemma SimpleAndExperimentalTotal(v: Value)
    requires Wf(v)
    ensures SimpleNegate(v).Success? && ExperimentalNegate(v).Success?
  {
    if Negation(v) == Success(true) {
      WfField(v.node, "argument");
    } else if Logical(v) == Success(true) {
      LogicalTotal(v.node);
    } else if Negatable(v) == Success(true) {
      BinaryTotal(v.node);
    }
  }

  // ---------------------------------------------------------------------------
  // `negate` is an involution on trees in the parser's shape.

  /** `!e` with the parameters the parser gives it. */
  predicate IsNot(v: Value) {
    v.Child? && |v.node.params| == 2 && v == Unary("!", v.node.params[1].value)
  }

  /** A binary node with the parser's parameters and an operator from `ops`. */
  predicate IsBinaryIn(v: Value, ops: seq<string>) {
    v.Child? && |v.node.params| == 3 && v.node.params[0].value.Str? && v.node.params[0].value.s in ops &&
    v == Binary(v.node.params[0].value.s, v.node.params[1].value, v.node.params[2].value)
  }

  /** The trees on which `negate` undoes itself: negations only of plain
      operands, logical nodes whose operands are normal, comparisons whose
      logical or comparison right operand is normal, and plain nodes. */
  predicate Normal(v: Value) {
    if IsNot(v) then Plain(v.node.params[1].value)
    else if IsBinaryIn(v, LOGICAL_OPERATOR) then Normal(v.node.params[1].value) && Normal(v.node.params[2].value)
    else if IsBinaryIn(v, NEGATABLE_OPERATOR) then
      var b := v.node.params[2].value;
      Logical(b).Success? && Negatable(b).Success? && (Special(b) ==> Normal(b))
    else Plain(v)
  }

  /** `negate(negate(e)) == e`, the negation is again normal, and it stays
      logical or a comparison when `e` was. */
  lemma {:induction false} NegateInvolution(v: Value)
    requires Normal(v)
    ensures Negate(v).Success?
    ensures Normal(Negate(v).value) && Negate(Negate(v).value) == Success(v)
    ensures Special(v) ==> Special(Negate(v).value)
  {
    if IsNot(v) {
      NotInvolution(v.node.params[1].value);
    } else if IsBinaryIn(v, LOGICAL_OPERATOR) {
      NegateInvolution(v.node.params[1].value);
      NegateInvolution(v.node.params[2].value);
      LogicalInvolution(v.node.params[0].value.s, v.node.params[1].value, v.node.params[2].value);
    } else if IsBinaryIn(v, NEGATABLE_OPERATOR) {
      if Special(v.node.params[2].value) {
        NegateInvolution(v.node.params[2].value);
      }
      ComparisonInvolution(v.node.params[0].value.s, v.node.params[1].value, v.node.params[2].value);
    } else {
      PlainInvolution(v);
    }
  }

  /** The negation case of the involution. */
  lemma NotInvolution(a: Value)
    requires Plain(a)
    ensures Negate(Unary("!", a)) == Success(a) && Normal(a) && Negate(a) == Success(Unary("!", a))
    ensures !Special(Unary("!", a))
  {
    UnaryClass("!", a);
    UnaryFields("!", a);
    NegatePlain(a);
    PlainIsNormal(a);
  }

  /** The logical case of the involution, given it for both operands. */
  lemma LogicalInvolution(op: string, a: Value, b: Value)
    requires op in LOGICAL_OPERATOR
    requires Negate(a).Success? && Normal(Negate(a).value) && Negate(Negate(a).value) == Success(a)
    requires Negate(b).Success? && Normal(Negate(b).value) && Negate(Negate(b).value) == Success(b)
    ensures var w := Binary(if op == "&&" then "||" else "&&", Negate(a).value, Negate(b).value);
      Negate(Binary(op, a, b)) == Success(w) && Normal(w) && Negate(w) == Success(Binary(op, a, b)) && Special(w)
  {
    DeMorgan(op, a, b);
    var op' := if op == "&&" then "||" else "&&";
    BinaryClass(op', Negate(a).value, Negate(b).value);
    var w := Binary(op', Negate(a).value, Negate(b).value);
    assert IsBinaryIn(w, LOGICAL_OPERATOR);
    DeMorgan(op', Negate(a).value, Negate(b).value);
  }

  /** The comparison case of the involution, given it for a logical or
      comparison right operand. */
  lemma ComparisonInvolution(op: string, a: Value, b: Value)
    requires op in NEGATABLE_OPERATOR
    requires Logical(b).Success? && Negatable(b).Success?
    requires Special(b) ==>
      Negate(b).Success? && Normal(Negate(b).value) && Negate(Negate(b).value) == Success(b) && Special(Negate(b).value)
    ensures var w := Binary(Flip(op), a, if Special(b) then Negate(b).value else b);
      Negate(Binary(op, a, b)) == Success(w) && Normal(w) && Negate(w) == Success(Binary(op, a, b)) && Special(w)
  {
    ComparisonFlipped(op, a, b);
    var b' := if Special(b) then Negate(b).value else b;
    ComparisonNormal(Flip(op), a, b');
    ComparisonFlipped(Flip(op), a, b');
    FlipInvolution(op);
  }

  /** A comparison built by the negators is normal when its right operand is. */
  lemma ComparisonNormal(op: string, a: Value, b: Value)
    requires op in NEGATABLE_OPERATOR
    requires Logical(b).Success? && Negatable(b).Success? && (Special(b) ==> Normal(b))
    ensures Normal(Binary(op, a, b)) && Special(Binary(op, a, b))
  {
    BinaryClass(op, a, b);
    assert IsBinaryIn(Binary(op, a, b), NEGATABLE_OPERATOR);
    assert !IsBinaryIn(Binary(op, a, b), LOGICAL_OPERATOR);
  }

  /** The plain case of the involution. */
  lemma PlainInvolution(v: Value)
    requires Plain(v)
    ensures Negate(v) == Success(Unary("!", v)) && Normal(Unary("!", v)) && Negate(Unary("!", v)) == Success(v)
  {
    NegatePlain(v);
    UnaryClass("!", v);
    UnaryFields("!", v);
    assert IsNot(Unary("!", v));
  }

  /** A plain node is normal. */
  lemma PlainIsNormal(v: Value)
    requires Plain(v)
    ensures Normal(v)
  {
    if v.Child? && |v.node.params| == 2 {
      UnaryClass("!", v.node.params[1].value);
    }
    if v.Child? && |v.node.params| == 3 && v.node.params[0].value.Str? {
      BinaryClass(v.node.params[0].value.s, v.node.params[1].value, v.node.params[2].value);
    }
  }
}

=== FILE: negators.dfy ===
/** Negation of conditions (`RBS::Negators`): AST transforms that remove a
    double negation, apply De Morgan's laws to `&&` / `||` and flip
    comparison operators. They read node fields through `method_missing`,
    so each can fail on a node that lacks a field; on trees the parser
    builds none does. */
module Negators {
  import opened Wrappers
  import opened Nodes

  const LOGICAL_OPERATOR: seq<string> := ["&&", "||"]
  const NEGATABLE_OPERATOR: seq<string> := ["==", "!=", "<=", ">=", "<", ">"]

  // ---------------------------------------------------------------------------
  // The nodes the negators build, with the parameter order of the source.

  function Unary(op: string, arg: Value): Value {
    Child(Node("unary_expression", [Param("operator", Str(op)), Param("argument", arg)]))
  }

  function Group(e: Value): Value {
    Child(Node("group_expression", [Param("expression", e)]))
  }

  function Binary(op: string, l: Value, r: Value): Value {
    Child(Node("binary_expression", [Param("operator", Str(op)), Param("left", l), Param("right", r)]))
  }

  // ---------------------------------------------------------------------------
  // Predicates

  /** `node.operator.to_sym`: a string converts; nil, booleans, nodes and
      arrays have no `to_sym`. */
  function OperatorName(n: Node): (r: Result<string>)
    ensures r.Success? <==> Get(n, "operator").Success? && Get(n, "operator").value.Str?
    ensures r.Success? ==> Get(n, "operator").value == Str(r.value)
  {
    var op :- Get(n, "operator");
    if op.Str? then Success(op.s) else Failure(NoMethod("to_sym"))
  }

  /** `negation?`: a unary node whose operator is `"!"`. */
  function Negation(v: Value): (r: Result<bool>)
    ensures r.Failure? ==> IsNode(v, "unary_expression")
    ensures r == Success(true) ==> IsNode(v, "unary_expression") && Get(v.node, "operator") == Success(Str("!"))
  {
    if IsNode(v, "unary_expression") then
      var op :- Get(v.node, "operator");
      Success(op == Str("!"))
    else Success(false)
  }

  /** `logical?`: a binary node whose operator is `&&` or `||`. */
  function Logical(v: Value): (r: Result<bool>)
    ensures r.Failure? <==> IsNode(v, "binary_expression") && OperatorName(v.node).Failure?
    ensures r == Success(true) ==> IsNode(v, "binary_expression") && OperatorName(v.node).value in LOGICAL_OPERATOR
  {
    if IsNode(v, "binary_expression") then
      var op :- OperatorName(v.node);
      Success(op in LOGICAL_OPERATOR)
    else Success(false)
  }

  /** `negatable?`: a binary node whose operator is a comparison. */
  function Negatable(v: Value): (r: Result<bool>)
    ensures r.Failure? <==> IsNode(v, "binary_expression") && OperatorName(v.node).Failure?
    ensures r == Success(true) ==> IsNode(v, "binary_expression") && OperatorName(v.node).value in NEGATABLE_OPERATOR
  {
    if IsNode(v, "binary_expression") then
      var op :- OperatorName(v.node);
      Success(op in NEGATABLE_OPERATOR)
    else Success(false)
  }

  /** Neither a negation, nor logical, nor a comparison. */
  predicate Plain(v: Value) {
    Negation(v) == Success(false) && Logical(v) == Success(false) && Negatable(v) == Success(false)
  }

  /** Logical or a comparison: the operands `negate_binary_expression` recurses into. */
  predicate Special(v: Value) {
    Logical(v) == Success(true) || Negatable(v) == Success(true)
  }

  // ---------------------------------------------------------------------------
  // Comparison flip

  /** The `case node.operator` table of `negate_binary_expression`; the
      precondition is why its `raise "unreachable code!"` is never reached. */
  function Flip(op: string): (r: string)
    requires op in NEGATABLE_OPERATOR
    ensures r in NEGATABLE_OPERATOR
  {
    if op == "==" then "!="
    else if op == "!=" then "=="
    else if op == ">=" then "<"
    else if op == "<=" then ">"
    else if op == ">" then "<="
    else ">="
  }

  /** What a comparison operator means on numbers. */
  predicate Holds(op: string, x: int, y: int)
    requires op in NEGATABLE_OPERATOR
  {
    if op == "==" then x == y
    else if op == "!=" then x != y
    else if op == "<=" then x <= y
    else if op == ">=" then x >= y
    else if op == "<" then x < y
    else x > y
  }

  /** The flipped operator holds exactly when the original does not. */
  lemma FlipNegates(op: string, x: int, y: int)
    requires op in NEGATABLE_OPERATOR
    ensures Holds(Flip(op), x, y) <==> !Holds(op, x, y)
  {
  }

  /** Flipping twice restores the operator. */
  lemma FlipInvolution(op: string)
    requires op in NEGATABLE_OPERATOR
    ensures Flip(Flip(op)) == op
  {
  }

  /** `&&` becomes `||` and anything else becomes `&&`. */
  function SwapLogical(op: Value): (r: string)
    ensures op == Str("&&") ==> r == "||"
    ensures op == Str("||") ==> r == "&&"
  {
    if op == Str("&&") then "||" else "&&"
  }

  // ---------------------------------------------------------------------------
  // The negators

  /** `common_negate`: `!` straight onto an identifier, a literal or a group,
      and onto a new group around anything else. */
  function CommonNegate(v: Value): (r: Value)
    ensures r.Child? && Negation(r) == Success(true) && Get(r.node, "argument").Success?
    ensures var arg := Get(r.node, "argument").value;
      (IsNode(arg, "identifier") || IsNode(arg, "literal") || IsNode(arg, "group_expression")) &&
      (arg == v || arg == Group(v))
  {
    if IsNode(v, "identifier") || IsNode(v, "literal") || IsNode(v, "group_expression") then
      UnaryClass("!", v);
      UnaryFields("!", v);
      Unary("!", v)
    else
      UnaryClass("!", Group(v));
      UnaryFields("!", Group(v));
      Unary("!", Group(v))
  }

  /** `simple_negate`: unwraps a negation, otherwise `common_negate`. */
  function SimpleNegate(v: Value): Result<Value> {
    var neg :- Negation(v);
    if neg then Get(v.node, "argument") else Success(CommonNegate(v))
  }

  /** `negate`: unwraps a negation, applies De Morgan to a logical node, flips
      a comparison and otherwise puts `!` in front without a group. */
  function Negate(v: Value): Result<Value>
    decreases ValueSize(v), 1
  {
    var neg :- Negation(v);
    if neg then Get(v.node, "argument")
    else
      var lg :- Logical(v);
      if lg then NegateLogical(v.node)
      else if Negatable(v).value then NegateBinary(v.node)
      else Success(Unary("!", v))
  }

  /** `negate_logical_expression`: both operands negated, the operator swapped. */
  function NegateLogical(n: Node): Result<Value>
    decreases Size(n), 0
  {
    var left :- Get(n, "left");
    var l :- Negate(left);
    var right :- Get(n, "right");
    var r :- Negate(right);
    var op :- Get(n, "operator");
    Success(Binary(SwapLogical(op), l, r))
  }

  /** `negate_binary_expression`: the operator flipped, the left operand kept,
      the right one negated when it is logical or a comparison. */
  function NegateBinary(n: Node): Result<Value>
    requires Negatable(Child(n)) == Success(true)
    decreases Size(n), 2
  {
    var right :- Get(n, "right");
    var r :- NegateRight(right);
    var left :- Get(n, "left");
    Success(Binary(Flip(OperatorName(n).value), left, r))
  }

  /** The right operand of a flipped comparison. */
  function NegateRight(right: Value): Result<Value>
    decreases ValueSize(right), 1
  {
    var lg :- Logical(right);
    if lg then NegateLogical(right.node)
    else if Negatable(right).value then NegateBinary(right.node)
    else Success(right)
  }

  /** `experimental_negate`. On a negation its inner tests look at the unary
      node itself, which is never logical or a comparison. */
  function ExperimentalNegate(v: Value): Result<Value> {
    var neg :- Negation(v);
    if neg then
      if Logical(v).value then NegateLogical(v.node)
      else if Negatable(v).value then NegateBinary(v.node)
      else Get(v.node, "argument")
    else
      var lg :- Logical(v);
      if lg then NegateLogical(v.node)
      else if Negatable(v).value then NegateBinary(v.node)
      else Success(CommonNegate(v))
  }

  // ---------------------------------------------------------------------------
  // Fields of the nodes the negators build

  lemma UnaryFields(op: string, a: Value)
    ensures Get(Unary(op, a).node, "operator") == Success(Str(op))
    ensures Get(Unary(op, a).node, "argument") == Success(a)
  {
    var ps := Unary(op, a).node.params;
    assert ps[1..] == [Param("argument", a)];
    assert Find(ps, "argument") == Some(1);
  }

  lemma BinaryFields(op: string, l: Value, r: Value)
    ensures Get(Binary(op, l, r).node, "operator") == Success(Str(op))
    ensures Get(Binary(op, l, r).node, "left") == Success(l)
    ensures Get(Binary(op, l, r).node, "right") == Success(r)
  {
    var ps := Binary(op, l, r).node.params;
    assert ps[1..] == [Param("left", l), Param("right", r)];
    assert ps[1..][1..] == [Param("right", r)];
    assert Find(ps, "left") == Some(1);
    assert Find(ps, "right") == Some(2);
  }

  /** How the predicates classify a unary node the negators build. */
  lemma UnaryClass(op: string, a: Value)
    ensures Negation(Unary(op, a)) == Success(op == "!")
    ensures Logical(Unary(op, a)) == Success(false) && Negatable(Unary(op, a)) == Success(false)
  {
    UnaryFields(op, a);
  }

  /** How the predicates classify a binary node the negators build. */
  lemma BinaryClass(op: string, l: Value, r: Value)
    ensures Negation(Binary(op, l, r)) == Success(false)
    ensures OperatorName(Binary(op, l, r).node) == Success(op)
    ensures Logical(Binary(op, l, r)) == Success(op in LOGICAL_OPERATOR)
    ensures Negatable(Binary(op, l, r)) == Success(op in NEGATABLE_OPERATOR)
  {
    BinaryFields(op, l, r);
  }
}

=== FILE: node.dfy ===
/** The parser's syntax tree (`RBS::Node`): a node type and an ordered bag of
    named parameters, read and written through `method_missing`, and its two
    hash serialisations `to_h` and `as_json`. */
module Nodes {
  import opened Wrappers
  import opened Text
  import Tokens

  /** The Ruby objects a node stores as parameters: nil, strings, booleans,
      nodes and arrays. */
  datatype Value = Nil | Str(s: string) | Flag(b: bool) | Child(node: Node) | Items(items: seq<Value>)

  /** `Node#type` is `kind` here (`type` is reserved in Dafny); the parameters
      keep their insertion order, as a Ruby hash does. */
  datatype Node = Node(kind: string, params: seq<Param>)

  datatype Param = Param(key: string, value: Value)

  /** Ruby truthiness: only nil and false are false. */
  predicate Truthy(v: Value) {
    !(v == Nil || v == Flag(false))
  }

  function Keys(ps: seq<Param>): (ks: seq<string>)
    ensures |ks| == |ps|
    ensures forall i :: 0 <= i < |ps| ==> ks[i] == ps[i].key
  {
    if |ps| == 0 then [] else [ps[0].key] + Keys(ps[1..])
  }

  /** `params.has_key?(key)` */
  predicate Has(n: Node, key: string) {
    key in Keys(n.params)
  }

  /** A Ruby hash never holds a key twice. */
  predicate UniqueKeys(ps: seq<Param>) {
    forall i, j :: 0 <= i < j < |ps| ==> ps[i].key != ps[j].key
  }

  // ---------------------------------------------------------------------------
  // Sizes, the termination measure of every walk over a tree.

  function Size(n: Node): (r: nat)
    ensures r >= 1
  {
    1 + ParamsSize(n.params)
  }

  function ParamsSize(ps: seq<Param>): nat {
    if |ps| == 0 then 0 else ValueSize(ps[0].value) + ParamsSize(ps[1..])
  }

  function ValueSize(v: Value): (r: nat)
    ensures r >= 1
  {
    match v
    case Child(n) => 1 + Size(n)
    case Items(xs) => 1 + ItemsSize(xs)
    case _ => 1
  }

  function ItemsSize(xs: seq<Value>): nat {
    if |xs| == 0 then 0 else ValueSize(xs[0]) + ItemsSize(xs[1..])
  }

  lemma {:induction false} ParamWithin(ps: seq<Param>, i: nat)
    requires i < |ps|
    ensures ValueSize(ps[i].value) <= ParamsSize(ps)
    decreases i
  {
    if i > 0 {
      ParamWithin(ps[1..], i - 1);
    }
  }

  lemma {:induction false} ItemWithin(xs: seq<Value>, i: nat)
    requires i < |xs|
    ensures ValueSize(xs[i]) <= ItemsSize(xs)
    decreases i
  {
    if i > 0 {
      ItemWithin(xs[1..], i - 1);
    }
  }

  // ---------------------------------------------------------------------------
  // Type tests (`is`, `===`).

  /** `Node#is`: the type equals the given name. */
  predicate Is(n: Node, ty: string) {
    n.kind == ty
  }

  /** `Node#===` with an array: some element is the node's type. */
  predicate IsAny(n: Node, types: seq<string>) {
    |types| > 0 && (Is(n, types[0]) || IsAny(n, types[1..]))
  }

  predicate CaseEq(n: Node, spec: Tokens.TypeSpec) {
    match spec
    case One(ty) => Is(n, ty)
    case Many(types) => IsAny(n, types)
  }

  /** `===` with an array holds exactly when the type is one of its elements. */
  lemma {:induction false} IsAnyMember(n: Node, types: seq<string>)
    ensures IsAny(n, types) <==> n.kind in types
  {
    if |types| > 0 {
      IsAnyMember(n, types[1..]);
      assert types == [types[0]] + types[1..];
    }
  }

  /** A Ruby value's `=== :t`: only a node of type `t` answers true. */
  predicate IsNode(v: Value, ty: string) {
    v.Child? && Is(v.node, ty)
  }

  // ---------------------------------------------------------------------------
  // Field access through `method_missing`.

  /** Where `key` sits among the parameters. */
  function Find(ps: seq<Param>, key: string): (r: Option<nat>)
    ensures r.Some? <==> key in Keys(ps)
    ensures r.Some? ==> r.value < |ps| && ps[r.value].key == key
  {
    if |ps| == 0 then None
    else if ps[0].key == key then Some(0)
    else
      match Find(ps[1..], key)
      case None => None
      case Some(i) => Some(i + 1)
  }

  /** Reading `node.key`: the stored parameter, or `NoMethodError` when the
      node has no such key. */
  function Get(n: Node, key: string): (r: Result<Value>)
    ensures r.Success? <==> Has(n, key)
    ensures r.Failure? ==> r.error == NoMethod(key)
    ensures r.Success? ==> Find(n.params, key).Some? && n.params[Find(n.params, key).value] == Param(key, r.value)
    ensures r.Success? ==> ValueSize(r.value) < Size(n)
  {
    match Find(n.params, key)
    case None => Failure(NoMethod(key))
    case Some(i) =>
      ParamWithin(n.params, i);
      Success(n.params[i].value)
  }

  /** With unique keys, a stored parameter is what a read returns. */
  lemma {:induction false} GetStored(n: Node, i: nat)
    requires UniqueKeys(n.params) && i < |n.params|
    ensures Get(n, n.params[i].key) == Success(n.params[i].value)
  {
    var key := n.params[i].key;
    var j := Find(n.params, key).value;
    assert n.params[j].key == key;
  }

  /** Replaces the value stored under `key`, keeping every position. */
  function Put(ps: seq<Param>, key: string, v: Value): (r: seq<Param>)
    ensures |r| == |ps| && Keys(r) == Keys(ps)
    ensures forall i :: 0 <= i < |ps| && ps[i].key != key ==> r[i] == ps[i]
    ensures forall i :: 0 <= i < |ps| && ps[i].key == key ==> r[i] == Param(key, v)
  {
    if |ps| == 0 then []
    else [if ps[0].key == key then Param(key, v) else ps[0]] + Put(ps[1..], key, v)
  }

  /** The key a setter name `key=` assigns: Ruby's `/\A(.+)=\Z/`, whose `.`
      stops at a line feed and whose `\Z` also matches before a final line feed. */
  function SetterKey(name: string): (r: Option<string>)
    ensures r.Some? ==> |r.value| > 0 && '\n' !in r.value && (name == r.value + "=" || name == r.value + "=\n")
    ensures r.None? ==> forall k: string :: |k| > 0 && '\n' !in k ==> name != k + "=" && name != k + "=\n"
  {
    var n := |name|;
    if n >= 2 && name[n - 1] == '=' && '\n' !in name[..n - 1] then
      assert name == name[..n - 1] + "=";
      Some(name[..n - 1])
    else if n >= 3 && name[n - 2] == '=' && name[n - 1] == '\n' && '\n' !in name[..n - 2] then
      assert name == name[..n - 2] + "=\n";
      Some(name[..n - 2])
    else
      SetterShape(name);
      None
  }

  /** A name of the form `k=` or `k=\n` passes the matching test of `SetterKey`. */
  lemma SetterShape(name: string)
    ensures forall k: string :: |k| > 0 && '\n' !in k && name == k + "=" ==>
      |name| >= 2 && name[|name| - 1] == '=' && '\n' !in name[..|name| - 1]
    ensures forall k: string :: |k| > 0 && '\n' !in k && name == k + "=\n" ==>
      |name| >= 3 && name[|name| - 2] == '=' && name[|name| - 1] == '\n' && '\n' !in name[..|name| - 2]
  {
    forall k: string | |k| > 0 && '\n' !in k && name == k + "="
      ensures |name| >= 2 && name[|name| - 1] == '=' && '\n' !in name[..|name| - 1]
    {
      assert name[..|name| - 1] == k;
    }
    forall k: string | |k| > 0 && '\n' !in k && name == k + "=\n"
      ensures |name| >= 3 && name[|name| - 2] == '=' && name[|name| - 1] == '\n' && '\n' !in name[..|name| - 2]
    {
      assert name[..|name| - 2] == k;
    }
  }

  /** What `method_missing` hands back: the node after the call and its result. */
  datatype Reply = Reply(node: Node, value: Value)

  /** `Node#method_missing`: a parameter key reads its value; `key=` on an
      existing key stores the first argument (nil without one) and returns it;
      anything else is `NoMethodError`. */
  function MethodMissing(n: Node, name: string, args: seq<Value>): (r: Result<Reply>)
    ensures Has(n, name) ==> r.Success? && r.value.node == n && Get(n, name) == Success(r.value.value)
    ensures !Has(n, name) && SetterKey(name).Some? && Has(n, SetterKey(name).value) ==>
      var key := SetterKey(name).value;
      r.Success? && r.value.value == (if |args| > 0 then args[0] else Nil) &&
      r.value.node.kind == n.kind && Keys(r.value.node.params) == Keys(n.params) &&
      (UniqueKeys(n.params) ==> Get(r.value.node, key) == Success(r.value.value)) &&
      (forall k :: k != key ==> Get(r.value.node, k) == Get(n, k))
    ensures !Has(n, name) && (SetterKey(name).None? || !Has(n, SetterKey(name).value)) ==>
      r == Failure(NoMethod(name))
  {
    if Has(n, name) then
      Success(Reply(n, Get(n, name).value))
    else
      match SetterKey(name)
      case Some(key) =>
        if Has(n, key) then
          var v := if |args| > 0 then args[0] else Nil;
          var m := Node(n.kind, Put(n.params, key, v));
          PutReads(n, key, v);
          Success(Reply(m, v))
        else Failure(NoMethod(name))
      case None => Failure(NoMethod(name))
  }

  /** After storing `v` under an existing key, reading that key yields `v`
      and reading any other key is unchanged. */
  lemma PutReads(n: Node, key: string, v: Value)
    requires Has(n, key)
    ensures UniqueKeys(n.params) ==> Get(Node(n.kind, Put(n.params, key, v)), key) == Success(v)
    ensures forall k :: k != key ==> Get(Node(n.kind, Put(n.params, key, v)), k) == Get(n, k)
  {
    var m := Node(n.kind, Put(n.params, key, v));
    if UniqueKeys(n.params) {
      var j := Find(m.params, key).value;
      var i := Find(n.params, key).value;
      assert m.params[i] == Param(key, v);
      assert n.params[j].key == key;
    }
    forall k | k != key
      ensures Get(m, k) == Get(n, k)
    {
      FindAfterPut(n.params, key, v, k);
    }
  }

  lemma {:induction false} FindAfterPut(ps: seq<Param>, key: string, v: Value, k: string)
    requires k != key
    ensures Find(Put(ps, key, v), k) == Find(ps, k)
    ensures Find(ps, k).Some? ==> Put(ps, key, v)[Find(ps, k).value] == ps[Find(ps, k).value]
  {
    if |ps| > 0 {
      FindAfterPut(ps[1..], key, v, k);
      assert Put(ps, key, v)[1..] == Put(ps[1..], key, v);
    }
  }

  /** Storing through a setter keeps a hash a hash: the keys stay unique. */
  lemma SetterKeepsKeysUnique(n: Node, name: string, args: seq<Value>)
    requires UniqueKeys(n.params) && MethodMissing(n, name, args).Success?
    ensures UniqueKeys(MethodMissing(n, name, args).value.node.params)
  {
    var m := MethodMissing(n, name, args).value.node;
    assert Keys(m.params) == Keys(n.params);
    forall i, j | 0 <= i < j < |m.params|
      ensures m.params[i].key != m.params[j].key
    {
      assert m.params[i].key == Keys(m.params)[i] == Keys(n.params)[i];
      assert m.params[j].key == Keys(m.params)[j] == Keys(n.params)[j];
    }
  }

  /** The public methods `RBS::Node` itself defines; `Object`'s own methods
      are not modelled. */
  const NODE_METHODS: seq<string> :=
    ["type", "type=", "params", "is", "===", "method_missing", "respond_to?", "inspect", "to_h", "as_json"]

  /** `Node#respond_to?`: a method of the class or a parameter key. */
  predicate RespondTo(n: Node, name: string) {
    name in NODE_METHODS || Has(n, name)
  }

  /** Apart from the class's own methods, `respond_to?` answers exactly for
      the names `method_missing` can read. */
  lemma RespondToReadable(n: Node, name: string)
    requires name !in NODE_METHODS && SetterKey(name).None?
    ensures RespondTo(n, name) <==> MethodMissing(n, name, []).Success?
    ensures RespondTo(n, name) ==> MethodMissing(n, name, []).value.node == n
  {
  }

  /** A setter works on an existing key, yet `respond_to?` denies it: the
      test looks for the setter name itself among the keys. */
  lemma SetterNotAdvertised(n: Node, key: string, v: Value)
    requires Has(n, key) && !Has(n, key + "=") && |key| > 0 && '\n' !in key
    ensures MethodMissing(n, key + "=", [v]).Success?
    ensures (key + "=") !in NODE_METHODS ==> !RespondTo(n, key + "=")
  {
  }

  // ---------------------------------------------------------------------------
  // `camelize`

  /** `gsub(/(^\w|_\w)/) { |s| s.sub('_', '').upcase }` from a position that
      is (`lineStart`) or is not the start of a line; `^\w` is tried first. */
  function CamelizeFrom(s: string, lineStart: bool): (r: string)
    ensures |r| <= |s|
  {
    if |s| == 0 then ""
    else if lineStart && IsWordChar(s[0]) then
      (if s[0] == '_' then "" else [Upcase(s[0])]) + CamelizeFrom(s[1..], false)
    else if |s| >= 2 && s[0] == '_' && IsWordChar(s[1]) then
      [Upcase(s[1])] + CamelizeFrom(s[2..], false)
    else
      [s[0]] + CamelizeFrom(s[1..], s[0] == '\n')
  }

  /** `Node#camelize` */
  function Camelize(s: string): (r: string)
    ensures |r| <= |s|
  {
    CamelizeFrom(s, true)
  }

  /** A word of a snake-case name: lower-case letters and digits. */
  predicate IsSnakeWord(w: string) {
    |w| > 0 && forall k :: 0 <= k < |w| ==> IsLower(w[k]) || IsDigit(w[k])
  }

  function Capitalize(w: string): string {
    if |w| == 0 then "" else [Upcase(w[0])] + w[1..]
  }

  function CapitalizeAll(ws: seq<string>): string {
    if |ws| == 0 then "" else Capitalize(ws[0]) + CapitalizeAll(ws[1..])
  }

  /** Characters other than `_` and line feeds pass through unchanged away
      from a line start. */
  lemma {:induction false} CamelizeCopies(w: string, rest: string)
    requires forall k :: 0 <= k < |w| ==> IsLower(w[k]) || IsDigit(w[k])
    ensures CamelizeFrom(w + rest, false) == w + CamelizeFrom(rest, false)
  {
    if |w| > 0 {
      var s := w + rest;
      assert s[0] == w[0] && s[1..] == w[1..] + rest;
      assert s[0] != '_' && s[0] != '\n';
      assert forall k :: 0 <= k < |w[1..]| ==> w[1..][k] == w[k + 1];
      CamelizeCopies(w[1..], rest);
      assert CamelizeFrom(s, false) == [w[0]] + CamelizeFrom(s[1..], false);
      assert w == [w[0]] + w[1..];
    } else {
      assert w + rest == rest;
    }
  }

  /** An underscore before a word character starts a word just as a line
      start does. */
  lemma UnderscoreStartsWord(rest: string)
    requires |rest| > 0 && (IsLower(rest[0]) || IsDigit(rest[0]))
    ensures CamelizeFrom("_" + rest, false) == CamelizeFrom(rest, true)
  {
    var s := "_" + rest;
    assert s[0] == '_' && s[1] == rest[0] && s[2..] == rest[1..];
    assert IsWordChar(rest[0]) && rest[0] != '_';
    assert CamelizeFrom(s, false) == [Upcase(rest[0])] + CamelizeFrom(rest[1..], false);
  }

  lemma {:induction false} CamelizeJoined(ws: seq<string>)
    requires |ws| > 0 && forall i :: 0 <= i < |ws| ==> IsSnakeWord(ws[i])
    ensures CamelizeFrom(Join(ws, "_"), true) == CapitalizeAll(ws)
  {
    var w := ws[0];
    assert IsSnakeWord(w);
    if |ws| == 1 {
      CamelizeCopies(w[1..], "");
      assert w[1..] + "" == w[1..];
      assert CapitalizeAll(ws[1..]) == "";
    } else {
      var j := Join(ws[1..], "_");
      assert IsSnakeWord(ws[1]);
      JoinStarts(ws[1..]);
      var s := w + "_" + j;
      assert s[1..] == w[1..] + ("_" + j);
      CamelizeCopies(w[1..], "_" + j);
      UnderscoreStartsWord(j);
      CamelizeJoined(ws[1..]);
    }
  }

  lemma JoinStarts(ws: seq<string>)
    requires |ws| > 0 && |ws[0]| > 0
    ensures |Join(ws, "_")| > 0 && Join(ws, "_")[0] == ws[0][0]
  {
  }

  /** `camelize` upcases the first letter of each snake-case word and drops
      the underscores: `binary_expression` becomes `BinaryExpression`. */
  lemma CamelizeSnake(ws: seq<string>)
    requires |ws| > 0 && forall i :: 0 <= i < |ws| ==> IsSnakeWord(ws[i])
    ensures Camelize(Join(ws, "_")) == CapitalizeAll(ws)
  {
    CamelizeJoined(ws);
  }

  lemma CamelizeExample()
    ensures Camelize("binary_expression") == "BinaryExpression"
  {
    var ws := ["binary", "expression"];
    ExampleWords();
    CamelizeSnake(ws);
    ExampleCapitalized();
  }

  lemma ExampleWords()
    ensures IsSnakeWord("binary") && IsSnakeWord("expression")
    ensures Join(["binary", "expression"], "_") == "binary_expression"
  {
    assert Join(["binary", "expression"][1..], "_") == "expression";
  }

  lemma ExampleCapitalized()
    ensures CapitalizeAll(["binary", "expression"]) == "BinaryExpression"
  {
    var ws := ["binary", "expression"];
    assert Capitalize("binary") == "Binary" by {
      assert Upcase('b') == 'B';
    }
    assert Capitalize("expression") == "Expression" by {
      assert Upcase('e') == 'E';
    }
    assert CapitalizeAll(ws[1..]) == "Expression" by {
      assert CapitalizeAll(ws[1..][1..]) == "";
    }
  }

  // ---------------------------------------------------------------------------
  // `to_h` and `as_json`

  /** The hashes and arrays `to_h` and `as_json` build. A node type is a Ruby
      symbol (`DSym`); `as_json` turns it into a camelized string. */
  datatype Data = DNil | DStr(s: string) | DSym(name: string) | DBool(b: bool) | DHash(entries: seq<Entry>) | DList(items: seq<Data>)

  datatype Entry = Entry(key: string, value: Data)

  /** The method `params_as` sends to nested nodes. */
  datatype Method = ToHash | AsJson

  function EntryKeys(es: seq<Entry>): (ks: seq<string>)
    ensures |ks| == |es|
    ensures forall i :: 0 <= i < |es| ==> ks[i] == es[i].key
  {
    if |es| == 0 then [] else [es[0].key] + EntryKeys(es[1..])
  }

  /** The entries of `es` whose key is not `key`, in order. */
  function Without(es: seq<Entry>, key: string): (r: seq<Entry>)
    ensures forall i :: 0 <= i < |r| ==> r[i].key != key
    ensures forall e :: e in r <==> e in es && e.key != key
  {
    if |es| == 0 then []
    else if es[0].key == key then Without(es[1..], key)
    else [es[0]] + Without(es[1..], key)
  }

  /** The value `es` stores under `key`, if any. */
  function Lookup(es: seq<Entry>, key: string): (r: Option<Data>)
    ensures r.Some? ==> Entry(key, r.value) in es
    ensures r.None? <==> key !in EntryKeys(es)
  {
    if |es| == 0 then None else if es[0].key == key then Some(es[0].value) else Lookup(es[1..], key)
  }

  /** `{ key => v }.merge(es)`: the first position keeps its key and takes the
      value `es` stores under it; the other entries follow in order. */
  function Merge(head: Entry, es: seq<Entry>): (r: seq<Entry>)
    ensures |r| > 0 && r[0].key == head.key
    ensures r[0].value == Lookup(es, head.key).GetOr(head.value)
    ensures r[1..] == Without(es, head.key)
  {
    [Entry(head.key, Lookup(es, head.key).GetOr(head.value))] + Without(es, head.key)
  }

  /** `to_h` (with `DSym` type) or `as_json` (with camelized string type). */
  function Convert(n: Node, m: Method): (r: Result<Data>)
    ensures r.Success? ==> r.value.DHash? && |r.value.entries| > 0 && r.value.entries[0].key == "type"
  {
    var ps :- ParamsAs(n.params, m);
    var ty := if m == ToHash then DSym(n.kind) else DStr(Camelize(n.kind));
    Success(DHash(Merge(Entry("type", ty), ps)))
  }

  /** `params_as(method)`: one entry per parameter, in order. */
  function ParamsAs(ps: seq<Param>, m: Method): (r: Result<seq<Entry>>)
    ensures r.Success? ==> EntryKeys(r.value) == Keys(ps)
  {
    if |ps| == 0 then Success([])
    else
      var v :- ValueAs(ps[0].value, m);
      var rest :- ParamsAs(ps[1..], m);
      Success([Entry(ps[0].key, v)] + rest)
  }

  /** A parameter value: nodes are converted, arrays element-wise, anything
      else is kept. */
  function ValueAs(v: Value, m: Method): Result<Data> {
    match v
    case Nil => Success(DNil)
    case Str(s) => Success(DStr(s))
    case Flag(b) => Success(DBool(b))
    case Child(n) => Convert(n, m)
    case Items(xs) =>
      var ds :- ItemsAs(xs, m);
      Success(DList(ds))
  }

  /** `array.map(&method)`: each element receives the method itself. */
  function ItemsAs(xs: seq<Value>, m: Method): (r: Result<seq<Data>>)
    ensures r.Success? ==> |r.value| == |xs|
  {
    if |xs| == 0 then Success([])
    else
      var d :- ElementAs(xs[0], m);
      var rest :- ItemsAs(xs[1..], m);
      Success([d] + rest)
  }

  /** Sending `to_h` or `as_json` to an array element: a node converts itself,
      `nil.to_h` is an empty hash, and every other receiver the parser can
      store in an array (a string or a flag) lacks the method. The parser
      never stores an array inside an array, so `[].to_h` is not modelled. */
  function ElementAs(x: Value, m: Method): Result<Data> {
    match x
    case Child(n) => Convert(n, m)
    case Nil => if m == ToHash then Success(DHash([])) else Failure(NoMethod("as_json"))
    case _ => Failure(NoMethod(if m == ToHash then "to_h" else "as_json"))
  }

  /** `Node#to_h` */
  function ToH(n: Node): Result<Data> {
    Convert(n, ToHash)
  }

  /** `Node#as_json` */
  function AsJsonOf(n: Node): Result<Data> {
    Convert(n, AsJson)
  }

  /** Every node type symbol of `d` replaced by its camelized string. */
  function Camelized(d: Data): Data {
    match d
    case DSym(t) => DStr(Camelize(t))
    case DHash(es) => DHash(CamelizedEntries(es))
    case DList(ds) => DList(CamelizedList(ds))
    case _ => d
  }

  function CamelizedEntries(es: seq<Entry>): (r: seq<Entry>)
    ensures |r| == |es|
  {
    if |es| == 0 then [] else [Entry(es[0].key, Camelized(es[0].value))] + CamelizedEntries(es[1..])
  }

  function CamelizedList(ds: seq<Data>): (r: seq<Data>)
    ensures |r| == |ds|
  {
    if |ds| == 0 then [] else [Camelized(ds[0])] + CamelizedList(ds[1..])
  }

  lemma {:induction false} LookupCamelized(es: seq<Entry>, key: string)
    ensures Lookup(CamelizedEntries(es), key) ==
      (if Lookup(es, key).Some? then Some(Camelized(Lookup(es, key).value)) else None)
  {
    if |es| > 0 {
      LookupCamelized(es[1..], key);
    }
  }

  lemma {:induction false} WithoutCamelized(es: seq<Entry>, key: string)
    ensures Without(CamelizedEntries(es), key) == CamelizedEntries(Without(es, key))
  {
    if |es| > 0 {
      WithoutCamelized(es[1..], key);
    }
  }

  /** `as_json` is `to_h` with every type camelized: the same keys in the same
      order, the same nesting, the same strings and booleans. */
  lemma {:induction false} AsJsonIsCamelizedToH(n: Node)
    requires AsJsonOf(n).Success?
    ensures ToH(n).Success? && AsJsonOf(n).value == Camelized(ToH(n).value)
  {
    ParamsAsCamelized(n.params);
    var es := ParamsAs(n.params, ToHash).value;
    LookupCamelized(es, "type");
    WithoutCamelized(es, "type");
    var merged := Merge(Entry("type", DSym(n.kind)), es);
    assert merged == [merged[0]] + Without(es, "type");
    assert CamelizedEntries(merged) == [Entry("type", Camelized(merged[0].value))] + CamelizedEntries(Without(es, "type"));
  }

  lemma {:induction false} ParamsAsCamelized(ps: seq<Param>)
    requires ParamsAs(ps, AsJson).Success?
    ensures ParamsAs(ps, ToHash).Success? && ParamsAs(ps, AsJson).value == CamelizedEntries(ParamsAs(ps, ToHash).value)
  {
    if |ps| > 0 {
      ValueAsCamelized(ps[0].value);
      ParamsAsCamelized(ps[1..]);
    }
  }

  lemma {:induction false} ValueAsCamelized(v: Value)
    requires ValueAs(v, AsJson).Success?
    ensures ValueAs(v, ToHash).Success? && ValueAs(v, AsJson).value == Camelized(ValueAs(v, ToHash).value)
  {
    match v
    case Child(n) => AsJsonIsCamelizedToH(n);
    case Items(xs) => ItemsAsCamelized(xs);
    case _ =>
  }

  lemma {:induction false} ItemsAsCamelized(xs: seq<Value>)
    requires ItemsAs(xs, AsJson).Success?
    ensures ItemsAs(xs, ToHash).Success? && ItemsAs(xs, AsJson).value == CamelizedList(ItemsAs(xs, ToHash).value)
  {
    if |xs| > 0 {
      ElementAsCamelized(xs[0]);
      ItemsAsCamelized(xs[1..]);
    }
  }

  lemma {:induction false} ElementAsCamelized(x: Value)
    requires ElementAs(x, AsJson).Success?
    ensures ElementAs(x, ToHash).Success? && ElementAs(x, AsJson).value == Camelized(ElementAs(x, ToHash).value)
  {
    if x.Child? {
      AsJsonIsCamelizedToH(x.node);
    }
  }

  /** Every array element in the tree is a node, or nil where `nilOk`. */
  predicate NodeListed(n: Node, nilOk: bool) {
    ParamsListed(n.params, nilOk)
  }

  predicate ParamsListed(ps: seq<Param>, nilOk: bool) {
    |ps| == 0 || (ValueListed(ps[0].value, nilOk) && ParamsListed(ps[1..], nilOk))
  }

  predicate ValueListed(v: Value, nilOk: bool) {
    match v
    case Child(n) => NodeListed(n, nilOk)
    case Items(xs) => ItemsListed(xs, nilOk)
    case _ => true
  }

  predicate ItemsListed(xs: seq<Value>, nilOk: bool) {
    |xs| == 0 ||
    (ElementListed(xs[0], nilOk) && ItemsListed(xs[1..], nilOk))
  }

  predicate ElementListed(x: Value, nilOk: bool) {
    match x
    case Child(n) => NodeListed(n, nilOk)
    case Nil => nilOk
    case _ => false
  }

  /** `to_h` fails exactly when some array holds an element other than a node
      or nil; `as_json` also fails on nil elements. */
  lemma {:induction false} ConvertSucceeds(n: Node, m: Method)
    ensures Convert(n, m).Success? <==> NodeListed(n, m == ToHash)
  {
    ParamsAsSucceed(n.params, m);
  }

  lemma {:induction false} ParamsAsSucceed(ps: seq<Param>, m: Method)
    ensures ParamsAs(ps, m).Success? <==> ParamsListed(ps, m == ToHash)
  {
    if |ps| > 0 {
      ValueAsSucceeds(ps[0].value, m);
      ParamsAsSucceed(ps[1..], m);
    }
  }

  lemma {:induction false} ValueAsSucceeds(v: Value, m: Method)
    ensures ValueAs(v, m).Success? <==> ValueListed(v, m == ToHash)
  {
    match v
    case Child(n) => ConvertSucceeds(n, m);
    case Items(xs) => ItemsAsSucceed(xs, m);
    case _ =>
  }

  lemma {:induction false} ItemsAsSucceed(xs: seq<Value>, m: Method)
    ensures ItemsAs(xs, m).Success? <==> ItemsListed(xs, m == ToHash)
  {
    if |xs| > 0 {
      ElementAsSucceeds(xs[0], m);
      ItemsAsSucceed(xs[1..], m);
    }
  }

  lemma {:induction false} ElementAsSucceeds(x: Value, m: Method)
    ensures ElementAs(x, m).Success? <==> ElementListed(x, m == ToHash)
  {
    if x.Child? {
      ConvertSucceeds(x.node, m);
    }
  }

  /** The keys of `to_h` and `as_json`: `type` first, then the other
      parameter keys in order; a parameter named `type` supplies the value. */
  lemma ConvertKeys(n: Node, m: Method)
    requires Convert(n, m).Success?
    ensures var es := Convert(n, m).value.entries;
      EntryKeys(es) == ["type"] + EntryKeys(Without(ParamsAs(n.params, m).value, "type")) &&
      EntryKeys(ParamsAs(n.params, m).value) == Keys(n.params) &&
      (!Has(n, "type") ==> es[0].value == (if m == ToHash then DSym(n.kind) else DStr(Camelize(n.kind))))
  {
    var ps := ParamsAs(n.params, m).value;
    var es := Convert(n, m).value.entries;
    assert es == [es[0]] + es[1..];
  }
}

=== FILE: parser.dfy ===
/** The recursive-descent parser (`RBS::Parser`) over the rewritten token
    stream. The cursor `pos` is the index of the next token, one more than
    the source's `@index`; `lookahead(k)` is `ts[pos + k - 1]`. Every parse
    function returns the value it built and the cursor after it, or the
    error that aborts the parse. */
module Parser {
  import opened Wrappers
  import opened Definition
  import Tokens
  import opened Nodes

  type Token = Tokens.Token

  /** A parsed value (a node, or nil) and the cursor after it. */
  datatype Parsed = Parsed(value: Value, pos: nat)

  /** A parsed list and the cursor after it. */
  datatype ParsedList = ParsedList(items: seq<Value>, pos: nat)

  /** The three uses of `parse_list`: an opener, a closer and an item parser. */
  datatype ListOf = CallArguments | Elements | Properties

  function Opener(l: ListOf): string {
    match l
    case CallArguments => "("
    case Elements => "["
    case Properties => "{"
  }

  function Closer(l: ListOf): string {
    match l
    case CallArguments => ")"
    case Elements => "]"
    case Properties => "}"
  }

  /** The keyword arms of `parse_statement` with an empty body: each yields
      nil, which ends the statement loop. */
  const STATEMENT_STOP: seq<string> := [
    "prototype", "object", "def", "if", "else", "elsif", "unless", "case", "when",
    "while", "until", "loop", "for", "delete", "return", "break", "next", "throw", "begin"]

  /** The statement modifiers `parse_expression_statement` looks for. */
  const MODIFIERS: seq<string> := ["if", "unless", "while", "until"]

  /** The token names `parse_primary_expression` turns into a literal of the
      token's own value. */
  const LITERALS: seq<string> := ["BOOLEAN", "NIL", "NUMBER", "REGEXP"]

  // ---------------------------------------------------------------------------
  // Cursor primitives

  /** `match(types)`: `lookahead === types`, false when there is no token.
      The parser's tables hold no class name, so `Token#===` is a test of
      the name (`MatchIsCaseEq`). */
  predicate Match(ts: seq<Token>, pos: nat, types: seq<string>) {
    pos < |ts| && ts[pos].name in types
  }

  /** The error `unexpected_error` is meant to raise: the token's name and
      what was expected instead. */
  function Unexpected(t: Token, expected: seq<string>): (e: Error)
    ensures e.UnexpectedToken? && e.name == t.name && e.expected == expected
  {
    UnexpectedToken(t.name, expected)
  }

  /** `expect(*types)`: consume the next token, which must be one of
      `types`; past the last token `lex` fails. */
  function Expect(ts: seq<Token>, pos: nat, types: seq<string>): (r: Result<Token>)
    ensures r.Success? <==> Match(ts, pos, types)
    ensures r.Success? ==> r.value == ts[pos]
    ensures pos >= |ts| ==> r == Failure(UnexpectedEnd)
    ensures pos < |ts| && ts[pos].name !in types ==> r == Failure(Unexpected(ts[pos], types))
  {
    if pos >= |ts| then Failure(UnexpectedEnd)
    else if ts[pos].name in types then Success(ts[pos])
    else Failure(Unexpected(ts[pos], types))
  }

  /** A token's value as a node parameter: its text, or nil. */
  function ValueOf(o: Option<string>): (v: Value)
    ensures o.None? <==> v == Nil
    ensures o.Some? ==> v == Str(o.value)
  {
    match o
    case None => Nil
    case Some(s) => Str(s)
  }

  /** `"'%s'" % value`: a string literal's text in single quotes; nil
      formats as the empty string. */
  function Quote(o: Option<string>): (s: string)
    ensures |s| >= 2 && s[0] == '\'' && s[|s| - 1] == '\''
    ensures s[1..|s| - 1] == o.GetOr("")
  {
    "'" + o.GetOr("") + "'"
  }

  // ---------------------------------------------------------------------------
  // What each level of the grammar can build

  predicate Kinded(v: Value, kinds: seq<string>) {
    v.Child? && v.node.kind in kinds
  }

  const PRIMARY_KINDS: seq<string> := ["literal", "identifier", "array_expression", "object_expression"]

  /** A primary expression, or nil from the empty `->` arm. */
  predicate PrimaryKind(v: Value) {
    v == Nil || Kinded(v, PRIMARY_KINDS)
  }

  predicate MemberKind(v: Value) {
    PrimaryKind(v) || Kinded(v, ["member_expression", "call_expression"])
  }

  predicate UnaryKind(v: Value) {
    MemberKind(v) || IsNode(v, "unary_expression")
  }

  predicate ExpressionKind(v: Value) {
    UnaryKind(v) || Kinded(v, ["binary_expression", "assignment_expression"])
  }

  /** `valid_lhs?`: a member expression, or an identifier other than `this`
      and `self`. Nil and non-node values have no `type`. */
  function ValidLhs(v: Value): (r: Result<bool>)
    ensures r.Failure? <==> !v.Child? || (v.node.kind == "identifier" && !Has(v.node, "name"))
    ensures r == Success(true) <==> (IsNode(v, "member_expression") ||
      (IsNode(v, "identifier") && Has(v.node, "name") &&
       Get(v.node, "name").value != Str("this") && Get(v.node, "name").value != Str("self")))
  {
    match v
    case Child(n) =>
      if n.kind == "member_expression" then Success(true)
      else if n.kind == "identifier" then
        var name :- Get(n, "name");
        Success(name != Str("this") && name != Str("self"))
      else Success(false)
    case _ => Failure(NoMethod("type"))
  }

  // ---------------------------------------------------------------------------
  // Node builders, with the parameter order of the source's hash literals

  function Identifier(name: Value): Value {
    Child(Node("identifier", [Param("name", name)]))
  }

  function Literal(value: Value): Value {
    Child(Node("literal", [Param("value", value)]))
  }

  function Member(computed: bool, obj: Value, property: Value): Value {
    Child(Node("member_expression", [Param("computed", Flag(computed)), Param("object", obj), Param("property", property)]))
  }

  function Call(callee: Value, arguments: seq<Value>): Value {
    Child(Node("call_expression", [Param("callee", callee), Param("arguments", Items(arguments))]))
  }

  function Operation(kind: string, op: Value, left: Value, right: Value): Value {
    Child(Node(kind, [Param("operator", op), Param("left", left), Param("right", right)]))
  }

  function UnaryOf(op: Value, argument: Value): Value {
    Child(Node("unary_expression", [Param("operator", op), Param("argument", argument)]))
  }

  function Splat(e: Value): Value {
    Child(Node("splat_expression", [Param("expression", e)]))
  }

  function Property(key: Value, value: Value): Value {
    Child(Node("property", [Param("key", key), Param("value", value)]))
  }

  function ObjectOf(properties: seq<Value>): Value {
    Child(Node("object_expression", [Param("properties", Items(properties))]))
  }

  function ArrayOf(elements: seq<Value>): Value {
    Child(Node("array_expression", [Param("elements", Items(elements))]))
  }

  function Block(body: seq<Value>): Value {
    Child(Node("block_statement", [Param("body", Items(body))]))
  }

  // ---------------------------------------------------------------------------
  // Expressions

  /** `parse_expression`: a binary expression, made the target of an
      assignment when an assignment operator follows; the right side recurses,
      so assignment is right-associative. */
  function ParseExpression(ts: seq<Token>, pos: nat): (r: Result<Parsed>)
    requires pos <= |ts|
    ensures r.Success? ==> pos <= r.value.pos <= |ts|
    decreases |ts| - pos, 8
  {
    match ParseBinary(ts, pos)
    case Failure(err) => Failure(err)
    case Success(left) =>
      if !Match(ts, left.pos, ASSIGNMENT_OPERATOR) then Success(left)
      else match ValidLhs(left.value)
        case Failure(err) => Failure(err)
        case Success(valid) =>
          if !valid then Failure(ParseError("Invalid left-hand side in assignment"))
          else match ParseExpression(ts, left.pos + 1)
            case Failure(err) => Failure(err)
            case Success(right) =>
              Success(Parsed(Operation("assignment_expression", ValueOf(ts[left.pos].value), left.value, right.value), right.pos))
  }

  /** `parse_binary_expression`: a unary expression, and when a binary
      operator follows, a full expression as the right operand. No
      precedence: `a + b * c - d` nests to the right. */
  function ParseBinary(ts: seq<Token>, pos: nat): (r: Result<Parsed>)
    requires pos <= |ts|
    ensures r.Success? ==> pos <= r.value.pos <= |ts|
    decreases |ts| - pos, 7
  {
    match ParseUnary(ts, pos)
    case Failure(err) => Failure(err)
    case Success(left) =>
      if !Match(ts, left.pos, BINARY_OPERATOR) then Success(left)
      else match ParseExpression(ts, left.pos + 1)
        case Failure(err) => Failure(err)
        case Success(right) =>
          Success(Parsed(Operation("binary_expression", ValueOf(ts[left.pos].value), left.value, right.value), right.pos))
  }

  /** `parse_unary_expression`: a unary operator applies to a full expression. */
  function ParseUnary(ts: seq<Token>, pos: nat): (r: Result<Parsed>)
    requires pos <= |ts|
    ensures r.Success? ==> pos <= r.value.pos <= |ts|
    decreases |ts| - pos, 6
  {
    if !Match(ts, pos, UNARY_OPERATOR) then ParseMember(ts, pos)
    else match ParseExpression(ts, pos + 1)
      case Failure(err) => Failure(err)
      case Success(argument) => Success(Parsed(UnaryOf(ValueOf(ts[pos].value), argument.value), argument.pos))
  }

  /** `parse_member_expression`: a primary expression followed by any number
      of `.name`, `[expr]` and `(arguments)` suffixes. */
  function ParseMember(ts: seq<Token>, pos: nat): (r: Result<Parsed>)
    requires pos <= |ts|
    ensures r.Success? ==> pos <= r.value.pos <= |ts|
    decreases |ts| - pos, 5
  {
    match ParsePrimary(ts, pos)
    case Failure(err) => Failure(err)
    case Success(e) => MemberTail(ts, e.value, e.pos)
  }

  /** One turn of the suffix loop of `parse_member_expression`, applied left
      to right until no suffix follows. */
  function MemberTail(ts: seq<Token>, expr: Value, pos: nat): (r: Result<Parsed>)
    requires pos <= |ts|
    ensures r.Success? ==> pos <= r.value.pos <= |ts|
    decreases |ts| - pos, 3
  {
    if Match(ts, pos, ["."]) then
      (match Expect(ts, pos + 1, ["identifier"])
       case Failure(err) => Failure(err)
       case Success(name) => MemberTail(ts, Member(false, expr, Identifier(ValueOf(name.value))), pos + 2))
    else if Match(ts, pos, ["["]) then
      (match ParseExpression(ts, pos + 1)
       case Failure(err) => Failure(err)
       case Success(property) =>
         if !Match(ts, property.pos, ["]"]) then Failure(Expect(ts, property.pos, ["]"]).error)
         else MemberTail(ts, Member(true, expr, property.value), property.pos + 1))
    else if Match(ts, pos, ["("]) then
      (match ParseList(ts, pos, CallArguments)
       case Failure(err) => Failure(err)
       case Success(arguments) => MemberTail(ts, Call(expr, arguments.items), arguments.pos))
    else Success(Parsed(expr, pos))
  }

  /** `parse_call_argument`: `*e` is a splat, `name :` starts a trailing
      object argument, anything else is an expression. */
  function ParseCallArgument(ts: seq<Token>, pos: nat): (r: Result<Parsed>)
    requires pos <= |ts|
    ensures r.Success? ==> pos <= r.value.pos <= |ts|
    decreases |ts| - pos, 9
  {
    if Match(ts, pos, ["*"]) then
      (match ParseExpression(ts, pos + 1)
       case Failure(err) => Failure(err)
       case Success(e) => Success(Parsed(Splat(e.value), e.pos)))
    else if Match(ts, pos, ["identifier"]) && Match(ts, pos + 1, [":"]) then
      ParseObjectArgument(ts, pos)
    else ParseExpression(ts, pos)
  }

  /** `parse_object_argument`: properties, comma separated, up to the `)`
      that closes the call (which is left for `parse_list`). */
  function ParseObjectArgument(ts: seq<Token>, pos: nat): (r: Result<Parsed>)
    requires pos <= |ts|
    ensures r.Success? ==> pos < r.value.pos <= |ts| && IsNode(r.value.value, "object_expression")
    decreases |ts| - pos, 3
  {
    match ObjectArgumentProperties(ts, pos, [])
    case Failure(err) => Failure(err)
    case Success(properties) => Success(Parsed(ObjectOf(properties.items), properties.pos))
  }

  function ObjectArgumentProperties(ts: seq<Token>, pos: nat, acc: seq<Value>): (r: Result<ParsedList>)
    requires pos <= |ts|
    ensures r.Success? ==> pos < r.value.pos <= |ts| && |r.value.items| > |acc|
    decreases |ts| - pos, 2
  {
    match ParseObjectProperty(ts, pos)
    case Failure(err) => Failure(err)
    case Success(p) =>
      var next := if Match(ts, p.pos, [","]) then p.pos + 1 else p.pos;
      if Match(ts, next, [")"]) then Success(ParsedList(acc + [p.value], next))
      else ObjectArgumentProperties(ts, next, acc + [p.value])
  }

  /** `parse_primary_expression`: literals, identifiers, arrays and objects;
      `->` yields nil without consuming anything; any other token is
      consumed and rejected. */
  function ParsePrimary(ts: seq<Token>, pos: nat): (r: Result<Parsed>)
    requires pos <= |ts|
    ensures r.Success? ==> pos <= r.value.pos <= |ts|
    ensures r.Success? && r.value.pos == pos ==> pos < |ts| && ts[pos].name == "->" && r.value.value == Nil
    ensures pos >= |ts| ==> r == Failure(NoMethod("name"))
    decreases |ts| - pos, 4
  {
    if pos >= |ts| then Failure(NoMethod("name"))
    else
      var t := ts[pos];
      if t.name in LITERALS then Success(Parsed(Literal(ValueOf(t.value)), pos + 1))
      else if t.name == "STRING" then Success(Parsed(Literal(Str(Quote(t.value))), pos + 1))
      else if t.name == "identifier" then Success(Parsed(Identifier(ValueOf(t.value)), pos + 1))
      else if t.name == "[" then ParseArray(ts, pos)
      else if t.name == "{" then ParseObject(ts, pos)
      else if t.name == "->" then Success(Parsed(Nil, pos))
      else Failure(Unexpected(t, []))
  }

  function ParseArray(ts: seq<Token>, pos: nat): (r: Result<Parsed>)
    requires pos <= |ts|
    ensures r.Success? ==> pos < r.value.pos <= |ts| && IsNode(r.value.value, "array_expression")
    decreases |ts| - pos, 3
  {
    match ParseList(ts, pos, Elements)
    case Failure(err) => Failure(err)
    case Success(elements) => Success(Parsed(ArrayOf(elements.items), elements.pos))
  }

  function ParseObject(ts: seq<Token>, pos: nat): (r: Result<Parsed>)
    requires pos <= |ts|
    ensures r.Success? ==> pos < r.value.pos <= |ts| && IsNode(r.value.value, "object_expression")
    decreases |ts| - pos, 3
  {
    match ParseList(ts, pos, Properties)
    case Failure(err) => Failure(err)
    case Success(properties) => Success(Parsed(ObjectOf(properties.items), properties.pos))
  }

  /** `parse_object_property`: an identifier or string key, `:`, and an
      expression. */
  function ParseObjectProperty(ts: seq<Token>, pos: nat): (r: Result<Parsed>)
    requires pos <= |ts|
    ensures r.Success? ==> pos + 2 <= r.value.pos <= |ts| && IsNode(r.value.value, "property")
    decreases |ts| - pos, 1
  {
    if !Match(ts, pos, ["identifier", "STRING"]) then Failure(Expect(ts, pos, ["identifier", "STRING"]).error)
    else if !Match(ts, pos + 1, [":"]) then Failure(Expect(ts, pos + 1, [":"]).error)
    else
      var token := ts[pos];
      var key := if token.name == "identifier" then Identifier(ValueOf(token.value)) else Literal(Str(Quote(token.value)));
      match ParseExpression(ts, pos + 2)
      case Failure(err) => Failure(err)
      case Success(value) => Success(Parsed(Property(key, value.value), value.pos))
  }

  /** `parse_list`: the opener, then nothing but the closer, or items
      separated by commas with one optional comma before the closer. */
  function ParseList(ts: seq<Token>, pos: nat, l: ListOf): (r: Result<ParsedList>)
    requires pos <= |ts|
    ensures r.Success? ==> pos + 2 <= r.value.pos <= |ts|
    decreases |ts| - pos, 2
  {
    if !Match(ts, pos, [Opener(l)]) then Failure(Expect(ts, pos, [Opener(l)]).error)
    else if Match(ts, pos + 1, [Closer(l)]) then Success(ParsedList([], pos + 2))
    else ListItems(ts, pos + 1, l, [])
  }

  /** The item parser `parse_list` is given. */
  function ParseItem(ts: seq<Token>, pos: nat, l: ListOf): (r: Result<Parsed>)
    requires pos <= |ts|
    ensures r.Success? ==> pos <= r.value.pos <= |ts|
    decreases |ts| - pos, 10
  {
    match l
    case CallArguments => ParseCallArgument(ts, pos)
    case Elements => ParseExpression(ts, pos)
    case Properties => ParseObjectProperty(ts, pos)
  }

  /** The loop of `parse_list`, `acc` holding the items so far: an item,
      then `,` or the closer; after a comma, a closer ends the list too. */
  function ListItems(ts: seq<Token>, pos: nat, l: ListOf, acc: seq<Value>): (r: Result<ParsedList>)
    requires pos <= |ts|
    ensures r.Success? ==> pos < r.value.pos <= |ts| && |r.value.items| > |acc| && r.value.items[..|acc|] == acc
    decreases |ts| - pos, 11
  {
    match ParseItem(ts, pos, l)
    case Failure(err) => Failure(err)
    case Success(x) =>
      if !Match(ts, x.pos, [",", Closer(l)]) then Failure(Expect(ts, x.pos, [",", Closer(l)]).error)
      else if ts[x.pos].name == Closer(l) then Success(ParsedList(acc + [x.value], x.pos + 1))
      else if Match(ts, x.pos + 1, [Closer(l)]) then Success(ParsedList(acc + [x.value], x.pos + 2))
      else match ListItems(ts, x.pos + 1, l, acc + [x.value])
        case Failure(err) => Failure(err)
        case Success(rest) =>
          assert rest.items[..|acc|] == (rest.items[..|acc| + 1])[..|acc|];
          Success(rest)
  }

  // ---------------------------------------------------------------------------
  // Statements

  const STATEMENT_KINDS: seq<string> :=
    ["empty_statement", "expression_statement", "if_statement", "unless_statement", "while_statement", "until_statement"]

  /** What `parse_expression_statement` builds: `<kw>_statement` around a
      block holding the bare expression after a modifier, else an
      `expression_statement`. */
  function Statement(modifier: Option<string>, test: Value, expr: Value): Value {
    match modifier
    case Some(kw) => Child(Node(kw + "_statement", [Param("test", test), Param("consequent", Block([expr]))]))
    case None => Child(Node("expression_statement", [Param("expression", expr)]))
  }

  /** A modifier names one of the statement kinds. */
  lemma ModifierStatement(kw: string)
    requires kw in MODIFIERS
    ensures kw + "_statement" in STATEMENT_KINDS
  {
    if kw == "if" {
      assert kw + "_statement" == STATEMENT_KINDS[2];
    } else if kw == "unless" {
      assert kw + "_statement" == STATEMENT_KINDS[3];
    } else if kw == "while" {
      assert kw + "_statement" == STATEMENT_KINDS[4];
    } else {
      assert kw + "_statement" == STATEMENT_KINDS[5];
    }
  }

  /** `expect(:LF) unless match(:EOF)` */
  function EndStatement(ts: seq<Token>, stmt: Value, pos: nat): (r: Result<Parsed>)
    requires pos <= |ts|
    ensures r.Success? <==> Match(ts, pos, ["EOF", "LF"])
    ensures r.Success? ==> r.value.value == stmt && r.value.pos == (if ts[pos].name == "EOF" then pos else pos + 1)
  {
    if Match(ts, pos, ["EOF"]) then Success(Parsed(stmt, pos))
    else
      var lf :- Expect(ts, pos, ["LF"]);
      Success(Parsed(stmt, pos + 1))
  }

  /** `parse_expression_statement`. It stops without consuming a token only
      when it stands at the end marker. */
  function ParseExpressionStatement(ts: seq<Token>, pos: nat): (r: Result<Parsed>)
    requires pos <= |ts|
    ensures r.Success? ==> pos <= r.value.pos <= |ts| && Kinded(r.value.value, STATEMENT_KINDS)
    ensures r.Success? && r.value.pos == pos ==> pos < |ts| && ts[pos].name == "EOF"
  {
    match ParseExpression(ts, pos)
    case Failure(err) => Failure(err)
    case Success(e) =>
      if !Match(ts, e.pos, MODIFIERS) then EndStatement(ts, Statement(None, Nil, e.value), e.pos)
      else match ParseExpression(ts, e.pos + 1)
        case Failure(err) => Failure(err)
        case Success(test) =>
          ModifierStatement(ts[e.pos].name);
          EndStatement(ts, Statement(Some(ts[e.pos].name), test.value, e.value), test.pos)
  }

  /** `parse_statement`: nil at the end marker and at every keyword arm,
      an empty statement for a line feed, else an expression statement. */
  function ParseStatement(ts: seq<Token>, pos: nat): (r: Result<Parsed>)
    requires pos <= |ts|
    ensures r.Success? ==> pos <= r.value.pos <= |ts|
    ensures r.Success? ==> r.value.value == Nil || Kinded(r.value.value, STATEMENT_KINDS)
    ensures r.Success? && r.value.value != Nil ==> pos < r.value.pos
    ensures r.Success? && r.value.value == Nil ==> r.value.pos == pos
  {
    if pos >= |ts| then Failure(NoMethod("name"))
    else if ts[pos].name == "EOF" then Success(Parsed(Nil, pos))
    else if ts[pos].name == "LF" then Success(Parsed(Child(Node("empty_statement", [])), pos + 1))
    else if ts[pos].name in STATEMENT_STOP then Success(Parsed(Nil, pos))
    else ParseExpressionStatement(ts, pos)
  }

  /** `parse_statements`: statements up to the first nil. */
  function ParseStatements(ts: seq<Token>, pos: nat): (r: Result<ParsedList>)
    requires pos <= |ts|
    ensures r.Success? ==> pos <= r.value.pos <= |ts|
    ensures r.Success? ==> forall i :: 0 <= i < |r.value.items| ==> Kinded(r.value.items[i], STATEMENT_KINDS)
    decreases |ts| - pos
  {
    var s :- ParseStatement(ts, pos);
    if s.value == Nil then Success(ParsedList([], pos))
    else
      var rest :- ParseStatements(ts, s.pos);
      Success(ParsedList([s.value] + rest.items, rest.pos))
  }

  /** `parse_program` */
  function ParseProgram(ts: seq<Token>, pos: nat): (r: Result<Parsed>)
    requires pos <= |ts|
    ensures r.Success? ==> pos <= r.value.pos <= |ts| && IsNode(r.value.value, "program")
  {
    var body :- ParseStatements(ts, pos);
    Success(Parsed(Child(Node("program", [Param("body", Items(body.items))])), body.pos))
  }

  // ---------------------------------------------------------------------------
  // The parser object

  /** A parser: its tokens, its cursor and the memoised program. */
  datatype Session = Session(tokens: seq<Token>, pos: nat, program: Option<Value>)

  /** `Parser.new(lexer)`: the cursor before the first token, nothing parsed. */
  function NewSession(ts: seq<Token>): (s: Session)
    ensures s.tokens == ts && s.pos <= |s.tokens| && s.program.None?
  {
    Session(ts, 0, None)
  }

  /** `parse`: `@program ||= parse_program`, the program and the parser after. */
  function Parse(s: Session): (r: Result<(Value, Session)>)
    requires s.pos <= |s.tokens|
    ensures r.Success? ==> r.value.1.tokens == s.tokens && r.value.1.pos <= |s.tokens|
    ensures r.Success? ==> r.value.1.program == Some(r.value.0)
    ensures r.Success? && s.program.None? ==> IsNode(r.value.0, "program")
    ensures s.program.Some? ==> r == Success((s.program.value, s))
  {
    match s.program
    case Some(p) => Success((p, s))
    case None =>
      var p :- ParseProgram(s.tokens, s.pos);
      Success((p.value, Session(s.tokens, p.pos, Some(p.value))))
  }
}

=== FILE: parser_laws.dfy ===
/** What the parser accepts and builds: binary chains nest to the right,
    assignment targets are checked, suffixes apply left to right, the list
    and argument grammars, the statement loop and the memoised `parse`. */
module ParserLaws {
  import opened Wrappers
  import opened Definition
  import Tokens
  import opened Nodes
  import opened Parser

  // ---------------------------------------------------------------------------
  // `match` is `Token#===`

  predicate NoClassNames(types: seq<string>) {
    forall k :: 0 <= k < |types| ==> !Tokens.IsClassName(types[k])
  }

  /** Without a class name among the types, `match` is exactly `lookahead === types`. */
  lemma MatchIsCaseEq(ts: seq<Token>, pos: nat, types: seq<string>)
    requires NoClassNames(types)
    ensures Match(ts, pos, types) <==> pos < |ts| && Tokens.CaseEq(ts[pos], Tokens.Many(types))
  {
    if pos < |ts| {
      Tokens.IsAnyPlain(ts[pos], types);
    }
  }

  /** The operator tables the parser matches against hold no class name. */
  lemma OperatorTablesPlain()
    ensures NoClassNames(ASSIGNMENT_OPERATOR) && NoClassNames(BINARY_OPERATOR) && NoClassNames(UNARY_OPERATOR)
    ensures NoClassNames(MODIFIERS)
  {
  }

  // ---------------------------------------------------------------------------
  // Binary chains

  /** The suffixes `parse_member_expression` loops on. */
  const SUFFIXES: seq<string> := [".", "[", "("]

  /** Token names `parse_primary_expression` turns into a leaf. */
  predicate IsAtomName(name: string) {
    name in LITERALS || name == "STRING" || name == "identifier"
  }

  /** The leaf `parse_primary_expression` builds from such a token. */
  function Atom(t: Token): Value
    requires IsAtomName(t.name)
  {
    if t.name in LITERALS then Literal(ValueOf(t.value))
    else if t.name == "STRING" then Literal(Str(Quote(t.value)))
    else Identifier(ValueOf(t.value))
  }

  /** A leaf with no suffix after it is a whole unary expression. */
  lemma AtomUnary(ts: seq<Token>, pos: nat)
    requires pos < |ts| && IsAtomName(ts[pos].name) && !Match(ts, pos + 1, SUFFIXES)
    ensures ParseUnary(ts, pos) == Success(Parsed(Atom(ts[pos]), pos + 1))
  {
    assert !Match(ts, pos, UNARY_OPERATOR);
    assert ParsePrimary(ts, pos) == Success(Parsed(Atom(ts[pos]), pos + 1));
    assert MemberTail(ts, Atom(ts[pos]), pos + 1) == Success(Parsed(Atom(ts[pos]), pos + 1));
  }

  /** `n` binary operators between `n + 1` leaves, and then a token that
      neither continues nor assigns. */
  predicate Chain(ts: seq<Token>, pos: nat, n: nat)
    decreases n
  {
    pos < |ts| && IsAtomName(ts[pos].name) && !Match(ts, pos + 1, SUFFIXES) &&
    if n == 0 then !Match(ts, pos + 1, BINARY_OPERATOR) && !Match(ts, pos + 1, ASSIGNMENT_OPERATOR)
    else Match(ts, pos + 1, BINARY_OPERATOR) && Chain(ts, pos + 2, n - 1)
  }

  /** The right-nested tree of a chain: `a op (b op (c ...))`. */
  function RightNest(ts: seq<Token>, pos: nat, n: nat): Value
    requires Chain(ts, pos, n)
    decreases n
  {
    if n == 0 then Atom(ts[pos])
    else Operation("binary_expression", ValueOf(ts[pos + 1].value), Atom(ts[pos]), RightNest(ts, pos + 2, n - 1))
  }

  /** A binary operator after the first operand takes a full expression as
      the right operand. */
  lemma BinaryStep(ts: seq<Token>, pos: nat, left: Parsed, right: Parsed)
    requires pos <= |ts| && ParseUnary(ts, pos) == Success(left) && Match(ts, left.pos, BINARY_OPERATOR)
    requires ParseExpression(ts, left.pos + 1) == Success(right)
    ensures ParseBinary(ts, pos) ==
      Success(Parsed(Operation("binary_expression", ValueOf(ts[left.pos].value), left.value, right.value), right.pos))
  {
  }

  /** Without an assignment operator after it, a binary expression is the
      whole expression. */
  lemma NoAssignment(ts: seq<Token>, pos: nat, b: Parsed)
    requires pos <= |ts| && ParseBinary(ts, pos) == Success(b) && !Match(ts, b.pos, ASSIGNMENT_OPERATOR)
    ensures ParseExpression(ts, pos) == Success(b)
  {
  }

  /** No precedence: every chain of binary operators nests to the right,
      whatever the operators, and the parse stops after its last leaf. */
  lemma {:induction false} ChainNestsRight(ts: seq<Token>, pos: nat, n: nat)
    requires Chain(ts, pos, n)
    ensures pos + n + n + 1 <= |ts| && !Match(ts, pos + n + n + 1, ASSIGNMENT_OPERATOR)
    ensures ParseBinary(ts, pos) == Success(Parsed(RightNest(ts, pos, n), pos + n + n + 1))
    ensures ParseExpression(ts, pos) == Success(Parsed(RightNest(ts, pos, n), pos + n + n + 1))
    decreases n
  {
    if n == 0 {
      AtomBinary(ts, pos);
    } else {
      AtomUnary(ts, pos);
      ChainNestsRight(ts, pos + 2, n - 1);
      BinaryStep(ts, pos, Parsed(Atom(ts[pos]), pos + 1), Parsed(RightNest(ts, pos + 2, n - 1), pos + n + n + 1));
    }
    NoAssignment(ts, pos, Parsed(RightNest(ts, pos, n), pos + n + n + 1));
  }

  // ---------------------------------------------------------------------------
  // What each level builds

  /** A primary expression is a literal, an identifier, an array, an object,
      or the nil of `->`. */
  lemma PrimaryKinds(ts: seq<Token>, pos: nat)
    requires pos <= |ts| && ParsePrimary(ts, pos).Success?
    ensures PrimaryKind(ParsePrimary(ts, pos).value.value)
  {
  }

  /** The suffix loop returns the expression it started from, or a member or
      call expression built on it. */
  lemma {:induction false} TailKinds(ts: seq<Token>, expr: Value, pos: nat)
    requires pos <= |ts| && MemberTail(ts, expr, pos).Success?
    ensures var v := MemberTail(ts, expr, pos).value.value;
      v == expr || Kinded(v, ["member_expression", "call_expression"])
    decreases |ts| - pos
  {
    if Match(ts, pos, ["."]) {
      var name := Expect(ts, pos + 1, ["identifier"]).value;
      TailKinds(ts, Member(false, expr, Identifier(ValueOf(name.value))), pos + 2);
    } else if Match(ts, pos, ["["]) {
      var property := ParseExpression(ts, pos + 1).value;
      TailKinds(ts, Member(true, expr, property.value), property.pos + 1);
    } else if Match(ts, pos, ["("]) {
      var arguments := ParseList(ts, pos, CallArguments).value;
      TailKinds(ts, Call(expr, arguments.items), arguments.pos);
    }
  }

  lemma MemberKinds(ts: seq<Token>, pos: nat)
    requires pos <= |ts| && ParseMember(ts, pos).Success?
    ensures MemberKind(ParseMember(ts, pos).value.value)
  {
    var e := ParsePrimary(ts, pos).value;
    PrimaryKinds(ts, pos);
    TailKinds(ts, e.value, e.pos);
  }

  lemma UnaryKinds(ts: seq<Token>, pos: nat)
    requires pos <= |ts| && ParseUnary(ts, pos).Success?
    ensures UnaryKind(ParseUnary(ts, pos).value.value)
  {
    if !Match(ts, pos, UNARY_OPERATOR) {
      MemberKinds(ts, pos);
    }
  }

  /** The left operand of a binary expression is the unary expression parsed
      first, never a binary expression or an assignment: `a + b` only ever
      grows on its right. */
  lemma BinaryLeftOperand(ts: seq<Token>, pos: nat, u: Parsed)
    requires pos <= |ts| && ParseUnary(ts, pos) == Success(u) && ParseBinary(ts, pos).Success?
    ensures UnaryKind(u.value) && !Kinded(u.value, ["binary_expression", "assignment_expression"])
    ensures var b := ParseBinary(ts, pos).value.value;
      b == u.value || exists op, right :: b == Operation("binary_expression", op, u.value, right)
  {
    UnaryKinds(ts, pos);
    if Match(ts, u.pos, BINARY_OPERATOR) {
      var right := ParseExpression(ts, u.pos + 1).value;
      assert ParseBinary(ts, pos).value.value == Operation("binary_expression", ValueOf(ts[u.pos].value), u.value, right.value);
    }
  }

  /** Every expression is one of the kinds the grammar levels build. */
  lemma ExpressionKinds(ts: seq<Token>, pos: nat)
    requires pos <= |ts| && ParseExpression(ts, pos).Success?
    ensures ExpressionKind(ParseExpression(ts, pos).value.value)
  {
    var u := ParseUnary(ts, pos).value;
    BinaryLeftOperand(ts, pos, u);
  }

  // ---------------------------------------------------------------------------
  // Assignment

  /** An assignment takes a full expression on its right, so `a = b = c`
      groups as `a = (b = c)`. */
  lemma AssignmentStep(ts: seq<Token>, pos: nat, left: Parsed, right: Parsed)
    requires pos <= |ts| && ParseBinary(ts, pos) == Success(left)
    requires Match(ts, left.pos, ASSIGNMENT_OPERATOR) && ValidLhs(left.value) == Success(true)
    requires ParseExpression(ts, left.pos + 1) == Success(right)
    ensures ParseExpression(ts, pos) ==
      Success(Parsed(Operation("assignment_expression", ValueOf(ts[left.pos].value), left.value, right.value), right.pos))
  {
  }

  /** An assignment expression's target passed `valid_lhs?`; without an
      assignment operator the expression is the binary expression alone. */
  lemma AssignmentTarget(ts: seq<Token>, pos: nat, b: Parsed)
    requires pos <= |ts| && ParseBinary(ts, pos) == Success(b) && ParseExpression(ts, pos).Success?
    ensures Match(ts, b.pos, ASSIGNMENT_OPERATOR) ==> ValidLhs(b.value) == Success(true)
    ensures Match(ts, b.pos, ASSIGNMENT_OPERATOR) ==> IsNode(ParseExpression(ts, pos).value.value, "assignment_expression")
    ensures !Match(ts, b.pos, ASSIGNMENT_OPERATOR) ==> ParseExpression(ts, pos) == Success(b)
  {
  }

  /** A target that is neither a member expression nor an identifier other
      than `this` / `self` is rejected before the right side is read. */
  lemma InvalidTarget(ts: seq<Token>, pos: nat, left: Parsed)
    requires pos <= |ts| && ParseBinary(ts, pos) == Success(left)
    requires Match(ts, left.pos, ASSIGNMENT_OPERATOR) && ValidLhs(left.value) == Success(false)
    ensures ParseExpression(ts, pos) == Failure(ParseError("Invalid left-hand side in assignment"))
  {
  }

  /** An assignment operator neither continues a binary chain nor starts a
      member suffix. */
  lemma AssignmentOperatorsApart(ts: seq<Token>, p: nat)
    requires Match(ts, p, ASSIGNMENT_OPERATOR)
    ensures !Match(ts, p, BINARY_OPERATOR) && !Match(ts, p, SUFFIXES)
  {
    AssignmentNotBinary(ts[p].name);
  }

  /** A leaf followed by neither a suffix nor a binary operator is a whole
      binary expression. */
  lemma AtomBinary(ts: seq<Token>, pos: nat)
    requires pos < |ts| && IsAtomName(ts[pos].name) && !Match(ts, pos + 1, SUFFIXES)
    requires !Match(ts, pos + 1, BINARY_OPERATOR)
    ensures ParseBinary(ts, pos) == Success(Parsed(Atom(ts[pos]), pos + 1))
  {
    AtomUnary(ts, pos);
  }

  /** `this` and `self` fail `valid_lhs?`. */
  lemma SelfTarget(name: Option<string>)
    requires name == Some("this") || name == Some("self")
    ensures ValidLhs(Identifier(ValueOf(name))) == Success(false)
  {
    assert Get(Identifier(ValueOf(name)).node, "name") == Success(ValueOf(name));
  }

  /** `this = x` and `self = x` are invalid assignments. */
  lemma SelfNotAssignable(ts: seq<Token>, pos: nat)
    requires pos + 1 < |ts| && ts[pos].name == "identifier"
    requires ts[pos].value == Some("this") || ts[pos].value == Some("self")
    requires Match(ts, pos + 1, ASSIGNMENT_OPERATOR)
    ensures ParseExpression(ts, pos) == Failure(ParseError("Invalid left-hand side in assignment"))
  {
    AssignmentOperatorsApart(ts, pos + 1);
    AtomBinary(ts, pos);
    SelfTarget(ts[pos].value);
    InvalidTarget(ts, pos, Parsed(Atom(ts[pos]), pos + 1));
  }

  // ---------------------------------------------------------------------------
  // Member suffixes

  /** `.name` wraps the expression so far in a non-computed member
      expression, and the loop goes on. */
  lemma MemberDot(ts: seq<Token>, expr: Value, pos: nat)
    requires pos + 1 < |ts| && ts[pos].name == "." && ts[pos + 1].name == "identifier"
    ensures MemberTail(ts, expr, pos) ==
      MemberTail(ts, Member(false, expr, Identifier(ValueOf(ts[pos + 1].value))), pos + 2)
  {
  }

  /** After `.` only an identifier may follow. */
  lemma MemberDotNeedsName(ts: seq<Token>, expr: Value, pos: nat)
    requires pos < |ts| && ts[pos].name == "."
    ensures pos + 1 == |ts| ==> MemberTail(ts, expr, pos) == Failure(UnexpectedEnd)
    ensures pos + 1 < |ts| && ts[pos + 1].name != "identifier" ==>
      MemberTail(ts, expr, pos) == Failure(Unexpected(ts[pos + 1], ["identifier"]))
  {
  }

  /** `[e]` wraps it in a computed member expression. */
  lemma MemberIndex(ts: seq<Token>, expr: Value, pos: nat, property: Parsed)
    requires pos < |ts| && ts[pos].name == "["
    requires ParseExpression(ts, pos + 1) == Success(property) && Match(ts, property.pos, ["]"])
    ensures MemberTail(ts, expr, pos) == MemberTail(ts, Member(true, expr, property.value), property.pos + 1)
  {
  }

  /** `(arguments)` makes it the callee of a call expression. */
  lemma MemberCall(ts: seq<Token>, expr: Value, pos: nat, arguments: ParsedList)
    requires pos < |ts| && ts[pos].name == "("
    requires ParseList(ts, pos, CallArguments) == Success(arguments)
    ensures MemberTail(ts, expr, pos) == MemberTail(ts, Call(expr, arguments.items), arguments.pos)
  {
  }

  /** Without a suffix the loop ends and nothing is consumed. */
  lemma MemberStop(ts: seq<Token>, expr: Value, pos: nat)
    requires pos <= |ts| && !Match(ts, pos, SUFFIXES)
    ensures MemberTail(ts, expr, pos) == Success(Parsed(expr, pos))
  {
  }

  function Name(x: string): Token {
    Tokens.Token("identifier", Some(x), 1, 1)
  }

  function Mark(name: string): Token {
    Tokens.Token(name, None, 1, 1)
  }

  /** `a.b.c` is `(a.b).c`: suffixes apply left to right. */
  lemma MemberChainExample()
    ensures var ts := [Name("a"), Mark("."), Name("b"), Mark("."), Name("c"), Mark("EOF")];
      ParseMember(ts, 0) ==
        Success(Parsed(Member(false, Member(false, Identifier(Str("a")), Identifier(Str("b"))), Identifier(Str("c"))), 5))
  {
    var ts := [Name("a"), Mark("."), Name("b"), Mark("."), Name("c"), Mark("EOF")];
    var a, b, c := Identifier(Str("a")), Identifier(Str("b")), Identifier(Str("c"));
    assert ParsePrimary(ts, 0) == Success(Parsed(a, 1));
    MemberDot(ts, a, 1);
    MemberDot(ts, Member(false, a, b), 3);
    MemberStop(ts, Member(false, Member(false, a, b), c), 5);
  }

  // ---------------------------------------------------------------------------
  // Lists

  /** The closer straight after the opener gives the empty list. */
  lemma ListEmpty(ts: seq<Token>, pos: nat, l: ListOf)
    requires Match(ts, pos, [Opener(l)]) && Match(ts, pos + 1, [Closer(l)])
    ensures ParseList(ts, pos, l) == Success(ParsedList([], pos + 2))
  {
  }

  /** A list without its opener is rejected. */
  lemma ListNeedsOpener(ts: seq<Token>, pos: nat, l: ListOf)
    requires pos < |ts| && ts[pos].name != Opener(l)
    ensures ParseList(ts, pos, l) == Failure(Unexpected(ts[pos], [Opener(l)]))
  {
  }

  /** An item followed by the closer ends the list. */
  lemma ListLastItem(ts: seq<Token>, pos: nat, l: ListOf, acc: seq<Value>, x: Parsed)
    requires pos <= |ts| && ParseItem(ts, pos, l) == Success(x) && Match(ts, x.pos, [Closer(l)])
    ensures ListItems(ts, pos, l, acc) == Success(ParsedList(acc + [x.value], x.pos + 1))
  {
  }

  /** One comma before the closer is allowed. */
  lemma ListTrailingComma(ts: seq<Token>, pos: nat, l: ListOf, acc: seq<Value>, x: Parsed)
    requires pos <= |ts| && ParseItem(ts, pos, l) == Success(x)
    requires Match(ts, x.pos, [","]) && Match(ts, x.pos + 1, [Closer(l)])
    ensures ListItems(ts, pos, l, acc) == Success(ParsedList(acc + [x.value], x.pos + 2))
  {
  }

  /** A comma followed by anything else reads the next item. */
  lemma ListNextItem(ts: seq<Token>, pos: nat, l: ListOf, acc: seq<Value>, x: Parsed)
    requires pos <= |ts| && ParseItem(ts, pos, l) == Success(x)
    requires Match(ts, x.pos, [","]) && !Match(ts, x.pos + 1, [Closer(l)])
    ensures ListItems(ts, pos, l, acc) == ListItems(ts, x.pos + 1, l, acc + [x.value])
  {
  }

  /** Items must be separated by commas. */
  lemma ListNeedsSeparator(ts: seq<Token>, pos: nat, l: ListOf, acc: seq<Value>, x: Parsed)
    requires pos <= |ts| && ParseItem(ts, pos, l) == Success(x)
    requires x.pos < |ts| && ts[x.pos].name != "," && ts[x.pos].name != Closer(l)
    ensures ListItems(ts, pos, l, acc) == Failure(Unexpected(ts[x.pos], [",", Closer(l)]))
  {
  }

  // ---------------------------------------------------------------------------
  // Call arguments

  /** `*e` is a splat of the expression `e`. */
  lemma SplatArgument(ts: seq<Token>, pos: nat, e: Parsed)
    requires pos < |ts| && ts[pos].name == "*" && ParseExpression(ts, pos + 1) == Success(e)
    ensures ParseCallArgument(ts, pos) == Success(Parsed(Splat(e.value), e.pos))
  {
  }

  /** `name :` starts the object argument; anything else is an expression. */
  lemma ArgumentKinds(ts: seq<Token>, pos: nat)
    requires pos < |ts| && ts[pos].name != "*"
    ensures Match(ts, pos, ["identifier"]) && Match(ts, pos + 1, [":"]) ==>
      ParseCallArgument(ts, pos) == ParseObjectArgument(ts, pos)
    ensures !(Match(ts, pos, ["identifier"]) && Match(ts, pos + 1, [":"])) ==>
      ParseCallArgument(ts, pos) == ParseExpression(ts, pos)
  {
  }

  /** The object argument runs to the `)`: after a property and an optional
      comma, anything but `)` must start another property, so no positional
      argument can follow it. */
  lemma ObjectArgumentIsLast(ts: seq<Token>, pos: nat, acc: seq<Value>, p: Parsed, next: nat)
    requires pos <= |ts| && ParseObjectProperty(ts, pos) == Success(p)
    requires next == if Match(ts, p.pos, [","]) then p.pos + 1 else p.pos
    requires next < |ts| && ts[next].name != ")" && ts[next].name != "identifier" && ts[next].name != "STRING"
    ensures ObjectArgumentProperties(ts, pos, acc) == Failure(Unexpected(ts[next], ["identifier", "STRING"]))
  {
    var e := Unexpected(ts[next], ["identifier", "STRING"]);
    assert ParseObjectProperty(ts, next) == Failure(e);
    assert ObjectArgumentProperties(ts, next, acc + [p.value]) == Failure(e);
  }

  // ---------------------------------------------------------------------------
  // Statements

  /** The statement loop ends, consuming nothing, at the end marker and at
      every keyword arm. */
  lemma StatementsStop(ts: seq<Token>, pos: nat)
    requires pos < |ts| && (ts[pos].name == "EOF" || ts[pos].name in STATEMENT_STOP)
    ensures ParseStatements(ts, pos) == Success(ParsedList([], pos))
  {
  }

  /** A line feed is an empty statement, and the loop goes on after it. */
  lemma LeadingLineFeed(ts: seq<Token>, pos: nat)
    requires pos < |ts| && ts[pos].name == "LF"
    ensures ParseStatements(ts, pos) ==
      match ParseStatements(ts, pos + 1)
      case Success(rest) => Success(ParsedList([Child(Node("empty_statement", []))] + rest.items, rest.pos))
      case Failure(e) => Failure(e)
  {
  }

  /** An expression and then a modifier becomes `<modifier>_statement`,
      whose consequent is a block holding just the expression. */
  lemma ModifiedStatement(ts: seq<Token>, pos: nat, e: Parsed, test: Parsed)
    requires pos <= |ts| && ParseExpression(ts, pos) == Success(e) && Match(ts, e.pos, MODIFIERS)
    requires ParseExpression(ts, e.pos + 1) == Success(test)
    ensures ParseExpressionStatement(ts, pos) == EndStatement(ts, Statement(Some(ts[e.pos].name), test.value, e.value), test.pos)
  {
  }

  /** Without a modifier the expression becomes an `expression_statement`. */
  lemma PlainStatement(ts: seq<Token>, pos: nat, e: Parsed)
    requires pos <= |ts| && ParseExpression(ts, pos) == Success(e) && !Match(ts, e.pos, MODIFIERS)
    ensures ParseExpressionStatement(ts, pos) == EndStatement(ts, Statement(None, Nil, e.value), e.pos)
  {
  }

  // ---------------------------------------------------------------------------
  // `parse`

  /** `parse` is memoised: a second call returns the same program and
      leaves the parser as it was. */
  lemma ParseMemoised(s: Session)
    requires s.pos <= |s.tokens| && Parse(s).Success?
    ensures Parse(s).value.1.pos <= |Parse(s).value.1.tokens|
    ensures Parse(Parse(s).value.1) == Parse(s)
  {
  }

  // ---------------------------------------------------------------------------
  // The `unexpected_error` finding

  /** An error as the code raises it: every unexpected-token or
      unexpected-end error comes from `unexpected_error`, which as written
      interpolates `token.position`, a method neither a `Token` nor the
      `:EOF` symbol has, so a `NoMethodError` is raised before the
      `ParseError` is built; every other error is raised as modelled. */
  function AsWrittenError(e: Error): (r: Error)
    ensures !r.UnexpectedToken? && !r.UnexpectedEnd?
    ensures r != e <==> e.UnexpectedToken? || e.UnexpectedEnd?
    ensures r != e ==> r == NoMethod("position")
  {
    if e.UnexpectedToken? || e.UnexpectedEnd? then NoMethod("position") else e
  }

  /** `expect` as written, from its own branches: the next token when its
      name is one of `types`; otherwise, and past the last token, the
      failure of `unexpected_error`. */
  function ExpectAsWritten(ts: seq<Token>, pos: nat, types: seq<string>): (r: Result<Token>)
    ensures r.Success? <==> Match(ts, pos, types)
    ensures r.Success? ==> r.value == ts[pos]
    ensures r.Failure? ==> r.error == NoMethod("position") && !r.error.ParseError?
  {
    if pos >= |ts| then Failure(NoMethod("position"))
    else if ts[pos].name in types then Success(ts[pos])
    else Failure(NoMethod("position"))
  }

  /** The two `expect`s agree on every token they accept; where the
      intended one reports the unexpected token (or the end) the written
      one fails with the `NoMethodError`. */
  lemma UnexpectedErrorDiscrepancy(ts: seq<Token>, pos: nat, types: seq<string>)
    ensures Expect(ts, pos, types).Success? <==> ExpectAsWritten(ts, pos, types).Success?
    ensures Expect(ts, pos, types).Success? ==> ExpectAsWritten(ts, pos, types) == Expect(ts, pos, types)
    ensures Expect(ts, pos, types).Failure? ==>
      (Expect(ts, pos, types).error.UnexpectedToken? || Expect(ts, pos, types).error.UnexpectedEnd?) &&
      ExpectAsWritten(ts, pos, types) == Failure(AsWrittenError(Expect(ts, pos, types).error))
  {
  }

  /** `()` reaches `unexpected_error` at its first token: there is no
      group production, so `(` is no primary expression. */
  lemma ParenthesesRejected()
    ensures var ts := [Mark("("), Mark(")"), Mark("EOF")];
      ParseExpression(ts, 0) == Failure(Unexpected(Mark("("), []))
  {
    var ts := [Mark("("), Mark(")"), Mark("EOF")];
    assert ParsePrimary(ts, 0) == Failure(Unexpected(Mark("("), []));
    assert !Match(ts, 0, UNARY_OPERATOR);
  }

  /** As written, `()` does not fail with the `ParseError` the parser's
      tests expect of it but with the `NoMethodError` of
      `unexpected_error`. */
  lemma ParenthesesRejectedAsWritten()
    ensures var ts := [Mark("("), Mark(")"), Mark("EOF")];
      ParseExpression(ts, 0).Failure? &&
      AsWrittenError(ParseExpression(ts, 0).error) == NoMethod("position") &&
      !AsWrittenError(ParseExpression(ts, 0).error).ParseError?
  {
    ParenthesesRejected();
  }
}

=== FILE: patterns.dfy ===
/** The scanning patterns of the lexer (`Lexer::RE`), each written as a
    character-level matcher anchored at the start of the remaining input.
    A matcher returns the length of the text the Ruby regular expression
    would match there, or `None`; beside each one stands the language it
    recognises, and a lemma ties the two together. */
module Patterns {
  import opened Text
  import opened Definition
  import opened Wrappers

  /** Ruby's `\b` at position `n` of `s`: exactly one of the characters on
      either side is a word character (outside the string counts as not). */
  predicate WordBoundary(s: string, n: nat) {
    n <= |s| && ((0 < n && IsWordChar(s[n - 1])) != (n < |s| && IsWordChar(s[n])))
  }

  /** After a word character, `\b` holds exactly when no word character follows. */
  lemma BoundaryAfterWord(s: string, n: nat)
    requires 0 < n <= |s| && IsWordChar(s[n - 1])
    ensures WordBoundary(s, n) <==> (n == |s| || !IsWordChar(s[n]))
  {
  }

  /** The end of the longest run of characters satisfying `p` from `i`. */
  function Span(s: string, i: nat, p: char -> bool): (j: nat)
    requires i <= |s|
    ensures i <= j <= |s|
    ensures forall k :: i <= k < j ==> p(s[k])
    ensures j == |s| || !p(s[j])
    decreases |s| - i
  {
    if i == |s| || !p(s[i]) then i else Span(s, i + 1, p)
  }

  /** The span over a suffix is the span over the whole, shifted. */
  lemma SpanSuffix(s: string, e: nat, p: char -> bool)
    requires e <= |s|
    ensures Span(s[e..], 0, p) == Span(s, e, p) - e
    ensures s[e..][..Span(s[e..], 0, p)] == s[e..Span(s, e, p)]
  {
    var m := Span(s, e, p);
    SpanExact(s[e..], 0, m - e, p);
  }

  /** A run that covers `[i, m)` and stops at `m` is the span from `i`. */
  lemma SpanExact(s: string, i: nat, m: nat, p: char -> bool)
    requires i <= m <= |s|
    requires forall k :: i <= k < m ==> p(s[k])
    requires m == |s| || !p(s[m])
    ensures Span(s, i, p) == m
  {
  }

  // ---------------------------------------------------------------------------
  // Alternations built by `to_regexp`

  /** The word `w` matches at the start of `s`, followed by `\b` when `bound`. */
  predicate AltMatches(w: string, bound: bool, s: string) {
    StartsWith(s, w) && (!bound || WordBoundary(s, |w|))
  }

  function AlternationFrom(words: seq<string>, bound: bool, s: string, k: nat): (r: Option<nat>)
    requires k <= |words|
    ensures r.Some? ==> k <= r.value < |words| && AltMatches(words[r.value], bound, s)
    ensures r.Some? ==> forall j :: k <= j < r.value ==> !AltMatches(words[j], bound, s)
    ensures r.None? ==> forall j :: k <= j < |words| ==> !AltMatches(words[j], bound, s)
    decreases |words| - k
  {
    if k == |words| then None
    else if AltMatches(words[k], bound, s) then Some(k)
    else AlternationFrom(words, bound, s, k + 1)
  }

  /** The regular expression `\A(w1|w2|...)` (with `\b` when `bound`): the
      index of the first alternative that matches, as Ruby's leftmost
      alternation picks it. */
  function Alternation(words: seq<string>, bound: bool, s: string): (r: Option<nat>)
    ensures r.Some? ==> r.value < |words| && AltMatches(words[r.value], bound, s)
    ensures r.Some? ==> forall j :: 0 <= j < r.value ==> !AltMatches(words[j], bound, s)
    ensures r.None? ==> forall j :: 0 <= j < |words| ==> !AltMatches(words[j], bound, s)
  {
    AlternationFrom(words, bound, s, 0)
  }

  /** The text the alternation matches: one of the words, at the start of
      `s`, and the first one that matches. */
  function MatchWord(words: seq<string>, bound: bool, s: string): (r: Option<string>)
    ensures r.Some? ==> r.value in words && AltMatches(r.value, bound, s)
    ensures r.None? <==> forall j :: 0 <= j < |words| ==> !AltMatches(words[j], bound, s)
  {
    match Alternation(words, bound, s)
    case Some(i) => Some(words[i])
    case None => None
  }

  /** `RE::OPERATORS`: since a longer operator precedes each of its
      prefixes, the alternation yields the longest operator `s` starts with. */
  lemma {:induction false} OperatorMatchLongest(s: string)
    ensures MatchWord(OPERATORS, false, s).Some? ==>
      StartsWith(s, MatchWord(OPERATORS, false, s).value) && MatchWord(OPERATORS, false, s).value in OPERATORS
    ensures MatchWord(OPERATORS, false, s).Some? ==>
      forall w :: w in OPERATORS && StartsWith(s, w) ==> |w| <= |MatchWord(OPERATORS, false, s).value|
    ensures MatchWord(OPERATORS, false, s).None? <==> forall w :: w in OPERATORS ==> !StartsWith(s, w)
  {
    var r := Alternation(OPERATORS, false, s);
    if r.Some? {
      var i := r.value;
      var o := OPERATORS[i];
      forall w | w in OPERATORS && StartsWith(s, w) ensures |w| <= |o| {
        var j :| 0 <= j < |OPERATORS| && OPERATORS[j] == w;
        assert AltMatches(OPERATORS[j], false, s);
        if |w| > |o| {
          PrefixesComparable(s, o, w);
          OperatorsLongestFirst();
        }
      }
    } else {
      forall w | w in OPERATORS ensures !StartsWith(s, w) {
        var j :| 0 <= j < |OPERATORS| && OPERATORS[j] == w;
        assert !AltMatches(OPERATORS[j], false, s);
      }
    }
  }

  lemma KeywordIsLower(j: nat)
    requires j < |KEYWORDS|
    ensures AllLower(KEYWORDS[j])
  {
    AllKeywordsLower();
  }

  /** When keyword `j` is a proper prefix of keyword `i` and `s` starts with
      keyword `i`, keyword `j` is not followed by a word boundary in `s`. */
  lemma ShorterKeywordUnbounded(s: string, j: nat, i: nat)
    requires i < |KEYWORDS| && j < |KEYWORDS|
    requires IsProperPrefix(KEYWORDS[j], KEYWORDS[i]) && StartsWith(s, KEYWORDS[i])
    ensures !WordBoundary(s, |KEYWORDS[j]|)
  {
    var w, k := KEYWORDS[j], KEYWORDS[i];
    KeywordsStartWithLetter();
    KeywordIsLower(i);
    assert IsLower(k[|w| - 1]);
    assert IsLower(k[|w|]);
    StartsWithAt(s, k, |w| - 1);
    StartsWithAt(s, k, |w|);
  }

  /** `RE::KEYWORDS`: a keyword followed by a word boundary. The match ends
      before any word character, so a keyword is never taken from the front
      of a longer identifier, and at most one keyword can match, so the
      order of the table does not matter. */
  lemma {:induction false} KeywordMatchUnique(s: string)
    ensures MatchWord(KEYWORDS, true, s).Some? ==>
      var k := MatchWord(KEYWORDS, true, s).value;
      k in KEYWORDS && StartsWith(s, k) && (|k| == |s| || !IsWordChar(s[|k|])) &&
      forall w :: w in KEYWORDS && StartsWith(s, w) && WordBoundary(s, |w|) ==> w == k
    ensures MatchWord(KEYWORDS, true, s).None? <==>
      forall w :: w in KEYWORDS && StartsWith(s, w) ==> !WordBoundary(s, |w|)
  {
    var r := Alternation(KEYWORDS, true, s);
    if r.Some? {
      var i := r.value;
      var k := KEYWORDS[i];
      KeywordsStartWithLetter();
      KeywordIsLower(i);
      assert IsLower(k[|k| - 1]);
      StartsWithIsPrefix(s, k);
      assert s[|k| - 1] == k[|k| - 1];
      BoundaryAfterWord(s, |k|);
      forall w | w in KEYWORDS && StartsWith(s, w) && WordBoundary(s, |w|) ensures w == k {
        var j :| 0 <= j < |KEYWORDS| && KEYWORDS[j] == w;
        StartsWithIsPrefix(s, w);
        KeywordIsLower(j);
        assert IsLower(w[|w| - 1]);
        assert s[|w| - 1] == w[|w| - 1];
        BoundaryAfterWord(s, |w|);
        if |w| < |k| {
          PrefixesComparable(s, w, k);
          ShorterKeywordUnbounded(s, j, i);
        } else if |k| < |w| {
          PrefixesComparable(s, k, w);
          ShorterKeywordUnbounded(s, i, j);
        } else {
          assert w == s[..|w|] == k;
        }
      }
    } else {
      forall w | w in KEYWORDS && StartsWith(s, w) ensures !WordBoundary(s, |w|) {
        var j :| 0 <= j < |KEYWORDS| && KEYWORDS[j] == w;
        assert !AltMatches(KEYWORDS[j], true, s);
      }
    }
  }

  // ---------------------------------------------------------------------------
  // Comments: `\A((?:#.*\n\s*)*#[^\n]*)`

  predicate NoNewline(t: string) {
    forall k :: 0 <= k < |t| ==> t[k] != '\n'
  }

  predicate AllSpace(t: string) {
    forall k :: 0 <= k < |t| ==> IsSpace(t[k])
  }

  /** In `t`, the first comment line ends with the line feed at `k`, and
      white space runs from there up to `q`. */
  predicate CommentBreak(t: string, k: nat, q: nat) {
    0 < k < q < |t| && t[k] == '\n' && NoNewline(t[1..k]) && AllSpace(t[k + 1..q])
  }

  /** The language of the comment pattern: comment lines separated by a line
      feed and any white space, each starting with `#`. */
  ghost predicate CommentText(t: string)
    decreases |t|
  {
    |t| > 0 && t[0] == '#' &&
    (NoNewline(t[1..]) || exists k: nat, q: nat :: CommentBreak(t, k, q) && CommentText(t[q..]))
  }

  /** The first line feed at or after `i`, or the end of `s`. */
  function LineEnd(s: string, i: nat): (e: nat)
    requires i <= |s|
    ensures i <= e <= |s|
    ensures forall k :: i <= k < e ==> s[k] != '\n'
    ensures e == |s| || s[e] == '\n'
    decreases |s| - i
  {
    if i == |s| || s[i] == '\n' then i else LineEnd(s, i + 1)
  }

  function CommentEnd(s: string, p: nat): (e: nat)
    requires p < |s| && s[p] == '#'
    ensures p < e <= |s|
    decreases |s| - p
  {
    var e := LineEnd(s, p);
    if e < |s| then
      var q := Span(s, e + 1, IsSpace);
      if q < |s| && s[q] == '#' then CommentEnd(s, q) else e
    else e
  }

  /** `RE::COMMENT`: the length of the comment block at the start of `s`. */
  function MatchComment(s: string): (r: Option<nat>)
    ensures r.Some? <==> |s| > 0 && s[0] == '#'
    ensures r.Some? ==> 0 < r.value <= |s|
  {
    if |s| > 0 && s[0] == '#' then Some(CommentEnd(s, 0)) else None
  }

  lemma CommentTextOneLine(t: string)
    requires |t| > 0 && t[0] == '#' && NoNewline(t[1..])
    ensures CommentText(t)
  {
  }

  lemma CommentTextMore(t: string, k: nat, q: nat)
    requires |t| > 0 && t[0] == '#' && CommentBreak(t, k, q) && CommentText(t[q..])
    ensures CommentText(t)
  {
  }

  lemma {:induction false} CommentEndSound(s: string, p: nat)
    requires p < |s| && s[p] == '#'
    ensures CommentText(s[p..CommentEnd(s, p)])
    decreases |s| - p
  {
    var e := LineEnd(s, p);
    if e < |s| && Span(s, e + 1, IsSpace) < |s| && s[Span(s, e + 1, IsSpace)] == '#' {
      var q := Span(s, e + 1, IsSpace);
      CommentEndSound(s, q);
      SoundMore(s, p, e, q);
    } else {
      SoundOneLine(s, p, e);
    }
  }

  lemma SoundOneLine(s: string, p: nat, e: nat)
    requires p < |s| && s[p] == '#' && e == LineEnd(s, p) && CommentEnd(s, p) == e
    ensures CommentText(s[p..e])
  {
    var t := s[p..e];
    assert t[1..] == s[p + 1..e];
    CommentTextOneLine(t);
  }

  lemma SoundMore(s: string, p: nat, e: nat, q: nat)
    requires p < |s| && s[p] == '#' && e == LineEnd(s, p) && e < |s|
    requires q == Span(s, e + 1, IsSpace) && q < |s| && s[q] == '#'
    requires CommentText(s[q..CommentEnd(s, q)])
    ensures CommentText(s[p..CommentEnd(s, p)])
  {
    var n := CommentEnd(s, q);
    BreakInSource(s, p, e, q);
    CommentTextMore(s[p..n], e - p, q - p);
  }

  /** The comment line at `p` and the white space after it, seen in the
      text up to the end of the match. */
  lemma BreakInSource(s: string, p: nat, e: nat, q: nat)
    requires p < |s| && s[p] == '#' && e == LineEnd(s, p) && e < |s|
    requires q == Span(s, e + 1, IsSpace) && q < |s| && s[q] == '#'
    ensures CommentEnd(s, p) == CommentEnd(s, q)
    ensures CommentBreak(s[p..CommentEnd(s, q)], e - p, q - p)
    ensures s[p..CommentEnd(s, q)][q - p..] == s[q..CommentEnd(s, q)]
  {
    var n := CommentEnd(s, q);
    assert CommentEnd(s, p) == n;
    NewlineFreeSlice(s, p, n, 1, e - p);
    SpaceSlice(s, p, n, e - p + 1, q - p);
    assert s[p..n][e - p] == s[e];
  }

  lemma NewlineFreeSlice(s: string, a: nat, b: nat, lo: nat, hi: nat)
    requires a <= b <= |s| && lo <= hi <= b - a
    requires forall i :: a + lo <= i < a + hi ==> s[i] != '\n'
    ensures NoNewline(s[a..b][lo..hi])
  {
    var t := s[a..b][lo..hi];
    forall k | 0 <= k < |t| ensures t[k] != '\n' {
      assert t[k] == s[a + lo + k];
    }
  }

  lemma SpaceSlice(s: string, a: nat, b: nat, lo: nat, hi: nat)
    requires a <= b <= |s| && lo <= hi <= b - a
    requires forall i :: a + lo <= i < a + hi ==> IsSpace(s[i])
    ensures AllSpace(s[a..b][lo..hi])
  {
    var t := s[a..b][lo..hi];
    forall k | 0 <= k < |t| ensures IsSpace(t[k]) {
      assert t[k] == s[a + lo + k];
    }
  }

  /** The first line feed of a comment text, and what follows it. */
  lemma CommentTextSplit(t: string) returns (k: nat, q: nat)
    requires CommentText(t) && !NoNewline(t[1..])
    ensures 0 < k < q < |t| && t[k] == '\n' && NoNewline(t[1..k])
    ensures AllSpace(t[k + 1..q]) && CommentText(t[q..]) && t[q] == '#'
  {
    k, q :| CommentBreak(t, k, q) && CommentText(t[q..]);
    assert t[q..][0] == t[q];
  }

  lemma {:induction false} CommentEndLongest(s: string, p: nat, m: nat)
    requires p < |s| && s[p] == '#'
    requires p <= m <= |s| && CommentText(s[p..m])
    ensures m <= CommentEnd(s, p)
    decreases |s| - p
  {
    if NoNewline(s[p..m][1..]) {
      LongestOneLine(s, p, m);
    } else {
      var q := LongestMoreStep(s, p, m);
      CommentEndLongest(s, p + q, m);
    }
  }

  lemma LongestOneLine(s: string, p: nat, m: nat)
    requires p < m <= |s| && s[p] == '#' && NoNewline(s[p..m][1..])
    ensures m <= CommentEnd(s, p)
  {
    SliceNoNewline(s, p, m, 1, m - p);
  }

  /** A comment text past its first line: the rest is a comment text at
      the next `#`, where the match goes on too. */
  lemma LongestMoreStep(s: string, p: nat, m: nat) returns (q: nat)
    requires p < |s| && s[p] == '#'
    requires p <= m <= |s| && CommentText(s[p..m]) && !NoNewline(s[p..m][1..])
    ensures 0 < q && p + q < m && s[p + q] == '#'
    ensures CommentText(s[p + q..m]) && CommentEnd(s, p) == CommentEnd(s, p + q)
  {
    var t := s[p..m];
    var k;
    k, q := CommentTextSplit(t);
    SliceNoNewline(s, p, m, 1, k);
    SliceAllSpace(s, p, m, k + 1, q);
    assert s[p + k] == t[k] && s[p + q] == t[q];
    LongestNextLine(s, p, k, q);
    assert t[q..] == s[p + q..m];
  }

  lemma SliceNoNewline(s: string, a: nat, b: nat, lo: nat, hi: nat)
    requires a <= b <= |s| && lo <= hi <= b - a && NoNewline(s[a..b][lo..hi])
    ensures forall i :: a + lo <= i < a + hi ==> s[i] != '\n'
  {
    forall i | a + lo <= i < a + hi ensures s[i] != '\n' {
      assert s[i] == s[a..b][lo..hi][i - a - lo];
    }
  }

  lemma SliceAllSpace(s: string, a: nat, b: nat, lo: nat, hi: nat)
    requires a <= b <= |s| && lo <= hi <= b - a && AllSpace(s[a..b][lo..hi])
    ensures forall i :: a + lo <= i < a + hi ==> IsSpace(s[i])
  {
    forall i | a + lo <= i < a + hi ensures IsSpace(s[i]) {
      assert s[i] == s[a..b][lo..hi][i - a - lo];
    }
  }

  /** A comment line ending at `p + k`, then white space up to a `#` at
      `p + q`: the match goes on at that `#`. */
  lemma LongestNextLine(s: string, p: nat, k: nat, q: nat)
    requires p < |s| && s[p] == '#' && 0 < k < q && p + q < |s|
    requires s[p + k] == '\n' && forall i :: p + 1 <= i < p + k ==> s[i] != '\n'
    requires (forall i :: p + k + 1 <= i < p + q ==> IsSpace(s[i])) && s[p + q] == '#'
    ensures CommentEnd(s, p) == CommentEnd(s, p + q)
  {
    assert LineEnd(s, p) == p + k;
    SpanExact(s, p + k + 1, p + q, IsSpace);
  }

  /** The comment match is the longest prefix of `s` in the comment language,
      which is what the greedy repetition of the pattern takes. */
  lemma CommentMatchLongest(s: string)
    ensures MatchComment(s).Some? ==> CommentText(s[..MatchComment(s).value])
    ensures MatchComment(s).Some? ==> forall m :: 0 <= m <= |s| && CommentText(s[..m]) ==> m <= MatchComment(s).value
    ensures MatchComment(s).None? ==> forall m :: 0 <= m <= |s| ==> !CommentText(s[..m])
  {
    if MatchComment(s).Some? {
      CommentEndSound(s, 0);
      assert s[0..CommentEnd(s, 0)] == s[..CommentEnd(s, 0)];
      forall m | 0 <= m <= |s| && CommentText(s[..m]) ensures m <= MatchComment(s).value {
        assert s[0..m] == s[..m];
        CommentEndLongest(s, 0, m);
      }
    }
  }

  // ---------------------------------------------------------------------------
  // Numbers: `\A((\d+)?\.\d+)([eE][-+]?\d+)?\b` and `\A(\d+)([eE][-+]?\d+)?\b`

  predicate AllDigits(t: string) {
    forall k :: 0 <= k < |t| ==> IsDigit(t[k])
  }

  predicate IsExponentMark(c: char) {
    c == 'e' || c == 'E'
  }

  predicate IsSign(c: char) {
    c == '-' || c == '+'
  }

  /** The optional exponent `([eE][-+]?\d+)?`. */
  predicate ExponentText(t: string) {
    |t| == 0 ||
    (|t| >= 2 && IsExponentMark(t[0]) &&
     ((AllDigits(t[1..])) || (|t| >= 3 && IsSign(t[1]) && AllDigits(t[2..]))))
  }

  ghost predicate FloatText(t: string) {
    exists i, j | 0 <= i && i + 1 < j <= |t| ::
      AllDigits(t[..i]) && t[i] == '.' && AllDigits(t[i + 1..j]) && ExponentText(t[j..])
  }

  ghost predicate IntegerText(t: string) {
    exists i | 0 < i <= |t| :: AllDigits(t[..i]) && ExponentText(t[i..])
  }

  /** The end of the exponent starting at `i`, or `i` when there is none. */
  function ExponentEnd(s: string, i: nat): (j: nat)
    requires i <= |s|
    ensures i <= j <= |s|
    ensures ExponentText(s[i..j])
    ensures j > i ==> IsDigit(s[j - 1]) && (j == |s| || !IsDigit(s[j]))
  {
    if i < |s| && IsExponentMark(s[i]) then
      var d := if i + 1 < |s| && IsSign(s[i + 1]) then i + 2 else i + 1;
      var e := Span(s, d, IsDigit);
      if e > d then
        var t := s[i..e];
        DigitSpan(s, d, e);
        assert t[0] == s[i];
        assert if d == i + 2 then t[1] == s[i + 1] && t[2..] == s[d..e] else t[1..] == s[d..e];
        e
      else i
    else i
  }

  lemma DigitSpan(s: string, d: nat, e: nat)
    requires d <= e <= |s| && forall k :: d <= k < e ==> IsDigit(s[k])
    ensures AllDigits(s[d..e])
  {
    forall k | 0 <= k < e - d ensures IsDigit(s[d..e][k]) {
      assert s[d..e][k] == s[d + k];
    }
  }

  lemma ExponentEndComplete(s: string, i: nat, m: nat)
    requires i <= m <= |s| && ExponentText(s[i..m])
    requires m == |s| || !IsWordChar(s[m])
    ensures ExponentEnd(s, i) == m
  {
    var t := s[i..m];
    if m > i {
      assert s[i] == t[0];
      if AllDigits(t[1..]) {
        assert s[i + 1] == t[1];
        assert forall k :: i + 1 <= k < m ==> IsDigit(s[k]) by {
          forall k | i + 1 <= k < m ensures IsDigit(s[k]) {
            assert s[k] == t[1..][k - i - 1];
          }
        }
        SpanExact(s, i + 1, m, IsDigit);
      } else {
        assert s[i + 1] == t[1];
        assert forall k :: i + 2 <= k < m ==> IsDigit(s[k]) by {
          forall k | i + 2 <= k < m ensures IsDigit(s[k]) {
            assert s[k] == t[2..][k - i - 2];
          }
        }
        SpanExact(s, i + 2, m, IsDigit);
      }
    }
  }

  /** `RE::FLOAT`: the length of the float literal at the start of `s`. */
  function MatchFloat(s: string): (r: Option<nat>)
    ensures r.Some? ==> 0 < r.value <= |s| && WordBoundary(s, r.value)
  {
    var a := Span(s, 0, IsDigit);
    if a < |s| && s[a] == '.' then
      var b := Span(s, a + 1, IsDigit);
      if b > a + 1 then
        var e := ExponentEnd(s, b);
        if WordBoundary(s, e) then Some(e) else None
      else None
    else None
  }

  /** `RE::INTEGER`: the length of the integer literal at the start of `s`. */
  function MatchInteger(s: string): (r: Option<nat>)
    ensures r.Some? ==> 0 < r.value <= |s| && WordBoundary(s, r.value)
  {
    var a := Span(s, 0, IsDigit);
    if a > 0 then
      var e := ExponentEnd(s, a);
      if WordBoundary(s, e) then Some(e) else None
    else None
  }

  /** A non-empty exponent ends in a digit. */
  lemma ExponentEndsInDigit(x: string)
    requires ExponentText(x) && |x| > 0
    ensures IsDigit(x[|x| - 1])
  {
    if AllDigits(x[1..]) {
      assert x[|x| - 1] == x[1..][|x| - 2];
    } else {
      assert x[|x| - 1] == x[2..][|x| - 3];
    }
  }

  /** Digits of a prefix `t` of `s` are digits of `s`. */
  lemma DigitsInPrefix(s: string, n: nat, lo: nat, hi: nat)
    requires lo <= hi <= n <= |s| && AllDigits(s[..n][lo..hi])
    ensures forall k :: lo <= k < hi ==> IsDigit(s[k])
  {
    forall k | lo <= k < hi ensures IsDigit(s[k]) {
      assert s[k] == s[..n][lo..hi][k - lo];
    }
  }

  lemma FloatMatchSound(s: string)
    requires MatchFloat(s).Some?
    ensures FloatText(s[..MatchFloat(s).value])
  {
    var n := MatchFloat(s).value;
    var a := Span(s, 0, IsDigit);
    var b := Span(s, a + 1, IsDigit);
    var t := s[..n];
    assert t[..a] == s[..a];
    assert t[a + 1..b] == s[a + 1..b];
    assert t[b..] == s[b..n];
    assert AllDigits(t[..a]) && t[a] == '.' && AllDigits(t[a + 1..b]) && ExponentText(t[b..]);
  }

  lemma FloatMatchComplete(s: string, n: nat)
    requires n <= |s| && FloatText(s[..n]) && WordBoundary(s, n)
    ensures MatchFloat(s) == Some(n)
  {
    var t := s[..n];
    var i, j :| 0 <= i && i + 1 < j <= |t| &&
      AllDigits(t[..i]) && t[i] == '.' && AllDigits(t[i + 1..j]) && ExponentText(t[j..]);
    assert t[..i] == t[0..i];
    DigitsInPrefix(s, n, 0, i);
    DigitsInPrefix(s, n, i + 1, j);
    assert s[j..n] == t[j..];
    if j == n {
      assert IsDigit(s[n - 1]);
    } else {
      ExponentEndsInDigit(t[j..]);
      assert s[n - 1] == t[j..][n - 1 - j];
      assert s[j] == t[j..][0];
    }
    BoundaryAfterWord(s, n);
    SpanExact(s, 0, i, IsDigit);
    SpanExact(s, i + 1, j, IsDigit);
    ExponentEndComplete(s, j, n);
  }

  /** A float matches exactly the prefixes in the float language that end at
      a word boundary; in particular at least one digit follows the `.`. */
  lemma FloatMatchIff(s: string, n: nat)
    ensures MatchFloat(s) == Some(n) <==> n <= |s| && FloatText(s[..n]) && WordBoundary(s, n)
  {
    if MatchFloat(s) == Some(n) {
      FloatMatchSound(s);
    }
    if n <= |s| && FloatText(s[..n]) && WordBoundary(s, n) {
      FloatMatchComplete(s, n);
    }
  }

  lemma IntegerMatchSound(s: string)
    requires MatchInteger(s).Some?
    ensures IntegerText(s[..MatchInteger(s).value])
  {
    var n := MatchInteger(s).value;
    var a := Span(s, 0, IsDigit);
    var t := s[..n];
    assert t[..a] == s[..a];
    assert t[a..] == s[a..n];
    assert AllDigits(t[..a]) && ExponentText(t[a..]);
  }

  lemma IntegerMatchComplete(s: string, n: nat)
    requires n <= |s| && IntegerText(s[..n]) && WordBoundary(s, n)
    ensures MatchInteger(s) == Some(n)
  {
    var t := s[..n];
    var i :| 0 < i <= |t| && AllDigits(t[..i]) && ExponentText(t[i..]);
    assert t[..i] == t[0..i];
    DigitsInPrefix(s, n, 0, i);
    assert s[i..n] == t[i..];
    if i < n {
      ExponentEndsInDigit(t[i..]);
      assert s[n - 1] == t[i..][n - 1 - i];
      assert s[i] == t[i..][0];
    }
    BoundaryAfterWord(s, n);
    SpanExact(s, 0, i, IsDigit);
    ExponentEndComplete(s, i, n);
  }

  /** An integer matches exactly the prefixes in the integer language that
      end at a word boundary. */
  lemma IntegerMatchIff(s: string, n: nat)
    ensures MatchInteger(s) == Some(n) <==> n <= |s| && IntegerText(s[..n]) && WordBoundary(s, n)
  {
    if MatchInteger(s) == Some(n) {
      IntegerMatchSound(s);
    }
    if n <= |s| && IntegerText(s[..n]) && WordBoundary(s, n) {
      IntegerMatchComplete(s, n);
    }
  }

  /** `1.` and `1.e4` are not float literals, but their leading `1` is an integer. */
  lemma NoDigitAfterDot()
    ensures MatchFloat("1.") == None && MatchFloat("1.e4") == None
    ensures MatchInteger("1.") == Some(1) && MatchInteger("1.e4") == Some(1)
    ensures MatchFloat(".3e4") == Some(4) && MatchInteger("3E-100") == Some(6)
  {
    assert Span("1.", 0, IsDigit) == 1;
    assert Span("1.", 2, IsDigit) == 2;
    assert Span("1.e4", 0, IsDigit) == 1;
    assert Span("1.e4", 2, IsDigit) == 2;
    assert Span(".3e4", 0, IsDigit) == 0;
    assert Span(".3e4", 1, IsDigit) == 2;
    assert Span(".3e4", 3, IsDigit) == 4;
    assert Span("3E-100", 0, IsDigit) == 1;
    assert Span("3E-100", 3, IsDigit) == 6;
  }

  // ---------------------------------------------------------------------------
  // Identifiers and white space

  predicate IsIdentifierStart(c: char) {
    IsLetter(c) || c == '_' || c == '$'
  }

  predicate IsIdentifierChar(c: char) {
    IsIdentifierStart(c) || IsDigit(c)
  }

  /** `[$A-Z\_a-z][$A-Z\_a-z0-9]*` as a language. */
  predicate IdentifierText(t: string) {
    |t| > 0 && IsIdentifierStart(t[0]) && forall k :: 0 < k < |t| ==> IsIdentifierChar(t[k])
  }

  /** `RE::IDENTIFIER`: the length of the identifier at the start of `s`. */
  function MatchIdentifier(s: string): (r: Option<nat>)
    ensures r.Some? ==> 0 < r.value <= |s|
  {
    if |s| > 0 && IsIdentifierStart(s[0]) then Some(Span(s, 1, IsIdentifierChar)) else None
  }

  /** The identifier match is the longest identifier `s` starts with. */
  lemma IdentifierMatchIff(s: string, n: nat)
    ensures MatchIdentifier(s) == Some(n) <==>
      n <= |s| && IdentifierText(s[..n]) && (n == |s| || !IsIdentifierChar(s[n]))
  {
    if n <= |s| && IdentifierText(s[..n]) && (n == |s| || !IsIdentifierChar(s[n])) {
      assert s[0] == s[..n][0];
      assert forall k :: 1 <= k < n ==> IsIdentifierChar(s[k]) by {
        forall k | 1 <= k < n ensures IsIdentifierChar(s[k]) {
          assert s[k] == s[..n][k];
        }
      }
      SpanExact(s, 1, n, IsIdentifierChar);
    }
  }

  /** `[ \t\r]` */
  predicate IsBlank(c: char) {
    c == ' ' || c == '\t' || c == '\r'
  }

  /** `RE::WHITESPACE`: the length of the run of blanks at the start of `s`. */
  function MatchWhitespace(s: string): (r: Option<nat>)
    ensures r.Some? ==> 0 < r.value <= |s| && (forall k :: 0 <= k < r.value ==> IsBlank(s[k]))
    ensures r.Some? ==> r.value == |s| || !IsBlank(s[r.value])
    ensures r.None? <==> |s| == 0 || !IsBlank(s[0])
  {
    var n := Span(s, 0, IsBlank);
    if n > 0 then Some(n) else None
  }

  predicate IsNotSpace(c: char) {
    !IsSpace(c)
  }

  /** `\A([^\s]+)`, used in the unknown-token message; empty when `s` starts
      with white space (Ruby interpolates the missing group as ""). */
  function NonSpaceRun(s: string): (r: string)
    ensures |r| <= |s| && StartsWith(s, r)
    ensures forall k :: 0 <= k < |r| ==> !IsSpace(r[k])
    ensures |r| == |s| || IsSpace(s[|r|])
  {
    var n := Span(s, 0, IsNotSpace);
    StartsWithIsPrefix(s, s[..n]);
    s[..n]
  }

  // ---------------------------------------------------------------------------
  // Delimiter patterns

  /** `RE::REGEXP`: a `/` followed by anything but `=`. */
  predicate RegexpStart(s: string) {
    |s| >= 2 && s[0] == '/' && s[1] != '='
  }

  /** `RE::REGEXP2` (`letter` = `r`) and `RE::WORDS` (`letter` = `w`): the
      delimiter after `%` and the letter, which must not be a word character. */
  function PercentDelimiter(s: string, letter: char): (r: Option<char>)
    ensures r.Some? <==> |s| >= 3 && s[0] == '%' && s[1] == letter && !IsWordChar(s[2])
    ensures r.Some? ==> r.value == s[2]
  {
    if |s| >= 3 && s[0] == '%' && s[1] == letter && !IsWordChar(s[2]) then Some(s[2]) else None
  }

  /** `RE::STRING3`: the delimiter after `%`, which is not a word character,
      not white space and not `=`. */
  function StringDelimiter(s: string): (r: Option<char>)
    ensures r.Some? <==> |s| >= 2 && s[0] == '%' && !IsWordChar(s[1]) && !IsSpace(s[1]) && s[1] != '='
    ensures r.Some? ==> r.value == s[1]
  {
    if |s| >= 2 && s[0] == '%' && !IsWordChar(s[1]) && !IsSpace(s[1]) && s[1] != '=' then Some(s[1]) else None
  }
}

=== FILE: rewriter.dfy ===
/** The token rewriter (`RBS::Rewriter`): one pass over the lexer's tokens
    that drops white space, turns `;` into a line feed, drops line feeds
    that add nothing, inserts the parentheses of calls written without them
    and turns keywords used as names into identifiers. It keeps a mode stack
    of the brackets it is inside. */
module Rewriter {
  import opened Wrappers
  import opened Definition
  import opened Tokens
  import States

  /** Tokens after which a line feed is dropped. */
  const SKIP_LF_AFTER: seq<string> := OPERATORS + ["and", "or", "not", "LF", "COMMENT", "(", "{", "[", ","]
  /** Tokens before which a line feed is dropped. */
  const SKIP_LF_BEFORE: seq<string> := [",", ":", ")", "}", "]"]
  const MODIFIER_KEYWORDS: seq<string> := ["if", "unless", "while", "until", "for"]
  /** Operators that may open an argument of a call without parentheses; `*` is the splat. */
  const UNARY: seq<string> := ["-", "+", "~", "*"]

  /** `push(name, value, token)`: a new token placed where `t` is. */
  function At(name: string, value: Option<string>, t: Token): Token {
    Token(name, value, t.line, t.column)
  }

  /** The `)` that closes a call opened by the rewriter. */
  function Closer(t: Token): Token {
    At(")", Some(")"), t)
  }

  function Closers(n: nat, t: Token): seq<Token> {
    seq(n, _ => Closer(t))
  }

  /** `tokens.last === types`, false on an empty output: Ruby's `nil` equals no type. */
  predicate LastIs(out: seq<Token>, types: seq<string>) {
    |out| > 0 && IsAny(out[|out| - 1], types)
  }

  /** `lexer.tokens[j] === types`, false past the end. */
  predicate RawIs(raw: seq<Token>, j: nat, types: seq<string>) {
    j < |raw| && IsAny(raw[j], types)
  }

  /** `call_without_parens?`, where `j` indexes the raw token after the white space. */
  predicate CallWithoutParens(raw: seq<Token>, j: nat, out: seq<Token>) {
    LastIs(out, ["identifier"]) &&
    (RawIs(raw, j, ["argument"]) || (RawIs(raw, j, UNARY) && !RawIs(raw, j + 1, ["whitespace", "LF"])))
  }

  /** `lookahead`: the next raw token when it is white space, else the one after it. */
  function Lookahead(raw: seq<Token>, j: nat): Option<Token> {
    if RawIs(raw, j, ["whitespace"]) then Some(raw[j])
    else if j + 1 < |raw| then Some(raw[j + 1])
    else None
  }

  predicate LookaheadIs(raw: seq<Token>, j: nat, types: seq<string>) {
    var la := Lookahead(raw, j);
    la.Some? && IsAny(la.value, types)
  }

  /** `skip_linefeed?` */
  predicate SkipLinefeed(raw: seq<Token>, j: nat, out: seq<Token>) {
    LastIs(out, SKIP_LF_AFTER) || LookaheadIs(raw, j, SKIP_LF_BEFORE)
  }

  /** The test of `dottable_keyword`: after `def` or `.`, before `:`, or after `def +`. */
  predicate Dottable(raw: seq<Token>, j: nat, out: seq<Token>) {
    LastIs(out, ["def", "."]) || LookaheadIs(raw, j, [":"]) ||
    (|out| > 1 && out[|out| - 2].name == "def" && out[|out| - 1].name == "+")
  }

  /** How many `:call` entries sit on top of the stack. */
  function CallDepth(st: States.Stack): (n: nat)
    ensures n <= |st|
    ensures forall k :: |st| - n <= k < |st| ==> st[k] == "call"
    ensures n < |st| ==> st[|st| - n - 1] != "call"
  {
    if States.Is(st, "call") then CallDepth(st[..|st| - 1]) + 1 else 0
  }

  /** The stack once the `:call` entries on top are popped: what lies below
      them, unchanged, with no `:call` on top. */
  function Uncalled(st: States.Stack): (r: States.Stack)
    ensures |r| == |st| - CallDepth(st) && !States.Is(r, "call")
    ensures forall k :: 0 <= k < |r| ==> r[k] == st[k]
  {
    st[..|st| - CallDepth(st)]
  }

  /** `close_opened_calls(token)`: one `)` at `t` for every `:call` on top
      of the stack, each popped. */
  function CloseCalls(out: seq<Token>, st: States.Stack, t: Token): (r: (seq<Token>, States.Stack))
    ensures r.0 == out + Closers(CallDepth(st), t)
    ensures r.1 == Uncalled(st)
    decreases |st|
  {
    if States.Is(st, "call") then
      var r := CloseCalls(out + [Closer(t)], States.Pop(st), t);
      assert [Closer(t)] + Closers(CallDepth(States.Pop(st)), t) == Closers(CallDepth(st), t);
      r
    else (out, st)
  }

  /** The rewriter after one raw token: output, mode stack, and whether the
      pass returned. */
  datatype Turn = Turn(out: seq<Token>, st: States.Stack, stop: bool)

  /** The arms of the `case token.name` of `rewrite`, in their order. */
  datatype Arm =
    | WhitespaceArm | LinefeedArm | OpenBraceArm | CloseArm | OpenParenArm
    | ArrowArm | SemicolonArm | KeywordArm | EofArm | OtherArm

  /** The arm a token name takes: the first that lists it. */
  function ArmOf(name: string): (a: Arm)
    ensures a.WhitespaceArm? <==> name == "whitespace"
    ensures a.LinefeedArm? <==> name == "LF" || name in MODIFIER_KEYWORDS
    ensures a.CloseArm? <==> name == "}" || name == ")"
    ensures a.SemicolonArm? <==> name == ";"
    ensures a.KeywordArm? <==> name in KEYWORDS && name !in MODIFIER_KEYWORDS
    ensures a.EofArm? <==> name == "EOF"
  {
    if name == "whitespace" then WhitespaceArm
    else if name == "LF" || name in MODIFIER_KEYWORDS then LinefeedArm
    else if name == "{" then OpenBraceArm
    else if name == "}" || name == ")" then CloseArm
    else if name == "(" then OpenParenArm
    else if name == "->" then ArrowArm
    else if name == ";" then SemicolonArm
    else if name in KEYWORDS then KeywordArm
    else if name == "EOF" then EofArm
    else OtherArm
  }

  /** One turn of the `rewrite` loop on `raw[i]`; the source's `@index` is
      already `i + 1` when the helpers look ahead. */
  function Handle(raw: seq<Token>, i: nat, out: seq<Token>, st: States.Stack): Turn
    requires i < |raw|
  {
    var t, j := raw[i], i + 1;
    match ArmOf(t.name)
    case WhitespaceArm => OnWhitespace(raw, j, out, st, t)
    case LinefeedArm => OnLinefeed(raw, j, out, st, t)
    case OpenBraceArm => Turn(out + [t], OpenBrace(st), false)
    case CloseArm => var (o, s) := CloseCalls(out, st, t); Turn(o + [t], States.Pop(s), false)
    case OpenParenArm => Turn(out + [t], States.Push(st, "paren"), false)
    case ArrowArm => Turn(out + [t], States.Push(st, "lambda_def"), false)
    case SemicolonArm => var (o, s) := CloseCalls(out, st, t); Turn(o + [At("LF", None, t)], s, false)
    case KeywordArm => Turn(out + [OnKeyword(raw, j, out, t)], st, false)
    case EofArm => var (o, s) := CloseCalls(out, st, t); Turn(o + [t], s, true)
    case OtherArm => Turn(out + [t], st, false)
  }

  /** White space is dropped; it may open a call without parentheses. */
  function OnWhitespace(raw: seq<Token>, j: nat, out: seq<Token>, st: States.Stack, t: Token): Turn {
    if CallWithoutParens(raw, j, out) then Turn(out + [At("(", Some("("), t)], States.Push(st, "call"), false)
    else Turn(out, st, false)
  }

  /** A line feed or a modifier keyword closes the open calls; a line feed
      is then dropped when `skip_linefeed?` holds. */
  function OnLinefeed(raw: seq<Token>, j: nat, out: seq<Token>, st: States.Stack, t: Token): Turn {
    var (o, s) := CloseCalls(out, st, t);
    if t.name == "LF" && SkipLinefeed(raw, j, o) then Turn(o, s, false) else Turn(o + [t], s, false)
  }

  /** `{` turns a pending `lambda_def` into `lambda`, and opens an object otherwise. */
  function OpenBrace(st: States.Stack): States.Stack {
    if States.Is(st, "lambda_def") then States.Push(States.Pop(st), "lambda") else States.Push(st, "object")
  }

  /** `dottable_keyword`: the keyword as an identifier named by it, or the keyword itself. */
  function OnKeyword(raw: seq<Token>, j: nat, out: seq<Token>, t: Token): Token {
    if Dottable(raw, j, out) then At("identifier", Some(t.name), t) else t
  }

  /** Neither white space nor the end marker: what a turn may add before EOF. */
  predicate Clean(ts: seq<Token>) {
    forall k :: 0 <= k < |ts| ==> ts[k].name != "whitespace" && ts[k].name != "EOF"
  }

  /** The first EOF of `raw` from `i`. */
  function FirstEof(raw: seq<Token>, i: nat): (r: Option<nat>)
    requires i <= |raw|
    ensures r.Some? ==> i <= r.value < |raw| && raw[r.value].name == "EOF"
    ensures r.Some? ==> forall k :: i <= k < r.value ==> raw[k].name != "EOF"
    ensures r.None? ==> forall k :: i <= k < |raw| ==> raw[k].name != "EOF"
    decreases |raw| - i
  {
    if i == |raw| then None else if raw[i].name == "EOF" then Some(i) else FirstEof(raw, i + 1)
  }

  lemma AppendClean(out: seq<Token>, x: seq<Token>)
    requires Clean(x)
    ensures |out + x| >= |out| && (out + x)[..|out|] == out && Clean((out + x)[|out|..])
  {
    assert (out + x)[|out|..] == x;
  }

  lemma AppendCleanThen(out: seq<Token>, x: seq<Token>, t: Token)
    requires Clean(x) && t.name != "whitespace" && t.name != "EOF"
    ensures |out + x + [t]| >= |out| && (out + x + [t])[..|out|] == out && Clean((out + x + [t])[|out|..])
  {
    assert (out + x + [t])[|out|..] == x + [t];
  }

  /** `r` goes on from `out`: a clean run, ended by the token `last` when
      there is one. */
  predicate Continues(out: seq<Token>, r: seq<Token>, last: Option<Token>) {
    |r| >= |out| && r[..|out|] == out &&
    match last
    case Some(t) => |r| > |out| && r[|r| - 1] == t && Clean(r[|out|..|r| - 1])
    case None => Clean(r[|out|..])
  }

  /** The turn on `raw[i]` appends to the output: a clean run, then the EOF
      itself on the turn that returns, which is exactly the turn on an EOF. */
  predicate TurnAppends(raw: seq<Token>, i: nat, out: seq<Token>, st: States.Stack)
    requires i < |raw|
  {
    var r := Handle(raw, i, out, st);
    (r.stop <==> raw[i].name == "EOF") &&
    Continues(out, r.out, if raw[i].name == "EOF" then Some(raw[i]) else None)
  }

  lemma HandleAppends(raw: seq<Token>, i: nat, out: seq<Token>, st: States.Stack)
    requires i < |raw|
    ensures TurnAppends(raw, i, out, st)
  {
    match ArmOf(raw[i].name)
    case WhitespaceArm => WhitespaceAppends(raw, i, out, st);
    case LinefeedArm => LinefeedAppends(raw, i, out, st);
    case CloseArm => ClosingAppends(raw, i, out, st);
    case SemicolonArm => SemicolonAppends(raw, i, out, st);
    case EofArm => EofAppends(raw, i, out, st);
    case KeywordArm => KeywordAppends(raw, i, out, st);
    case _ => PlainAppends(raw, i, out, st);
  }

  lemma WhitespaceAppends(raw: seq<Token>, i: nat, out: seq<Token>, st: States.Stack)
    requires i < |raw| && ArmOf(raw[i].name).WhitespaceArm?
    ensures TurnAppends(raw, i, out, st)
  {
    AppendClean(out, []);
    AppendClean(out, [At("(", Some("("), raw[i])]);
  }

  lemma LinefeedAppends(raw: seq<Token>, i: nat, out: seq<Token>, st: States.Stack)
    requires i < |raw| && ArmOf(raw[i].name).LinefeedArm?
    ensures TurnAppends(raw, i, out, st)
  {
    var cl := Closers(CallDepth(st), raw[i]);
    AppendClean(out, cl);
    AppendCleanThen(out, cl, raw[i]);
  }

  lemma ClosingAppends(raw: seq<Token>, i: nat, out: seq<Token>, st: States.Stack)
    requires i < |raw| && ArmOf(raw[i].name).CloseArm?
    ensures TurnAppends(raw, i, out, st)
  {
    AppendCleanThen(out, Closers(CallDepth(st), raw[i]), raw[i]);
  }

  lemma SemicolonAppends(raw: seq<Token>, i: nat, out: seq<Token>, st: States.Stack)
    requires i < |raw| && ArmOf(raw[i].name).SemicolonArm?
    ensures TurnAppends(raw, i, out, st)
  {
    AppendCleanThen(out, Closers(CallDepth(st), raw[i]), At("LF", None, raw[i]));
  }

  lemma EofAppends(raw: seq<Token>, i: nat, out: seq<Token>, st: States.Stack)
    requires i < |raw| && ArmOf(raw[i].name).EofArm?
    ensures TurnAppends(raw, i, out, st)
  {
    var cl := Closers(CallDepth(st), raw[i]);
    assert (out + cl + [raw[i]])[|out|..|out + cl + [raw[i]]| - 1] == cl;
  }

  lemma KeywordAppends(raw: seq<Token>, i: nat, out: seq<Token>, st: States.Stack)
    requires i < |raw| && ArmOf(raw[i].name).KeywordArm?
    ensures TurnAppends(raw, i, out, st)
  {
    AppendCleanThen(out, [], OnKeyword(raw, i + 1, out, raw[i]));
    assert out + [] == out;
  }

  lemma PlainAppends(raw: seq<Token>, i: nat, out: seq<Token>, st: States.Stack)
    requires i < |raw|
    requires ArmOf(raw[i].name) in {OpenBraceArm, OpenParenArm, ArrowArm, OtherArm}
    ensures TurnAppends(raw, i, out, st)
  {
    AppendCleanThen(out, [], raw[i]);
    assert out + [] == out;
  }

  /** The token the loop from `i` ends on: the first EOF from there. */
  function EndOf(raw: seq<Token>, i: nat): Option<Token>
    requires i <= |raw|
  {
    match FirstEof(raw, i)
    case Some(e) => Some(raw[e])
    case None => None
  }

  /** The loop of `rewrite` from raw token `i`. */
  function Loop(raw: seq<Token>, i: nat, out: seq<Token>, st: States.Stack): (r: seq<Token>)
    requires i <= |raw|
    ensures Continues(out, r, EndOf(raw, i))
    decreases |raw| - i
  {
    if i == |raw| then
      assert out[|out|..] == [];
      out
    else
      var turn := Handle(raw, i, out, st);
      HandleAppends(raw, i, out, st);
      if turn.stop then turn.out
      else
        var r := Loop(raw, i + 1, turn.out, turn.st);
        LoopJoin(out, turn.out, r, EndOf(raw, i + 1));
        r
  }

  /** What one turn added and what the rest of the loop added join up. */
  lemma LoopJoin(out: seq<Token>, mid: seq<Token>, r: seq<Token>, last: Option<Token>)
    requires Continues(out, mid, None) && Continues(mid, r, last)
    ensures Continues(out, r, last)
  {
    assert r[..|out|] == r[..|mid|][..|out|];
    var a := mid[|out|..];
    assert r[|out|..|mid|] == a;
    if last.Some? {
      assert r[|out|..|r| - 1] == a + r[|mid|..|r| - 1];
    } else {
      assert r[|out|..] == a + r[|mid|..];
    }
  }

  /** `rewrite`: the pass over all of the lexer's tokens, from an empty
      output and an empty stack. No white space comes out; when the input
      holds an EOF, the output ends with the first one and holds no other. */
  function Rewrite(raw: seq<Token>): (r: seq<Token>)
    ensures forall k :: 0 <= k < |r| ==> r[k].name != "whitespace"
    ensures FirstEof(raw, 0).Some? ==> |r| > 0 && r[|r| - 1] == raw[FirstEof(raw, 0).value] && NoEof(r[..|r| - 1])
    ensures FirstEof(raw, 0).None? ==> NoEof(r)
  {
    var r := Loop(raw, 0, [], []);
    assert r[0..] == r;
    assert FirstEof(raw, 0).Some? ==> forall k :: 0 <= k < |r| - 1 ==> r[k] == r[0..|r| - 1][k];
    r
  }
}

=== FILE: rewriter_turns.dfy ===
// What one turn of the rewriter's loop does to each kind of token, stated
// with token names rather than with the `Token#===` helpers.
module RewriterTurns {
  import opened Wrappers
  import opened Definition
  import opened Tokens
  import States
  import opened Rewriter
  import Lexer

  /** None of the names `Token#===` is asked about here is a class name. */
  lemma SkipTablesPlain()
    ensures forall k :: 0 <= k < |SKIP_LF_AFTER| ==> !IsClassName(SKIP_LF_AFTER[k])
    ensures forall k :: 0 <= k < |SKIP_LF_BEFORE| ==> !IsClassName(SKIP_LF_BEFORE[k])
    ensures forall k :: 0 <= k < |UNARY| ==> !IsClassName(UNARY[k])
  {
    OperatorsAreSymbols();
    forall k | 0 <= k < |SKIP_LF_AFTER| ensures !IsClassName(SKIP_LF_AFTER[k]) {
      if k < |OPERATORS| {
        assert SKIP_LF_AFTER[k] == OPERATORS[k];
        assert !Text.IsWordChar(OPERATORS[k][0]);
      }
    }
  }

  /** The next raw token when it is white space, else the one after it, by name. */
  lemma LookaheadByName(raw: seq<Token>, j: nat)
    ensures Lookahead(raw, j) ==
      if j < |raw| && raw[j].name == "whitespace" then Some(raw[j])
      else if j + 1 < |raw| then Some(raw[j + 1])
      else None
  {
    if j < |raw| {
      IsAnyPlain(raw[j], ["whitespace"]);
    }
  }

  /** `call_without_parens?` by name: after an identifier, before an
      argument or before one of `- + ~ *` not followed by white space or a
      line feed. */
  lemma CallWithoutParensByName(raw: seq<Token>, j: nat, out: seq<Token>)
    ensures CallWithoutParens(raw, j, out) <==>
      |out| > 0 && out[|out| - 1].name == "identifier" && j < |raw| &&
      (raw[j].name in ARGUMENT ||
       (raw[j].name in UNARY && !(j + 1 < |raw| && raw[j + 1].name in ["whitespace", "LF"])))
  {
    SkipTablesPlain();
    if |out| > 0 {
      IsAnyPlain(out[|out| - 1], ["identifier"]);
    }
    if j < |raw| {
      IsAnyPlain(raw[j], UNARY);
      assert IsAny(raw[j], ["argument"]) == Is(raw[j], "argument");
    }
    if j + 1 < |raw| {
      IsAnyPlain(raw[j + 1], ["whitespace", "LF"]);
    }
  }

  /** `skip_linefeed?` by name: the last output token is in `SKIP_LF_AFTER`
      or the look-ahead is in `SKIP_LF_BEFORE`. */
  lemma SkipLinefeedByName(raw: seq<Token>, j: nat, out: seq<Token>)
    ensures var la := Lookahead(raw, j);
      SkipLinefeed(raw, j, out) <==>
      (|out| > 0 && out[|out| - 1].name in SKIP_LF_AFTER) || (la.Some? && la.value.name in SKIP_LF_BEFORE)
  {
    SkipTablesPlain();
    if |out| > 0 {
      IsAnyPlain(out[|out| - 1], SKIP_LF_AFTER);
    }
    var la := Lookahead(raw, j);
    if la.Some? {
      IsAnyPlain(la.value, SKIP_LF_BEFORE);
    }
  }

  /** The test of `dottable_keyword` by name. */
  lemma DottableByName(raw: seq<Token>, j: nat, out: seq<Token>)
    ensures var la := Lookahead(raw, j);
      Dottable(raw, j, out) <==>
      (|out| > 0 && out[|out| - 1].name in ["def", "."]) || (la.Some? && la.value.name == ":") ||
      (|out| > 1 && out[|out| - 2].name == "def" && out[|out| - 1].name == "+")
  {
    if |out| > 0 {
      IsAnyPlain(out[|out| - 1], ["def", "."]);
    }
    var la := Lookahead(raw, j);
    if la.Some? {
      IsAnyPlain(la.value, [":"]);
    }
  }

  /** A `(` is inserted and a call opened exactly when the white space
      follows an identifier and comes before an argument, or before one of
      `- + ~ *` that is not followed by white space or a line feed. */
  lemma CallInsertion(raw: seq<Token>, i: nat, out: seq<Token>, st: States.Stack)
    requires i < |raw| && raw[i].name == "whitespace"
    ensures var r := Handle(raw, i, out, st);
      var opens := |out| > 0 && out[|out| - 1].name == "identifier" && i + 1 < |raw| &&
        (raw[i + 1].name in ARGUMENT ||
         (raw[i + 1].name in UNARY && !(i + 2 < |raw| && raw[i + 2].name in ["whitespace", "LF"])));
      !r.stop &&
      (opens ==> r.out == out + [Token("(", Some("("), raw[i].line, raw[i].column)] && r.st == st + ["call"]) &&
      (!opens ==> r.out == out && r.st == st)
  {
    assert Handle(raw, i, out, st) == OnWhitespace(raw, i + 1, out, st, raw[i]);
    CallWithoutParensByName(raw, i + 1, out);
  }

  /** A line feed closes the open calls, each with a `)` at its position,
      and is then dropped after a token of `SKIP_LF_AFTER` or before one of
      `SKIP_LF_BEFORE` (the look-ahead taken as `lookahead` takes it). */
  lemma LinefeedTurn(raw: seq<Token>, i: nat, out: seq<Token>, st: States.Stack)
    requires i < |raw| && raw[i].name == "LF"
    ensures var r := Handle(raw, i, out, st);
      var closed := out + Closers(CallDepth(st), raw[i]);
      var la := Lookahead(raw, i + 1);
      var skip := (|closed| > 0 && closed[|closed| - 1].name in SKIP_LF_AFTER) ||
        (la.Some? && la.value.name in SKIP_LF_BEFORE);
      !r.stop && r.st == Uncalled(st) &&
      r.out == if skip then closed else closed + [raw[i]]
  {
    assert ArmOf(raw[i].name) == LinefeedArm;
    assert Handle(raw, i, out, st) == OnLinefeed(raw, i + 1, out, st, raw[i]);
    var c := CloseCalls(out, st, raw[i]);
    var closed := out + Closers(CallDepth(st), raw[i]);
    assert c == (closed, Uncalled(st));
    assert OnLinefeed(raw, i + 1, out, st, raw[i]) ==
      if SkipLinefeed(raw, i + 1, closed) then Turn(closed, Uncalled(st), false) else Turn(closed + [raw[i]], Uncalled(st), false);
    SkipLinefeedByName(raw, i + 1, closed);
  }

  /** Blank lines collapse: with no call open, a line feed right after a
      line feed adds nothing. */
  lemma BlankLinesCollapse(raw: seq<Token>, i: nat, out: seq<Token>, st: States.Stack)
    requires i < |raw| && raw[i].name == "LF"
    requires |out| > 0 && out[|out| - 1].name == "LF" && !States.Is(st, "call")
    ensures Handle(raw, i, out, st) == Turn(out, st, false)
  {
    assert CloseCalls(out, st, raw[i]) == (out, st);
    assert Handle(raw, i, out, st) == OnLinefeed(raw, i + 1, out, st, raw[i]);
    assert SKIP_LF_AFTER[|OPERATORS| + 3] == "LF";
    SkipLinefeedByName(raw, i + 1, out);
  }

  /** A modifier keyword closes the open calls and stays a keyword. */
  lemma ModifierTurn(raw: seq<Token>, i: nat, out: seq<Token>, st: States.Stack)
    requires i < |raw| && raw[i].name in MODIFIER_KEYWORDS
    ensures Handle(raw, i, out, st) ==
      Turn(out + Closers(CallDepth(st), raw[i]) + [raw[i]], Uncalled(st), false)
  {
    assert ArmOf(raw[i].name) == LinefeedArm;
    assert Handle(raw, i, out, st) == OnLinefeed(raw, i + 1, out, st, raw[i]);
  }

  /** `;` closes the open calls and becomes a line feed with no value at its position. */
  lemma SemicolonTurn(raw: seq<Token>, i: nat, out: seq<Token>, st: States.Stack)
    requires i < |raw| && raw[i].name == ";"
    ensures Handle(raw, i, out, st) ==
      Turn(out + Closers(CallDepth(st), raw[i]) + [Token("LF", None, raw[i].line, raw[i].column)],
           Uncalled(st), false)
  {

  }

  /** `{` turns a `lambda_def` on top into `lambda` and pushes `object` otherwise. */
  lemma OpenBraceTurn(raw: seq<Token>, i: nat, out: seq<Token>, st: States.Stack)
    requires i < |raw| && raw[i].name == "{"
    ensures var r := Handle(raw, i, out, st);
      !r.stop && r.out == out + [raw[i]] &&
      (States.Is(st, "lambda_def") ==> r.st == st[..|st| - 1] + ["lambda"]) &&
      (!States.Is(st, "lambda_def") ==> r.st == st + ["object"])
  {
  }

  /** `}` and `)` close the open calls, then pop the entry below them. */
  lemma ClosingTurn(raw: seq<Token>, i: nat, out: seq<Token>, st: States.Stack)
    requires i < |raw| && (raw[i].name == "}" || raw[i].name == ")")
    ensures var rest := Uncalled(st);
      Handle(raw, i, out, st) ==
      Turn(out + Closers(CallDepth(st), raw[i]) + [raw[i]], if |rest| == 0 then rest else rest[..|rest| - 1], false)
  {
  }

  /** `(` pushes `paren` and `->` pushes `lambda_def`; both are kept. */
  lemma OpeningTurn(raw: seq<Token>, i: nat, out: seq<Token>, st: States.Stack)
    requires i < |raw| && (raw[i].name == "(" || raw[i].name == "->")
    ensures Handle(raw, i, out, st) ==
      Turn(out + [raw[i]], st + [if raw[i].name == "(" then "paren" else "lambda_def"], false)
  {
    if raw[i].name == "(" {
      assert ArmOf(raw[i].name) == OpenParenArm;
    } else {
      assert ArmOf(raw[i].name) == ArrowArm;
    }
  }

  /** A keyword other than a modifier becomes an identifier named by it
      after `def` or `.`, after the pair `def +`, or when the look-ahead is
      `:`; otherwise it is kept. */
  lemma KeywordTurn(raw: seq<Token>, i: nat, out: seq<Token>, st: States.Stack)
    requires i < |raw| && raw[i].name in KEYWORDS && raw[i].name !in MODIFIER_KEYWORDS
    ensures var t := raw[i];
      var la := Lookahead(raw, i + 1);
      var renamed := (|out| > 0 && out[|out| - 1].name in ["def", "."]) || (la.Some? && la.value.name == ":") ||
        (|out| > 1 && out[|out| - 2].name == "def" && out[|out| - 1].name == "+");
      Handle(raw, i, out, st) ==
      Turn(out + [if renamed then Token("identifier", Some(t.name), t.line, t.column) else t], st, false)
  {
    assert Handle(raw, i, out, st) == Turn(out + [OnKeyword(raw, i + 1, out, raw[i])], st, false);
    DottableByName(raw, i + 1, out);
  }

  /** EOF closes the open calls and ends the pass with itself. */
  lemma EofTurn(raw: seq<Token>, i: nat, out: seq<Token>, st: States.Stack)
    requires i < |raw| && raw[i].name == "EOF"
    ensures Handle(raw, i, out, st) ==
      Turn(out + Closers(CallDepth(st), raw[i]) + [raw[i]], Uncalled(st), true)
  {

  }

  /** Any other token, `(`-less names and literals included, is passed on
      unchanged and leaves the stack alone. */
  lemma PlainTurn(raw: seq<Token>, i: nat, out: seq<Token>, st: States.Stack)
    requires i < |raw| && raw[i].name !in KEYWORDS
    requires raw[i].name !in ["whitespace", "LF", "{", "}", "(", ")", "->", ";", "EOF"]
    ensures Handle(raw, i, out, st) == Turn(out + [raw[i]], st, false)
  {
    assert ArmOf(raw[i].name) == OtherArm;
  }

  // ---------------------------------------------------------------------------
  // The whole pass

  /** With one EOF, at the end, the first EOF from `i` on is that one. */
  lemma {:induction false} FirstEofLast(raw: seq<Token>, i: nat)
    requires i < |raw| && raw[|raw| - 1].name == "EOF"
    requires forall k :: i <= k < |raw| - 1 ==> raw[k].name != "EOF"
    ensures FirstEof(raw, i) == Some(|raw| - 1)
    decreases |raw| - i
  {
    if i < |raw| - 1 {
      FirstEofLast(raw, i + 1);
    }
  }

  /** The rewriter over what the lexer produced: its output ends with the
      lexer's EOF, holds no other EOF and no white space. */
  lemma RewriteLexed(input: string)
    requires Lexer.TokensOf(input).Success?
    ensures var raw := Lexer.TokensOf(input).value;
      var r := Rewrite(raw);
      |r| > 0 && r[|r| - 1] == raw[|raw| - 1] && NoEof(r[..|r| - 1]) &&
      forall k :: 0 <= k < |r| ==> r[k].name != "whitespace"
  {
    var raw := Lexer.TokensOf(input).value;
    forall k | 0 <= k < |raw| - 1 ensures raw[k].name != "EOF" {
      assert raw[k] == raw[..|raw| - 1][k];
    }
    FirstEofLast(raw, 0);
  }
}

=== FILE: scopes.dfy ===
/** The formatter's bookkeeping for `var` hoisting: the scope stack
    (`with_scope`, `declare_scope_variable`), the counter behind
    `generate_reference` and the declaration line `compile_vars` prints. */
module Scopes {
  import opened Wrappers
  import opened Text

  /** One entry of `@scopes`: the names declared in it, in declaration order,
      and whether a redeclaration check looks through it to the scope around it. */
  datatype Scope = Scope(vars: seq<string>, traversable: bool)

  /** The formatter's mutable state: the scope stack, innermost last, and the
      `@reference` counter. */
  datatype FState = FState(scopes: seq<Scope>, reference: nat)

  /** The state of a new formatter: no scope and the counter at zero. */
  const INITIAL: FState := FState([], 0)

  predicate NoDup(s: seq<string>) {
    forall i, j :: 0 <= i < j < |s| ==> s[i] != s[j]
  }

  /** No scope lists a name twice. */
  predicate Wf(st: FState) {
    forall i :: 0 <= i < |st.scopes| ==> NoDup(st.scopes[i].vars)
  }

  function Innermost(scopes: seq<Scope>): Scope
    requires |scopes| > 0
  {
    scopes[|scopes| - 1]
  }

  /** What a compile step may do to the state: the counter only grows, the
      stack keeps its height and every scope but the innermost is untouched,
      and the innermost only gains names at its end. */
  predicate Grows(a: FState, b: FState) {
    |b.scopes| == |a.scopes| && a.reference <= b.reference &&
    (forall i :: 0 <= i < |a.scopes| - 1 ==> b.scopes[i] == a.scopes[i]) &&
    (|a.scopes| > 0 ==>
      Innermost(b.scopes).traversable == Innermost(a.scopes).traversable &&
      Innermost(a.scopes).vars <= Innermost(b.scopes).vars)
  }

  /** `Grows`, keeping every scope free of duplicates. */
  predicate Evolves(a: FState, b: FState) {
    Grows(a, b) && (Wf(a) ==> Wf(b))
  }

  lemma EvolvesReflexive(a: FState)
    ensures Evolves(a, a)
  {
  }

  lemma EvolvesTransitive(a: FState, b: FState, c: FState)
    requires Evolves(a, b) && Evolves(b, c)
    ensures Evolves(a, c)
  {
    if |a.scopes| > 0 {
      var x, y, z := Innermost(a.scopes).vars, Innermost(b.scopes).vars, Innermost(c.scopes).vars;
      assert x == y[..|x|] && y == z[..|y|];
      assert z[..|y|][..|x|] == z[..|x|];
    }
  }

  // ---------------------------------------------------------------------------
  // declare_scope_variable

  /** The walk of `declare_scope_variable`: the innermost scope is searched,
      and the search goes on outward only while the scope just searched is
      traversable. */
  predicate Visible(scopes: seq<Scope>, name: string)
    decreases |scopes|
  {
    |scopes| > 0 &&
    (name in Innermost(scopes).vars ||
     (Innermost(scopes).traversable && Visible(scopes[..|scopes| - 1], name)))
  }

  /** Scope `j` is reached by the walk: every scope inside it is traversable. */
  predicate Reached(scopes: seq<Scope>, j: nat)
    requires j < |scopes|
  {
    forall k :: j < k < |scopes| ==> scopes[k].traversable
  }

  /** Scope `j` below the innermost is reached when the innermost scope is
      traversable and the walk over the scopes around it reaches `j`. */
  lemma ReachedOuter(scopes: seq<Scope>, j: nat)
    requires j + 1 < |scopes|
    ensures Reached(scopes, j) <==>
      Innermost(scopes).traversable && Reached(scopes[..|scopes| - 1], j)
  {
    var outer := scopes[..|scopes| - 1];
    assert forall k :: j < k < |outer| ==> outer[k] == scopes[k];
  }

  /** The walk finds a name exactly when some reached scope lists it. */
  lemma {:induction false} VisibleIff(scopes: seq<Scope>, name: string)
    ensures Visible(scopes, name) <==>
      exists j :: 0 <= j < |scopes| && name in scopes[j].vars && Reached(scopes, j)
    decreases |scopes|
  {
    if |scopes| > 0 {
      var n := |scopes| - 1;
      var outer := scopes[..n];
      VisibleIff(outer, name);
      assert Reached(scopes, n);
      forall j | 0 <= j < n
        ensures (name in scopes[j].vars && Reached(scopes, j)) <==>
          (scopes[n].traversable && name in outer[j].vars && Reached(outer, j))
      {
        ReachedOuter(scopes, j);
        assert scopes[j] == outer[j];
      }
    }
  }

  /** A compile step never hides a name the walk could find before it. */
  lemma GrowsKeepsVisible(a: FState, b: FState, name: string)
    requires Grows(a, b) && Visible(a.scopes, name)
    ensures Visible(b.scopes, name)
  {
    VisibleIff(a.scopes, name);
    var j :| 0 <= j < |a.scopes| && name in a.scopes[j].vars && Reached(a.scopes, j);
    var n := |a.scopes| - 1;
    assert name in b.scopes[j].vars by {
      if j == n {
        assert a.scopes[j].vars <= b.scopes[j].vars;
      }
    }
    forall k | j < k < |b.scopes| ensures b.scopes[k].traversable {
      assert a.scopes[k].traversable;
    }
    VisibleIff(b.scopes, name);
  }

  /** `declare_scope_variable(name)`: nothing when the walk finds the name,
      else the name appended to the innermost scope; with no scope at all,
      `@scopes.last[:vars]` is a `NoMethodError` on nil. */
  function Declare(st: FState, name: string): (r: Result<FState>)
    ensures r.Failure? <==> |st.scopes| == 0 && !Visible(st.scopes, name)
    ensures r.Success? ==> Evolves(st, r.value) && Visible(r.value.scopes, name)
    ensures r.Success? && Visible(st.scopes, name) ==> r.value == st
    ensures r.Success? && !Visible(st.scopes, name) ==>
      r.value.reference == st.reference &&
      Innermost(r.value.scopes).vars == Innermost(st.scopes).vars + [name]
  {
    if Visible(st.scopes, name) then Success(st)
    else if |st.scopes| == 0 then Failure(NoMethod("[]"))
    else
      var n := |st.scopes| - 1;
      var last := st.scopes[n];
      var st' := FState(st.scopes[..n] + [Scope(last.vars + [name], last.traversable)], st.reference);
      assert Innermost(st'.scopes).vars == last.vars + [name];
      assert Visible(st'.scopes, name);
      assert Wf(st) ==> Wf(st') by {
        if Wf(st) {
          assert NoDup(last.vars);
          assert name !in last.vars;
          forall i | 0 <= i < |st'.scopes| ensures NoDup(st'.scopes[i].vars) {
            if i < n {
              assert st'.scopes[i] == st.scopes[i];
            }
          }
        }
      }
      Success(st')
  }

  /** Declaring a name twice is declaring it once. */
  lemma DeclareIdempotent(st: FState, name: string)
    requires Declare(st, name).Success?
    ensures Declare(Declare(st, name).value, name) == Declare(st, name)
  {
  }

  /** A declaration only ever lands in the innermost scope: every other scope
      is the same afterwards, so no name moves to an enclosing scope. */
  lemma DeclareKeepsOuter(st: FState, name: string, i: nat)
    requires Declare(st, name).Success? && i + 1 < |st.scopes|
    ensures Declare(st, name).value.scopes[i] == st.scopes[i]
  {
  }

  /** A name the walk cannot see is declared in the innermost scope even when
      an enclosing scope behind a non-traversable one already lists it. */
  lemma ShadowedByBarrier(outer: Scope, name: string)
    requires name in outer.vars
    ensures Declare(FState([outer, Scope([], false)], 0), name) ==
      Success(FState([outer, Scope([name], false)], 0))
  {
    var st := FState([outer, Scope([], false)], 0);
    assert st.scopes[..1] == [outer];
    assert !Visible(st.scopes, name);
    assert [] + [name] == [name];
    assert [outer] + [Scope([name], false)] == [outer, Scope([name], false)];
  }

  // ---------------------------------------------------------------------------
  // with_scope

  /** Entering `with_scope`: a fresh empty scope on top. */
  function Push(st: FState, traversable: bool): (r: FState)
    ensures |r.scopes| == |st.scopes| + 1 && r.reference == st.reference
    ensures Innermost(r.scopes) == Scope([], traversable)
    ensures r.scopes[..|st.scopes|] == st.scopes
    ensures Wf(st) ==> Wf(r)
  {
    var r := FState(st.scopes + [Scope([], traversable)], st.reference);
    assert r.scopes[..|st.scopes|] == st.scopes;
    r
  }

  /** Leaving `with_scope`: the popped scope's names and the state below it. */
  function Pop(st: FState): (r: (FState, seq<string>))
    requires |st.scopes| > 0
    ensures r.0.scopes == st.scopes[..|st.scopes| - 1] && r.0.reference == st.reference
    ensures r.1 == Innermost(st.scopes).vars
  {
    (FState(st.scopes[..|st.scopes| - 1], st.reference), Innermost(st.scopes).vars)
  }

  /** Whatever happens inside `with_scope` stays there: afterwards the stack
      is exactly the one before, and the names it hands back are those
      declared inside, without duplicates. */
  lemma PopAfterPush(st: FState, traversable: bool, inner: FState)
    requires Evolves(Push(st, traversable), inner)
    ensures |inner.scopes| > 0
    ensures Pop(inner).0 == FState(st.scopes, inner.reference)
    ensures Evolves(st, Pop(inner).0)
    ensures Wf(st) ==> NoDup(Pop(inner).1)
  {
    var p := Push(st, traversable);
    var out := Pop(inner).0;
    assert out.scopes == st.scopes by {
      forall i | 0 <= i < |st.scopes| ensures out.scopes[i] == st.scopes[i] {
        assert inner.scopes[i] == p.scopes[i];
        assert p.scopes[i] == p.scopes[..|st.scopes|][i];
      }
    }
    if Wf(st) {
      assert Wf(inner);
      assert NoDup(inner.scopes[|inner.scopes| - 1].vars);
      assert Wf(out) by {
        forall i | 0 <= i < |out.scopes| ensures NoDup(out.scopes[i].vars) {
          assert out.scopes[i] == inner.scopes[i];
        }
      }
    }
  }

  // ---------------------------------------------------------------------------
  // generate_reference

  /** The name of reference number `n`. */
  function RefName(n: nat): (s: string)
    ensures |s| > 3 && s[..3] == "__r"
  {
    "__r" + NatToString(n)
  }

  /** Different numbers name different references. */
  lemma RefNameInjective(m: nat, n: nat)
    requires RefName(m) == RefName(n)
    ensures m == n
  {
    assert RefName(m)[3..] == NatToString(m);
    assert RefName(n)[3..] == NatToString(n);
    if m != n {
      NatToStringInjective(m, n);
    }
  }

  /** `generate_reference`: bumps the counter, names the new reference after
      it and declares that name. */
  function GenerateReference(st: FState): (r: Result<(string, FState)>)
    ensures r.Failure? <==> |st.scopes| == 0
    ensures r.Success? ==> r.value.0 == RefName(st.reference + 1)
    ensures r.Success? ==> r.value.1.reference == st.reference + 1
    ensures r.Success? ==> Evolves(st, r.value.1) && Visible(r.value.1.scopes, r.value.0)
  {
    var bumped := FState(st.scopes, st.reference + 1);
    var name := RefName(bumped.reference);
    var st' :- Declare(bumped, name);
    Success((name, st'))
  }

  /** A reference generated after another, however much compiling lies in
      between, has a different name. */
  lemma ReferencesFresh(a: FState, b: FState)
    requires GenerateReference(a).Success? && GenerateReference(b).Success?
    requires Grows(GenerateReference(a).value.1, b)
    ensures GenerateReference(b).value.0 != GenerateReference(a).value.0
  {
    if GenerateReference(b).value.0 == GenerateReference(a).value.0 {
      RefNameInjective(b.reference + 1, a.reference + 1);
    }
  }

  /** The two references of a `for ... of` loop without an index in a fresh
      program scope are `__r1` and `__r2`. */
  lemma FirstReferences()
    ensures var s := Push(INITIAL, false);
      GenerateReference(s).Success? &&
      GenerateReference(s).value.0 == "__r1" &&
      GenerateReference(GenerateReference(s).value.1).Success? &&
      GenerateReference(GenerateReference(s).value.1).value.0 == "__r2"
  {
    assert NatToString(1) == "1" && NatToString(2) == "2";
  }

  // ---------------------------------------------------------------------------
  // compile_vars

  /** `compile_vars`: nothing for no names, else one `var` line listing the
      names in sorted order. */
  function CompileVars(vars: seq<string>): (r: string)
    ensures |vars| == 0 <==> r == ""
    ensures |vars| > 0 ==> |r| >= 6 && r[..4] == "var " && r[|r| - 2..] == ";\n"
  {
    if |vars| == 0 then "" else "var " + Join(Sort(vars), ", ") + ";\n"
  }

  /** The line lists the sorted names, so the order of declaration does not
      matter. */
  lemma CompileVarsOrderFree(a: seq<string>, b: seq<string>)
    requires multiset(a) == multiset(b)
    ensures CompileVars(a) == CompileVars(b)
  {
    assert |a| == |multiset(a)| == |multiset(b)| == |b|;
    SortedPermutationUnique(Sort(a), Sort(b));
  }

  /** `String#chomp`: drops one trailing line break (`\r\n`, `\n` or `\r`). */
  function Chomp(s: string): (r: string)
    ensures r <= s && |s| - 2 <= |r|
    ensures |s| > 0 && s[|s| - 1] == '\n' && (|s| == 1 || s[|s| - 2] != '\r') ==> r == s[..|s| - 1]
  {
    if |s| >= 2 && s[|s| - 2..] == "\r\n" then s[..|s| - 2]
    else if |s| >= 1 && (s[|s| - 1] == '\n' || s[|s| - 1] == '\r') then s[..|s| - 1]
    else s
  }

  /** The chomped declaration line ends in `;`. */
  lemma ChompVars(vars: seq<string>)
    requires |vars| > 0
    ensures Chomp(CompileVars(vars)) == "var " + Join(Sort(vars), ", ") + ";"
  {
    var s := CompileVars(vars);
    assert s[|s| - 2..] == ";\n";
    assert s[|s| - 1] == '\n' && s[|s| - 2] == ';';
  }
}

=== FILE: spreads.dfy ===
/** Call-site splats (`compile_call_arguments` with both splatted and plain
    arguments): consecutive arguments of one node type are grouped, plain
    groups become array literals, and everything is glued with `concat`. */
module Spreads {
  import opened Text

  const SPLAT: string := "splat_expression"

  /** A compiled call argument: its node type and its JavaScript text (for a
      splat, the text of the splatted expression). */
  datatype Arg = Arg(kind: string, text: string)

  predicate Uniform(run: seq<Arg>) {
    forall i :: 0 <= i < |run| ==> run[i].kind == run[0].kind
  }

  /** The `reduce` of `compile_call_arguments`: a new group starts whenever
      the node type changes. */
  function Runs(xs: seq<Arg>): (r: seq<seq<Arg>>)
    ensures |r| <= |xs| && (|xs| == 0 <==> |r| == 0)
    ensures forall i :: 0 <= i < |r| ==> |r[i]| > 0 && Uniform(r[i])
    ensures forall i :: 0 <= i < |r| - 1 ==> r[i][0].kind != r[i + 1][0].kind
  {
    if |xs| == 0 then []
    else
      var rs := Runs(xs[..|xs| - 1]);
      var e := xs[|xs| - 1];
      if |rs| > 0 && e.kind == rs[|rs| - 1][0].kind then
        var last := rs[|rs| - 1] + [e];
        assert Uniform(last);
        rs[..|rs| - 1] + [last]
      else rs + [[e]]
  }

  function Flatten(rs: seq<seq<Arg>>): seq<Arg> {
    if |rs| == 0 then [] else rs[0] + Flatten(rs[1..])
  }

  lemma {:induction false} FlattenAppend(a: seq<seq<Arg>>, b: seq<seq<Arg>>)
    ensures Flatten(a + b) == Flatten(a) + Flatten(b)
    decreases |a|
  {
    if |a| == 0 {
      assert a + b == b;
    } else {
      assert (a + b)[1..] == a[1..] + b;
      FlattenAppend(a[1..], b);
    }
  }

  /** The groups hold the arguments in their order, none lost or repeated. */
  lemma {:induction false} RunsFlatten(xs: seq<Arg>)
    ensures Flatten(Runs(xs)) == xs
    decreases |xs|
  {
    if |xs| > 0 {
      var init := xs[..|xs| - 1];
      var rs: seq<seq<Arg>> := Runs(init);
      var e := xs[|xs| - 1];
      RunsFlatten(init);
      assert xs == init + [e];
      if |rs| > 0 && e.kind == rs[|rs| - 1][0].kind {
        var front := rs[..|rs| - 1];
        var last := rs[|rs| - 1];
        assert rs == front + [last];
        FlattenAppend(front, [last]);
        FlattenAppend(front, [last + [e]]);
        assert Flatten([last]) == last;
        assert Flatten([last + [e]]) == last + [e];
        assert Runs(xs) == front + [last + [e]];
      } else {
        FlattenAppend(rs, [[e]]);
        assert Flatten([[e]]) == [e];
      }
    }
  }

  /** The first group starts with the first argument. */
  lemma FirstRun(xs: seq<Arg>)
    requires |xs| > 0
    ensures Runs(xs)[0][0] == xs[0]
  {
    RunsFlatten(xs);
    var rs: seq<seq<Arg>> := Runs(xs);
    assert Flatten(rs) == rs[0] + Flatten(rs[1..]);
  }

  // ---------------------------------------------------------------------------
  // The text

  function Texts(run: seq<Arg>): (ts: seq<string>)
    ensures |ts| == |run|
  {
    seq(|run|, i requires 0 <= i < |run| => run[i].text)
  }

  /** One group: splatted expressions separated by commas, or an array literal. */
  function Piece(run: seq<Arg>): string
    requires |run| > 0
  {
    if run[0].kind == SPLAT then Join(Texts(run), ", ") else "[" + Join(Texts(run), ", ") + "]"
  }

  function Pieces(rs: seq<seq<Arg>>): (ps: seq<string>)
    requires forall i :: 0 <= i < |rs| ==> |rs[i]| > 0
    ensures |ps| == |rs|
  {
    if |rs| == 0 then [] else [Piece(rs[0])] + Pieces(rs[1..])
  }

  /** `compile_call_arguments` as written: the first group becomes the
      `concat` receiver whenever its text starts with `[`. */
  function SpreadAsWritten(xs: seq<Arg>): string
    requires |xs| > 0
  {
    var ps := Pieces(Runs(xs));
    var (first, rest) := if StartsWith(ps[0], "[") then (ps[0], ps[1..]) else ("[]", ps);
    first + ".concat(" + Join(rest, ", ") + ")"
  }

  /** The evidently intended rule: only a group of plain arguments, which is
      an array literal, becomes the receiver. */
  function Spread(xs: seq<Arg>): string
    requires |xs| > 0
  {
    var ps := Pieces(Runs(xs));
    var (first, rest) := if Runs(xs)[0][0].kind != SPLAT then (ps[0], ps[1..]) else ("[]", ps);
    first + ".concat(" + Join(rest, ", ") + ")"
  }

  /** The two rules agree unless the first group is a splat group whose
      text starts with `[`. */
  lemma AsWrittenAgrees(xs: seq<Arg>)
    requires |xs| > 0
    ensures !(xs[0].kind == SPLAT && StartsWith(Pieces(Runs(xs))[0], "[")) ==>
      SpreadAsWritten(xs) == Spread(xs)
  {
    var rs: seq<seq<Arg>> := Runs(xs);
    var ps := Pieces(rs);
    FirstRun(xs);
    assert ps[0] == Piece(rs[0]);
    if rs[0][0].kind != SPLAT {
      var p := ps[0];
      assert p == "[" + Join(Texts(rs[0]), ", ") + "]";
      StartsWithIsPrefix(p, "[");
      assert p[..1] == "[";
    }
  }

  /** The compiled arguments of `f(*[1], *b, c)`. */
  const EXAMPLE: seq<Arg> := [Arg(SPLAT, "[1]"), Arg(SPLAT, "b"), Arg("identifier", "c")]

  /** One more argument either joins the last group or starts a new one. */
  lemma RunsSnoc(xs: seq<Arg>, e: Arg)
    ensures var rs := Runs(xs);
      Runs(xs + [e]) ==
        if |rs| > 0 && e.kind == rs[|rs| - 1][0].kind then rs[..|rs| - 1] + [rs[|rs| - 1] + [e]]
        else rs + [[e]]
  {
    assert (xs + [e])[..|xs|] == xs;
  }

  lemma ExampleRuns()
    ensures Runs(EXAMPLE) == [EXAMPLE[..2], [EXAMPLE[2]]]
  {
    var xs := EXAMPLE;
    RunsSnoc([], xs[0]);
    assert [] + [xs[0]] == [xs[0]];
    RunsSnoc([xs[0]], xs[1]);
    assert [xs[0]] + [xs[1]] == xs[..2];
    RunsSnoc(xs[..2], xs[2]);
    assert xs[..2] + [xs[2]] == xs;
  }

  lemma ExamplePieces()
    ensures Pieces(Runs(EXAMPLE)) == ["[1], b", "[c]"]
  {
    ExampleRuns();
    var b, c := EXAMPLE[..2], [EXAMPLE[2]];
    assert Texts(b) == ["[1]", "b"];
    assert ["[1]", "b"][1..] == ["b"];
    assert Piece(b) == "[1], b";
    assert Texts(c) == ["c"];
    assert Piece(c) == "[c]";
    assert [b, c][1..] == [c];
    assert [c][1..] == [];
    assert Pieces([c]) == ["[c]"];
  }

  /** `f(*[1], *b, c)`: the splat group `[1], b` is taken for an array
      literal and becomes the receiver, so `b` and `[c]` are lost to
      `Function#apply`'s argument list. */
  lemma AsWrittenCounterexample()
    ensures SpreadAsWritten(EXAMPLE) == "[1], b" + ".concat(" + "[c]" + ")"
    ensures Spread(EXAMPLE) == "[]" + ".concat(" + "[1], b, [c]" + ")"
  {
    ExampleRuns();
    ExamplePieces();
    var ps := ["[1], b", "[c]"];
    assert StartsWith(ps[0], "[");
    assert ps[1..] == ["[c]"];
    assert Join(ps[1..], ", ") == "[c]";
    assert Join(ps, ", ") == "[1], b" + ", " + "[c]";
    assert "[1], b" + ", " + "[c]" == "[1], b, [c]";
  }

  // ---------------------------------------------------------------------------
  // What the lowered text denotes

  /** One element of the argument list a call receives: a plain value, or
      every element of a splatted one. */
  datatype Item = Elem(text: string) | All(text: string)

  function ItemOf(x: Arg): Item {
    if x.kind == SPLAT then All(x.text) else Elem(x.text)
  }

  /** The argument list the source call means. */
  function Expected(xs: seq<Arg>): (r: seq<Item>)
    ensures |r| == |xs|
  {
    seq(|xs|, i requires 0 <= i < |xs| => ItemOf(xs[i]))
  }

  lemma ExpectedAppend(a: seq<Arg>, b: seq<Arg>)
    ensures Expected(a + b) == Expected(a) + Expected(b)
  {
    assert forall i :: 0 <= i < |a + b| ==> Expected(a + b)[i] == (Expected(a) + Expected(b))[i];
  }

  /** A `concat` argument: an array literal or a splatted expression. */
  datatype Part = Literal(elems: seq<string>) | Splatted(text: string)

  /** `[receiver...].concat(parts...)`. */
  datatype Lowered = Concat(receiver: seq<string>, parts: seq<Part>)

  function PartText(p: Part): string {
    match p
    case Literal(es) => "[" + Join(es, ", ") + "]"
    case Splatted(t) => t
  }

  function PartTexts(ps: seq<Part>): (r: seq<string>)
    ensures |r| == |ps|
  {
    seq(|ps|, i requires 0 <= i < |ps| => PartText(ps[i]))
  }

  function Render(l: Lowered): string {
    "[" + Join(l.receiver, ", ") + "]" + ".concat(" + Join(PartTexts(l.parts), ", ") + ")"
  }

  function Elems(ts: seq<string>): (r: seq<Item>)
    ensures |r| == |ts|
  {
    seq(|ts|, i requires 0 <= i < |ts| => Elem(ts[i]))
  }

  function PartMeaning(p: Part): seq<Item> {
    match p
    case Literal(es) => Elems(es)
    case Splatted(t) => [All(t)]
  }

  function PartsMeaning(ps: seq<Part>): seq<Item> {
    if |ps| == 0 then [] else PartMeaning(ps[0]) + PartsMeaning(ps[1..])
  }

  /** JavaScript's `concat`: the receiver's elements, then each literal's
      elements and each splatted value's elements. */
  function Meaning(l: Lowered): seq<Item> {
    Elems(l.receiver) + PartsMeaning(l.parts)
  }

  function RunPart(run: seq<Arg>): (r: seq<Part>)
    requires |run| > 0
    ensures |r| > 0
  {
    if run[0].kind == SPLAT then seq(|run|, i requires 0 <= i < |run| => Splatted(run[i].text))
    else [Literal(Texts(run))]
  }

  function RunParts(rs: seq<seq<Arg>>): seq<Part>
    requires forall i :: 0 <= i < |rs| ==> |rs[i]| > 0
  {
    if |rs| == 0 then [] else RunPart(rs[0]) + RunParts(rs[1..])
  }

  /** The structure `Spread` prints. */
  function Lower(xs: seq<Arg>): Lowered
    requires |xs| > 0
  {
    var rs: seq<seq<Arg>> := Runs(xs);
    if rs[0][0].kind != SPLAT then Concat(Texts(rs[0]), RunParts(rs[1..])) else Concat([], RunParts(rs))
  }

  lemma {:induction false} PartsMeaningAppend(a: seq<Part>, b: seq<Part>)
    ensures PartsMeaning(a + b) == PartsMeaning(a) + PartsMeaning(b)
    decreases |a|
  {
    if |a| == 0 {
      assert a + b == b;
    } else {
      assert (a + b)[1..] == a[1..] + b;
      PartsMeaningAppend(a[1..], b);
    }
  }

  /** A group denotes its arguments. */
  lemma RunMeaning(run: seq<Arg>)
    requires |run| > 0 && Uniform(run)
    ensures PartsMeaning(RunPart(run)) == Expected(run)
  {
    if run[0].kind == SPLAT {
      SplatRunMeaning(run, RunPart(run));
    } else {
      var p := RunPart(run);
      assert p == [Literal(Texts(run))];
      assert PartsMeaning(p) == Elems(Texts(run)) + PartsMeaning(p[1..]);
    }
  }

  lemma {:induction false} SplatRunMeaning(run: seq<Arg>, ps: seq<Part>)
    requires |ps| == |run| && forall i :: 0 <= i < |run| ==> run[i].kind == SPLAT && ps[i] == Splatted(run[i].text)
    ensures PartsMeaning(ps) == Expected(run)
    decreases |run|
  {
    if |run| > 0 {
      SplatRunMeaning(run[1..], ps[1..]);
      assert Expected(run) == [All(run[0].text)] + Expected(run[1..]);
    }
  }

  lemma {:induction false} RunPartsMeaning(rs: seq<seq<Arg>>)
    requires forall i :: 0 <= i < |rs| ==> |rs[i]| > 0 && Uniform(rs[i])
    ensures PartsMeaning(RunParts(rs)) == Expected(Flatten(rs))
    decreases |rs|
  {
    if |rs| > 0 {
      RunPartsMeaning(rs[1..]);
      RunMeaning(rs[0]);
      PartsMeaningAppend(RunPart(rs[0]), RunParts(rs[1..]));
      ExpectedAppend(rs[0], Flatten(rs[1..]));
    }
  }

  /** The lowered call receives exactly the arguments of the source call, in
      order, each splat spread in place. */
  lemma LowerMeaning(xs: seq<Arg>)
    requires |xs| > 0
    ensures Meaning(Lower(xs)) == Expected(xs)
  {
    var rs: seq<seq<Arg>> := Runs(xs);
    RunsFlatten(xs);
    assert Flatten(rs) == rs[0] + Flatten(rs[1..]);
    if rs[0][0].kind != SPLAT {
      RunPartsMeaning(rs[1..]);
      assert Elems(Texts(rs[0])) == Expected(rs[0]);
      ExpectedAppend(rs[0], Flatten(rs[1..]));
    } else {
      RunPartsMeaning(rs);
    }
  }

  lemma {:induction false} PartTextsAppend(a: seq<Part>, b: seq<Part>)
    ensures PartTexts(a + b) == PartTexts(a) + PartTexts(b)
  {
  }

  lemma RunPartText(run: seq<Arg>)
    requires |run| > 0 && Uniform(run)
    ensures Join(PartTexts(RunPart(run)), ", ") == Piece(run)
  {
    if run[0].kind == SPLAT {
      assert PartTexts(RunPart(run)) == Texts(run);
    } else {
      assert PartTexts(RunPart(run)) == [Piece(run)];
    }
  }

  /** Printing the groups is printing the lowered parts. */
  lemma {:induction false} PiecesText(rs: seq<seq<Arg>>)
    requires forall i :: 0 <= i < |rs| ==> |rs[i]| > 0 && Uniform(rs[i])
    ensures Join(Pieces(rs), ", ") == Join(PartTexts(RunParts(rs)), ", ")
    decreases |rs|
  {
    if |rs| > 0 {
      PiecesText(rs[1..]);
      RunPartText(rs[0]);
      PartTextsAppend(RunPart(rs[0]), RunParts(rs[1..]));
      var head := PartTexts(RunPart(rs[0]));
      var tail := PartTexts(RunParts(rs[1..]));
      if |rs| > 1 {
        assert |RunParts(rs[1..])| > 0 by {
          assert RunParts(rs[1..]) == RunPart(rs[1]) + RunParts(rs[2..]);
        }
        JoinAppend(head, tail, ", ");
        JoinAppend([Piece(rs[0])], Pieces(rs[1..]), ", ");
      } else {
        assert tail == [];
        assert head + tail == head;
      }
    }
  }

  /** The corrected text is the rendering of `Lower`, so by `LowerMeaning` it
      passes the source call's arguments. */
  lemma SpreadRenders(xs: seq<Arg>)
    requires |xs| > 0
    ensures Spread(xs) == Render(Lower(xs))
  {
    var rs: seq<seq<Arg>> := Runs(xs);
    if rs[0][0].kind != SPLAT {
      PlainFirstRenders(rs);
    } else {
      SplatFirstRenders(rs);
    }
  }

  lemma PlainFirstRenders(rs: seq<seq<Arg>>)
    requires |rs| > 0 && forall i :: 0 <= i < |rs| ==> |rs[i]| > 0 && Uniform(rs[i])
    requires rs[0][0].kind != SPLAT
    ensures Pieces(rs)[0] + ".concat(" + Join(Pieces(rs)[1..], ", ") + ")" ==
      Render(Concat(Texts(rs[0]), RunParts(rs[1..])))
  {
    PiecesText(rs[1..]);
    assert Pieces(rs)[1..] == Pieces(rs[1..]);
  }

  lemma SplatFirstRenders(rs: seq<seq<Arg>>)
    requires forall i :: 0 <= i < |rs| ==> |rs[i]| > 0 && Uniform(rs[i])
    ensures "[]" + ".concat(" + Join(Pieces(rs), ", ") + ")" == Render(Concat([], RunParts(rs)))
  {
    PiecesText(rs);
    assert "[" + Join([], ", ") + "]" == "[]";
  }
}

=== FILE: state.dfy ===
/** The lexer's and rewriter's mode stack (`RBS::State`), an array whose
    tests look only at its last element. */
module States {

  type Stack = seq<string>

  /** `State#is` and its alias `===`: the top element equals `x`; Ruby's
      `last` of an empty array is nil, which equals no name. */
  predicate Is(st: Stack, x: string) {
    |st| > 0 && st[|st| - 1] == x
  }

  /** How many entries of the stack are `x`. */
  function Occurrences(st: Stack, x: string): nat {
    if |st| == 0 then 0 else Occurrences(st[..|st| - 1], x) + (if st[|st| - 1] == x then 1 else 0)
  }

  /** `state << x` */
  function Push(st: Stack, x: string): (r: Stack)
    ensures |r| == |st| + 1 && r[..|st|] == st && Is(r, x)
    ensures forall y :: Occurrences(r, y) == Occurrences(st, y) + (if x == y then 1 else 0)
  {
    var r := st + [x];
    assert r[..|st|] == st;
    r
  }

  /** `state.pop`, which leaves an empty array empty. */
  function Pop(st: Stack): (r: Stack)
    ensures |st| > 0 ==> |r| == |st| - 1 && r == st[..|st| - 1]
    ensures |st| == 0 ==> r == st
    ensures forall y :: Occurrences(r, y) == Occurrences(st, y) - (if Is(st, y) then 1 else 0)
  {
    if |st| == 0 then st else st[..|st| - 1]
  }

  /** An empty stack answers false for every name. */
  lemma EmptyIsNothing(x: string)
    ensures !Is([], x)
  {
  }

  /** After a push the stack answers true for the pushed name and no other,
      and a pop undoes the push. */
  lemma PushThenIs(st: Stack, x: string, y: string)
    ensures Is(Push(st, x), y) <==> x == y
    ensures Pop(Push(st, x)) == st
  {
  }

  /** Only the top counts: at most one name holds, whatever lies below it. */
  lemma OnlyTop(st: Stack, x: string, y: string)
    requires Is(st, x) && x != y
    ensures !Is(st, y)
    ensures forall below: Stack :: Is(below + st, x) && !Is(below + st, y)
  {
  }

  /** The examples: `[:embed, :call]` is `:call`, `[:call, :embed]` is not. */
  lemma StackExamples()
    ensures Is(["embed", "call"], "call") && !Is(["embed", "call"], "embed")
    ensures !Is(["call", "embed"], "call") && !Is(["embed"], "call")
  {
  }
}

=== FILE: text.dfy ===
/** Text helpers the compiler stages share: the ASCII character classes of
    Ruby's regular expressions (`\d`, `\w`, `\s`), decimal printing of
    integers, joining, repetition and Ruby's byte-wise string ordering. */
module Text {

  predicate IsDigit(c: char) {
    '0' <= c <= '9'
  }

  predicate IsLower(c: char) {
    'a' <= c <= 'z'
  }

  predicate IsUpper(c: char) {
    'A' <= c <= 'Z'
  }

  predicate IsLetter(c: char) {
    IsLower(c) || IsUpper(c)
  }

  /** Ruby's `\w`: `[a-zA-Z0-9_]`. */
  predicate IsWordChar(c: char) {
    IsLetter(c) || IsDigit(c) || c == '_'
  }

  /** Ruby's `\s`: space, tab, line feed, vertical tab, form feed, carriage return. */
  predicate IsSpace(c: char) {
    c == ' ' || c == '\t' || c == '\n' || c == '\r' || c as int == 0x0B || c as int == 0x0C
  }

  /** Ruby's `String#upcase` restricted to ASCII, which is all a `\w` match can hold. */
  function Upcase(c: char): (u: char)
    ensures IsLower(c) ==> IsUpper(u)
    ensures !IsLower(c) ==> u == c
  {
    if IsLower(c) then (c as int - 32) as char else c
  }

  /** `s` begins with `p` (Ruby's `start_with?`), compared character by character. */
  predicate StartsWith(s: string, p: string) {
    |p| == 0 || (|s| > 0 && s[0] == p[0] && StartsWith(s[1..], p[1..]))
  }

  lemma {:induction false} StartsWithIsPrefix(s: string, p: string)
    ensures StartsWith(s, p) <==> |p| <= |s| && s[..|p|] == p
  {
    if |p| > 0 && |s| > 0 {
      StartsWithIsPrefix(s[1..], p[1..]);
      if |p| <= |s| {
        var a, b := s[..|p|], p;
        assert a == [s[0]] + s[1..][..|p| - 1];
        assert b == [p[0]] + p[1..];
        if a == b {
          assert a[0] == b[0] && a[1..] == b[1..];
        }
      }
    }
  }

  /** `s` ends with `q` (Ruby's `end_with?`). */
  predicate EndsWith(s: string, q: string) {
    |q| <= |s| && s[|s| - |q|..] == q
  }

  lemma EndsWithAppend(p: string, q: string)
    ensures EndsWith(p + q, q)
  {
    assert (p + q)[|p|..] == q;
  }

  lemma {:induction false} StartsWithAt(s: string, p: string, n: nat)
    requires StartsWith(s, p) && n < |p|
    ensures n < |s| && s[n] == p[n]
  {
    if n > 0 {
      StartsWithAt(s[1..], p[1..], n - 1);
    }
  }

  predicate IsProperPrefix(p: string, s: string) {
    |p| < |s| && StartsWith(s, p)
  }

  /** Two prefixes of one string are prefixes of each other. */
  lemma PrefixesComparable(s: string, p: string, q: string)
    requires StartsWith(s, p) && StartsWith(s, q) && |p| <= |q|
    ensures StartsWith(q, p)
  {
    if |p| > 0 {
      PrefixesComparable(s[1..], p[1..], q[1..]);
    }
  }

  /** Number of occurrences of `c` in `s` (Ruby's `count` with a one-character argument). */
  function Count(s: string, c: char): (n: nat)
    ensures n <= |s|
    ensures c !in s ==> n == 0
  {
    if |s| == 0 then 0 else (if s[0] == c then 1 else 0) + Count(s[1..], c)
  }

  function DigitChar(d: nat): (c: char)
    requires d < 10
    ensures IsDigit(c)
  {
    ('0' as int + d) as char
  }

  function DigitValue(c: char): (d: nat)
    requires IsDigit(c)
    ensures d < 10
  {
    c as int - '0' as int
  }

  /** Ruby's `Integer#to_s` for a non-negative integer. */
  function NatToString(n: nat): (s: string)
    ensures |s| > 0
    ensures forall i :: 0 <= i < |s| ==> IsDigit(s[i])
    decreases n
  {
    if n < 10 then [DigitChar(n)] else NatToString(n / 10) + [DigitChar(n % 10)]
  }

  /** The value of a run of decimal digits: the partner of `NatToString`. */
  function DecimalValue(s: string): nat
    requires forall i :: 0 <= i < |s| ==> IsDigit(s[i])
  {
    if |s| == 0 then 0 else DecimalValue(s[..|s| - 1]) * 10 + DigitValue(s[|s| - 1])
  }

  lemma {:induction false} DecimalRoundTrip(n: nat)
    ensures DecimalValue(NatToString(n)) == n
    decreases n
  {
    var s := NatToString(n);
    if n >= 10 {
      DecimalRoundTrip(n / 10);
      assert s[..|s| - 1] == NatToString(n / 10);
    }
  }

  /** Distinct numbers print as distinct strings. */
  lemma NatToStringInjective(m: nat, n: nat)
    requires m != n
    ensures NatToString(m) != NatToString(n)
  {
    DecimalRoundTrip(m);
    DecimalRoundTrip(n);
  }

  /** Ruby's `Integer#to_s`. */
  function IntToString(i: int): (s: string)
    ensures |s| > 0
    ensures i < 0 <==> s[0] == '-'
  {
    if i < 0 then "-" + NatToString(-i) else NatToString(i)
  }

  /** Ruby's `Array#join(sep)` on strings. */
  function Join(xs: seq<string>, sep: string): string
  {
    if |xs| == 0 then "" else if |xs| == 1 then xs[0] else xs[0] + sep + Join(xs[1..], sep)
  }

  lemma JoinSingleton(x: string, sep: string)
    ensures Join([x], sep) == x
  {
  }

  /** Joining two non-empty lists is joining each and putting the separator between. */
  lemma {:induction false} JoinAppend(a: seq<string>, b: seq<string>, sep: string)
    requires |a| > 0 && |b| > 0
    ensures Join(a + b, sep) == Join(a, sep) + sep + Join(b, sep)
    decreases |a|
  {
    if |a| == 1 {
      assert (a + b)[1..] == b;
    } else {
      assert (a + b)[1..] == a[1..] + b;
      JoinAppend(a[1..], b, sep);
    }
  }

  /** Ruby's `str * n`. */
  function Repeat(s: string, n: nat): (r: string)
    ensures |r| == |s| * n
  {
    if n == 0 then "" else s + Repeat(s, n - 1)
  }

  lemma RepeatSpaces(n: nat)
    ensures forall i :: 0 <= i < |Repeat(" ", n)| ==> Repeat(" ", n)[i] == ' '
  {
    if n > 0 {
      RepeatSpaces(n - 1);
    }
  }

  // ---------------------------------------------------------------------------
  // Ruby's `String#<=>`: byte-wise on UTF-8, which is code-point order.

  predicate Le(a: string, b: string)
  {
    if |a| == 0 then true
    else if |b| == 0 then false
    else if a[0] != b[0] then a[0] < b[0]
    else Le(a[1..], b[1..])
  }

  lemma LeReflexive(a: string)
    ensures Le(a, a)
  {
  }

  lemma LeTotal(a: string, b: string)
    ensures Le(a, b) || Le(b, a)
  {
  }

  lemma LeTransitive(a: string, b: string, c: string)
    requires Le(a, b) && Le(b, c)
    ensures Le(a, c)
  {
    if |a| > 0 && |b| > 0 && |c| > 0 && a[0] == b[0] && b[0] == c[0] {
      LeTransitive(a[1..], b[1..], c[1..]);
    }
  }

  lemma LeAntisymmetric(a: string, b: string)
    requires Le(a, b) && Le(b, a)
    ensures a == b
  {
    if |a| > 0 && |b| > 0 {
      LeAntisymmetric(a[1..], b[1..]);
      assert a == [a[0]] + a[1..];
      assert b == [b[0]] + b[1..];
    }
  }

  /** `r` is `xs` with some elements dropped, the rest kept in order. */
  ghost predicate IsSubsequence<T>(r: seq<T>, xs: seq<T>)
    decreases |xs|
  {
    if |r| == 0 then true
    else if |xs| == 0 then false
    else (r[0] == xs[0] && IsSubsequence(r[1..], xs[1..])) || IsSubsequence(r, xs[1..])
  }

  ghost predicate Sorted(s: seq<string>) {
    forall i, j :: 0 <= i < j < |s| ==> Le(s[i], s[j])
  }

  /** `x` is at most every element of `s`. */
  ghost predicate LeAll(x: string, s: seq<string>) {
    forall j :: 0 <= j < |s| ==> Le(x, s[j])
  }

  lemma LeAllCons(y: string, a: string, t: seq<string>)
    ensures LeAll(y, [a] + t) <==> Le(y, a) && LeAll(y, t)
  {
    var s := [a] + t;
    assert s[0] == a;
    assert forall j :: 0 <= j < |t| ==> s[j + 1] == t[j];
    if Le(y, a) && LeAll(y, t) {
      forall j | 0 <= j < |s| ensures Le(y, s[j]) {
        if j > 0 {
          assert s[j] == t[j - 1];
        }
      }
    }
  }

  /** An element at most every element of a sorted sequence can go in front. */
  lemma SortedCons(a: string, t: seq<string>)
    requires LeAll(a, t) && Sorted(t)
    ensures Sorted([a] + t)
  {
    var s := [a] + t;
    forall i, j | 0 <= i < j < |s| ensures Le(s[i], s[j]) {
      assert s[j] == t[j - 1];
      if i > 0 {
        assert s[i] == t[i - 1];
      }
    }
  }

  /** The head of a sorted sequence is at most its tail, which is sorted. */
  lemma SortedTail(s: seq<string>)
    requires Sorted(s) && |s| > 0
    ensures LeAll(s[0], s[1..]) && Sorted(s[1..])
  {
    var t := s[1..];
    forall i, j | 0 <= i < j < |t| ensures Le(t[i], t[j]) {
      assert t[i] == s[i + 1] && t[j] == s[j + 1];
    }
    forall j | 0 <= j < |t| ensures Le(s[0], t[j]) {
      assert t[j] == s[j + 1];
    }
  }

  /** The head of a sorted sequence is at most every element. */
  lemma SortedHead(x: string, s: seq<string>)
    requires Sorted(s) && |s| > 0 && Le(x, s[0])
    ensures LeAll(x, s)
  {
    forall j | 0 <= j < |s| ensures Le(x, s[j]) {
      if j > 0 {
        LeTransitive(x, s[0], s[j]);
      }
    }
  }

  /** Insertion before the first element `x` is at most. */
  function Insert(x: string, s: seq<string>): (r: seq<string>)
    ensures multiset(r) == multiset(s) + multiset{x}
  {
    if |s| == 0 then [x]
    else if Le(x, s[0]) then [x] + s
    else
      assert s == [s[0]] + s[1..];
      [s[0]] + Insert(x, s[1..])
  }

  /** A lower bound of `s` and of `x` bounds `Insert(x, s)`. */
  lemma {:induction false} InsertBounded(x: string, s: seq<string>, y: string)
    requires LeAll(y, s) && Le(y, x)
    ensures LeAll(y, Insert(x, s))
  {
    if |s| == 0 {
      LeAllCons(y, x, []);
    } else if Le(x, s[0]) {
      LeAllCons(y, x, s);
    } else {
      assert s == [s[0]] + s[1..];
      LeAllCons(y, s[0], s[1..]);
      InsertBounded(x, s[1..], y);
      LeAllCons(y, s[0], Insert(x, s[1..]));
    }
  }

  /** Insertion keeps a sequence sorted. */
  lemma {:induction false} InsertSorted(x: string, s: seq<string>)
    requires Sorted(s)
    ensures Sorted(Insert(x, s))
  {
    if |s| == 0 {
    } else if Le(x, s[0]) {
      SortedHead(x, s);
      SortedCons(x, s);
    } else {
      SortedTail(s);
      LeTotal(x, s[0]);
      InsertSorted(x, s[1..]);
      InsertBounded(x, s[1..], s[0]);
      SortedCons(s[0], Insert(x, s[1..]));
    }
  }

  /** Ruby's `Array#sort` on strings: the sorted permutation of `xs`. */
  function Sort(xs: seq<string>): (r: seq<string>)
    ensures multiset(r) == multiset(xs)
    ensures Sorted(r)
  {
    if |xs| == 0 then []
    else
      assert xs == [xs[0]] + xs[1..];
      var rest := Sort(xs[1..]);
      InsertSorted(xs[0], rest);
      Insert(xs[0], rest)
  }

  /** The sorted permutation is unique, so `Sort` is Ruby's `sort` whatever
      algorithm Ruby uses. */
  lemma {:induction false} SortedPermutationUnique(a: seq<string>, b: seq<string>)
    requires Sorted(a) && Sorted(b)
    requires multiset(a) == multiset(b)
    ensures a == b
    decreases |a|
  {
    if |a| > 0 {
      assert |b| == |multiset(b)| == |multiset(a)| == |a|;
      HeadIsLeast(b, a[0]);
      HeadIsLeast(a, b[0]);
      LeAntisymmetric(a[0], b[0]);
      SortedTail(a);
      SortedTail(b);
      TailMultiset(a, b);
      SortedPermutationUnique(a[1..], b[1..]);
      assert a == [a[0]] + a[1..] && b == [b[0]] + b[1..];
    }
  }

  lemma TailMultiset(a: seq<string>, b: seq<string>)
    requires |a| > 0 && |b| > 0 && a[0] == b[0] && multiset(a) == multiset(b)
    ensures multiset(a[1..]) == multiset(b[1..])
  {
    assert a == [a[0]] + a[1..] && b == [b[0]] + b[1..];
    assert multiset(a[1..]) == multiset(a) - multiset{a[0]};
    assert multiset(b[1..]) == multiset(b) - multiset{b[0]};
  }

  /** The head of a sorted sequence is at most each of its elements. */
  lemma HeadIsLeast(s: seq<string>, x: string)
    requires Sorted(s) && x in multiset(s)
    ensures |s| > 0 && Le(s[0], x)
  {
    assert x in s;
    var i :| 0 <= i < |s| && s[i] == x;
    if i == 0 {
      LeReflexive(x);
    }
  }
}

=== FILE: token.dfy ===
/** Lexer tokens: a name (a Ruby symbol, modelled as its text), an optional
    value and the line and column where the token starts. */
module Tokens {
  import opened Wrappers
  import opened Definition

  datatype Token = Token(name: string, value: Option<string>, line: int, column: int)

  /** No token of `ts` is the end marker. */
  predicate NoEof(ts: seq<Token>) {
    forall k :: 0 <= k < |ts| ==> ts[k].name != "EOF"
  }

  /** `Token#is`: the three class names test membership of the name in a
      table, any other type is compared with the name. */
  predicate Is(t: Token, ty: string) {
    if ty == "keyword" then t.name in KEYWORDS
    else if ty == "operator" then t.name in OPERATORS
    else if ty == "argument" then t.name in ARGUMENT
    else t.name == ty
  }

  /** `Token#===` with an array: some element classifies the token. */
  predicate IsAny(t: Token, types: seq<string>) {
    |types| > 0 && (Is(t, types[0]) || IsAny(t, types[1..]))
  }

  /** The argument of `Token#===`: one type or an array of types. */
  datatype TypeSpec = One(ty: string) | Many(types: seq<string>)

  predicate CaseEq(t: Token, spec: TypeSpec) {
    match spec
    case One(ty) => Is(t, ty)
    case Many(types) => IsAny(t, types)
  }

  /** Classification reads the name only: value, line and column never matter. */
  lemma ClassifiesByName(t: Token, u: Token, ty: string)
    requires t.name == u.name
    ensures Is(t, ty) == Is(u, ty)
    ensures forall types :: IsAny(t, types) == IsAny(u, types)
  {
    forall types ensures IsAny(t, types) == IsAny(u, types) {
      IsAnyByName(t, u, types);
    }
  }

  lemma {:induction false} IsAnyByName(t: Token, u: Token, types: seq<string>)
    requires t.name == u.name
    ensures IsAny(t, types) == IsAny(u, types)
  {
    if |types| > 0 {
      IsAnyByName(t, u, types[1..]);
    }
  }

  /** A token `is` its own name unless the name is one of the three class
      names, which are in none of the tables. */
  lemma IsOwnName(t: Token)
    ensures Is(t, t.name) <==> t.name != "keyword" && t.name != "operator" && t.name != "argument"
  {
  }

  /** An identifier whose text is a keyword is not a keyword: only the name
      is looked up. */
  lemma IdentifierValueIgnored(line: int, column: int)
    ensures !Is(Token("identifier", Some("when"), line, column), "keyword")
    ensures Is(Token("when", None, line, column), "keyword")
  {
    assert "identifier" !in KEYWORDS_1 && "identifier" !in KEYWORDS_2;
    assert "identifier" !in KEYWORDS_3 && "identifier" !in KEYWORDS_4;
    assert "when" in KEYWORDS_2;
  }

  /** Numbers are arguments; keywords are neither arguments nor operators. */
  lemma ClassExamples(line: int, column: int)
    ensures Is(Token("NUMBER", Some("1"), line, column), "argument")
    ensures !Is(Token("def", Some("def"), line, column), "argument")
    ensures Is(Token("+", None, line, column), "operator")
    ensures !Is(Token("def", None, line, column), "operator")
  {
    assert "def" in KEYWORDS;
    KeywordsAndOperatorsDisjoint();
  }

  /** `===` with an array holds exactly when some element classifies the token. */
  lemma {:induction false} IsAnyExists(t: Token, types: seq<string>)
    ensures IsAny(t, types) <==> exists i :: 0 <= i < |types| && Is(t, types[i])
  {
    if |types| > 0 {
      IsAnyExists(t, types[1..]);
      if IsAny(t, types[1..]) {
        var i :| 0 <= i < |types[1..]| && Is(t, types[1..][i]);
        assert Is(t, types[i + 1]);
      }
      if exists i :: 0 <= i < |types| && Is(t, types[i]) {
        var i :| 0 <= i < |types| && Is(t, types[i]);
        if i > 0 {
          assert Is(t, types[1..][i - 1]);
        }
      }
    }
  }

  /** The three type names `Token#is` treats as classes. */
  predicate IsClassName(x: string) {
    x == "keyword" || x == "operator" || x == "argument"
  }

  /** With no class name among the types, `===` is membership of the name. */
  lemma {:induction false} IsAnyPlain(t: Token, types: seq<string>)
    requires forall k :: 0 <= k < |types| ==> !IsClassName(types[k])
    ensures IsAny(t, types) <==> t.name in types
  {
    if |types| > 0 {
      IsAnyPlain(t, types[1..]);
      assert types == [types[0]] + types[1..];
    }
  }

  /** With a one-element array `===` is `is`. */
  lemma CaseEqSingleton(t: Token, ty: string)
    ensures CaseEq(t, Many([ty])) == CaseEq(t, One(ty)) == Is(t, ty)
  {
    assert [ty][1..] == [];
    assert !IsAny(t, []);
  }

  /** The value `inspect` shows: none when it is absent or repeats the name. */
  function Shown(t: Token): Option<string> {
    if t.value.None? || t.value.value == t.name then None else t.value
  }

  /** `Token#inspect`: `[name]` or `[name value]`. */
  function Inspect(t: Token): (s: string)
    ensures |s| >= 2 && s[0] == '[' && s[|s| - 1] == ']'
  {
    match Shown(t)
    case None => "[" + t.name + "]"
    case Some(v) => "[" + t.name + " " + v + "]"
  }

  /** The first space of `s` from `i`, or `|s|`. */
  function SpaceAt(s: string, i: nat): (k: nat)
    requires i <= |s|
    ensures i <= k <= |s| && (k == |s| || s[k] == ' ')
    ensures forall j :: i <= j < k ==> s[j] != ' '
    decreases |s| - i
  {
    if i == |s| || s[i] == ' ' then i else SpaceAt(s, i + 1)
  }

  /** Reads back the name and the shown value from an `inspect` string. */
  function Uninspect(s: string): (string, Option<string>)
    requires |s| >= 2
  {
    var body := s[1..|s| - 1];
    var k := SpaceAt(body, 0);
    if k == |body| then (body, None) else (body[..k], Some(body[k + 1..]))
  }

  /** `inspect` loses only what `Shown` drops: from a name without spaces it
      reads back the name and the shown value. */
  lemma InspectRoundTrip(t: Token)
    requires ' ' !in t.name
    ensures Uninspect(Inspect(t)) == (t.name, Shown(t))
  {
    var s := Inspect(t);
    var body := s[1..|s| - 1];
    match Shown(t)
    case None =>
      assert body == t.name;
      assert SpaceAt(body, 0) == |body| by {
        assert forall j :: 0 <= j < |body| ==> body[j] != ' ';
      }
    case Some(v) =>
      assert body == t.name + " " + v;
      assert body[|t.name|] == ' ';
      assert forall j :: 0 <= j < |t.name| ==> body[j] != ' ' by {
        forall j | 0 <= j < |t.name| ensures body[j] != ' ' {
          assert body[j] == t.name[j];
        }
      }
      assert SpaceAt(body, 0) == |t.name|;
      assert body[..|t.name|] == t.name;
      assert body[|t.name| + 1..] == v;
  }

  /** A token without a value, or whose value repeats its name, shows the name alone. */
  lemma InspectNameOnly()
    ensures Inspect(Token("LF", None, 1, 1)) == "[LF]"
    ensures Inspect(Token("def", Some("def"), 1, 1)) == "[def]"
  {
  }

  /** A token with a value of its own shows both. */
  lemma InspectWithValue()
    ensures Inspect(Token("identifier", Some("route"), 1, 1)) == "[identifier route]"
  {
  }
}

=== FILE: wrappers.dfy ===
/** Failure-compatible wrappers shared by every stage of the compiler, and the
    closed set of errors a compile can end with. */
module Wrappers {

  datatype Option<+T> = None | Some(value: T) {
    predicate IsFailure() {
      None?
    }

    function PropagateFailure<U>(): Option<U>
      requires None?
    {
      None
    }

    function Extract(): T
      requires Some?
    {
      value
    }

    function GetOr(default: T): T {
      match this
      case Some(v) => v
      case None => default
    }
  }

  /** Everything that aborts a compile. The source raises exceptions; the
      model returns one of these instead. */
  datatype Error =
    /** `RBS::ParseError` raised with a message (lexer errors, invalid assignment target). */
    | ParseError(message: string)
    /** `unexpected_error` in the parser: the offending token name and the expected names. */
    | UnexpectedToken(name: string, expected: seq<string>)
    /** `lex` in the parser ran past the last token. */
    | UnexpectedEnd
    /** A field read on a node that has no such key (`method_missing` falls to `super`). */
    | NoMethod(field: string)
    /** A value of the wrong kind where a node, list or string was needed. */
    | TypeMismatch(field: string)
    /** `raise "unsupported ..."` in the formatter. */
    | Unsupported(message: string)
    /** `ArgumentError` (unknown module type, negative repetition). */
    | ArgumentError(message: string)

  datatype Result<+R> = Success(value: R) | Failure(error: Error) {
    predicate IsFailure() {
      Failure?
    }

    function PropagateFailure<U>(): Result<U>
      requires Failure?
    {
      Failure(this.error)
    }

    function Extract(): R
      requires Success?
    {
      value
    }
  }
}
